=== FILE: README.md ===
# Expense copilot core, modelled in Dafny

This project models the deterministic core of an expense and travel-policy
copilot. It covers five parts:

- **Question router** (`backend/app/policy/router_v1.py` and the schemas in
  `backend/app/schemas/router.py`). It classifies a question into one of four
  routes: `RAG_FILTERED`, `RAG_ALL`, `CLARIFY` or `SQL_NOT_READY`. It also
  resolves the organisation and policy-type filters.
- **Policy retrieval pipeline**:
  - the hybrid keyword and vector merge and ranking of `hybrid_search`
    (`backend/rag/policy_search.py`)
  - the cross-encoder reranking step (`backend/rag/rerank.py`)
  - the retrieval, per-organisation fan-out and citation preparation of
    `generate_answer` (`backend/rag/answer_gen.py`)
- **Ingestion normalisers** (`ingest_sql/ingest_common.py`). They cover column
  names, strings, dates, amounts, currencies, row hashes and JSON-safe values.
  Two drivers use them:
  - the XES event-log extractors, event hash, trace loop and batching
    (`ingest_sql/ingest_events_xes.py`)
  - the spreadsheet expense ingestion (`data/ingest/expenses_xlsx.py`)
- **SQL tools** (`backend/tools/sql_tools.py`). The model covers:
  - the `group_by` allowlist
  - how each query is built from fixed text, spliced identifiers and `%s`
    slots, with one parameter per slot
  - the row caps
  - the shape of the `{ok, data, warning}` envelope
- **Copilot agent** (`backend/graphs/copilot_agent.py`) and its HTTP endpoint
  (`backend/app/routes/copilot.py`):
  - the policy tool
  - the model and tools loop with its tool-call cap
  - the context header
  - the extraction of the final answer and the tools called
  - the endpoint's routing flags, source conversion and follow-up detection

Everything outside the program is a function-valued parameter. That covers:

- the database: cursor execution, and the answers of the two search queries
- the embedding model, the cross-encoder and the chat model
- tool execution
- SHA-256, `datetime.fromisoformat`, the Excel serial-date conversion and
  `float(Decimal)`

The properties are stated for every behaviour of those parameters.

Modules: `Base` (options, results, Python slicing), `Text` (ASCII string
operations with Python's whitespace set), `PyValue` (the Python values the
code handles, `str`/`repr`/`json.dumps`), `Decimals` (`Decimal` parsing and
`quantize(0.01)` with banker's rounding), `Strptime` (the five `strptime` date formats),
`Sorting` (a stable insertion sort over a strict weak order, standing for
Python's stable `sort`), `Chunks` (the retrieved-chunk record), and one module
per source file: `RouterSchema`, `Router`, `PolicySearch`, `Rerank`,
`AnswerGen`, `IngestCommon`, `IngestXes`, `Expenses`, `SqlTools`,
`CopilotAgent`, `CopilotRoute`.

### Behaviour of the code worth knowing

- **Reranker failure.** `rerank_documents` has no fallback: an exception from
  `compute_score` propagates out of it (`backend/rag/rerank.py:46`).
  `Rerank.RerankDocuments` returns `Failure` when the scorer fails, and
  `CopilotAgent.PolicyTool` passes that failure on.
- **Multi-organisation routing.** `PolicyFilters` has only `org`,
  `policy_type` and `doc_name`, and two or more named organisations give
  `RAG_ALL` with `org` cleared (`backend/app/policy/router_v1.py:109-114`).
- **Fan-out budget.** Per-organisation retrieval uses `max(3, final_k // n)`
  results and a candidate depth of 25 whenever `candidate_k <= 20`
  (`backend/rag/answer_gen.py:39-40`). So the depth grows to 25, and the
  result total can exceed `final_k` (`AnswerGen.PerOrgCanExceedFinalK`).
- **Callers of `hybrid_search`.** The callers pass `candidate_k`, `filters`
  and `debug` to `hybrid_search` (`backend/rag/answer_gen.py:46-58`), and
  `policy_tool` reads a `"chunks"` key. The `hybrid_search` of
  `backend/rag/policy_search.py:55` takes `(q, top_k)` and returns
  `"results"`. The callers therefore see the search as an abstract `SearchFn`
  returning results and an optional warning (`Chunks.SearchFn`).
- **Rerank text cap.** A comment in `rerank_documents` mentions 2000
  characters; the code cuts at 1024 (`backend/rag/rerank.py:38-43`), which the
  model uses.

## Model

| member | source | states |
|---|---|---|
| RouterSchema.ParseRoute | backend/app/schemas/router.py:6-10 | a wire string parses to a route exactly when it is that route's value; otherwise no route has it |
| RouterSchema.RouteNameRoundTrip | backend/app/schemas/router.py:6-10 | every route's wire value parses back to the same route |
| RouterSchema.DecisionDefaults | backend/app/schemas/router.py:13-23 | a decision built from a route alone has empty filters, no clarifying question and an empty reason |
| RouterSchema.ResponseFor | backend/tests/manual_router_test.py:59-84 | the answer envelope keeps the decision's route and filters and the query; its status is `needs_sql` exactly for the SQL route |
| RouterSchema.GroupByOrg | backend/tests/manual_router_test.py:104-107 | grouping by organisation is decided only for the two retrieval routes, and is on exactly for `RAG_ALL` |
| Router.Norm | backend/app/policy/router_v1.py:35-36 | the normalised question is lower case, has no leading or trailing blanks and no runs of blanks, keeps every non-blank character of the lowered question in order, and has exactly the words (`str.split()`) of the lowered question, in order, so the result is those words joined by single spaces |
| Router.NormWords | backend/app/policy/router_v1.py:35-36 | normalising keeps the words of the lowered question, in order: none is split, joined or dropped |
| Text.StripWords | backend/app/policy/router_v1.py:36 | stripping the ends of a text keeps its words |
| Text.CollapseSpaceWords | backend/app/policy/router_v1.py:36 | turning every whitespace run into one space keeps the words |
| Router.NormEnds | backend/app/policy/router_v1.py:35-36 | the normalised question neither starts nor ends with a whitespace character |
| Router.NormLower | backend/app/policy/router_v1.py:35-36 | every character of the normalised question is already lower case |
| Router.NormIdempotent | backend/app/policy/router_v1.py:35-36 | normalising twice is normalising once |
| Router.NormOfStrip | backend/app/policy/router_v1.py:35-36 | stripping before normalising changes nothing |
| Router.ExtractOrgs | backend/app/policy/router_v1.py:38-54 | the organisations found are distinct, in declaration order, and are exactly those with an alias between word boundaries in the normalised question |
| Router.MentionedFrom | backend/app/policy/router_v1.py:41-46 | the scan over the organisations from a given one on finds, in declaration order, exactly the canonical names that have an alias in the question |
| Router.ExtractedOrgsNamed | backend/app/policy/router_v1.py:7-16 | every extracted organisation name is non-empty, so a single one is a truthy filter |
| Router.KeywordCount | backend/app/policy/router_v1.py:60 | a policy type's score is at most its keyword count, and is zero exactly when none of its keywords occurs |
| Router.HitsFrom | backend/app/policy/router_v1.py:58-62 | the hits are exactly the policy types with a positive score, each paired with its own score |
| Router.InferPolicyType | backend/app/policy/router_v1.py:56-67 | no type is inferred exactly when every score is zero; otherwise the inferred type has a positive, maximal score and beats every earlier-declared type strictly |
| Router.TopHitIsFirstBest | backend/app/policy/router_v1.py:58-67 | after the stable descending sort of the hits, the first hit is the earliest-declared type with the top score |
| Router.TopHitScoresBest | backend/app/policy/router_v1.py:58-67 | the score of the first hit after the descending sort is at least the score of every policy type |
| Router.ClarifyPromptListsEveryOrg | backend/app/policy/router_v1.py:125-130 | the clarifying question names every known organisation |
| Router.StripKeepsSqlIntent | backend/app/policy/router_v1.py:86-91 | stripping the question before the checks does not change SQL intent |
| Router.StripKeepsOrgs | backend/app/policy/router_v1.py:86-99 | stripping the question does not change the organisations extracted |
| Router.StripKeepsPolicyType | backend/app/policy/router_v1.py:86-100 | stripping the question does not change the inferred policy type |
| Router.StripKeepsSingleExpectation | backend/app/policy/router_v1.py:86-125 | stripping the question does not change whether one definitive answer is expected |
| Router.RouteQuestion | backend/app/policy/router_v1.py:80-138 | SQL intent wins and keeps the explicit filters. Otherwise: an explicit or single named organisation gives `RAG_FILTERED`; two or more give `RAG_ALL` with no organisation. With none, the route is `CLARIFY` exactly when one answer is expected, else `RAG_ALL`. An explicit policy type is kept, else the inferred one; `doc_name` passes through; a clarifying question is present exactly on `CLARIFY` |
| Router.Decide | backend/app/policy/router_v1.py:89-138 | the decision logic over the extractor outputs, with the same precedence as `RouteQuestion` |
| Router.ComparisonNeverClarifies | backend/app/policy/router_v1.py:73-78 | a question asking to compare is never answered with a clarifying question |
| Router.ExplicitOrgWins | backend/app/policy/router_v1.py:88-122 | with an explicit organisation the route is `SQL_NOT_READY` or `RAG_FILTERED`, never `RAG_ALL` or `CLARIFY`, and the organisation filter is the one given |
| PolicySearch.FindKey | backend/rag/policy_search.py:89-114 | the index of a key in the merged entries, or -1 exactly when the key is absent |
| PolicySearch.Merge | backend/rag/policy_search.py:89-114 | one entry per distinct (doc, chunk) key, in first-appearance order with keyword rows first. Each entry carries the last keyword row's score and snippet (else the first vector row's snippet) and the last vector row's distance |
| PolicySearch.MergeVectorCorrect | backend/rag/policy_search.py:89-114 | folding the keyword rows and then the vector rows into the dict gives one entry per key with the scores and snippet the merge promises |
| PolicySearch.MergeKeys | backend/rag/policy_search.py:89-114 | merged keys are distinct, are exactly the keys of either result list, and number at most the rows read |
| PolicySearch.MergeScores | backend/rag/policy_search.py:89-114 | an entry has a keyword score exactly when its key came from keyword search, and a distance exactly when it came from vector search |
| PolicySearch.RankBeforeIsStrictWeakOrder | backend/rag/policy_search.py:118-136 | the ranking on (in both lists, -distance with 999 for missing, keyword score) is a strict weak order, so the stable sort is well defined |
| PolicySearch.Label | backend/rag/policy_search.py:139-145 | the source label is `both`, `keyword` or `vector` exactly according to which scores the entry has |
| PolicySearch.LabelAll | backend/rag/policy_search.py:139-145 | every returned entry is labelled by its own scores, in order |
| PolicySearch.HybridSearch | backend/rag/policy_search.py:55-147 | fails exactly without a database URL or with a negative `top_k`. Otherwise it returns `min(top_k, merged)` distinct entries from the merge of the two `LIMIT top_k` answers, sorted by rank with entries of equal rank kept in merge order (Python's stable sort), with nothing left out ranking above anything kept |
| PolicySearch.TopKProperties | backend/rag/policy_search.py:135-147 | the first `top_k` of the sorted merge are sorted, distinct members of the merge, no other member ranks above them, and entries of equal rank keep their merge order |
| Sorting.SortSorted | backend/rag/policy_search.py:135-136 | the sort used for ranking yields a permutation sorted by the order |
| Sorting.SortStable | backend/app/policy/router_v1.py:65 | the sort is stable: within each class of equal keys the original order is kept |
| Sorting.InsertStable | backend/app/policy/router_v1.py:65 | inserting one element ahead of the elements not below it keeps every class of equal keys in order, with the new element first in its class |
| Sorting.SortedUnique | backend/rag/policy_search.py:135-136 | two sorted arrangements of the same elements coincide when the order separates any two distinct elements |
| Rerank.ScoredText | backend/rag/rerank.py:38-43 | the text scored for a chunk is its content, else its snippet, else empty (first truthy one), cut to 1024 characters |
| Rerank.Pairs | backend/rag/rerank.py:38-43 | one (query, text) pair per document, in order |
| Rerank.Attach | backend/rag/rerank.py:53-54 | scores are attached position by position; documents beyond the scores are left as they were, as `zip` stops at the shorter list |
| Rerank.RerankDocuments | backend/rag/rerank.py:17-59 | no documents give an empty list without scoring. A scorer error is a failure, as is any document left unscored. On success the result has `min(top_k, n)` scored documents in descending score order, drawn from the scored list (as a sub-multiset); no document left out scores above a kept one, and ties keep their input order |
| Rerank.RerankOrder | backend/rag/rerank.py:57-59 | a prefix of the stable descending sort is ordered by score, is a sub-multiset of the scored documents, leaves out nothing that scores above what it keeps, and keeps each tie class in input order |
| Rerank.EmptyNeedsNoScorer | backend/rag/rerank.py:30-31 | an empty candidate list is answered without consulting the scorer |
| Rerank.FullScoresSucceed | backend/rag/rerank.py:46-57 | a score list covering every document always reranks successfully |
| AnswerGen.OrgsOf | backend/rag/answer_gen.py:35-42 | the organisations iterated are the list items, or the characters of a string value |
| AnswerGen.PerOrgCandidateK | backend/rag/answer_gen.py:39 | the per-organisation candidate depth is `candidate_k` when above 20, else 25, so never below `candidate_k` |
| AnswerGen.PerOrgFinalK | backend/rag/answer_gen.py:40 | the per-organisation result budget is at least 3, and is the floor of `final_k / n` unless that is below 3 |
| AnswerGen.OrgFilters | backend/rag/answer_gen.py:43-45 | an organisation's filters set `org`, drop `orgs` and keep every other filter unchanged |
| AnswerGen.FanOut | backend/rag/answer_gen.py:42-58 | every fanned-out result comes from some organisation's own search; with a search that honours `top_k` there are at most `n * top_k` |
| AnswerGen.FanOutAppend | backend/rag/answer_gen.py:42-58 | fanning out over two lists of organisations is concatenating their fan-outs, in declaration order |
| AnswerGen.Retrieve | backend/rag/answer_gen.py:31-69 | per-organisation mode runs exactly when enabled with non-empty `orgs`, and then concatenates the fan-out. Otherwise there is one search with `final_k` and `candidate_k`, whose results are used as they are |
| AnswerGen.Snippet | backend/rag/answer_gen.py:93 | the snippet is the stripped content with every newline replaced by a blank and every other character kept, cut to 350 characters |
| AnswerGen.SnippetOfStrip | backend/rag/answer_gen.py:93 | blanks around the content do not change its snippet |
| AnswerGen.ShortSnippetIsStripped | backend/rag/answer_gen.py:93 | short single-line content is only stripped |
| AnswerGen.CitationOf | backend/rag/answer_gen.py:86-105 | a source uses the defaults `UNKNOWN`, `unknown.pdf`, page `?`, empty content and score 0 for missing keys, and carries the rerank score when present |
| AnswerGen.Block | backend/rag/answer_gen.py:95-97 | a citation block starts with `[org] doc Pg ` and ends with `:` and a newline followed by the snippet |
| AnswerGen.Sources | backend/rag/answer_gen.py:85-105 | one source per retrieved chunk, in order |
| AnswerGen.Blocks | backend/rag/answer_gen.py:85-97 | one citation block per source, in order |
| AnswerGen.PrepareAnswer | backend/rag/answer_gen.py:31-105 | no results give the empty answer with the search's warning or the default one. Otherwise there is one source and one block per result, in order |
| AnswerGen.PrepareAnswerAsWritten | backend/rag/answer_gen.py:31-79 | as written, the no-results branch fails exactly in per-organisation mode, and otherwise agrees with `PrepareAnswer` |
| AnswerGen.PerOrgEmptyRaises | backend/rag/answer_gen.py:72-79 | a per-organisation request with no results raises as written, while the corrected steps return the default warning |
| AnswerGen.PerOrgCanExceedFinalK | backend/rag/answer_gen.py:39-58 | three organisations with `final_k` 5 can return 9 results, since each gets at least 3 |
| IngestCommon.NormalizeColumnName | ingest_sql/ingest_common.py:13-25 | a normalised column name holds only lower-case letters, digits and underscores, and is the words (`str.split()`) of the stripped, lower-cased text without punctuation, joined by underscores, with one more underscore at an end where deleting punctuation left whitespace |
| IngestCommon.UnderscoreRunsWords | ingest_sql/ingest_common.py:25 | replacing each whitespace run with `_` joins the words with underscores, plus one `_` for whitespace at either end |
| IngestCommon.ColumnNameOfPlainHeader | ingest_sql/ingest_common.py:13-25 | a header of letters, digits, underscores and whitespace becomes the snake_case of its words: the lower-cased words joined by underscores |
| IngestCommon.NormalizeColumnNameIdempotent | ingest_sql/ingest_common.py:13-25 | normalising a column name twice is normalising it once |
| IngestCommon.ColumnNameExampleSpaced | tests/test_ingest_expenses_xlsx.py:40-44 | illustration of the general contract: `Employee ID` normalises to `employee_id` |
| IngestCommon.ColumnNameExampleUnit | tests/test_ingest_expenses_xlsx.py:40-44 | illustration of the general contract: `Amount (USD)` normalises to `amount_usd` |
| IngestCommon.NormalizeString | ingest_sql/ingest_common.py:28-36 | None, NaN and blank text give no value; text gives its stripped form; any value given is non-empty with no surrounding blanks |
| IngestCommon.NormalizeStringIdempotent | ingest_sql/ingest_common.py:28-36 | a normalised string normalises to itself |
| IngestCommon.NormalizeDate | ingest_sql/ingest_common.py:39-84 | dates and datetimes give their date; numbers go through the serial conversion; stripped text takes the parse of the first of the five `strptime` formats that parses (every earlier format fails), else `fromisoformat`; None, NaN, blank text and other types give none |
| IngestCommon.NormalizeDateIsoRoundTrip | ingest_sql/ingest_common.py:66-82 | a valid date written in ISO form normalises back to itself |
| IngestCommon.NormalizeDateStrips | ingest_sql/ingest_common.py:66-69 | surrounding blanks do not change a parsed date |
| IngestCommon.NormalizeDateMonthFirst | tests/test_ingest_expenses_xlsx.py:53-63 | `03/04/2024` is read month first, as 4 March 2024 |
| IngestCommon.NormalizeDateDayFirst | ingest_sql/ingest_common.py:72 | `13/01/2024` is not a month-first date and falls through to day first, giving 13 January 2024 |
| IngestCommon.AmountText | ingest_sql/ingest_common.py:107-125 | text amounts drop currency symbols, separators and blanks before parsing, and parentheses negate |
| IngestCommon.NormalizeAmount | ingest_sql/ingest_common.py:87-127 | None, NaN, blank text and non-numeric types give no amount; any amount given is quantised to cents and within the decimal context |
| IngestCommon.NormalizeAmountOfDecimal | ingest_sql/ingest_common.py:100-104 | a cent-precise decimal is returned unchanged |
| IngestCommon.NormalizeAmountOfInt | ingest_sql/ingest_common.py:100-104 | an integer amount becomes that many units with two decimals |
| IngestCommon.NormalizeAmountOfBool | ingest_sql/ingest_common.py:100-104 | a boolean is not an amount: `str(True)` does not parse as a decimal |
| IngestCommon.ParenthesesNegate | ingest_sql/ingest_common.py:112-123 | an amount in parentheses is the negation of the amount inside |
| IngestCommon.NormalizeAmountRoundTrip | ingest_sql/ingest_common.py:107-125 | the text of a two-place decimal normalises back to that decimal |
| IngestCommon.NormalizeAmountExampleDollars | tests/test_ingest_expenses_xlsx.py:65-79 | illustration of the general contract: `$1,234.50` normalises to 1234.50 |
| IngestCommon.FiveHundred | tests/test_ingest_expenses_xlsx.py:65-79 | `500` normalises to 500.00 |
| IngestCommon.NormalizeAmountExampleParentheses | tests/test_ingest_expenses_xlsx.py:65-79 | illustration of the general contract: `(500)` normalises to -500.00 |
| IngestCommon.NormalizeAmountExampleUnderscores | ingest_sql/ingest_common.py:118-122 | illustration of the general contract: `1_000` normalises to 1000.00: the underscore survives the separator removal and `Decimal` ignores it |
| IngestCommon.CodeOf | ingest_sql/ingest_common.py:139-156 | the currency code is the alias's three upper-case letters when it is a code, else `USD` |
| IngestCommon.NormalizeCurrency | ingest_sql/ingest_common.py:130-156 | the result is always three upper-case letters; None and NaN give `USD`; other values go through upper-cased stripped text and the alias table |
| IngestCommon.NormalizeCurrencyIdempotent | ingest_sql/ingest_common.py:130-156 | a normalised currency normalises to itself |
| IngestCommon.NormalizeCurrencyIgnoresCase | ingest_sql/ingest_common.py:130-156 | the letter case of the input does not matter |
| IngestCommon.CurrencyExampleCode | tests/test_ingest_expenses_xlsx.py:81-87 | illustration of the general contract: `usd` gives `USD` |
| IngestCommon.CurrencyExampleBlank | tests/test_ingest_expenses_xlsx.py:81-87 | illustration of the general contract: blank text defaults to `USD` |
| IngestCommon.CurrencyExampleName | ingest_sql/ingest_common.py:140-150 | illustration of the general contract: `Euros` is an alias of `EUR` |
| IngestCommon.HashPart | ingest_sql/ingest_common.py:166-176 | None renders as `NULL`, a date and a datetime as their isoformat, a Decimal as its str, a dict as its sorted-key JSON, anything else as its str; only a dict that is not JSON-serialisable fails |
| IngestCommon.HashPartReadsBack | ingest_sql/ingest_common.py:169-172 | a date's part parses back to the date and a Decimal's part reads back as the same Decimal |
| IngestCommon.RowHashPreImage | ingest_sql/ingest_common.py:159-180 | the pre-image exists exactly when every field can be rendered, and is then the fields' renderings joined by the pipe character in order |
| IngestCommon.RowHashPreImageInjective | ingest_sql/ingest_common.py:159-180 | for rows with equally many fields and no pipe character in any rendering, equal pre-images mean equal renderings field by field |
| Text.JoinInjective | ingest_sql/ingest_common.py:179 | equally many separator-free parts that join to the same text are the same parts |
| IngestCommon.ComputeRowHash | ingest_sql/ingest_common.py:159-180 | the row hash is the digest of the pipe-joined field renderings, and fails exactly when a field cannot be rendered |
| IngestCommon.RowHashIgnoresDictOrder | ingest_sql/ingest_common.py:173-174 | dict fields hash the same whatever their key order, as keys are sorted |
| IngestCommon.RowHashPreImageAmbiguous | ingest_sql/ingest_common.py:159-180 | the pre-image does not escape the separator or None: distinct rows can share a hash |
| IngestCommon.SafeJsonSerialize | ingest_sql/ingest_common.py:183-201 | the result is JSON-safe. Dates become ISO text; lists and dicts keep their length and keys; None stays None |
| IngestCommon.SafeJsonMembers | ingest_sql/ingest_common.py:194-197 | list items and dict values are serialised one by one |
| IngestCommon.SafeJsonKeepsSafe | ingest_sql/ingest_common.py:183-201 | a value that is already JSON-safe is unchanged |
| IngestCommon.SafeJsonIdempotent | ingest_sql/ingest_common.py:183-201 | serialising twice is serialising once |
| IngestCommon.Chunked | ingest_sql/ingest_events_xes.py:238-240 | batches concatenate back to the rows, each non-empty and at most the batch size |
| IngestCommon.ChunkedCount | ingest_sql/ingest_events_xes.py:238-240 | there are `ceil(n / size)` batches |
| IngestCommon.ChunkedSlice | ingest_sql/ingest_events_xes.py:238-240 | batch `j` is the slice from `j * size` to `(j + 1) * size` |
| IngestCommon.Batches | data/ingest/expenses_xlsx.py:208-210 | `range` with step 0 fails, a negative step gives no batches, and a positive one partitions the rows |
| IngestCommon.BatchesMatchRange | data/ingest/expenses_xlsx.py:208-210 | the batches are exactly the slices `range(0, n, size)` produces |
| Decimals.ParseDecimal | ingest_sql/ingest_common.py:121-122 | blank text is not a decimal; the text read is the stripped text without underscores, and the sign of a parsed decimal is its leading minus |
| Decimals.RoundHalfEven | ingest_sql/ingest_common.py:122 | rounding is to the nearest unit, with exact halves going to the even one |
| Decimals.Quantize | ingest_sql/ingest_common.py:102 | quantising keeps the sign, scales exact values to cents and fails beyond the context's 28 digits |
| Decimals.QuantizedDecimal | ingest_sql/ingest_common.py:121-125 | parsing and quantising blank text gives nothing; any result fits the context |
| Decimals.DecimalStrRoundTrip | ingest_sql/ingest_common.py:121-122 | the text of a cent amount parses and quantises back to it |
| Decimals.IntTextQuantizes | ingest_sql/ingest_common.py:100-104 | integer text quantises to that integer with two decimals |
| Decimals.BoolTextFails | ingest_sql/ingest_common.py:100-104 | `True` and `False` do not parse as decimals |
| Strptime.Parse | ingest_sql/ingest_common.py:72-76 | a successful parse gives a valid calendar date, and needs the whole text to match the format |
| Strptime.FirstParse | ingest_sql/ingest_common.py:72-76 | a result is the parse of some format every earlier format of which fails, so the first format that parses wins; none exactly when all fail |
| Strptime.IsoRoundTrip | ingest_sql/ingest_common.py:72-76 | every valid date's ISO text parses back to it, by the first format |
| Strptime.MonthFirstExample | tests/test_ingest_expenses_xlsx.py:59 | illustration of the general contract: `03/04/2024` parses month first |
| Strptime.DayFirstExample | ingest_sql/ingest_common.py:72 | illustration of the general contract: `13/01/2024` parses day first |
| Strptime.DayFirstNotMonthFirst | ingest_sql/ingest_common.py:72 | month 13 does not parse month first |
| PyValue.Negate | ingest_sql/ingest_common.py:123 | negation flips the value and keeps the digits; zero stays positive |
| PyValue.Str | ingest_sql/ingest_common.py:137 | `str` of text is the text, of None is `None`, of a date its ISO form |
| PyValue.Get | ingest_sql/ingest_events_xes.py:18-64 | a dict lookup finds a value exactly for a present key, and the value is one stored under it |
| PyValue.Json | ingest_sql/ingest_common.py:173-174 | `json.dumps` succeeds exactly on JSON-safe values |
| PyValue.JsonList | ingest_sql/ingest_common.py:173-174 | a list serialises exactly when every item is JSON-safe |
| PyValue.JsonDict | ingest_sql/ingest_common.py:173-174 | a dict serialises exactly when every value is JSON-safe, with or without sorted keys |
| PyValue.JsonSortedKeysOrderFree | ingest_sql/ingest_common.py:173-174 | with sorted keys, the JSON of a dict does not depend on its insertion order |
| PyValue.SortEntriesOrderFree | ingest_sql/ingest_common.py:173-174 | entries with distinct keys sort to one order whatever order they come in |
| PyValue.SortEntries | ingest_sql/ingest_common.py:173-174 | sorting dict entries by key is a permutation of them |
| IngestXes.FirstTruthy | ingest_sql/ingest_events_xes.py:18-47 | the first key holding a truthy value, or none exactly when no key does |
| IngestXes.ExtractCaseId | ingest_sql/ingest_events_xes.py:18-30 | the case id is the stripped text of `concept:name`, else of `case:concept:name`; none exactly when neither is truthy |
| IngestXes.ExtractActivity | ingest_sql/ingest_events_xes.py:33-47 | the activity is the stripped text of `concept:name`, `activity` or `Activity`, first truthy one; none exactly when none is truthy |
| IngestXes.Activities | ingest_sql/ingest_events_xes.py:191-194 | one activity per event, in order, each as `extract_activity` finds it |
| IngestXes.ExtractorsTakeFirstTruthy | ingest_sql/ingest_events_xes.py:18-47 | both extractors agree with the first-truthy-key reading |
| IngestXes.ExtractTimestamp | ingest_sql/ingest_events_xes.py:50-64 | no timestamp exactly when the key is missing or None; datetimes give ISO text, text passes through |
| IngestXes.ExtractAttributes | ingest_sql/ingest_events_xes.py:67-82 | every attribute is kept under its own key, JSON-safe, in order |
| IngestXes.ComputeEventHash | ingest_sql/ingest_events_xes.py:85-108 | the event hash is the row hash of org, file, case, index, activity, time and attribute JSON, and fails exactly on non-serialisable attributes |
| IngestXes.EventHashIgnoresAttributeOrder | ingest_sql/ingest_events_xes.py:100-108 | the attributes' key order does not change the hash |
| IngestXes.EventHashMissingTime | ingest_sql/ingest_events_xes.py:100-108 | a missing time and an empty time hash alike |
| IngestXes.EventRowOf | ingest_sql/ingest_events_xes.py:218-227 | an event row carries the extracted timestamp |
| IngestXes.KeptPositionsCount | ingest_sql/ingest_events_xes.py:192-199 | kept positions and skipped events add up to the number of events |
| IngestXes.KeptPositionsSound | ingest_sql/ingest_events_xes.py:192-199 | every kept position, numbered from the start, is the position of an event with an activity |
| IngestXes.KeptPositionsIncrease | ingest_sql/ingest_events_xes.py:192-199 | kept positions increase strictly, in the order of the events |
| IngestXes.KeptPositionsComplete | ingest_sql/ingest_events_xes.py:192-199 | every event with an activity is kept at its own index |
| IngestXes.KeptRows | ingest_sql/ingest_events_xes.py:192-227 | the rows' indices are exactly the positions of events with an activity |
| IngestXes.NormalizeEvents | ingest_sql/ingest_events_xes.py:192-227 | kept rows and skipped events add up to the trace's events, and skipped ones are exactly those without an activity |
| IngestXes.NormalizeEventsPositions | ingest_sql/ingest_events_xes.py:192-227 | each row is built from the event at its own index, indices count over all events so skipped events leave gaps, indices increase, and every event with an activity has a row |
| IngestXes.KeptRowsPositions | ingest_sql/ingest_events_xes.py:192-227 | the same for any activities given position by position |
| IngestXes.NormalizeLog | ingest_sql/ingest_events_xes.py:182-227 | skipped traces and identified traces add up to the log; rows and skipped events add up to the identified traces' events |
| IngestXes.NormalizeLogCons | ingest_sql/ingest_events_xes.py:182-227 | the log's rows are the first trace's rows, if it has a case id, followed by the rest |
| IngestXes.NormalizeLogRows | ingest_sql/ingest_events_xes.py:182-227 | every row has a non-empty case id and activity, and the run's org and file |
| IngestXes.EventsReadCountsIdentified | ingest_sql/ingest_events_xes.py:250-254 | the summary's events read count every event of identified traces, never more than the log holds |
| IngestXes.BlankCaseIdSkipsTrace | ingest_sql/ingest_events_xes.py:186-189 | a blank case id strips to empty text and its trace is skipped with all its events |
| Expenses.MapColumns | data/ingest/expenses_xlsx.py:37-42 | every column is renamed by the column normaliser, in order |
| Expenses.MapColumnsIdempotent | data/ingest/expenses_xlsx.py:37-42 | mapping columns twice is mapping them once |
| Expenses.AbsentMembers | data/ingest/expenses_xlsx.py:45-57 | the absent columns are exactly the required ones not present |
| Expenses.MissingColumns | data/ingest/expenses_xlsx.py:45-57 | the missing columns are exactly the required ones absent, sorted and distinct |
| Expenses.MissingMessage | data/ingest/expenses_xlsx.py:52-57 | the error starts with the fixed prefix, announces the available columns, and holds the repr of every missing and every available column |
| Expenses.ValidateColumns | data/ingest/expenses_xlsx.py:45-57 | validation passes exactly when every required column is present |
| Expenses.ValidateColumnsExample | tests/test_ingest_expenses_xlsx.py:121-134 | a sheet with only `employee_id` and `amount` fails, listing the other columns in sorted order |
| Expenses.HashFields | data/ingest/expenses_xlsx.py:75-88 | twelve hash fields, none a dict, so hashing never fails |
| Expenses.NormalizeRow | data/ingest/expenses_xlsx.py:60-104 | every field is its normaliser applied to its cell; the row carries its org, file and row number, and a hash of its own fields |
| Expenses.AsDict | data/ingest/expenses_xlsx.py:90-104 | the output dict has the fixed column keys, with currency as text |
| Expenses.NormalizeRowCurrency | data/ingest/expenses_xlsx.py:90-104 | the normalised currency is always three upper-case letters |
| Expenses.NormalizeRowIsNormal | data/ingest/expenses_xlsx.py:60-104 | every text field of a normalised row is stripped and non-empty, or absent |
| Expenses.NormalizeRowIdempotent | data/ingest/expenses_xlsx.py:60-104 | a normalised row, written back as cells, normalises to itself, hash included |
| Expenses.NormalValuesStable | data/ingest/expenses_xlsx.py:60-104 | a normal row written back as cells normalises to a row with the same values in every field but the hash |
| Expenses.OtherCellsStable | data/ingest/expenses_xlsx.py:66-71 | the date, amount and currency cells of a normal row normalise back to the row's own values |
| Expenses.SourceRow | data/ingest/expenses_xlsx.py:194 | spreadsheet row numbers start at 2, after the header |
| Expenses.Survivors | data/ingest/expenses_xlsx.py:191-198 | the rows kept are exactly the successful normalisations |
| Expenses.SurvivorsAndFailures | data/ingest/expenses_xlsx.py:191-204 | kept and failed rows add up to the rows read |
| Expenses.NormalizeRows | data/ingest/expenses_xlsx.py:191-204 | the failure count is the rows read minus the rows kept |
| Expenses.IngestXlsx | data/ingest/expenses_xlsx.py:156-214 | ingestion succeeds exactly with all required columns and a non-zero batch size; rows read, kept and failed add up, and the batches partition the rows |
| Expenses.IngestXlsxRows | data/ingest/expenses_xlsx.py:156-214 | every data row yields one expense row, normalised at its own row number |
| SqlTools.RenderPlaceholders | backend/tools/sql_tools.py:78-94 | when the fixed and spliced text holds no `%`, the rendered query has exactly one `%s` per slot |
| SqlTools.Conditions | backend/tools/sql_tools.py:60-73 | org always comes first, then employee, start and end, each only when given, with the matching value |
| SqlTools.WhereClause | backend/tools/sql_tools.py:60-75 | one slot per condition and nothing spliced into the WHERE clause |
| SqlTools.WhereClauseText | backend/tools/sql_tools.py:75 | the WHERE clause renders as the conditions joined by ` AND ` |
| SqlTools.Values | backend/tools/sql_tools.py:60-73 | the parameters are the conditions' values, in order |
| SqlTools.IsoOrNone | backend/tools/sql_tools.py:193-207 | falsy values become None, dates and datetimes ISO text, and anything else fails |
| SqlTools.Cell | backend/tools/sql_tools.py:97-105 | reading past the row's end fails; a copied column is the row's value |
| SqlTools.Shape | backend/tools/sql_tools.py:97-105 | a row becomes one entry per column, in order, exactly when every cell can be read |
| SqlTools.ShapeAll | backend/tools/sql_tools.py:97-105 | every row is shaped, in order, or the whole shaping fails |
| SqlTools.ShapeAllKeys | backend/tools/sql_tools.py:97-105 | every shaped row has the tool's keys, in order |
| SqlTools.Finish | backend/tools/sql_tools.py:107-118 | the envelope is ok exactly on success, with data and no warning; on error it has no data and a `Database error: ` warning |
| SqlTools.Fetch | backend/tools/sql_tools.py:93-105 | fetching succeeds exactly when execution and shaping do |
| SqlTools.TotalsRequest | backend/tools/sql_tools.py:60-91 | the totals query has one parameter per slot, org first and the 200-row cap last, and splices only `group_by`, twice |
| SqlTools.GetExpenseTotals | backend/tools/sql_tools.py:24-118 | a `group_by` outside the allowlist is refused with a warning before any query. Otherwise the result is ok exactly when the query and shaping succeed; the data are the database rows, in order, each shaped by the tool's column list (named keys, dates as ISO text); a failure carries the `Database error: ` warning |
| SqlTools.InvalidGroupByIgnoresDatabase | backend/tools/sql_tools.py:51-56 | a refused `group_by` never touches the database and returns no data |
| SqlTools.WhereClauseIgnoresValues | backend/tools/sql_tools.py:60-75 | the WHERE text depends only on which filters are present, not on their values |
| SqlTools.TotalsTextIgnoresValues | backend/tools/sql_tools.py:60-89 | user-supplied values never reach the totals query text |
| SqlTools.Clamp | backend/tools/sql_tools.py:148 | the clamped limit is the caller's limit or the cap, whichever is smaller |
| SqlTools.SamplesRequest | backend/tools/sql_tools.py:148-187 | the samples query has one parameter per slot, org first and the clamped limit last, and splices nothing |
| SqlTools.GetExpenseSamples | backend/tools/sql_tools.py:121-220 | the result is ok exactly when the query and shaping succeed; the data are the database rows, in order, each shaped by the tool's column list (named keys, dates as ISO text); a failure carries the `Database error: ` warning |
| SqlTools.SamplesTextIgnoresValues | backend/tools/sql_tools.py:152-185 | user-supplied values never reach the samples query text |
| SqlTools.TimelineRequest | backend/tools/sql_tools.py:246-264 | the timeline query has three slots and three parameters, the last the clamped limit, and splices nothing |
| SqlTools.GetCaseTimeline | backend/tools/sql_tools.py:223-290 | the result is ok exactly when the query and shaping succeed; the data are the database rows, in order, each shaped by the tool's column list (named keys, dates as ISO text); a failure carries the `Database error: ` warning |
| SqlTools.ReceiptQuery | backend/tools/sql_tools.py:324-343 | the receipt-duplicate query has two slots and splices nothing |
| SqlTools.MerchantQuery | backend/tools/sql_tools.py:347-381 | the merchant-duplicate query has two slots and splices only the window in days, twice |
| SqlTools.DuplicatesParams | backend/tools/sql_tools.py:320-343 | both duplicate queries get org and the clamped limit |
| SqlTools.CombineDuplicates | backend/tools/sql_tools.py:384-407 | the combined list is a prefix of receipt matches then merchant matches, of length `min(limit, total)` |
| SqlTools.CombineFetched | backend/tools/sql_tools.py:384-407 | combining succeeds exactly when both queries and their shaping do; the result is a prefix of the receipt groups followed by the merchant groups, `min(limit, total)` long for a non-negative limit |
| SqlTools.DuplicatesData | backend/tools/sql_tools.py:320-407 | the duplicates data runs both queries with the clamped limit and combines their rows |
| SqlTools.FindPossibleDuplicates | backend/tools/sql_tools.py:293-420 | the result is ok exactly when both queries and their shaping succeed; its data are then the shaped receipt groups followed by the merchant groups, cut to the clamped limit (`min(clamped limit, total rows)` entries for a non-negative limit); a failure carries the `Database error: ` warning |
| SqlTools.DuplicatesReceiptsFirst | backend/tools/sql_tools.py:384-407 | receipt matches always come before merchant matches |
| CopilotAgent.PolicyFilters | backend/graphs/copilot_agent.py:59-63 | the org filter is present exactly for a truthy org, upper-cased; the type filter exactly for a truthy type, lower-cased |
| CopilotAgent.SourceOf | backend/graphs/copilot_agent.py:88-98 | a source's snippet is a prefix of the chunk text of at most 300 characters; the score is the rerank score, else the search score; doc name, org, policy type, chunk index and a present page are copied from the chunk, with "" for missing names and 0 for a missing page |
| CopilotAgent.SourcesOf | backend/graphs/copilot_agent.py:88-98 | one source per reranked chunk, in order |
| CopilotAgent.EvidenceLines | backend/graphs/copilot_agent.py:101-104 | evidence lines are drawn from the first three sources only |
| CopilotAgent.FoundHint | backend/graphs/copilot_agent.py:106-109 | the hint starts by counting the sources found |
| CopilotAgent.PolicyTool | backend/graphs/copilot_agent.py:41-109 | nothing found gives the no-documents hint without reranking. Otherwise it succeeds exactly when reranking does, with between 1 and 5 sources, each scored, in descending score order; the sources are the reranked documents, in order, and the hint counts and lists them |
| CopilotAgent.NothingFoundSkipsRerank | backend/graphs/copilot_agent.py:74-78 | when the search finds nothing, the reranker is never consulted |
| CopilotAgent.CallModel | backend/graphs/copilot_agent.py:273-295 | at or above the cap the model is skipped and the limit message comes back; otherwise the reply's tool calls are added to the count |
| CopilotAgent.CallModelCapped | backend/graphs/copilot_agent.py:273-295 | the corrected step keeps only as many of the reply's tool calls as the cap allows, so the count never passes six |
| CopilotAgent.CapSkipsModel | backend/graphs/copilot_agent.py:276-282 | at the cap the answer does not depend on the model |
| CopilotAgent.ShouldContinue | backend/graphs/copilot_agent.py:297-306 | the loop goes to the tools exactly when the last message asks for tools |
| CopilotAgent.RunTools | backend/graphs/copilot_agent.py:313-327 | the tools node appends one result per call and changes neither the history nor the count |
| CopilotAgent.ModelStep | backend/graphs/copilot_agent.py:273-295 | at the cap no tools are requested, so the loop ends |
| CopilotAgent.Run | backend/graphs/copilot_agent.py:309-329 | the loop extends the conversation, ends on a message without tool calls, and its counter grows by exactly the tool calls recorded |
| CopilotAgent.RunStaysWithinCap | backend/tests/e2e/test_copilot_agent_api.py:253 | with the corrected step, a run records at most six tool calls |
| CopilotAgent.OneReplyPassesCap | backend/graphs/copilot_agent.py:276-290 | as written, a model asking for four tools per reply gets eight tool calls recorded |
| CopilotAgent.Shown | backend/graphs/copilot_agent.py:361-369 | the header shows exactly the truthy context fields, in the fixed order |
| CopilotAgent.HeaderLines | backend/graphs/copilot_agent.py:361-369 | the header is empty exactly when no field is shown, starts with the first shown field's "Label: value" line and holds that line of every shown field |
| CopilotAgent.FullQuestion | backend/graphs/copilot_agent.py:371-374 | the question is unchanged without context; otherwise it follows the context header and a `Question:` line |
| CopilotAgent.LastAnswer | backend/graphs/copilot_agent.py:389-393 | the answer is the latest non-empty model message, or empty exactly when every model message is empty |
| CopilotAgent.RunAgent | backend/graphs/copilot_agent.py:344-451 | over the loop as written: the answer is the content of the last model message with non-empty content, or the fallback text when there is none; the tools called are the ones the conversation requested, and their number is the graph's tool-call counter, which the cap does not bound |
| CopilotAgent.RunAgentCapped | backend/tests/e2e/test_copilot_agent_api.py:253 | over the corrected model step: as `RunAgent`, and at most six tools are called |
| CopilotAgent.Outcome | backend/graphs/copilot_agent.py:384-400 | the final answer is the last non-empty model message, or the fallback text when no model message has content; the tools called are the conversation's tool requests in order |
| CopilotRoute.RequestContext | backend/app/routes/copilot.py:38-48 | the context has a key for each truthy parameter, in the order org, employee, case, policy type, then debug when set |
| CopilotRoute.ContextLookups | backend/app/routes/copilot.py:38-48 | the agent reads back each truthy parameter's value and None for the others |
| CopilotRoute.ParametersGet | backend/app/routes/copilot.py:38-46 | a lookup in the parameter entries finds a truthy parameter under its own name, and nothing else |
| CopilotRoute.AnyCalled | backend/app/routes/copilot.py:56-59 | some listed tool was called exactly when one of them appears in the calls |
| CopilotRoute.RoutingOf | backend/app/routes/copilot.py:54-61 | the policy flag is set exactly when the policy tool was called, the SQL flag exactly when any SQL tool was; the list passes through |
| CopilotRoute.PolicySourceOf | backend/app/routes/copilot.py:64-75 | a present doc_name, org, policy_type, page, chunk_index and score is copied; the snippet falls back from `snippet` to `text_snippet` to empty; page defaults to 0, names to empty, policy type, chunk index and score to None |
| CopilotRoute.PolicySourceOfToolDict | backend/app/routes/copilot.py:64-75 | a source dict with the seven keys the policy tool writes (copilot_agent.py:90-98) converts back to exactly its values |
| CopilotRoute.PolicySourceOfLookups | backend/app/routes/copilot.py:64-75 | a dict holding all seven keys converts to the values stored under them |
| CopilotRoute.GetOr | backend/app/routes/copilot.py:66-72 | a key present in the dict gives its value, an absent key gives the default |
| CopilotRoute.PolicySourcesOf | backend/app/routes/copilot.py:64-75 | one converted source per agent source, in order |
| CopilotRoute.AnyOccurs | backend/app/routes/copilot.py:88-92 | some phrase occurs exactly when one of them is contained in the text |
| CopilotRoute.FollowUp | backend/app/routes/copilot.py:86-93 | the answer is a follow-up exactly when its lower-cased text holds one of the ten phrases, and the follow-up is the answer itself |
| CopilotRoute.CopilotAnswer | backend/app/routes/copilot.py:18-102 | the agent runs once on the question and the context; answer and warnings pass through, routing comes from the tools called, each agent source is converted in order, the follow-up is the answer itself exactly when its lower-case text contains one of the follow-up phrases (`FollowUp`), and the four SQL results are read from the agent's result by key |

## Left out

- Database access (`psycopg` connections, cursors, transactions, upserts),
  file reading (`pandas`, `pm4py`), the embedding model, the cross-encoder
  and the chat model: all are parameters or absent.
- `hybrid_search`'s two SQL statements (`policy_search.py:17-28, 42-53`): the
  database's ordered answers before `LIMIT` are parameters, so their ranking
  (`ts_rank`, cosine distance) is taken as given.
- Floating point: scores and distances are reals; `float(Decimal)` is a
  parameter; NaN is the only float value the normalisers inspect.
- The system prompt's text, the LangGraph wiring beyond the
  model/tools loop, and its recursion limit.
- `run_agent`'s `eval`-based parsing of tool messages
  (`copilot_agent.py:402-443`). The endpoint takes policy sources, SQL results
  and warnings as the agent parameter returns them.
- The four SQL tool wrappers of the agent (`copilot_agent.py:113-236`): they
  only forward arguments to the SQL tools.
- Pydantic validation of the request and response models.
- Text is ASCII only: no Unicode case folding, and Python's whitespace set is
  modelled for ASCII characters.
- A missing dict key and a key holding None are the same in the model.
- Timezone offsets of datetimes are not modelled.
- The XES summary printing, command-line entry points and upsert batching
  SQL (`ingest_events_xes.py:111-145, 258-333`, `expenses_xlsx.py:107-153,
  226-285`).
- SQL text is modelled as fixed fragments, spliced identifiers and `%s`
  slots; the whitespace layout of the queries is not reproduced.
- The `', '.join(ALLOWED_GROUP_BY)` warning lists the set in declaration
  order; Python's set iteration order is not modelled.
- SqlTools.RenderPlaceholders: the absence of `%` in the fixed query fragments
  is a precondition, not proved for each tool; the tools' contracts count
  slots against parameters instead.
- SqlTools.GetExpenseTotals: the database executes the query as pieces, whose
  rendering is the text; the driver's parameter substitution is not modelled.
- CopilotRoute.RequestContext: states the keys and their order; the values'
  truthiness is stated by CopilotRoute.ContextLookups instead.
- AnswerGen.FanOut: the bound on the number of results holds only for a
  search that honours its `top_k`.
- AnswerGen.Retrieve: the search's optional debug output is not modelled.
- Rerank.RerankDocuments: a scorer answer with fewer scores than documents
  fails (the sort's `KeyError`) rather than raising a specific exception.
- Decimals.ParseDecimal: only finite numbers are modelled. `Decimal` also reads
  "NaN" (any case, signed, with optional payload digits) as a quiet NaN, which
  the model rejects; it also reads non-ASCII decimal digits, which the model
  does not know.
- Decimals.QuantizedDecimal: `quantize` returns a quiet NaN unchanged, so
  `Decimal("NaN").quantize(...)` is NaN in the source and `None` in the model.
- IngestCommon.AmountText: the text "NaN" (or "(NaN)") is a NaN amount in the
  source and `None` here, because the model's `Decimal` values are finite.
- IngestCommon.NormalizeAmount: NaN text and a NaN `Decimal` value give a NaN
  amount in the source; the model has no NaN `Decimal`, and gives `None` for the
  text.
- IngestCommon.NormalizeDate: `fromisoformat` and the Excel serial conversion
  are parameters, so only their use is stated, not their results.
- IngestCommon.ComputeRowHash: SHA-256 is a parameter.
- Expenses.IngestXlsx: row normalisation has no failure path in the model, so
  `rows_failed` is always zero (`Expenses.IngestXlsxRows`); the source's broad
  `except` around each row is not exercised.
- Expenses.Cell: two sheet headers that normalise to the same name (such as
  "Merchant" and "merchant ") are not modelled. In pandas, `row.get` then
  returns a Series holding both cells
  (`data/ingest/expenses_xlsx.py:41`). `normalize_string` stores its printed
  form, and the date and amount normalisers may raise, which makes the
  `except` at `data/ingest/expenses_xlsx.py:191-198` drop the row. The model
  reads the first such cell.

## Findings

| source | as written | input that shows it | evidently intended | confidence | as-written member | corrected member |
|---|---|---|---|---|---|---|
| backend/rag/answer_gen.py:72-79 | the no-results branch reads `search_result`, which only the single-search branch assigns | `per_org_retrieval=True`, `filters={"orgs": ["ASU"]}`, and a search that finds nothing: `UnboundLocalError` | return the empty answer with the default warning | not executed | AnswerGen.PrepareAnswerAsWritten (shown by AnswerGen.PerOrgEmptyRaises) | AnswerGen.PrepareAnswer |
| backend/graphs/copilot_agent.py:276-290 | the cap of six tool calls is checked only before calling the model, and every tool call of the reply is then accepted | a model asking for four tools per reply: 4 calls, then 8, recorded above the cap that `test_copilot_agent_api.py:253` expects | never record more than six tool calls | not executed | CopilotAgent.CallModel (shown by CopilotAgent.OneReplyPassesCap) | CopilotAgent.CallModelCapped (proved by CopilotAgent.RunStaysWithinCap, used by CopilotAgent.RunAgentCapped) |

=== FILE: answer_gen.dfy ===
/** The retrieval half of answer generation: choosing between one search and a
    per-organisation fan-out, the budgets of the fan-out, and the shaping of the
    retrieved chunks into sources and citation blocks. The language-model call
    that follows is not modelled; the search is a parameter. */
module AnswerGen {
  import opened Base
  import opened Text
  import opened Chunks

  const NoResultsWarning := "No relevant policy content found for those filters. Try broader filters."

  const MaxSnippetChars := 350

  /** The members of `filters["orgs"]` as a `for` loop sees them: the items of a
      list, the characters of a string. */
  function OrgsOf(v: FilterValue): (r: seq<string>)
    ensures |r| == (if v.List? then |v.items| else |v.s|)
    ensures v.List? ==> r == v.items
    ensures v.Text? ==> forall i :: 0 <= i < |r| ==> r[i] == [v.s[i]]
  {
    match v
    case List(items) => items
    case Text(s) => seq(|s|, i requires 0 <= i < |s| => [s[i]])
  }

  /** Per-organisation retrieval runs only when asked for and `filters["orgs"]` is truthy. */
  predicate PerOrgMode(filters: Filters, perOrgRetrieval: bool) {
    perOrgRetrieval && "orgs" in filters && |OrgsOf(filters["orgs"])| > 0
  }

  /** The candidate budget of one organisation's search. */
  function PerOrgCandidateK(candidateK: int): (k: int)
    ensures k >= candidateK && k > 20
    ensures candidateK > 20 ==> k == candidateK
    ensures candidateK <= 20 ==> k == 25
  {
    if candidateK > 20 then candidateK else 25
  }

  /** The result budget of one organisation's search: an equal share of
      `final_k`, but never fewer than 3. Python's `//` by a positive divisor
      floors, which is what Dafny's `/` does for a positive divisor. */
  function PerOrgFinalK(finalK: int, orgCount: int): (k: int)
    requires orgCount > 0
    ensures k >= 3
    ensures k * orgCount <= finalK || k == 3
    ensures finalK < (k + 1) * orgCount
  {
    Max(3, finalK / orgCount)
  }

  /** The filters of one organisation's search: `org` set to that organisation,
      `orgs` removed, every other key as given. */
  function OrgFilters(filters: Filters, org: string): (f: Filters)
    ensures "org" in f && f["org"] == Text(org)
    ensures "orgs" !in f
    ensures forall k :: k != "org" && k != "orgs" ==> (k in f <==> k in filters)
    ensures forall k :: k in filters && k != "org" && k != "orgs" ==> f[k] == filters[k]
  {
    filters["org" := Text(org)] - {"orgs"}
  }

  function OrgSearch(search: SearchFn, query: string, org: string, filters: Filters, topK: int, candidateK: int): SearchOutput {
    search(query, topK, candidateK, OrgFilters(filters, org))
  }

  /** The per-organisation loop: each organisation's results appended in turn. */
  function FanOut(search: SearchFn, query: string, orgs: seq<string>, filters: Filters, topK: int, candidateK: int): (r: seq<Chunk>)
    ensures RespectsTopK(search) ==> |r| <= |orgs| * Max(0, topK)
    ensures forall c :: c in r ==> exists o :: o in orgs && c in OrgSearch(search, query, o, filters, topK, candidateK).results
  {
    if |orgs| == 0 then []
    else
      var last := orgs[|orgs| - 1];
      var front := FanOut(search, query, orgs[..|orgs| - 1], filters, topK, candidateK);
      var found := OrgSearch(search, query, last, filters, topK, candidateK).results;
      assert forall o :: o in orgs[..|orgs| - 1] ==> o in orgs;
      assert RespectsTopK(search) ==> |front + found| <= (|orgs| - 1) * Max(0, topK) + Max(0, topK);
      front + found
  }

  /** Results are concatenated in the order of `orgs`, with no re-ordering across organisations. */
  lemma {:induction false} FanOutAppend(search: SearchFn, query: string, a: seq<string>, b: seq<string>, filters: Filters, topK: int, candidateK: int)
    ensures FanOut(search, query, a + b, filters, topK, candidateK)
         == FanOut(search, query, a, filters, topK, candidateK) + FanOut(search, query, b, filters, topK, candidateK)
    decreases |b|
  {
    if |b| == 0 {
      assert a + b == a;
    } else {
      var b' := b[..|b| - 1];
      assert (a + b)[..|a + b| - 1] == a + b';
      assert (a + b)[|a + b| - 1] == b[|b| - 1];
      FanOutAppend(search, query, a, b', filters, topK, candidateK);
    }
  }

  lemma {:induction false} FanOutSingle(search: SearchFn, query: string, org: string, filters: Filters, topK: int, candidateK: int)
    ensures FanOut(search, query, [org], filters, topK, candidateK) == OrgSearch(search, query, org, filters, topK, candidateK).results
  {
    assert [org][..0] == [];
  }

  /** What retrieval leaves behind: the results, and the single search's output
      when there was one (`search_result` is never bound in per-organisation mode). */
  datatype Retrieved = Retrieved(results: seq<Chunk>, searchResult: Option<SearchOutput>)

  function Retrieve(search: SearchFn, query: string, filters: Filters, candidateK: int, finalK: int, perOrgRetrieval: bool): (r: Retrieved)
    ensures r.searchResult.None? <==> PerOrgMode(filters, perOrgRetrieval)
    ensures r.searchResult.Some? ==>
      r.searchResult.value == search(query, finalK, candidateK, filters) && r.results == r.searchResult.value.results
    ensures PerOrgMode(filters, perOrgRetrieval) ==>
      var orgs := OrgsOf(filters["orgs"]);
      r.results == FanOut(search, query, orgs, filters, PerOrgFinalK(finalK, |orgs|), PerOrgCandidateK(candidateK))
    ensures RespectsTopK(search) && !PerOrgMode(filters, perOrgRetrieval) ==> |r.results| <= Max(0, finalK)
    ensures RespectsTopK(search) && PerOrgMode(filters, perOrgRetrieval) ==>
      var n := |OrgsOf(filters["orgs"])|;
      |r.results| <= n * PerOrgFinalK(finalK, n)
  {
    if PerOrgMode(filters, perOrgRetrieval) then
      var orgs := OrgsOf(filters["orgs"]);
      Retrieved(FanOut(search, query, orgs, filters, PerOrgFinalK(finalK, |orgs|), PerOrgCandidateK(candidateK)), None)
    else
      var out := search(query, finalK, candidateK, filters);
      Retrieved(out.results, Some(out))
  }

  /** The snippet of a chunk's content: stripped, newlines made spaces, at most 350 characters. */
  function Snippet(content: string): (r: string)
    ensures |r| == Min(MaxSnippetChars, |Strip(content)|)
    ensures '\n' !in r
    ensures forall i :: 0 <= i < |r| ==> r[i] == (if Strip(content)[i] == '\n' then ' ' else Strip(content)[i])
  {
    SliceTo(ReplaceChar(Strip(content), '\n', ' '), MaxSnippetChars)
  }

  /** Blanks around the content do not change its snippet. */
  lemma {:induction false} SnippetOfStrip(content: string)
    ensures Snippet(Strip(content)) == Snippet(content)
  {
    StripOfStripped(Strip(content));
  }

  /** A short single-line content survives as its stripped self. */
  lemma {:induction false} ShortSnippetIsStripped(content: string)
    requires |Strip(content)| <= MaxSnippetChars
    requires '\n' !in Strip(content)
    ensures Snippet(content) == Strip(content)
  {
  }

  function PageString(p: Page): string {
    match p
    case PageNo(n) => IntToString(n)
    case PageText(t) => t
  }

  /** A chunk's source entry, with the defaults a missing key takes: "UNKNOWN",
      "unknown.pdf", page "?", empty content and score 0. */
  function CitationOf(c: Chunk): (s: Citation)
    ensures s.org == (if c.org.Some? then c.org.value else "UNKNOWN")
    ensures s.docName == (if c.docName.Some? then c.docName.value else "unknown.pdf")
    ensures s.page == (if c.page.Some? then c.page.value else PageText("?"))
    ensures s.textSnippet == Snippet(if c.content.Some? then c.content.value else "")
    ensures s.score.Some? && (c.rerankScore.Some? ==> s.score.value == c.rerankScore.value)
    ensures c.rerankScore.None? ==> s.score == Some(0.0)
  {
    Citation(
      c.docName.GetOr("unknown.pdf"),
      c.org.GetOr("UNKNOWN"),
      c.page.GetOr(PageText("?")),
      Snippet(c.content.GetOr("")),
      Some(c.rerankScore.GetOr(0.0)))
  }

  /** The citation block handed to the language model for one source. */
  function Block(s: Citation): (b: string)
    ensures StartsWith(b, "[" + s.org + "] " + s.docName + " Pg ")
    ensures EndsWith(b, ":\n" + s.textSnippet)
  {
    var head := "[" + s.org + "] " + s.docName + " Pg ";
    var tail := ":\n" + s.textSnippet;
    var b := head + PageString(s.page) + tail;
    assert b[..|head|] == head;
    assert b[|b| - |tail|..] == tail;
    b
  }

  /** One source per result, in order. */
  function Sources(results: seq<Chunk>): (r: seq<Citation>)
    ensures |r| == |results|
    ensures forall i :: 0 <= i < |results| ==> r[i] == CitationOf(results[i])
  {
    seq(|results|, i requires 0 <= i < |results| => CitationOf(results[i]))
  }

  function Blocks(sources: seq<Citation>): (r: seq<string>)
    ensures |r| == |sources|
    ensures forall i :: 0 <= i < |sources| ==> r[i] == Block(sources[i])
  {
    seq(|sources|, i requires 0 <= i < |sources| => Block(sources[i]))
  }

  /** Where answer generation stands before the language model is called:
      either it returned early with no results, or it has sources to cite. */
  datatype Prepared =
    | NoResults(query: string, filters: Filters, answer: string, sources: seq<Citation>, warning: string)
    | Cited(sources: seq<Citation>, blocks: seq<string>)

  /** The early return and the source shaping, with the early return's warning
      taken from the single search when there was one and the default otherwise. */
  function PrepareAnswer(search: SearchFn, query: string, filters: Filters, candidateK: int, finalK: int, perOrgRetrieval: bool): (r: Prepared)
    ensures var got := Retrieve(search, query, filters, candidateK, finalK, perOrgRetrieval);
      && (r.NoResults? <==> |got.results| == 0)
      && (r.NoResults? ==> r.query == query && r.filters == filters && r.answer == "" && r.sources == [])
      && (r.NoResults? && got.searchResult.Some? && got.searchResult.value.warning.Some? ==> r.warning == got.searchResult.value.warning.value)
      && (r.NoResults? && (got.searchResult.None? || got.searchResult.value.warning.None?) ==> r.warning == NoResultsWarning)
      && (r.Cited? ==> |r.sources| == |got.results| == |r.blocks|)
      && (r.Cited? ==> forall i :: 0 <= i < |r.sources| ==> r.sources[i] == CitationOf(got.results[i]) && r.blocks[i] == Block(r.sources[i]))
  {
    var got := Retrieve(search, query, filters, candidateK, finalK, perOrgRetrieval);
    if |got.results| == 0 then
      var warning := if got.searchResult.Some? then got.searchResult.value.warning.GetOr(NoResultsWarning) else NoResultsWarning;
      NoResults(query, filters, "", [], warning)
    else
      var sources := Sources(got.results);
      Cited(sources, Blocks(sources))
  }

  /** The same steps as written: the early return reads `search_result`, which
      per-organisation mode never binds, so that path raises. */
  function PrepareAnswerAsWritten(search: SearchFn, query: string, filters: Filters, candidateK: int, finalK: int, perOrgRetrieval: bool): (r: Result<Prepared>)
    ensures var got := Retrieve(search, query, filters, candidateK, finalK, perOrgRetrieval);
      r.Failure? <==> |got.results| == 0 && PerOrgMode(filters, perOrgRetrieval)
    ensures r.Success? ==> r.value == PrepareAnswer(search, query, filters, candidateK, finalK, perOrgRetrieval)
  {
    var got := Retrieve(search, query, filters, candidateK, finalK, perOrgRetrieval);
    if |got.results| == 0 then
      match got.searchResult
      case None => Failure("UnboundLocalError: local variable 'search_result' referenced before assignment")
      case Some(out) => Success(NoResults(query, filters, "", [], out.warning.GetOr(NoResultsWarning)))
    else
      var sources := Sources(got.results);
      Success(Cited(sources, Blocks(sources)))
  }

  /** A search that finds nothing. */
  function NothingFound(q: string, k: int, c: int, f: Filters): SearchOutput {
    SearchOutput([], None)
  }

  /** Asking for a per-organisation answer for "ASU" when nothing is found
      raises in the code as written, and the corrected steps return the default warning. */
  lemma {:induction false} PerOrgEmptyRaises()
    ensures PrepareAnswerAsWritten(NothingFound, "per diem", map["orgs" := List(["ASU"])], 30, 5, true).Failure?
    ensures PrepareAnswer(NothingFound, "per diem", map["orgs" := List(["ASU"])], 30, 5, true)
         == NoResults("per diem", map["orgs" := List(["ASU"])], "", [], NoResultsWarning)
  {
    var filters := map["orgs" := List(["ASU"])];
    assert PerOrgMode(filters, true);
    assert FanOut(NothingFound, "per diem", ["ASU"], filters, 3, 30) == [] by {
      assert ["ASU"][..0] == [];
    }
  }

  function ChunkOf(i: int): Chunk {
    Chunk(None, Some(i), None, None, None, None, None, None, None, None)
  }

  /** A search that always fills its budget. */
  function FullSearch(q: string, k: int, c: int, f: Filters): SearchOutput {
    SearchOutput(seq(Max(0, k), i => ChunkOf(i)), None)
  }

  /** Each organisation's floor of 3 lets the fan-out exceed `final_k`: three
      organisations with `final_k` = 5 retrieve 9 chunks. */
  lemma {:induction false} PerOrgCanExceedFinalK()
    ensures |Retrieve(FullSearch, "q", map["orgs" := List(["ASU", "UCSD", "Stanford"])], 30, 5, true).results| == 9
  {
    var filters := map["orgs" := List(["ASU", "UCSD", "Stanford"])];
    var orgs := ["ASU", "UCSD", "Stanford"];
    assert PerOrgMode(filters, true);
    assert PerOrgFinalK(5, 3) == 3;
    assert orgs == [orgs[0]] + [orgs[1]] + [orgs[2]];
    FanOutAppend(FullSearch, "q", [orgs[0]] + [orgs[1]], [orgs[2]], filters, 3, 30);
    FanOutAppend(FullSearch, "q", [orgs[0]], [orgs[1]], filters, 3, 30);
    FanOutSingle(FullSearch, "q", orgs[0], filters, 3, 30);
    FanOutSingle(FullSearch, "q", orgs[1], filters, 3, 30);
    FanOutSingle(FullSearch, "q", orgs[2], filters, 3, 30);
  }
}

=== FILE: base.dfy ===
/** Small shared vocabulary: optional values, results with an error message,
    and Python's slice-to semantics. */
module Base {

  /** A value that may be missing; stands for Python's `None` and for an absent dict key. */
  datatype Option<T> = None | Some(value: T) {
    function GetOr(default: T): T {
      match this
      case Some(v) => v
      case None => default
    }
  }

  /** The outcome of an operation that may raise: `Failure` carries the exception text. */
  datatype Result<T> = Success(value: T) | Failure(error: string)

  /** Python truthiness of an optional string: present and non-empty. */
  predicate Truthy(o: Option<string>) {
    o.Some? && o.value != ""
  }

  function Min(a: int, b: int): int { if a <= b then a else b }

  function Max(a: int, b: int): int { if a >= b then a else b }

  /** Python `s[:k]`: a non-negative `k` keeps at most `k` items, a negative one drops `-k` from the end. */
  function SliceTo<T>(s: seq<T>, k: int): (r: seq<T>)
    ensures r <= s
    ensures 0 <= k ==> |r| == Min(k, |s|)
    ensures k < 0 ==> |r| == Max(0, |s| + k)
  {
    if 0 <= k then (if k <= |s| then s[..k] else s)
    else if |s| + k <= 0 then []
    else s[..|s| + k]
  }

  /** Concatenation of a sequence of sequences, in order. */
  function Flatten<T>(ss: seq<seq<T>>): seq<T> {
    if |ss| == 0 then [] else ss[0] + Flatten(ss[1..])
  }

  lemma {:induction false} FlattenAppend<T>(ss: seq<seq<T>>, t: seq<T>)
    ensures Flatten(ss + [t]) == Flatten(ss) + t
  {
    if |ss| == 0 {
      assert ss + [t] == [t];
    } else {
      assert (ss + [t])[1..] == ss[1..] + [t];
      FlattenAppend(ss[1..], t);
    }
  }

  /** The sum of the lengths of the pieces. */
  function TotalLength<T>(ss: seq<seq<T>>): nat {
    if |ss| == 0 then 0 else |ss[0]| + TotalLength(ss[1..])
  }

  lemma {:induction false} FlattenLength<T>(ss: seq<seq<T>>)
    ensures |Flatten(ss)| == TotalLength(ss)
  {
    if |ss| > 0 {
      FlattenLength(ss[1..]);
    }
  }

  /** `a` can be obtained from `b` by deleting elements. */
  predicate IsSubsequence<T(==)>(a: seq<T>, b: seq<T>)
    decreases |b|
  {
    |a| == 0
    || (|b| > 0 && ((a[0] == b[0] && IsSubsequence(a[1..], b[1..])) || IsSubsequence(a, b[1..])))
  }

  lemma {:induction false} SubsequenceTransitive<T>(a: seq<T>, b: seq<T>, c: seq<T>)
    requires IsSubsequence(a, b) && IsSubsequence(b, c)
    ensures IsSubsequence(a, c)
    decreases |c|
  {
    if |a| > 0 {
      if IsSubsequence(b, c[1..]) {
        SubsequenceTransitive(a, b, c[1..]);
      } else if a[0] == b[0] && IsSubsequence(a[1..], b[1..]) {
        SubsequenceTransitive(a[1..], b[1..], c[1..]);
      } else {
        SubsequenceTransitive(a, b[1..], c[1..]);
      }
    }
  }

  predicate NoDuplicates<T(==)>(s: seq<T>) {
    forall i, j :: 0 <= i < j < |s| ==> s[i] != s[j]
  }

  /** A prefix of a prefix is a prefix. */
  lemma {:induction false} PrefixTransitive<T>(a: seq<T>, b: seq<T>, c: seq<T>)
    requires a <= b && b <= c
    ensures a <= c
  {
    assert c[..|b|] == b;
    assert c[..|a|] == b[..|a|];
  }

  /** An element occurs at most once in a sequence without duplicates. */
  lemma {:induction false} OnceAt<T>(s: seq<T>, a: nat)
    requires NoDuplicates(s) && a < |s|
    ensures multiset(s)[s[a]] == 1
  {
    assert s == s[..a] + [s[a]] + s[a + 1..];
    assert s[a] !in s[..a] && s[a] !in s[a + 1..];
  }

  /** A reordering of a sequence without duplicates has none either. */
  lemma {:induction false} PermutationKeepsDistinct<T>(a: seq<T>, b: seq<T>)
    requires multiset(a) == multiset(b) && NoDuplicates(a)
    ensures NoDuplicates(b)
  {
    forall i, j | 0 <= i < j < |b|
      ensures b[i] != b[j]
    {
      assert b == b[..i] + [b[i]] + b[i + 1..j] + [b[j]] + b[j + 1..];
      assert b[i] in multiset(a);
      var k :| 0 <= k < |a| && a[k] == b[i];
      OnceAt(a, k);
    }
  }

  /** The first occurrence of every element not in `seen`, in order: Python's
      "unique, preserve order" loop over a `seen` set. */
  function DedupeAfter<T(==,!new)>(s: seq<T>, seen: set<T>): seq<T> {
    if |s| == 0 then []
    else if s[0] in seen then DedupeAfter(s[1..], seen)
    else [s[0]] + DedupeAfter(s[1..], seen + {s[0]})
  }

  /** What `DedupeAfter` keeps: no element twice, in the order of `s`, and
      exactly the elements of `s` not in `seen`. */
  lemma {:induction false} DedupeAfterKeeps<T(!new)>(s: seq<T>, seen: set<T>)
    ensures NoDuplicates(DedupeAfter(s, seen))
    ensures IsSubsequence(DedupeAfter(s, seen), s)
    ensures forall x :: x in DedupeAfter(s, seen) <==> x in s && x !in seen
  {
    if |s| > 0 {
      if s[0] in seen {
        DedupeAfterKeeps(s[1..], seen);
      } else {
        var rest := DedupeAfter(s[1..], seen + {s[0]});
        DedupeAfterKeeps(s[1..], seen + {s[0]});
        assert ([s[0]] + rest)[1..] == rest;
      }
    }
  }

  function Dedupe<T(==,!new)>(s: seq<T>): (r: seq<T>)
    ensures NoDuplicates(r)
    ensures IsSubsequence(r, s)
    ensures forall x :: x in r <==> x in s
  {
    DedupeAfterKeeps(s, {});
    DedupeAfter(s, {})
  }

  /** The first components of a sequence of pairs: the keys of an ordered dict. */
  function Keys<A, B>(s: seq<(A, B)>): (r: seq<A>)
    ensures |r| == |s|
    ensures forall i :: 0 <= i < |s| ==> r[i] == s[i].0
  {
    if |s| == 0 then [] else [s[0].0] + Keys(s[1..])
  }

  lemma {:induction false} SubsequenceLength<T>(a: seq<T>, b: seq<T>)
    requires IsSubsequence(a, b)
    ensures |a| <= |b|
    decreases |b|
  {
    if |a| > 0 {
      if a[0] == b[0] && IsSubsequence(a[1..], b[1..]) {
        SubsequenceLength(a[1..], b[1..]);
      } else {
        SubsequenceLength(a, b[1..]);
      }
    }
  }

  lemma {:induction false} DedupeAfterSnoc<T(!new)>(s: seq<T>, x: T, seen: set<T>)
    ensures DedupeAfter(s + [x], seen)
         == DedupeAfter(s, seen) + (if x in s || x in seen then [] else [x])
  {
    if |s| == 0 {
      assert s + [x] == [x];
      assert [x][1..] == [];
    } else {
      var t := s + [x];
      assert t[0] == s[0] && t[1..] == s[1..] + [x];
      assert x in s <==> x == s[0] || x in s[1..];
      if s[0] in seen {
        DedupeAfterSnoc(s[1..], x, seen);
      } else {
        DedupeAfterSnoc(s[1..], x, seen + {s[0]});
      }
    }
  }

  /** Appending an element extends the de-duplicated list only when the element is new. */
  lemma {:induction false} DedupeSnoc<T(!new)>(s: seq<T>, x: T)
    ensures Dedupe(s + [x]) == Dedupe(s) + (if x in s then [] else [x])
  {
    DedupeAfterSnoc(s, x, {});
  }
}

=== FILE: chunks.dfy ===
/** The retrieval records passed between search, reranking and answer assembly.
    In the program they are dicts; every key a caller reads is an optional field
    here, `None` meaning the key is absent. */
module Chunks {
  import opened Base

  /** A page reference: an int in the store, a string such as "?" as a default. */
  datatype Page = PageNo(n: int) | PageText(t: string)

  datatype Chunk = Chunk(
    docName: Option<string>,
    chunkIndex: Option<int>,
    org: Option<string>,
    policyType: Option<string>,
    page: Option<Page>,
    content: Option<string>,
    text: Option<string>,
    snippet: Option<string>,
    score: Option<real>,
    rerankScore: Option<real>
  )

  /** A source entry of a generated answer: one per retrieved chunk. */
  datatype Citation = Citation(
    docName: string,
    org: string,
    page: Page,
    textSnippet: string,
    score: Option<real>
  )

  /** What the search capability hands to its callers: the result list and an optional warning. */
  datatype SearchOutput = SearchOutput(results: seq<Chunk>, warning: Option<string>)

  /** A filter value: a single string (org, policy_type, doc_name) or a list (orgs). */
  datatype FilterValue = Text(s: string) | List(items: seq<string>)

  type Filters = map<string, FilterValue>

  /** The search capability the answer and agent layers call: query, top_k,
      candidate_k, filters. */
  type SearchFn = (string, int, int, Filters) -> SearchOutput

  /** The contract callers rely on: never more than `top_k` results. */
  ghost predicate RespectsTopK(search: SearchFn) {
    forall q, k, c, f :: |search(q, k, c, f).results| <= Max(0, k)
  }
}

=== FILE: copilot_agent.dfy ===
/** The bookkeeping around the tool-calling agent of
    backend/graphs/copilot_agent.py: the policy tool's filters and source
    shaping, the tool-call counter guard, the continue/stop decision, the
    agent/tools loop, and the assembly of the final answer and the list of
    tools called. The language model, the tools' own effects and the search
    and rerank models are parameters. */
module CopilotAgent {
  import opened Base
  import opened Text
  import opened PyValue
  import opened Chunks
  import opened Rerank
  import AnswerGen

  type Dict = seq<(string, Value)>

  const MaxToolCalls: int := 6
  const PolicyTopK: int := 20
  const PolicyCandidateK: int := 30
  const PolicyRerankK: int := 5
  const MaxSourceSnippet: int := 300
  const EvidenceSources: int := 3

  // ---------------------------------------------------------------------
  // policy_tool

  /** The search filters: the organisation upper-cased and the policy type
      lower-cased, each only when given and non-empty. */
  function PolicyFilters(org: Option<string>, policyType: Option<string>): (f: Filters)
    ensures "org" in f <==> Truthy(org)
    ensures "policy_type" in f <==> Truthy(policyType)
    ensures Truthy(org) ==> f["org"] == Text(Upper(org.value))
    ensures Truthy(policyType) ==> f["policy_type"] == Text(Lower(policyType.value))
    ensures forall k :: k in f ==> k == "org" || k == "policy_type"
  {
    var byOrg: Filters := if Truthy(org) then map["org" := Text(Upper(org.value))] else map[];
    if Truthy(policyType) then byOrg["policy_type" := Text(Lower(policyType.value))] else byOrg
  }

  /** A source as the policy tool reports it. */
  datatype PolicySource = PolicySource(
    docName: string,
    org: string,
    policyType: Option<string>,
    page: Page,
    chunkIndex: Option<int>,
    score: Option<real>,
    snippet: string
  )

  /** The text a source's snippet is cut from: the chunk's `text` key, else its
      `snippet` key, else "". */
  function SnippetSource(c: Chunk): string {
    match c.text
    case Some(t) => t
    case None => c.snippet.GetOr("")
  }

  /** One reranked chunk as a source: missing names are "", a missing page is
      0, the rerank score wins over the search score, and the snippet is the
      first 300 characters of its text. */
  function SourceOf(c: Chunk): (s: PolicySource)
    ensures s.snippet <= SnippetSource(c)
    ensures |s.snippet| == Min(MaxSourceSnippet, |SnippetSource(c)|)
    ensures c.rerankScore.Some? ==> s.score == c.rerankScore
    ensures c.rerankScore.None? ==> s.score == c.score
    ensures c.page.None? ==> s.page == PageNo(0)
    ensures c.page.Some? ==> s.page == c.page.value
    ensures s.docName == c.docName.GetOr("") && s.org == c.org.GetOr("")
    ensures s.policyType == c.policyType && s.chunkIndex == c.chunkIndex
  {
    PolicySource(
      c.docName.GetOr(""),
      c.org.GetOr(""),
      c.policyType,
      c.page.GetOr(PageNo(0)),
      c.chunkIndex,
      if c.rerankScore.Some? then c.rerankScore else c.score,
      SliceTo(SnippetSource(c), MaxSourceSnippet))
  }

  function SourcesOf(chunks: seq<Chunk>): (r: seq<PolicySource>)
    ensures |r| == |chunks|
    ensures forall i :: 0 <= i < |chunks| ==> r[i] == SourceOf(chunks[i])
  {
    if |chunks| == 0 then [] else [SourceOf(chunks[0])] + SourcesOf(chunks[1..])
  }

  /** One line of evidence: "[org] doc (page p): snippet". */
  function EvidenceLine(s: PolicySource): string {
    "[" + s.org + "] " + s.docName + " (page " + AnswerGen.PageString(s.page) + "): " + s.snippet
  }

  /** The evidence lines, from the first three sources only. */
  function EvidenceLines(sources: seq<PolicySource>): (r: seq<string>)
    ensures |r| == Min(EvidenceSources, |sources|)
    ensures forall i :: 0 <= i < |r| ==> r[i] == EvidenceLine(sources[i])
  {
    var top := SliceTo(sources, EvidenceSources);
    seq(|top|, i requires 0 <= i < |top| => EvidenceLine(top[i]))
  }

  datatype PolicyToolOutput = PolicyToolOutput(answerHint: string, sources: seq<PolicySource>)

  function NoDocumentsHint(org: Option<string>): string {
    "No policy documents found for " + (if Truthy(org) then org.value else "any organization") + "."
  }

  function FoundHint(sources: seq<PolicySource>): (h: string)
    ensures StartsWith(h, "Found " + NatToString(|sources|) + " relevant policy excerpts:\n")
  {
    var head := "Found " + NatToString(|sources|) + " relevant policy excerpts:\n";
    var h := head + Join(EvidenceLines(sources), "\n\n");
    assert h[..|head|] == head;
    h
  }

  /** `policy_tool`. The search is the abstract search capability (the shown
      `hybrid_search` answers under a different key and signature). A reranker
      failure is an exception that escapes the tool. */
  function PolicyTool(question: string, org: Option<string>, policyType: Option<string>, search: SearchFn, scorer: Scorer): (r: Result<PolicyToolOutput>)
    ensures
      var found := search(question, PolicyTopK, PolicyCandidateK, PolicyFilters(org, policyType)).results;
      && (|found| == 0 ==> r == Success(PolicyToolOutput(NoDocumentsHint(org), [])))
      && (|found| > 0 ==> (r.Success? <==> RerankDocuments(question, found, PolicyRerankK, scorer).Success?))
      && (|found| > 0 && r.Success? ==> 0 < |r.value.sources| == Min(PolicyRerankK, |found|))
      && (|found| > 0 && r.Success? ==>
            r.value.sources == SourcesOf(RerankDocuments(question, found, PolicyRerankK, scorer).value)
            && r.value.answerHint == FoundHint(r.value.sources))
    ensures r.Success? ==> |r.value.sources| <= PolicyRerankK
    ensures r.Success? ==> forall i :: 0 <= i < |r.value.sources| ==> |r.value.sources[i].snippet| <= MaxSourceSnippet
    ensures r.Success? ==> forall i :: 0 <= i < |r.value.sources| ==> r.value.sources[i].score.Some?
    ensures r.Success? ==> forall i, j :: 0 <= i < j < |r.value.sources| ==>
      r.value.sources[i].score.value >= r.value.sources[j].score.value
  {
    var found := search(question, PolicyTopK, PolicyCandidateK, PolicyFilters(org, policyType)).results;
    if |found| == 0 then Success(PolicyToolOutput(NoDocumentsHint(org), []))
    else
      match RerankDocuments(question, found, PolicyRerankK, scorer)
      case Failure(e) => Failure(e)
      case Success(reranked) =>
        var sources := SourcesOf(reranked);
        Success(PolicyToolOutput(FoundHint(sources), sources))
  }

  /** With nothing found the reranker is never consulted. */
  lemma {:induction false} NothingFoundSkipsRerank(question: string, org: Option<string>, policyType: Option<string>, search: SearchFn, s1: Scorer, s2: Scorer)
    requires |search(question, PolicyTopK, PolicyCandidateK, PolicyFilters(org, policyType)).results| == 0
    ensures PolicyTool(question, org, policyType, search, s1) == PolicyTool(question, org, policyType, search, s2)
    ensures PolicyTool(question, org, policyType, search, s1).value.sources == []
  {
  }

  // ---------------------------------------------------------------------
  // Messages and the counter guard

  datatype ToolCall = ToolCall(name: string, args: Dict)

  /** The conversation. `SystemPrompt` stands for the fixed instructions the
      model is given before the conversation; their text is not modelled. */
  datatype Message =
    | SystemPrompt
    | Human(content: string)
    | AI(content: string, toolCalls: seq<ToolCall>)
    | ToolResult(name: string, content: string)

  /** What the model answers: text and the tool calls it asks for. */
  datatype Reply = Reply(content: string, toolCalls: seq<ToolCall>)

  /** The language model: any reply to any conversation. */
  type Llm = seq<Message> -> Reply

  /** A tool's result for one call. */
  type ToolRunner = ToolCall -> string

  datatype AgentState = AgentState(messages: seq<Message>, toolCallCount: int)

  /** A node's result: messages to append and the new counter. */
  datatype Update = Update(messages: seq<Message>, toolCallCount: int)

  const LimitMessage: string :=
    "I've reached my tool call limit. Please rephrase your question or provide more specific filters."

  /** The tool calls a message asks for. */
  function CallsOf(m: Message): seq<ToolCall> {
    if m.AI? then m.toolCalls else []
  }

  /** The names of all tool calls in a conversation, in order. */
  function ToolsCalled(messages: seq<Message>): seq<string> {
    if |messages| == 0 then []
    else
      var calls := CallsOf(messages[0]);
      seq(|calls|, i requires 0 <= i < |calls| => calls[i].name) + ToolsCalled(messages[1..])
  }

  lemma {:induction false} ToolsCalledAppend(a: seq<Message>, b: seq<Message>)
    ensures ToolsCalled(a + b) == ToolsCalled(a) + ToolsCalled(b)
  {
    if |a| == 0 {
      assert a + b == b;
    } else {
      assert (a + b)[1..] == a[1..] + b;
      ToolsCalledAppend(a[1..], b);
    }
  }

  lemma {:induction false} ToolsCalledOne(m: Message)
    ensures |ToolsCalled([m])| == |CallsOf(m)|
  {
    assert [m][1..] == [];
  }

  /** `call_model` as written: at or above the cap the model is not consulted
      and a fixed message comes back with the counter unchanged; otherwise the
      counter grows by the number of tool calls in the reply. */
  function CallModel(state: AgentState, llm: Llm): (u: Update)
    ensures |u.messages| == 1 && u.messages[0].AI?
    ensures u.toolCallCount == state.toolCallCount + |CallsOf(u.messages[0])|
    ensures state.toolCallCount >= MaxToolCalls ==> u.messages[0] == AI(LimitMessage, [])
    ensures state.toolCallCount < MaxToolCalls ==>
      CallsOf(u.messages[0]) == llm([SystemPrompt] + state.messages).toolCalls
  {
    if state.toolCallCount >= MaxToolCalls then Update([AI(LimitMessage, [])], state.toolCallCount)
    else
      var reply := llm([SystemPrompt] + state.messages);
      Update([AI(reply.content, reply.toolCalls)], state.toolCallCount + |reply.toolCalls|)
  }

  /** `call_model` with the cap enforced on the reply as well: only as many of
      the reply's tool calls are kept as the cap still allows. */
  function CallModelCapped(state: AgentState, llm: Llm): (u: Update)
    ensures |u.messages| == 1 && u.messages[0].AI?
    ensures u.toolCallCount == state.toolCallCount + |CallsOf(u.messages[0])|
    ensures state.toolCallCount >= MaxToolCalls ==> u.messages[0] == AI(LimitMessage, [])
    ensures state.toolCallCount < MaxToolCalls ==>
      CallsOf(u.messages[0]) <= llm([SystemPrompt] + state.messages).toolCalls
    ensures u.toolCallCount <= Max(MaxToolCalls, state.toolCallCount)
  {
    if state.toolCallCount >= MaxToolCalls then Update([AI(LimitMessage, [])], state.toolCallCount)
    else
      var reply := llm([SystemPrompt] + state.messages);
      var kept := SliceTo(reply.toolCalls, MaxToolCalls - state.toolCallCount);
      Update([AI(reply.content, kept)], state.toolCallCount + |kept|)
  }

  /** At the cap the answer does not depend on the model. */
  lemma {:induction false} CapSkipsModel(state: AgentState, llm1: Llm, llm2: Llm)
    requires state.toolCallCount >= MaxToolCalls
    ensures CallModel(state, llm1) == CallModel(state, llm2)
    ensures CallModelCapped(state, llm1) == CallModelCapped(state, llm2)
  {
  }

  /** LangGraph's message reducer appends; the counter is replaced. */
  function Apply(state: AgentState, u: Update): (s: AgentState)
    ensures state.messages <= s.messages
    ensures s.toolCallCount == u.toolCallCount
  {
    AgentState(state.messages + u.messages, u.toolCallCount)
  }

  datatype Next = Tools | End

  /** `should_continue`: on to the tools exactly when the last message asks for
      tool calls. */
  function ShouldContinue(state: AgentState): (n: Next)
    requires |state.messages| > 0
    ensures n == Tools <==> |CallsOf(state.messages[|state.messages| - 1])| > 0
  {
    var last := state.messages[|state.messages| - 1];
    if last.AI? && |last.toolCalls| > 0 then Tools else End
  }

  /** The tools node: one result message per call of the last message. */
  function RunTools(state: AgentState, runTool: ToolRunner): (s: AgentState)
    requires |state.messages| > 0
    ensures s.toolCallCount == state.toolCallCount
    ensures |s.messages| == |state.messages| + |CallsOf(state.messages[|state.messages| - 1])|
    ensures s.messages[..|state.messages|] == state.messages
    ensures ToolsCalled(s.messages) == ToolsCalled(state.messages)
  {
    var calls := CallsOf(state.messages[|state.messages| - 1]);
    var results := seq(|calls|, i requires 0 <= i < |calls| => ToolResult(calls[i].name, runTool(calls[i])));
    ToolsCalledAppend(state.messages, results);
    NoCallsInResults(results);
    assert (state.messages + results)[..|state.messages|] == state.messages;
    AgentState(state.messages + results, state.toolCallCount)
  }

  lemma {:induction false} NoCallsInResults(results: seq<Message>)
    requires forall i :: 0 <= i < |results| ==> results[i].ToolResult?
    ensures ToolsCalled(results) == []
  {
    if |results| > 0 {
      NoCallsInResults(results[1..]);
    }
  }

  /** One model step, as written or with the cap enforced on the reply. */
  function ModelStep(state: AgentState, llm: Llm, capped: bool): (u: Update)
    ensures |u.messages| == 1 && u.messages[0].AI?
    ensures u.toolCallCount == state.toolCallCount + |CallsOf(u.messages[0])|
    ensures state.toolCallCount >= MaxToolCalls ==> CallsOf(u.messages[0]) == []
    ensures capped ==> u.toolCallCount <= Max(MaxToolCalls, state.toolCallCount)
  {
    if capped then CallModelCapped(state, llm) else CallModel(state, llm)
  }

  /** The agent graph: the model node, then the tools node while the last
      message asks for tools, back to the model. Every round that goes on
      raises the counter, and at the cap the model node asks for no tools, so
      the loop ends. The counter keeps pace with the tool calls recorded. */
  function Run(state: AgentState, llm: Llm, runTool: ToolRunner, capped: bool): (r: AgentState)
    ensures state.messages <= r.messages
    ensures |r.messages| > |state.messages|
    ensures ShouldContinue(r) == End
    ensures r.toolCallCount - state.toolCallCount == |ToolsCalled(r.messages)| - |ToolsCalled(state.messages)|
    ensures capped ==> r.toolCallCount <= Max(MaxToolCalls, state.toolCallCount)
    decreases MaxToolCalls - state.toolCallCount
  {
    var u := ModelStep(state, llm, capped);
    var s1 := Apply(state, u);
    ToolsCalledAppend(state.messages, u.messages);
    ToolsCalledOne(u.messages[0]);
    assert s1.messages[|s1.messages| - 1] == u.messages[0];
    if ShouldContinue(s1) == End then s1
    else
      var s2 := RunTools(s1, runTool);
      PrefixTransitive(state.messages, s1.messages, s2.messages);
      var r := Run(s2, llm, runTool, capped);
      PrefixTransitive(state.messages, s2.messages, r.messages);
      r
  }

  /** With the cap enforced on each reply, a run from a fresh state records at
      most six tool calls. */
  lemma {:induction false} RunStaysWithinCap(question: string, llm: Llm, runTool: ToolRunner)
    ensures |ToolsCalled(Run(AgentState([Human(question)], 0), llm, runTool, true).messages)| <= MaxToolCalls
  {
    assert ToolsCalled([Human(question)]) == [] by {
      assert [Human(question)][1..] == [];
    }
  }

  /** A model that asks for four tools every time. */
  function FourCalls(conversation: seq<Message>): Reply {
    Reply("", [ToolCall("policy_tool", []), ToolCall("sql_totals_tool", []),
               ToolCall("sql_samples_tool", []), ToolCall("sql_duplicates_tool", [])])
  }

  function EmptyResult(call: ToolCall): string { "" }

  /** As written, the guard is only checked before a model call: the second
      reply of four calls takes the counter from 4 to 8, so eight tool calls
      are recorded, above the cap of six. */
  lemma {:induction false} OneReplyPassesCap()
    ensures |ToolsCalled(Run(AgentState([Human("q")], 0), FourCalls, EmptyResult, false).messages)| == 8
  {
    var s0 := AgentState([Human("q")], 0);
    assert ToolsCalled(s0.messages) == [] by { assert s0.messages[1..] == []; }
    var u1 := ModelStep(s0, FourCalls, false);
    assert u1.toolCallCount == 4;
    var s1 := RunTools(Apply(s0, u1), EmptyResult);
    assert s1.toolCallCount == 4;
    var u2 := ModelStep(s1, FourCalls, false);
    assert u2.toolCallCount == 8;
    var s2 := RunTools(Apply(s1, u2), EmptyResult);
    var u3 := ModelStep(s2, FourCalls, false);
    assert u3.toolCallCount == 8;
    var last := Run(s2, FourCalls, EmptyResult, false);
    assert last == Apply(s2, u3);
    assert Run(s1, FourCalls, EmptyResult, false) == last;
    assert Run(s0, FourCalls, EmptyResult, false) == last;
  }

  // ---------------------------------------------------------------------
  // run_agent

  /** `context.get(key)`. */
  function Lookup(context: Dict, key: string): Value {
    Get(context, key).GetOr(VNone)
  }

  /** The context keys the question is prefixed with, and their labels. */
  const ContextFields: seq<(string, string)> :=
    [("org", "Organization"), ("employee_id", "Employee ID"), ("case_id", "Case ID"), ("policy_type", "Policy Type")]

  /** The fields whose value in the context is truthy, in table order. */
  function Shown(context: Dict, fields: seq<(string, string)>): (r: seq<(string, string)>)
    ensures IsSubsequence(r, fields)
    ensures forall f :: f in r ==> f in fields && PyTruthy(Lookup(context, f.0))
    ensures forall f :: f in fields && PyTruthy(Lookup(context, f.0)) ==> f in r
  {
    if |fields| == 0 then []
    else if PyTruthy(Lookup(context, fields[0].0)) then
      var rest := Shown(context, fields[1..]);
      assert ([fields[0]] + rest)[1..] == rest;
      [fields[0]] + rest
    else Shown(context, fields[1..])
  }

  /** The "Label: value" line of one shown field. */
  function HeaderLine(context: Dict, field: (string, string)): string {
    field.1 + ": " + Str(Lookup(context, field.0)) + "\n"
  }

  /** One "Label: value" line per shown field, the first field's line first. */
  function HeaderLines(context: Dict, shown: seq<(string, string)>): (h: string)
    ensures |h| == 0 <==> |shown| == 0
    ensures |shown| > 0 ==> StartsWith(h, HeaderLine(context, shown[0]))
    ensures forall i :: 0 <= i < |shown| ==> Contains(h, HeaderLine(context, shown[i]))
  {
    if |shown| == 0 then ""
    else
      var line := HeaderLine(context, shown[0]);
      var rest := HeaderLines(context, shown[1..]);
      HeaderLinesExtend(context, shown, line, rest);
      line + rest
  }

  /** A line put before text holding the later fields' lines holds every field's line. */
  lemma {:induction false} HeaderLinesExtend(context: Dict, shown: seq<(string, string)>, line: string, rest: string)
    requires |shown| > 0 && line == HeaderLine(context, shown[0])
    requires forall i :: 1 <= i < |shown| ==> Contains(rest, HeaderLine(context, shown[i]))
    ensures StartsWith(line + rest, line)
    ensures forall i :: 0 <= i < |shown| ==> Contains(line + rest, HeaderLine(context, shown[i]))
  {
    var lines := seq(|shown|, i requires 0 <= i < |shown| => HeaderLine(context, shown[i]));
    assert forall i :: 1 <= i < |lines| ==> Contains(rest, lines[i]);
    PrependKeepsContains(line, rest, lines);
    assert forall i :: 0 <= i < |shown| ==> lines[i] == HeaderLine(context, shown[i]);
  }

  function ContextHeader(context: Dict): string {
    HeaderLines(context, Shown(context, ContextFields))
  }

  /** The question sent to the agent: unchanged when no context field is
      truthy, otherwise after the header and a blank line. */
  function FullQuestion(question: string, context: Dict): (q: string)
    ensures |Shown(context, ContextFields)| == 0 ==> q == question
    ensures |Shown(context, ContextFields)| > 0 ==> q == ContextHeader(context) + "\nQuestion: " + question
  {
    var header := ContextHeader(context);
    if header != "" then header + "\nQuestion: " + question else question
  }

  /** The content of the last model message with non-empty content, or "". */
  function LastAnswer(messages: seq<Message>): (a: string)
    ensures a != "" ==> exists i :: (0 <= i < |messages| && messages[i].AI? && messages[i].content == a
                                     && forall j :: i < j < |messages| && messages[j].AI? ==> messages[j].content == "")
    ensures a == "" ==> forall i :: 0 <= i < |messages| && messages[i].AI? ==> messages[i].content == ""
  {
    if |messages| == 0 then ""
    else
      var last := messages[|messages| - 1];
      if last.AI? && last.content != "" then last.content
      else
        var a := LastAnswer(messages[..|messages| - 1]);
        assert forall i :: 0 <= i < |messages| - 1 ==> messages[..|messages| - 1][i] == messages[i];
        a
  }

  /** Some model message has non-empty content. */
  ghost predicate HasAnswer(messages: seq<Message>) {
    exists i :: 0 <= i < |messages| && messages[i].AI? && messages[i].content != ""
  }

  /** `a` is the content of the last model message whose content is non-empty:
      what the reversed scan in `run_agent` stops at. */
  ghost predicate IsLastAnswer(messages: seq<Message>, a: string) {
    exists i :: 0 <= i < |messages| && messages[i].AI? && messages[i].content == a && a != ""
      && forall j :: i < j < |messages| && messages[j].AI? ==> messages[j].content == ""
  }

  const NoAnswer: string := "I couldn't generate an answer. Please try rephrasing your question."

  /** What `run_agent` hands back, without the tool-message parsing. */
  datatype AgentOutcome = AgentOutcome(answer: string, toolsCalled: seq<string>)

  /** `run_agent`: a fresh state holding the question, the model and tools
      loop as written, then the final answer and the tools called. The number
      of tools called is the graph's own counter, which the cap does not bound
      (`OneReplyPassesCap`). */
  function RunAgent(question: string, context: Dict, llm: Llm, runTool: ToolRunner): (r: AgentOutcome)
    ensures r.answer != ""
    ensures
      var final := Run(AgentState([Human(FullQuestion(question, context))], 0), llm, runTool, false);
      && r.toolsCalled == ToolsCalled(final.messages)
      && |r.toolsCalled| == final.toolCallCount
      && (r.answer == NoAnswer || exists i :: 0 <= i < |final.messages| && final.messages[i].AI? && final.messages[i].content == r.answer)
      && (HasAnswer(final.messages) ==> IsLastAnswer(final.messages, r.answer))
      && (!HasAnswer(final.messages) ==> r.answer == NoAnswer)
  {
    var start := AgentState([Human(FullQuestion(question, context))], 0);
    FreshStateCallsNothing(start.messages[0]);
    Outcome(Run(start, llm, runTool, false))
  }

  /** `run_agent` over the corrected model step: as `RunAgent`, and at most six
      tools are called. */
  function RunAgentCapped(question: string, context: Dict, llm: Llm, runTool: ToolRunner): (r: AgentOutcome)
    ensures r.answer != ""
    ensures |r.toolsCalled| <= MaxToolCalls
    ensures
      var final := Run(AgentState([Human(FullQuestion(question, context))], 0), llm, runTool, true);
      && r.toolsCalled == ToolsCalled(final.messages)
      && |r.toolsCalled| == final.toolCallCount
      && (r.answer == NoAnswer || exists i :: 0 <= i < |final.messages| && final.messages[i].AI? && final.messages[i].content == r.answer)
      && (HasAnswer(final.messages) ==> IsLastAnswer(final.messages, r.answer))
      && (!HasAnswer(final.messages) ==> r.answer == NoAnswer)
  {
    var start := AgentState([Human(FullQuestion(question, context))], 0);
    FreshStateCallsNothing(start.messages[0]);
    RunStaysWithinCap(FullQuestion(question, context), llm, runTool);
    Outcome(Run(start, llm, runTool, true))
  }

  /** The answer and the tools called of a finished conversation: the last
      model answer, or the fallback text when there is none. */
  function Outcome(final: AgentState): (r: AgentOutcome)
    ensures r.answer != ""
    ensures r.toolsCalled == ToolsCalled(final.messages)
    ensures r.answer == NoAnswer || exists i :: 0 <= i < |final.messages| && final.messages[i].AI? && final.messages[i].content == r.answer
    ensures (forall i :: 0 <= i < |final.messages| && final.messages[i].AI? ==> final.messages[i].content == "") ==> r.answer == NoAnswer
    ensures HasAnswer(final.messages) ==> IsLastAnswer(final.messages, r.answer)
    ensures !HasAnswer(final.messages) ==> r.answer == NoAnswer
  {
    var answer := LastAnswer(final.messages);
    AgentOutcome(if answer != "" then answer else NoAnswer, ToolsCalled(final.messages))
  }

  /** The question alone calls no tool. */
  lemma {:induction false} FreshStateCallsNothing(m: Message)
    requires m.Human?
    ensures ToolsCalled([m]) == []
  {
    assert [m][1..] == [];
  }
}

=== FILE: copilot_route.dfy ===
/** The `/answer` endpoint of backend/app/routes/copilot.py: the agent's
    context built from the request, the routing flags, the conversion of
    policy sources, and the detection of a clarifying follow-up question. The
    agent is a parameter. */
module CopilotRoute {
  import opened Base
  import opened Text
  import opened PyValue
  import CopilotAgent

  type Dict = seq<(string, Value)>

  /** What the agent returns to the endpoint. */
  datatype AgentResult = AgentResult(
    answer: string,
    toolsCalled: seq<string>,
    policySources: seq<Dict>,
    sqlResults: Dict,
    warnings: seq<string>
  )

  type Agent = (string, Dict) -> AgentResult

  /** The context entries: each request parameter only when truthy, in the
      order org, employee_id, case_id, policy_type, debug. */
  function RequestContext(org: Option<string>, employeeId: Option<string>, caseId: Option<string>, policyType: Option<string>, debug: bool): (c: Dict)
    ensures Keys(c) == Present("org", org) + (Present("employee_id", employeeId) + (Present("case_id", caseId)
                       + Present("policy_type", policyType))) + (if debug then ["debug"] else [])
  {
    var p := Parameters(org, employeeId, caseId, policyType);
    KeysAppend(p, DebugEntry(debug));
    p + DebugEntry(debug)
  }

  /** The four string parameters' entries. */
  function Parameters(org: Option<string>, employeeId: Option<string>, caseId: Option<string>, policyType: Option<string>): (p: Dict)
    ensures Keys(p) == Present("org", org) + (Present("employee_id", employeeId) + (Present("case_id", caseId) + Present("policy_type", policyType)))
  {
    var t2 := Entry("case_id", caseId) + Entry("policy_type", policyType);
    var t1 := Entry("employee_id", employeeId) + t2;
    KeysAppend(Entry("case_id", caseId), Entry("policy_type", policyType));
    KeysAppend(Entry("employee_id", employeeId), t2);
    KeysAppend(Entry("org", org), t1);
    Entry("org", org) + t1
  }

  /** The key a string parameter contributes: present only when truthy. */
  function Present(key: string, v: Option<string>): seq<string> {
    if Truthy(v) then [key] else []
  }

  /** A string parameter's entry, present only when truthy. */
  function Entry(key: string, v: Option<string>): (e: Dict)
    ensures Keys(e) == Present(key, v)
  {
    if Truthy(v) then [(key, VStr(v.value))] else []
  }

  function DebugEntry(debug: bool): (e: Dict)
    ensures Keys(e) == (if debug then ["debug"] else [])
  {
    if debug then [("debug", VBool(true))] else []
  }

  lemma {:induction false} KeysAppend<A, B>(a: seq<(A, B)>, b: seq<(A, B)>)
    ensures Keys(a + b) == Keys(a) + Keys(b)
  {
    assert |Keys(a + b)| == |Keys(a) + Keys(b)|;
    forall i | 0 <= i < |a + b| ensures Keys(a + b)[i] == (Keys(a) + Keys(b))[i] {
      if i < |a| {
        assert (a + b)[i] == a[i];
      } else {
        assert (a + b)[i] == b[i - |a|];
      }
    }
  }

  /** Entries appended after a dict do not change the lookup of a key they
      do not hold. */
  lemma {:induction false} GetAppendMissing(a: Dict, b: Dict, k: string)
    requires k !in Keys(b)
    ensures Get(a + b, k) == Get(a, k)
  {
    if |a| == 0 {
      assert a + b == b;
    } else {
      assert (a + b)[1..] == a[1..] + b;
      GetAppendMissing(a[1..], b, k);
    }
  }

  /** A lookup through one parameter's entry: its value when the key matches
      and the parameter is truthy, otherwise the lookup in what follows. */
  lemma {:induction false} GetThroughEntry(key: string, v: Option<string>, rest: Dict, k: string)
    ensures Get(Entry(key, v) + rest, k) == if k == key && Truthy(v) then Some(VStr(v.value)) else Get(rest, k)
  {
    if Truthy(v) {
      assert (Entry(key, v) + rest)[1..] == rest;
    } else {
      assert Entry(key, v) + rest == rest;
    }
  }

  /** A lookup in the four parameter entries finds the parameter of that
      name when it is truthy, and nothing otherwise. */
  lemma {:induction false} ParametersGet(org: Option<string>, employeeId: Option<string>, caseId: Option<string>, policyType: Option<string>, k: string)
    ensures Get(Parameters(org, employeeId, caseId, policyType), k) ==
      if k == "org" && Truthy(org) then Some(VStr(org.value))
      else if k == "employee_id" && Truthy(employeeId) then Some(VStr(employeeId.value))
      else if k == "case_id" && Truthy(caseId) then Some(VStr(caseId.value))
      else if k == "policy_type" && Truthy(policyType) then Some(VStr(policyType.value))
      else None
  {
    var t2 := Entry("case_id", caseId) + Entry("policy_type", policyType);
    var t1 := Entry("employee_id", employeeId) + t2;
    GetThroughEntry("org", org, t1, k);
    GetThroughEntry("employee_id", employeeId, t2, k);
    GetThroughEntry("case_id", caseId, Entry("policy_type", policyType), k);
    assert Entry("policy_type", policyType) == Entry("policy_type", policyType) + [];
    GetThroughEntry("policy_type", policyType, [], k);
  }

  /** What the agent reads back from the context is exactly the request's
      truthy parameters: a string parameter's value when truthy, `None`
      otherwise. */
  lemma {:induction false} ContextLookups(org: Option<string>, employeeId: Option<string>, caseId: Option<string>, policyType: Option<string>, debug: bool, k: string)
    requires k != "debug"
    ensures CopilotAgent.Lookup(RequestContext(org, employeeId, caseId, policyType, debug), k) ==
      if k == "org" && Truthy(org) then VStr(org.value)
      else if k == "employee_id" && Truthy(employeeId) then VStr(employeeId.value)
      else if k == "case_id" && Truthy(caseId) then VStr(caseId.value)
      else if k == "policy_type" && Truthy(policyType) then VStr(policyType.value)
      else VNone
  {
    GetAppendMissing(Parameters(org, employeeId, caseId, policyType), DebugEntry(debug), k);
    ParametersGet(org, employeeId, caseId, policyType, k);
  }

  const SqlToolNames: seq<string> := ["sql_totals_tool", "sql_samples_tool", "sql_timeline_tool", "sql_duplicates_tool"]

  datatype Routing = Routing(usedPolicy: bool, usedSql: bool, toolsCalled: seq<string>)

  /** Whether any of `names` was called. */
  function AnyCalled(names: seq<string>, called: seq<string>): (b: bool)
    ensures b <==> exists i :: 0 <= i < |names| && names[i] in called
  {
    |names| > 0 && (names[0] in called || AnyCalled(names[1..], called))
  }

  /** The routing flags: the policy tool's and the four SQL tools' presence in
      the list of tools called, which passes through unchanged. */
  function RoutingOf(toolsCalled: seq<string>): (r: Routing)
    ensures r.usedPolicy <==> "policy_tool" in toolsCalled
    ensures r.usedSql <==> exists i :: 0 <= i < |SqlToolNames| && SqlToolNames[i] in toolsCalled
    ensures r.toolsCalled == toolsCalled
  {
    Routing("policy_tool" in toolsCalled, AnyCalled(SqlToolNames, toolsCalled), toolsCalled)
  }

  datatype PolicySourceOut = PolicySourceOut(
    docName: Value,
    org: Value,
    policyType: Value,
    page: Value,
    chunkIndex: Value,
    score: Value,
    snippet: Value
  )

  /** `d.get(key, default)`. */
  function GetOr(d: Dict, key: string, default: Value): (v: Value)
    ensures key in Keys(d) ==> Some(v) == Get(d, key)
    ensures key !in Keys(d) ==> v == default
  {
    Get(d, key).GetOr(default)
  }

  /** A policy source: the snippet falls back from `snippet` to `text_snippet`
      to "", the page defaults to 0 and the names to "". */
  function PolicySourceOf(src: Dict): (p: PolicySourceOut)
    ensures "snippet" in Keys(src) ==> Some(p.snippet) == Get(src, "snippet")
    ensures "snippet" !in Keys(src) && "text_snippet" in Keys(src) ==> Some(p.snippet) == Get(src, "text_snippet")
    ensures "snippet" !in Keys(src) && "text_snippet" !in Keys(src) ==> p.snippet == VStr("")
    ensures "page" !in Keys(src) ==> p.page == VInt(0)
    ensures "doc_name" !in Keys(src) ==> p.docName == VStr("")
    ensures "org" !in Keys(src) ==> p.org == VStr("")
    ensures "policy_type" !in Keys(src) ==> p.policyType == VNone
    ensures "page" in Keys(src) ==> Some(p.page) == Get(src, "page")
    ensures "doc_name" in Keys(src) ==> Some(p.docName) == Get(src, "doc_name")
    ensures "org" in Keys(src) ==> Some(p.org) == Get(src, "org")
    ensures "policy_type" in Keys(src) ==> Some(p.policyType) == Get(src, "policy_type")
    ensures p.chunkIndex == GetOr(src, "chunk_index", VNone)
    ensures p.score == GetOr(src, "score", VNone)
  {
    PolicySourceOut(
      GetOr(src, "doc_name", VStr("")),
      GetOr(src, "org", VStr("")),
      GetOr(src, "policy_type", VNone),
      GetOr(src, "page", VInt(0)),
      GetOr(src, "chunk_index", VNone),
      GetOr(src, "score", VNone),
      GetOr(src, "snippet", GetOr(src, "text_snippet", VStr(""))))
  }

  /** A source dict as the policy tool writes it: all seven keys, in order. */
  function ToolSourceDict(docName: Value, org: Value, policyType: Value, page: Value,
                          chunkIndex: Value, score: Value, snippet: Value): Dict {
    [("doc_name", docName), ("org", org), ("policy_type", policyType), ("page", page),
     ("chunk_index", chunkIndex), ("score", score), ("snippet", snippet)]
  }

  /** A source as the policy tool writes it converts back to exactly the
      values it carries. */
  lemma {:induction false} PolicySourceOfToolDict(docName: Value, org: Value, policyType: Value, page: Value,
                                                  chunkIndex: Value, score: Value, snippet: Value)
    ensures PolicySourceOf(ToolSourceDict(docName, org, policyType, page, chunkIndex, score, snippet))
            == PolicySourceOut(docName, org, policyType, page, chunkIndex, score, snippet)
  {
    var src := ToolSourceDict(docName, org, policyType, page, chunkIndex, score, snippet);
    ToolSourceLookups(docName, org, policyType, page, chunkIndex, score, snippet);
    PolicySourceOfLookups(src, docName, org, policyType, page, chunkIndex, score, snippet);
  }

  /** Each key of the tool's dict finds its own value. */
  lemma {:induction false} ToolSourceLookups(docName: Value, org: Value, policyType: Value, page: Value,
                                             chunkIndex: Value, score: Value, snippet: Value)
    ensures var src := ToolSourceDict(docName, org, policyType, page, chunkIndex, score, snippet);
      && Get(src, "doc_name") == Some(docName) && Get(src, "org") == Some(org)
      && Get(src, "policy_type") == Some(policyType) && Get(src, "page") == Some(page)
      && Get(src, "chunk_index") == Some(chunkIndex) && Get(src, "score") == Some(score)
      && Get(src, "snippet") == Some(snippet)
  {
    var t6: Dict := [("snippet", snippet)];
    var t5 := [("score", score)] + t6;
    var t4 := [("chunk_index", chunkIndex)] + t5;
    var t3 := [("page", page)] + t4;
    var t2 := [("policy_type", policyType)] + t3;
    var t1 := [("org", org)] + t2;
    assert ToolSourceDict(docName, org, policyType, page, chunkIndex, score, snippet) == [("doc_name", docName)] + t1;
    // each key steps past the entries before its own
    GetCons("doc_name", docName, t1, "doc_name");
    GetCons("doc_name", docName, t1, "org"); GetCons("org", org, t2, "org");
    GetCons("doc_name", docName, t1, "policy_type"); GetCons("org", org, t2, "policy_type"); GetCons("policy_type", policyType, t3, "policy_type");
    GetCons("doc_name", docName, t1, "page"); GetCons("org", org, t2, "page"); GetCons("policy_type", policyType, t3, "page"); GetCons("page", page, t4, "page");
    GetCons("doc_name", docName, t1, "chunk_index"); GetCons("org", org, t2, "chunk_index"); GetCons("policy_type", policyType, t3, "chunk_index"); GetCons("page", page, t4, "chunk_index"); GetCons("chunk_index", chunkIndex, t5, "chunk_index");
    GetCons("doc_name", docName, t1, "score"); GetCons("org", org, t2, "score"); GetCons("policy_type", policyType, t3, "score"); GetCons("page", page, t4, "score"); GetCons("chunk_index", chunkIndex, t5, "score"); GetCons("score", score, t6, "score");
    GetCons("doc_name", docName, t1, "snippet"); GetCons("org", org, t2, "snippet"); GetCons("policy_type", policyType, t3, "snippet"); GetCons("page", page, t4, "snippet"); GetCons("chunk_index", chunkIndex, t5, "snippet"); GetCons("score", score, t6, "snippet"); GetCons("snippet", snippet, [], "snippet");
  }

  /** A dict whose seven keys are all present converts to their values. */
  lemma {:induction false} PolicySourceOfLookups(src: Dict, docName: Value, org: Value, policyType: Value, page: Value,
                                                 chunkIndex: Value, score: Value, snippet: Value)
    requires Get(src, "doc_name") == Some(docName) && Get(src, "org") == Some(org)
    requires Get(src, "policy_type") == Some(policyType) && Get(src, "page") == Some(page)
    requires Get(src, "chunk_index") == Some(chunkIndex) && Get(src, "score") == Some(score)
    requires Get(src, "snippet") == Some(snippet)
    ensures PolicySourceOf(src) == PolicySourceOut(docName, org, policyType, page, chunkIndex, score, snippet)
  {
  }

  const FollowUpPhrases: seq<string> :=
    ["which employee", "what employee", "who are you asking about",
     "which case", "what case", "case id", "employee id",
     "need to know", "can you specify", "can you provide"]

  /** Whether any of `phrases` occurs in `text`. */
  function AnyOccurs(phrases: seq<string>, text: string): (b: bool)
    ensures b <==> exists i :: 0 <= i < |phrases| && Contains(text, phrases[i])
  {
    |phrases| > 0 && (Contains(text, phrases[0]) || AnyOccurs(phrases[1..], text))
  }

  /** The answer is a follow-up question exactly when its lower-cased text
      holds one of the phrases. */
  function FollowUp(answer: string): (r: Option<string>)
    ensures r.Some? <==> exists i :: 0 <= i < |FollowUpPhrases| && Contains(Lower(answer), FollowUpPhrases[i])
    ensures r.Some? ==> r.value == answer
  {
    if AnyOccurs(FollowUpPhrases, Lower(answer)) then Some(answer) else None
  }

  datatype SqlResults = SqlResults(totals: Option<Value>, samples: Option<Value>, timeline: Option<Value>, duplicates: Option<Value>)

  datatype CopilotResponse = CopilotResponse(
    answer: string,
    routing: Routing,
    policySources: seq<PolicySourceOut>,
    sqlResults: SqlResults,
    followUp: Option<string>,
    warnings: seq<string>
  )

  function PolicySourcesOf(srcs: seq<Dict>): (r: seq<PolicySourceOut>)
    ensures |r| == |srcs|
    ensures forall i :: 0 <= i < |srcs| ==> r[i] == PolicySourceOf(srcs[i])
  {
    if |srcs| == 0 then [] else [PolicySourceOf(srcs[0])] + PolicySourcesOf(srcs[1..])
  }

  /** `copilot_answer`: the agent runs once on the question and the context of
      truthy parameters; the answer, tools called and warnings pass through. */
  function CopilotAnswer(q: string, org: Option<string>, employeeId: Option<string>, caseId: Option<string>,
                         policyType: Option<string>, debug: bool, agent: Agent): (r: CopilotResponse)
    ensures var result := agent(q, RequestContext(org, employeeId, caseId, policyType, debug));
      && r.answer == result.answer
      && r.routing == RoutingOf(result.toolsCalled)
      && |r.policySources| == |result.policySources|
      && r.warnings == result.warnings
      && (r.followUp.Some? ==> r.followUp.value == result.answer)
      && r.followUp == FollowUp(result.answer)
      && r.policySources == PolicySourcesOf(result.policySources)
      && r.sqlResults.totals == Get(result.sqlResults, "totals")
      && r.sqlResults.samples == Get(result.sqlResults, "samples")
      && r.sqlResults.timeline == Get(result.sqlResults, "timeline")
      && r.sqlResults.duplicates == Get(result.sqlResults, "duplicates")
  {
    var result := agent(q, RequestContext(org, employeeId, caseId, policyType, debug));
    CopilotResponse(
      result.answer,
      RoutingOf(result.toolsCalled),
      PolicySourcesOf(result.policySources),
      SqlResults(Get(result.sqlResults, "totals"), Get(result.sqlResults, "samples"),
                 Get(result.sqlResults, "timeline"), Get(result.sqlResults, "duplicates")),
      FollowUp(result.answer),
      result.warnings)
  }
}

=== FILE: decimal.dfy ===
/** Python's `Decimal(text).quantize(Decimal('0.01'))` in the default context:
    the text is parsed exactly, then rounded half-even to two places; a result
    with more than 28 significant digits, text that is not a number, and an
    infinity raise `InvalidOperation`, which is `None` here. Only finite
    numbers are modelled: a quiet NaN also gives `None`. */
module Decimals {
  import opened Base
  import opened Text
  import opened PyValue

  function Pow10(n: nat): (r: nat)
    ensures r > 0
  {
    if n == 0 then 1 else 10 * Pow10(n - 1)
  }

  /** The default context's precision: 28 significant digits. */
  const Precision: nat := 28

  /** The number of decimal digits at the start of `s`. */
  function DigitPrefix(s: string): (n: nat)
    ensures n <= |s|
    ensures forall i :: 0 <= i < n ==> IsDigit(s[i])
    ensures n < |s| ==> !IsDigit(s[n])
  {
    if |s| > 0 && IsDigit(s[0]) then 1 + DigitPrefix(s[1..]) else 0
  }

  predicate AllDigits(s: string) {
    forall i :: 0 <= i < |s| ==> IsDigit(s[i])
  }

  /** A finite decimal number as written: `(-1)^negative * coefficient * 10^exponent`. */
  datatype DecimalLiteral = DecimalLiteral(negative: bool, coefficient: nat, exponent: int)

  /** The exponent part `[eE][+-]digits`, or nothing at all. */
  function ParseExponent(s: string): (r: Option<int>)
    ensures |s| == 0 ==> r == Some(0)
    ensures |s| > 0 && s[0] != 'e' && s[0] != 'E' ==> r.None?
  {
    if |s| == 0 then Some(0)
    else if s[0] != 'e' && s[0] != 'E' then None
    else
      var t := s[1..];
      var negative := |t| > 0 && t[0] == '-';
      var digits := if |t| > 0 && (t[0] == '-' || t[0] == '+') then t[1..] else t;
      if |digits| == 0 || DigitPrefix(digits) != |digits| then None
      else Some(if negative then -(DigitsValue(digits) as int) else DigitsValue(digits))
  }

  /** An unsigned number: digits, an optional point and fraction digits, at
      least one digit in all, then an optional exponent. */
  function ParseUnsigned(s: string, negative: bool): (r: Option<DecimalLiteral>)
    ensures r.Some? ==> r.value.negative == negative
    ensures |s| == 0 ==> r.None?
  {
    var i := DigitPrefix(s);
    var intPart := s[..i];
    var after := s[i..];
    var hasPoint := |after| > 0 && after[0] == '.';
    var f := if hasPoint then DigitPrefix(after[1..]) else 0;
    var frac := if hasPoint then after[1..][..f] else "";
    var tail := if hasPoint then after[1..][f..] else after;
    if |intPart| + |frac| == 0 then None
    else
      assert AllDigits(intPart + frac) by {
        assert forall k :: 0 <= k < |intPart + frac| ==>
          (intPart + frac)[k] == if k < |intPart| then intPart[k] else frac[k - |intPart|];
      }
      match ParseExponent(tail)
      case None => None
      case Some(e) => Some(DecimalLiteral(negative, DigitsValue(intPart + frac), e - |frac|))
  }

  predicate IsUnderscore(c: char) {
    c == '_'
  }

  /** The text `Decimal` reads: the stripped text with every underscore
      dropped. CPython's `decimal` drops them wherever they stand, without the
      grouping rules of numeric literals, so "1_000" and "1__000" are both 1000. */
  function NumericText(text: string): (t: string)
    ensures forall i :: 0 <= i < |t| ==> t[i] != '_'
  {
    Without(Strip(text), IsUnderscore)
  }

  /** `Decimal(text)` for finite numbers: surrounding whitespace is ignored,
      underscores are dropped and one sign may lead. Anything that is not a
      finite number gives `None`: "Infinity" and "sNaN" make `quantize` raise,
      so `None` is the right outcome for them; a quiet "NaN", which `quantize`
      passes through, is outside the value domain of this model. */
  function ParseDecimal(text: string): (r: Option<DecimalLiteral>)
    ensures Strip(text) == "" ==> r.None?
    ensures r.Some? ==> |NumericText(text)| > 0 && (r.value.negative <==> NumericText(text)[0] == '-')
  {
    var s := NumericText(text);
    var negative := |s| > 0 && s[0] == '-';
    var body := if |s| > 0 && (s[0] == '-' || s[0] == '+') then s[1..] else s;
    ParseUnsigned(body, negative)
  }

  /** `c / q` rounded to the nearest integer, ties to the even one. */
  function RoundHalfEven(c: nat, q: nat): (u: nat)
    requires q > 0
    ensures -(q as int) <= 2 * (c - u * q) <= q
    ensures (2 * (c - u * q) == q || 2 * (c - u * q) == -(q as int)) ==> u % 2 == 0
  {
    var d, r := c / q, c % q;
    assert c - d * q == r;
    assert c - (d + 1) * q == r - q;
    if 2 * r < q then d
    else if 2 * r > q then d + 1
    else if d % 2 == 0 then d
    else d + 1
  }

  /** `quantize(Decimal('0.01'))`: the number in cents, exact when the literal
      has at most two places and rounded half-even otherwise; the sign is kept,
      even on a zero. More than 28 digits in the result is an error. */
  function Quantize(lit: DecimalLiteral): (r: Option<Decimal2>)
    ensures r.Some? ==> r.value.negative == lit.negative && r.value.units < Pow10(Precision)
    ensures lit.exponent >= -2 ==>
      (r.Some? <==> lit.coefficient * Pow10(lit.exponent + 2) < Pow10(Precision))
    ensures lit.exponent >= -2 && r.Some? ==> r.value.units == lit.coefficient * Pow10(lit.exponent + 2)
    ensures lit.exponent < -2 && r.Some? ==>
      var q := Pow10(-2 - lit.exponent);
      -(q as int) <= 2 * (lit.coefficient - r.value.units * q) <= q
  {
    var units :=
      if lit.exponent >= -2 then lit.coefficient * Pow10(lit.exponent + 2)
      else RoundHalfEven(lit.coefficient, Pow10(-2 - lit.exponent));
    if units >= Pow10(Precision) then None else Some(Decimal2(lit.negative, units))
  }

  /** Texts that read as the same numeric text quantize alike. */
  lemma {:induction false} SameNumericTextSameAmount(a: string, b: string)
    requires NumericText(a) == NumericText(b)
    ensures QuantizedDecimal(a) == QuantizedDecimal(b)
  {
  }

  /** `Decimal(text).quantize(Decimal('0.01'))`, `None` where it raises. */
  function QuantizedDecimal(text: string): (r: Option<Decimal2>)
    ensures Strip(text) == "" ==> r.None?
    ensures r.Some? ==> r.value.units < Pow10(Precision)
  {
    match ParseDecimal(text)
    case None => None
    case Some(lit) => Quantize(lit)
  }

  // Digit strings

  lemma {:induction false} DigitsValueAppend(x: string, y: string)
    requires AllDigits(x) && AllDigits(y)
    ensures AllDigits(x + y)
    ensures DigitsValue(x + y) == DigitsValue(x) * Pow10(|y|) + DigitsValue(y)
    decreases |y|
  {
    var xy := x + y;
    assert AllDigits(xy) by {
      assert forall k :: 0 <= k < |xy| ==> xy[k] == if k < |x| then x[k] else y[k - |x|];
    }
    if |y| == 0 {
      assert xy == x;
    } else {
      var y' := y[..|y| - 1];
      assert xy[..|xy| - 1] == x + y';
      assert AllDigits(y');
      DigitsValueAppend(x, y');
      var last := y[|y| - 1] as int - '0' as int;
      assert DigitsValue(y) == DigitsValue(y') * 10 + last;
      assert xy[|xy| - 1] == y[|y| - 1];
      assert DigitsValue(xy) == DigitsValue(x + y') * 10 + last;
      assert Pow10(|y|) == 10 * Pow10(|y'|);
      ShiftDigit(DigitsValue(x), Pow10(|y'|), DigitsValue(y'), last);
    }
  }

  lemma {:induction false} ShiftDigit(a: int, p: int, b: int, last: int)
    ensures (a * p + b) * 10 + last == a * (10 * p) + (b * 10 + last)
  {
  }

  lemma {:induction false} DigitsValueOfZeros(n: nat)
    ensures AllDigits(seq(n, _ => '0'))
    ensures DigitsValue(seq(n, _ => '0')) == 0
  {
    var z := seq(n, _ => '0');
    if n > 0 {
      assert z[..n - 1] == seq(n - 1, _ => '0');
      DigitsValueOfZeros(n - 1);
    }
  }

  lemma {:induction false} NatToStringShort(n: nat, k: nat)
    requires n < Pow10(k)
    ensures |NatToString(n)| <= Max(k, 1)
  {
    if n >= 10 {
      assert Pow10(0) == 1 && Pow10(1) == 10;
      assert k >= 2;
      NatToStringShort(n / 10, k - 1);
    }
  }

  /** Zero-padding does not change the value, and a number below 10^width fills exactly `width` digits. */
  lemma {:induction false} PadNatValue(n: nat, width: nat)
    ensures DigitsValue(PadNat(n, width)) == n
    ensures width > 0 && n < Pow10(width) ==> |PadNat(n, width)| == width
  {
    var d := NatToString(n);
    NatToStringRoundTrip(n);
    if |d| < width {
      var z := seq(width - |d|, _ => '0');
      DigitsValueOfZeros(width - |d|);
      DigitsValueAppend(z, d);
    }
    if width > 0 && n < Pow10(width) {
      NatToStringShort(n, width);
    }
  }

  lemma {:induction false} DigitPrefixOfDigits(x: string, y: string)
    requires AllDigits(x)
    requires |y| == 0 || !IsDigit(y[0])
    ensures DigitPrefix(x + y) == |x|
    decreases |x|
  {
    if |x| > 0 {
      assert (x + y)[1..] == x[1..] + y;
      DigitPrefixOfDigits(x[1..], y);
    } else {
      assert x + y == y;
    }
  }

  /** The text of a whole number parses to that number with exponent 0. */
  lemma {:induction false} NatTextParses(n: nat, negative: bool)
    ensures ParseUnsigned(NatToString(n), negative) == Some(DecimalLiteral(negative, n, 0))
  {
    var a := NatToString(n);
    DigitPrefixOfDigits(a, "");
    assert a + "" == a;
    assert a[..|a|] == a;
    NatToStringRoundTrip(n);
    assert a + "" == a;
  }

  /** The text `A.BB` of a two-place amount parses back to its cents with exponent -2. */
  lemma {:induction false} CentsTextParses(units: nat, negative: bool)
    ensures ParseUnsigned(NatToString(units / 100) + "." + PadNat(units % 100, 2), negative)
      == Some(DecimalLiteral(negative, units, -2))
  {
    var a := NatToString(units / 100);
    var b := PadNat(units % 100, 2);
    PadNatValue(units % 100, 2);
    assert |b| == 2;
    var s := a + "." + b;
    assert s == a + ("." + b);
    DigitPrefixOfDigits(a, "." + b);
    assert s[..|a|] == a && s[|a|..] == "." + b;
    assert ("." + b)[1..] == b;
    DigitPrefixOfDigits(b, "");
    assert b + "" == b && b[..2] == b && b[2..] == "";
    DigitsValueAppend(a, b);
    NatToStringRoundTrip(units / 100);
    assert DigitsValue(a + b) == (units / 100) * 100 + units % 100;
  }

  lemma {:induction false} SignedTextStripped(negative: bool, body: string)
    requires |body| > 0 && IsDigit(body[0]) && IsDigit(body[|body| - 1])
    ensures Strip((if negative then "-" else "") + body) == (if negative then "-" else "") + body
  {
    var s := (if negative then "-" else "") + body;
    assert s[|s| - 1] == body[|body| - 1];
    DigitIsNotSpace(body[|body| - 1]);
    assert negative || s[0] == body[0];
    DigitIsNotSpace(body[0]);
    StripOfStripped(s);
  }

  lemma {:induction false} SignedTextParses(negative: bool, body: string, lit: DecimalLiteral)
    requires |body| > 0 && IsDigit(body[0]) && IsDigit(body[|body| - 1])
    requires forall i :: 0 <= i < |body| ==> body[i] != '_'
    requires ParseUnsigned(body, negative) == Some(lit)
    ensures ParseDecimal((if negative then "-" else "") + body) == Some(lit)
  {
    SignedTextStripped(negative, body);
    if negative {
      NegativeTextParses(body);
    } else {
      assert "" + body == body;
      UnsignedTextParses(body);
    }
  }

  /** A stripped `-` followed by the body parses as the negative body. */
  lemma {:induction false} NegativeTextParses(body: string)
    requires Strip("-" + body) == "-" + body
    requires forall i :: 0 <= i < |body| ==> body[i] != '_'
    ensures ParseDecimal("-" + body) == ParseUnsigned(body, true)
  {
    var s := "-" + body;
    assert forall i :: 1 <= i < |s| ==> s[i] == body[i - 1];
    WithoutKeeps(s, IsUnderscore);
    assert s[0] == '-' && s[1..] == body;
  }

  /** A stripped body starting with a digit parses as itself, not negative. */
  lemma {:induction false} UnsignedTextParses(body: string)
    requires |body| > 0 && IsDigit(body[0]) && Strip(body) == body
    requires forall i :: 0 <= i < |body| ==> body[i] != '_'
    ensures ParseDecimal(body) == ParseUnsigned(body, false)
  {
    WithoutKeeps(body, IsUnderscore);
    assert body[0] != '-' && body[0] != '+';
  }

  /** `str()` of a two-place `Decimal` parses to its cents with exponent -2. */
  lemma {:induction false} DecimalStrParses(d: Decimal2)
    ensures ParseDecimal(DecimalStr(d)) == Some(DecimalLiteral(d.negative, d.units, -2))
  {
    var a := NatToString(d.units / 100);
    var b := PadNat(d.units % 100, 2);
    var body := a + "." + b;
    PadNatValue(d.units % 100, 2);
    assert DecimalStr(d) == (if d.negative then "-" else "") + body;
    assert body[0] == a[0] && body[|body| - 1] == b[1];
    forall i | 0 <= i < |body| ensures body[i] != '_' {
      if i < |a| {
        assert body[i] == a[i];
      } else if i > |a| {
        assert body[i] == b[i - |a| - 1];
      }
    }
    CentsTextParses(d.units, d.negative);
    SignedTextParses(d.negative, body, DecimalLiteral(d.negative, d.units, -2));
  }

  /** `str()` of a two-place `Decimal` reads back as the same `Decimal`. */
  lemma {:induction false} DecimalStrRoundTrip(d: Decimal2)
    requires d.units < Pow10(Precision)
    ensures QuantizedDecimal(DecimalStr(d)) == Some(d)
  {
    DecimalStrParses(d);
    assert Pow10(-2 + 2) == 1;
  }

  /** `str()` of an integer reads back as that many whole units, in cents. */
  lemma {:induction false} IntTextQuantizes(i: int)
    ensures QuantizedDecimal(IntToString(i)) ==
      var n := if i < 0 then -i else i;
      if n * 100 < Pow10(Precision) then Some(Decimal2(i < 0, n * 100)) else None
  {
    var n: nat := if i < 0 then -i else i;
    var a := NatToString(n);
    assert IntToString(i) == (if i < 0 then "-" else "") + a;
    NatTextParses(n, i < 0);
    SignedTextParses(i < 0, a, DecimalLiteral(i < 0, n, 0));
    assert Pow10(0 + 2) == 100;
  }

  /** `Decimal(str(True))` raises: a bool is not an amount. */
  lemma {:induction false} BoolTextFails()
    ensures QuantizedDecimal("True") == None
    ensures QuantizedDecimal("False") == None
  {
    TrueTextFails();
    FalseTextFails();
  }

  lemma {:induction false} TrueTextFails()
    ensures QuantizedDecimal("True") == None
  {
    StripOfStripped("True");
    LetterTextFails("True");
  }

  lemma {:induction false} FalseTextFails()
    ensures QuantizedDecimal("False") == None
  {
    StripOfStripped("False");
    LetterTextFails("False");
  }

  /** Stripped text that starts with a letter is not a finite number. */
  lemma {:induction false} LetterTextFails(t: string)
    requires |t| > 0 && IsAlpha(t[0]) && Strip(t) == t
    requires forall i :: 0 <= i < |t| ==> t[i] != '_'
    ensures QuantizedDecimal(t) == None
  {
    WithoutKeeps(t, IsUnderscore);
    assert NumericText(t) == t;
    assert DigitPrefix(t) == 0;
  }
}

=== FILE: expenses.dfy ===
/** Expense ingestion from a spreadsheet: column renaming and validation, the
    normalisation of one row into the 13 columns of `expenses`, the row loop
    with its failure count, and the upsert batches. Reading the workbook and
    the database are not modelled: a sheet is its header and its rows of
    cell values, and the batches are what would be upserted. */
module Expenses {
  import opened Base
  import opened Text
  import opened Sorting
  import opened PyValue
  import opened IngestCommon

  /** A row of the sheet as `df.iterrows()` yields it: cell values by column name. */
  type Dict = seq<(string, Value)>

  /** A sheet: its header, then one list of cell values per data row. */
  datatype Sheet = Sheet(columns: seq<string>, rows: seq<seq<Value>>)

  /** One row of the `expenses` table. */
  datatype ExpenseRow = ExpenseRow(
    org: string,
    sourceFile: string,
    sourceRow: int,
    employeeId: Option<string>,
    reportId: Option<string>,
    expenseDate: Option<Date>,
    category: Option<string>,
    merchant: Option<string>,
    description: Option<string>,
    amount: Option<Decimal2>,
    currency: string,
    receiptId: Option<string>,
    rowHash: string)

  /** What `ingest_xlsx` leaves behind before it reaches the database. */
  datatype Ingested = Ingested(rowsRead: nat, rows: seq<ExpenseRow>, rowsFailed: nat, batches: seq<seq<ExpenseRow>>)

  /** `REQUIRED_COLUMNS`. */
  const RequiredColumns: seq<string> :=
    ["employee_id", "report_id", "expense_date", "category", "merchant", "description", "amount", "currency", "receipt_id"]

  /** The keys of the dict `normalize_row` returns, in its order. */
  const RowKeys: seq<string> :=
    ["org", "source_file", "source_row", "employee_id", "report_id", "expense_date", "category", "merchant",
     "description", "amount", "currency", "receipt_id", "row_hash"]

  lemma {:induction false} RequiredColumnsDistinct()
    ensures NoDuplicates(RequiredColumns)
  {
  }

  /** `map_columns`: every column name normalised, in place. */
  function MapColumns(columns: seq<string>): (r: seq<string>)
    ensures |r| == |columns|
    ensures forall i :: 0 <= i < |columns| ==> r[i] == NormalizeColumnName(columns[i])
  {
    seq(|columns|, i requires 0 <= i < |columns| => NormalizeColumnName(columns[i]))
  }

  /** Mapping the columns of a mapped sheet changes nothing. */
  lemma {:induction false} MapColumnsIdempotent(columns: seq<string>)
    ensures MapColumns(MapColumns(columns)) == MapColumns(columns)
  {
    forall i | 0 <= i < |columns|
      ensures NormalizeColumnName(NormalizeColumnName(columns[i])) == NormalizeColumnName(columns[i])
    {
      NormalizeColumnNameIdempotent(columns[i]);
    }
  }

  /** The items of `required` missing from `columns`, in order. */
  function Absent(required: seq<string>, columns: seq<string>): (r: seq<string>)
    ensures |r| <= |required|
  {
    if |required| == 0 then []
    else if required[0] in columns then Absent(required[1..], columns)
    else [required[0]] + Absent(required[1..], columns)
  }

  /** `Absent` keeps exactly the items not in `columns`, each once if they were. */
  lemma {:induction false} AbsentMembers(required: seq<string>, columns: seq<string>)
    ensures forall c :: c in Absent(required, columns) <==> c in required && c !in columns
    ensures NoDuplicates(required) ==> NoDuplicates(Absent(required, columns))
  {
    if |required| > 0 {
      var rest := Absent(required[1..], columns);
      AbsentMembers(required[1..], columns);
      assert forall c :: c in required <==> c == required[0] || c in required[1..];
      if required[0] !in columns {
        var r := [required[0]] + rest;
        assert forall k :: 1 <= k < |r| ==> r[k] == rest[k - 1];
        assert NoDuplicates(required) ==> required[0] !in required[1..];
        assert NoDuplicates(required) ==> NoDuplicates(required[1..]) by {
          if NoDuplicates(required) {
            forall i, j | 0 <= i < j < |required[1..]|
              ensures required[1..][i] != required[1..][j]
            {
              assert required[i + 1] != required[j + 1];
            }
          }
        }
      }
    }
  }

  /** `sorted(REQUIRED_COLUMNS - set(columns))`. */
  function MissingColumns(columns: seq<string>): (r: seq<string>)
    ensures forall c :: c in r <==> c in RequiredColumns && c !in columns
    ensures SortedBy(r, StrLess)
    ensures NoDuplicates(r)
  {
    var absent := Absent(RequiredColumns, columns);
    RequiredColumnsDistinct();
    AbsentMembers(RequiredColumns, columns);
    var r := Sort(absent, StrLess);
    StrLessIsStrictWeakOrder();
    SortSorted(absent, StrLess);
    PermutationKeepsDistinct(absent, r);
    assert forall c :: c in r <==> c in multiset(absent);
    r
  }

  /** `repr` of a list of strings. */
  function ListText(ys: seq<string>): string {
    Repr(VList(seq(|ys|, i requires 0 <= i < |ys| => VStr(ys[i]))))
  }

  /** `sorted(xs)` shown as a Python list of strings. */
  function SortedListText(xs: seq<string>): string {
    ListText(Sort(xs, StrLess))
  }

  /** The text of the `ValueError`: the missing and the available columns, each sorted. */
  function MissingMessage(missing: seq<string>, columns: seq<string>): (text: string)
    ensures StartsWith(text, "Missing required columns: ")
    ensures Contains(text, ". Available columns: ")
    ensures forall m :: m in missing ==> Contains(text, ReprStr(m))
    ensures forall c :: c in columns ==> Contains(text, ReprStr(c))
  {
    var prefix := "Missing required columns: ";
    var mid := ". Available columns: ";
    var text := prefix + SortedListText(missing) + mid + SortedListText(Dedupe(columns));
    assert text[..|prefix|] == prefix;
    MessageNamesColumns(prefix, missing, mid, columns);
    text
  }

  /** Both lists of the message name every one of their columns. */
  lemma {:induction false} MessageNamesColumns(prefix: string, missing: seq<string>, mid: string, columns: seq<string>)
    ensures var text := prefix + SortedListText(missing) + mid + SortedListText(Dedupe(columns));
      && Contains(text, mid)
      && (forall m :: m in missing ==> Contains(text, ReprStr(m)))
      && (forall c :: c in columns ==> Contains(text, ReprStr(c)))
  {
    var a, b := SortedListText(missing), SortedListText(Dedupe(columns));
    assert OccursAt(mid, mid, 0);
    ContainsInside(prefix + a, mid, b, mid);
    forall m | m in missing
      ensures Contains(prefix + a + mid + b, ReprStr(m))
    {
      SortedListTextNames(missing, m);
      ContainsInside(prefix, a, mid + b, ReprStr(m));
      AppendAssoc(prefix + a, mid, b);
    }
    forall c | c in columns
      ensures Contains(prefix + a + mid + b, ReprStr(c))
    {
      SortedListTextNames(Dedupe(columns), c);
      ContainsInside(prefix + a + mid, b, "", ReprStr(c));
      assert prefix + a + mid + b + "" == prefix + a + mid + b;
    }
  }

  /** The shown sorted list holds the `repr` of each of its strings. */
  lemma {:induction false} SortedListTextNames(xs: seq<string>, x: string)
    requires x in xs
    ensures Contains(SortedListText(xs), ReprStr(x))
  {
    var sorted := Sort(xs, StrLess);
    assert x in multiset(xs);
    assert x in sorted;
    var k :| 0 <= k < |sorted| && sorted[k] == x;
    ListTextNames(sorted, k);
  }

  /** The shown list holds the `repr` of each of its strings. */
  lemma {:induction false} ListTextNames(ys: seq<string>, k: nat)
    requires k < |ys|
    ensures Contains(ListText(ys), ReprStr(ys[k]))
  {
    var reprs := seq(|ys|, i requires 0 <= i < |ys| => ReprStr(ys[i]));
    ListTextShape(ys);
    JoinContainsPart(reprs, ", ", k);
    ContainsInside("[", Join(reprs, ", "), "]", reprs[k]);
  }

  /** The list's `repr` is its strings' `repr`s between brackets, comma-separated. */
  lemma {:induction false} ListTextShape(ys: seq<string>)
    ensures ListText(ys) == "[" + Join(seq(|ys|, i requires 0 <= i < |ys| => ReprStr(ys[i])), ", ") + "]"
  {
    var items := seq(|ys|, i requires 0 <= i < |ys| => VStr(ys[i]));
    assert seq(|items|, i requires 0 <= i < |items| => Repr(items[i]))
        == seq(|ys|, i requires 0 <= i < |ys| => ReprStr(ys[i]));
  }

  /** `validate_columns`: the message of the `ValueError` it raises, or
      `None` when every required column is present. */
  function ValidateColumns(columns: seq<string>): (r: Option<string>)
    ensures r.None? <==> forall i :: 0 <= i < |RequiredColumns| ==> RequiredColumns[i] in columns
    ensures r.Some? ==> StartsWith(r.value, "Missing required columns: ")
  {
    var missing := MissingColumns(columns);
    if |missing| == 0 then
      assert forall i :: 0 <= i < |RequiredColumns| ==> RequiredColumns[i] in columns by {
        forall i | 0 <= i < |RequiredColumns|
          ensures RequiredColumns[i] in columns
        {
          assert RequiredColumns[i] !in missing;
        }
      }
      None
    else
      assert missing[0] in RequiredColumns && missing[0] !in columns;
      Some(MissingMessage(missing, columns))
  }

  /** The required columns a two-column sheet lacks, in the order `REQUIRED_COLUMNS` lists them. */
  lemma {:induction false} AbsentExample()
    ensures Absent(RequiredColumns, ["employee_id", "amount"]) ==
              ["report_id", "expense_date", "category", "merchant", "description", "currency", "receipt_id"]
  {
    var cs := ["employee_id", "amount"];
    var req := RequiredColumns;
    AbsentExampleTail();
    assert req[3..][1..] == req[4..];
    assert Absent(req[3..], cs) == ["category", "merchant", "description", "currency", "receipt_id"];
    assert req[2..][1..] == req[3..];
    assert Absent(req[2..], cs) == ["expense_date", "category", "merchant", "description", "currency", "receipt_id"];
    assert req[1..][1..] == req[2..];
    assert Absent(req[1..], cs) == ["report_id", "expense_date", "category", "merchant", "description", "currency", "receipt_id"];
  }

  /** The last five required columns a two-column sheet lacks. */
  lemma {:induction false} AbsentExampleTail()
    ensures Absent(RequiredColumns[4..], ["employee_id", "amount"]) == ["merchant", "description", "currency", "receipt_id"]
  {
    var cs := ["employee_id", "amount"];
    var req := RequiredColumns;
    assert req[8..][1..] == [];
    assert Absent(req[8..], cs) == ["receipt_id"];
    assert req[7..][1..] == req[8..];
    assert Absent(req[7..], cs) == ["currency", "receipt_id"];
    assert req[6..][1..] == req[7..];
    assert Absent(req[6..], cs) == ["currency", "receipt_id"];
    assert req[5..][1..] == req[6..];
    assert Absent(req[5..], cs) == ["description", "currency", "receipt_id"];
    assert req[4..][1..] == req[5..];
    assert Absent(req[4..], cs) == ["merchant", "description", "currency", "receipt_id"];
  }

  /** A sheet with only two of the required columns is refused, and the
      message names the seven others in sorted order. */
  lemma {:induction false} ValidateColumnsExample()
    ensures MissingColumns(["employee_id", "amount"]) == SortedMissingExample
    ensures ValidateColumns(["employee_id", "amount"]).Some?
  {
    var columns := ["employee_id", "amount"];
    var expected := SortedMissingExample;
    var r := MissingColumns(columns);
    ExampleMembers();
    ExpectedSorted();
    ExpectedDistinct();
    forall a, b | a in r && b in r && a != b
      ensures StrLess(a, b) || StrLess(b, a)
    {
      StrLessTotal(a, b);
    }
    SortedDistinctUnique(r, expected, StrLess);
  }

  /** The seven names, alphabetically. */
  const SortedMissingExample: seq<string> :=
    ["category", "currency", "description", "expense_date", "merchant", "receipt_id", "report_id"]

  lemma {:induction false} ExampleMembers()
    ensures forall x :: x in SortedMissingExample <==> x in RequiredColumns && x !in ["employee_id", "amount"]
  {
    forall x | x in RequiredColumns && x !in ["employee_id", "amount"]
      ensures x in SortedMissingExample
    {
      var i :| 0 <= i < |RequiredColumns| && RequiredColumns[i] == x;
      assert i != 0 && i != 6;
    }
  }

  lemma {:induction false} ExpectedDistinct()
    ensures NoDuplicates(SortedMissingExample)
  {
  }

  lemma {:induction false} ExpectedSorted()
    ensures SortedBy(SortedMissingExample, StrLess)
  {
    ExpectedChain();
    StrLessIsStrictWeakOrder();
    ChainSorted(SortedMissingExample, StrLess);
  }

  lemma {:induction false} ExpectedChain()
    ensures forall k :: 0 <= k < |SortedMissingExample| - 1 ==> StrLess(SortedMissingExample[k], SortedMissingExample[k + 1])
  {
    var e := SortedMissingExample;
    assert StrLess(e[0], e[1]) by { assert e[0][1..] == "ategory" && e[1][1..] == "urrency"; }
    assert StrLess(e[1], e[2]);
    assert StrLess(e[2], e[3]);
    assert StrLess(e[3], e[4]);
    assert StrLess(e[4], e[5]);
    assert StrLess(e[5], e[6]) by {
      assert e[5][1..] == "eceipt_id" && e[6][1..] == "eport_id";
      assert e[5][1..][1..] == "ceipt_id" && e[6][1..][1..] == "port_id";
    }
  }

  /** `row.get(key)`: the cell under `key`, `None` when the sheet has no such column. */
  function Cell(row: Dict, key: string): Value {
    Get(row, key).GetOr(VNone)
  }

  /** Python's `None` for a missing value, else the value. */
  function StrOrNone(s: Option<string>): Value {
    if s.Some? then VStr(s.value) else VNone
  }

  function DateOrNone(d: Option<Date>): Value {
    if d.Some? then VDate(d.value) else VNone
  }

  function DecimalOrNone(d: Option<Decimal2>): Value {
    if d.Some? then VDecimal(d.value) else VNone
  }

  /** The fields `normalize_row` hands to `compute_row_hash`: the row's
      identity, then the nine normalised values in a fixed order. */
  function HashFields(org: string, sourceFile: string, sourceRow: int,
                      employeeId: Option<string>, reportId: Option<string>, expenseDate: Option<Date>,
                      category: Option<string>, merchant: Option<string>, description: Option<string>,
                      amount: Option<Decimal2>, currency: string, receiptId: Option<string>): (r: seq<Value>)
    ensures |r| == 12
    ensures forall i :: 0 <= i < |r| ==> !r[i].VDict?
  {
    [VStr(org), VStr(sourceFile), VInt(sourceRow), StrOrNone(employeeId), StrOrNone(reportId),
     DateOrNone(expenseDate), StrOrNone(category), StrOrNone(merchant), StrOrNone(description),
     DecimalOrNone(amount), VStr(currency), StrOrNone(receiptId)]
  }

  /** The hashed fields of a normalised row. */
  function RowHashFields(row: ExpenseRow): seq<Value> {
    HashFields(row.org, row.sourceFile, row.sourceRow, row.employeeId, row.reportId, row.expenseDate,
               row.category, row.merchant, row.description, row.amount, row.currency, row.receiptId)
  }

  /** `normalize_row`: each of the nine cells through its normaliser, the
      run's org, file and row number copied, and the hash of them all.
      Excel serial days, `datetime.fromisoformat` and SHA-256 are parameters. */
  function NormalizeRow(row: Dict, sourceFile: string, sourceRow: int, org: string,
                        serial: Value -> Option<Date>, isoParse: string -> Option<Date>,
                        sha256: string -> string): (r: ExpenseRow)
    ensures r.org == org && r.sourceFile == sourceFile && r.sourceRow == sourceRow
    ensures r.employeeId == NormalizeString(Cell(row, "employee_id"))
    ensures r.reportId == NormalizeString(Cell(row, "report_id"))
    ensures r.expenseDate == NormalizeDate(Cell(row, "expense_date"), serial, isoParse)
    ensures r.category == NormalizeString(Cell(row, "category"))
    ensures r.merchant == NormalizeString(Cell(row, "merchant"))
    ensures r.description == NormalizeString(Cell(row, "description"))
    ensures r.amount == NormalizeAmount(Cell(row, "amount"))
    ensures r.currency == NormalizeCurrency(Cell(row, "currency"))
    ensures r.receiptId == NormalizeString(Cell(row, "receipt_id"))
    ensures ComputeRowHash(RowHashFields(r), sha256) == Success(r.rowHash)
  {
    var employeeId := NormalizeString(Cell(row, "employee_id"));
    var reportId := NormalizeString(Cell(row, "report_id"));
    var expenseDate := NormalizeDate(Cell(row, "expense_date"), serial, isoParse);
    var category := NormalizeString(Cell(row, "category"));
    var merchant := NormalizeString(Cell(row, "merchant"));
    var description := NormalizeString(Cell(row, "description"));
    var amount := NormalizeAmount(Cell(row, "amount"));
    var currency := NormalizeCurrency(Cell(row, "currency"));
    var receiptId := NormalizeString(Cell(row, "receipt_id"));
    var fields := HashFields(org, sourceFile, sourceRow, employeeId, reportId, expenseDate, category, merchant,
                             description, amount, currency, receiptId);
    var rowHash := ComputeRowHash(fields, sha256).value;
    ExpenseRow(org, sourceFile, sourceRow, employeeId, reportId, expenseDate, category, merchant, description,
               amount, currency, receiptId, rowHash)
  }

  /** The dict `normalize_row` returns: thirteen distinct keys, in order. */
  function AsDict(r: ExpenseRow): (d: Dict)
    ensures Keys(d) == RowKeys
    ensures d[10] == ("currency", VStr(r.currency))
  {
    var d := [("org", VStr(r.org)), ("source_file", VStr(r.sourceFile)), ("source_row", VInt(r.sourceRow)),
              ("employee_id", StrOrNone(r.employeeId)), ("report_id", StrOrNone(r.reportId)),
              ("expense_date", DateOrNone(r.expenseDate)), ("category", StrOrNone(r.category)),
              ("merchant", StrOrNone(r.merchant)), ("description", StrOrNone(r.description)),
              ("amount", DecimalOrNone(r.amount)), ("currency", VStr(r.currency)),
              ("receipt_id", StrOrNone(r.receiptId)), ("row_hash", VStr(r.rowHash))];
    assert forall i :: 0 <= i < |d| ==> Keys(d)[i] == RowKeys[i];
    d
  }

  /** Every normalised row carries a currency code, never `None`. */
  lemma {:induction false} NormalizeRowCurrency(row: Dict, sourceFile: string, sourceRow: int, org: string,
                             serial: Value -> Option<Date>, isoParse: string -> Option<Date>, sha256: string -> string)
    ensures var r := NormalizeRow(row, sourceFile, sourceRow, org, serial, isoParse, sha256);
            |r.currency| == 3 && (forall i :: 0 <= i < 3 ==> IsUpper(r.currency[i])) &&
            AsDict(r)[10].0 == "currency" && !AsDict(r)[10].1.VNone?
  {
  }

  /** The nine normalised values of a row written back as cells. */
  function AsCells(r: ExpenseRow): Dict {
    RowDict(RequiredColumns, CellValues(r))
  }

  /** The nine values, in the order of `RequiredColumns`; the amount as its text. */
  function CellValues(r: ExpenseRow): seq<Value> {
    [StrOrNone(r.employeeId), StrOrNone(r.reportId), DateOrNone(r.expenseDate), StrOrNone(r.category),
     StrOrNone(r.merchant), StrOrNone(r.description),
     if r.amount.Some? then VStr(DecimalStr(r.amount.value)) else VNone,
     VStr(r.currency), StrOrNone(r.receiptId)]
  }

  /** Text as `normalize_string` leaves it: absent, or non-empty with no
      space at either end. */
  predicate NormalText(s: Option<string>) {
    s.Some? ==> s.value != "" && !IsSpace(s.value[0]) && !IsSpace(s.value[|s.value| - 1])
  }

  /** The values of a row as `normalize_row` leaves them. */
  predicate IsNormal(r: ExpenseRow) {
    && NormalText(r.employeeId) && NormalText(r.reportId) && NormalText(r.category)
    && NormalText(r.merchant) && NormalText(r.description) && NormalText(r.receiptId)
    && (r.amount.Some? ==> r.amount.value.units < Decimals.Pow10(Decimals.Precision))
    && |r.currency| == 3 && (forall i :: 0 <= i < 3 ==> IsUpper(r.currency[i]))
  }

  /** Every row `normalize_row` makes is normal. */
  lemma {:induction false} NormalizeRowIsNormal(row: Dict, sourceFile: string, sourceRow: int, org: string,
                             serial: Value -> Option<Date>, isoParse: string -> Option<Date>, sha256: string -> string)
    ensures IsNormal(NormalizeRow(row, sourceFile, sourceRow, org, serial, isoParse, sha256))
  {
  }

  /** Normal text normalises to itself. */
  lemma {:induction false} NormalTextStable(s: Option<string>)
    requires NormalText(s)
    ensures NormalizeString(StrOrNone(s)) == s
  {
    if s.Some? {
      StripOfStripped(s.value);
      assert StrOrNone(s) == VStr(s.value);
      assert NormalizeString(VStr(s.value)) == Some(Strip(s.value));
    }
  }

  /** A normal code normalises to itself. */
  lemma {:induction false} NormalCurrencyStable(c: string)
    requires |c| == 3 && forall i :: 0 <= i < 3 ==> IsUpper(c[i])
    ensures NormalizeCurrency(VStr(c)) == c
  {
    StripOfStripped(c);
    CodeOfCode(c);
    UpperOfUpper(c);
  }

  /** Two rows agree on everything but the hash. */
  predicate SameValues(a: ExpenseRow, b: ExpenseRow) {
    && a.org == b.org && a.sourceFile == b.sourceFile && a.sourceRow == b.sourceRow
    && a.employeeId == b.employeeId && a.reportId == b.reportId && a.expenseDate == b.expenseDate
    && a.category == b.category && a.merchant == b.merchant && a.description == b.description
    && a.amount == b.amount && a.currency == b.currency && a.receiptId == b.receiptId
  }

  /** The nine values of a normal row, written back as cells, normalise to themselves. */
  lemma {:induction false} NormalValuesStable(r: ExpenseRow, serial: Value -> Option<Date>, isoParse: string -> Option<Date>,
                           sha256: string -> string)
    requires IsNormal(r)
    ensures SameValues(NormalizeRow(AsCells(r), r.sourceFile, r.sourceRow, r.org, serial, isoParse, sha256), r)
  {
    TextCellsStable(r);
    OtherCellsStable(r, serial, isoParse);
  }

  /** The six text cells of a normal row normalise to the row's values. */
  lemma {:induction false} TextCellsStable(r: ExpenseRow)
    requires IsNormal(r)
    ensures NormalizeString(Cell(AsCells(r), "employee_id")) == r.employeeId
    ensures NormalizeString(Cell(AsCells(r), "report_id")) == r.reportId
    ensures NormalizeString(Cell(AsCells(r), "category")) == r.category
    ensures NormalizeString(Cell(AsCells(r), "merchant")) == r.merchant
    ensures NormalizeString(Cell(AsCells(r), "description")) == r.description
    ensures NormalizeString(Cell(AsCells(r), "receipt_id")) == r.receiptId
  {
    CellsOfRow(r);
    NormalTextStable(r.employeeId);
    NormalTextStable(r.reportId);
    NormalTextStable(r.category);
    NormalTextStable(r.merchant);
    NormalTextStable(r.description);
    NormalTextStable(r.receiptId);
  }

  /** The date, amount and currency cells of a normal row normalise to the row's values. */
  lemma {:induction false} OtherCellsStable(r: ExpenseRow, serial: Value -> Option<Date>, isoParse: string -> Option<Date>)
    requires IsNormal(r)
    ensures NormalizeDate(Cell(AsCells(r), "expense_date"), serial, isoParse) == r.expenseDate
    ensures NormalizeAmount(Cell(AsCells(r), "amount")) == r.amount
    ensures NormalizeCurrency(Cell(AsCells(r), "currency")) == r.currency
  {
    CellsOfRow(r);
    if r.amount.Some? {
      NormalizeAmountRoundTrip(r.amount.value);
    }
    NormalCurrencyStable(r.currency);
  }

  /** Normalisation is idempotent: a normalised row, written back with its
      amount as text, normalises to the same row, hash included. */
  lemma {:induction false} NormalizeRowIdempotent(row: Dict, sourceFile: string, sourceRow: int, org: string,
                               serial: Value -> Option<Date>, isoParse: string -> Option<Date>, sha256: string -> string)
    ensures NormalizeRow(AsCells(NormalizeRow(row, sourceFile, sourceRow, org, serial, isoParse, sha256)),
                         sourceFile, sourceRow, org, serial, isoParse, sha256)
         == NormalizeRow(row, sourceFile, sourceRow, org, serial, isoParse, sha256)
  {
    var r := NormalizeRow(row, sourceFile, sourceRow, org, serial, isoParse, sha256);
    var again := NormalizeRow(AsCells(r), sourceFile, sourceRow, org, serial, isoParse, sha256);
    NormalizeRowIsNormal(row, sourceFile, sourceRow, org, serial, isoParse, sha256);
    NormalValuesStable(r, serial, isoParse, sha256);
    assert RowHashFields(again) == RowHashFields(r);
    assert again.rowHash == r.rowHash;
  }

  /** Reading back the cells of a normalised row gives its values. */
  lemma {:induction false} CellsOfRow(r: ExpenseRow)
    ensures var cells := AsCells(r);
            && Cell(cells, "employee_id") == StrOrNone(r.employeeId)
            && Cell(cells, "report_id") == StrOrNone(r.reportId)
            && Cell(cells, "expense_date") == DateOrNone(r.expenseDate)
            && Cell(cells, "category") == StrOrNone(r.category)
            && Cell(cells, "merchant") == StrOrNone(r.merchant)
            && Cell(cells, "description") == StrOrNone(r.description)
            && Cell(cells, "amount") == (if r.amount.Some? then VStr(DecimalStr(r.amount.value)) else VNone)
            && Cell(cells, "currency") == VStr(r.currency)
            && Cell(cells, "receipt_id") == StrOrNone(r.receiptId)
  {
    var values := CellValues(r);
    RequiredColumnsDistinct();
    GetRowDict(RequiredColumns, values, 0);
    GetRowDict(RequiredColumns, values, 1);
    GetRowDict(RequiredColumns, values, 2);
    GetRowDict(RequiredColumns, values, 3);
    GetRowDict(RequiredColumns, values, 4);
    GetRowDict(RequiredColumns, values, 5);
    GetRowDict(RequiredColumns, values, 6);
    GetRowDict(RequiredColumns, values, 7);
    GetRowDict(RequiredColumns, values, 8);
  }

  /** With distinct column names, each column finds its own cell. */
  lemma {:induction false} GetRowDict(columns: seq<string>, values: seq<Value>, i: nat)
    requires NoDuplicates(columns)
    requires i < |columns| && i < |values|
    ensures Get(RowDict(columns, values), columns[i]) == Some(values[i])
  {
    GetAt(RowDict(columns, values), i);
  }

  /** A data row as a dict keyed by the (mapped) column names. */
  function RowDict(columns: seq<string>, values: seq<Value>): (d: Dict)
    ensures |d| == Min(|columns|, |values|)
    ensures forall i :: 0 <= i < |d| ==> d[i] == (columns[i], values[i])
  {
    var n := Min(|columns|, |values|);
    seq(n, i requires 0 <= i < n => (columns[i], values[i]))
  }

  /** `idx + 2`: the spreadsheet row number of the data row at `idx`, counting
      the header as row 1. */
  function SourceRow(idx: nat): (n: nat)
    ensures n >= 2
  {
    idx + 2
  }

  /** The rows that normalised, in order. */
  function Survivors<R(!new)>(results: seq<Result<R>>): (r: seq<R>)
    ensures |r| <= |results|
    ensures forall x :: x in r <==> Success(x) in results
  {
    if |results| == 0 then []
    else
      var rest := Survivors(results[1..]);
      assert forall y :: y in results[1..] ==> y in results;
      assert forall y :: y in results ==> y == results[0] || y in results[1..];
      if results[0].Success? then [results[0].value] + rest else rest
  }

  /** The number of rows that raised. */
  function Failures<R>(results: seq<Result<R>>): nat {
    if |results| == 0 then 0 else (if results[0].Failure? then 1 else 0) + Failures(results[1..])
  }

  /** Every row either normalises or is counted as failed. */
  lemma {:induction false} SurvivorsAndFailures<R(!new)>(results: seq<Result<R>>)
    ensures |Survivors(results)| + Failures(results) == |results|
  {
    if |results| > 0 {
      SurvivorsAndFailures(results[1..]);
    }
  }

  /** The row loop of `ingest_xlsx`: each data row normalised under its
      spreadsheet row number, or, when that raises, skipped. */
  function NormalizeRows(org: string, sourceFile: string, sheet: Sheet,
                         normalize: (Dict, string, int, string) -> Result<ExpenseRow>): (r: (seq<ExpenseRow>, nat))
    ensures r.1 == |sheet.rows| - |r.0|
    ensures r.1 == Failures(seq(|sheet.rows|, i requires 0 <= i < |sheet.rows| =>
                              normalize(RowDict(sheet.columns, sheet.rows[i]), sourceFile, SourceRow(i), org)))
  {
    var results := seq(|sheet.rows|, i requires 0 <= i < |sheet.rows| =>
                     normalize(RowDict(sheet.columns, sheet.rows[i]), sourceFile, SourceRow(i), org));
    var rows := Survivors(results);
    SurvivorsAndFailures(results);
    (rows, |sheet.rows| - |rows|)
  }

  /** `normalize_row`, which raises for no value the model holds. */
  function Normalizer(serial: Value -> Option<Date>, isoParse: string -> Option<Date>, sha256: string -> string):
    (f: (Dict, string, int, string) -> Result<ExpenseRow>)
    ensures forall row, sourceFile, sourceRow, org :: f(row, sourceFile, sourceRow, org) ==
              Success(NormalizeRow(row, sourceFile, sourceRow, org, serial, isoParse, sha256))
  {
    (row, sourceFile, sourceRow, org) => Success(NormalizeRow(row, sourceFile, sourceRow, org, serial, isoParse, sha256))
  }

  /** `ingest_xlsx` up to the database: the header is mapped and validated
      (a missing column raises), the rows normalised, and the normalised rows
      cut into batches of `batchSize` (a zero size raises). */
  function IngestXlsx(org: string, sourceFile: string, sheet: Sheet, batchSize: int,
                      serial: Value -> Option<Date>, isoParse: string -> Option<Date>,
                      sha256: string -> string): (r: Result<Ingested>)
    ensures r.Success? <==> ValidateColumns(MapColumns(sheet.columns)).None? && batchSize != 0
    ensures r.Success? ==> r.value.rowsRead == |sheet.rows| && r.value.rowsFailed + |r.value.rows| == |sheet.rows|
    ensures r.Success? && batchSize > 0 ==> Flatten(r.value.batches) == r.value.rows
    ensures r.Success? && batchSize > 0 ==> forall j :: 0 <= j < |r.value.batches| ==> 0 < |r.value.batches[j]| <= batchSize
    ensures r.Success? && batchSize < 0 ==> r.value.batches == []
  {
    var columns := MapColumns(sheet.columns);
    match ValidateColumns(columns)
    case Some(message) => Failure("ValueError: " + message)
    case None =>
      var (rows, failed) := NormalizeRows(org, sourceFile, Sheet(columns, sheet.rows), Normalizer(serial, isoParse, sha256));
      match Batches(rows, batchSize)
      case Failure(e) => Failure(e)
      case Success(batches) =>
        Success(Ingested(|sheet.rows|, rows, failed, batches))
  }

  /** When every row normalises, the survivors are all the rows, in order. */
  lemma {:induction false} SurvivorsOfSuccesses<R(!new)>(results: seq<Result<R>>)
    requires forall i :: 0 <= i < |results| ==> results[i].Success?
    ensures |Survivors(results)| == |results|
    ensures forall i :: 0 <= i < |results| ==> Survivors(results)[i] == results[i].value
    ensures Failures(results) == 0
  {
    if |results| > 0 {
      SurvivorsOfSuccesses(results[1..]);
    }
  }

  /** No row of the model fails: every data row yields exactly one expense
      row, at its own spreadsheet row number. */
  lemma {:induction false} IngestXlsxRows(org: string, sourceFile: string, sheet: Sheet, batchSize: int,
                       serial: Value -> Option<Date>, isoParse: string -> Option<Date>, sha256: string -> string)
    requires IngestXlsx(org, sourceFile, sheet, batchSize, serial, isoParse, sha256).Success?
    ensures var r := IngestXlsx(org, sourceFile, sheet, batchSize, serial, isoParse, sha256).value;
            && r.rowsFailed == 0
            && |r.rows| == |sheet.rows|
            && forall i :: 0 <= i < |sheet.rows| ==>
                 r.rows[i] == NormalizeRow(RowDict(MapColumns(sheet.columns), sheet.rows[i]), sourceFile, SourceRow(i), org,
                                           serial, isoParse, sha256)
  {
    var columns := MapColumns(sheet.columns);
    var normalize := Normalizer(serial, isoParse, sha256);
    var results := seq(|sheet.rows|, i requires 0 <= i < |sheet.rows| =>
                     normalize(RowDict(columns, sheet.rows[i]), sourceFile, SourceRow(i), org));
    SurvivorsOfSuccesses(results);
  }
}

=== FILE: ingest_common.dfy ===
/** The normalisers shared by the expense and event ingesters: column names,
    strings, currencies, amounts and dates, the row-hash pre-image, JSON-safe
    conversion and batch slicing. SHA-256 is a parameter of the hash. */
module IngestCommon {
  import opened Base
  import opened Text
  import opened PyValue
  import opened Decimals
  import opened Strptime

  /** A regex word character (`\w`), for ASCII. */
  predicate IsWordChar(c: char) {
    IsAlpha(c) || IsDigit(c) || c == '_'
  }

  /** A character a normalised column name may hold. */
  predicate IsColumnChar(c: char) {
    IsLower(c) || IsDigit(c) || c == '_'
  }

  predicate NotWordOrSpace(c: char) {
    !IsWordChar(c) && !IsSpace(c)
  }

  /** `re.sub(r'\s+', '_', s)`: every whitespace run becomes one underscore. */
  function UnderscoreRuns(s: string): string
    decreases |s|
  {
    if |s| == 0 then ""
    else if IsSpace(s[0]) then
      var rest := LStrip(s);
      "_" + UnderscoreRuns(rest)
    else
      [s[0]] + UnderscoreRuns(s[1..])
  }

  lemma {:induction false} UnderscoreRunsColumnChars(s: string)
    requires forall i :: 0 <= i < |s| ==> IsColumnChar(s[i]) || IsSpace(s[i])
    ensures forall i :: 0 <= i < |UnderscoreRuns(s)| ==> IsColumnChar(UnderscoreRuns(s)[i])
    decreases |s|
  {
    if |s| > 0 {
      if IsSpace(s[0]) {
        UnderscoreRunsColumnChars(LStrip(s));
      } else {
        UnderscoreRunsColumnChars(s[1..]);
      }
    }
  }

  /** "_" when `s` starts with whitespace, else "". */
  function LeadMark(s: string): string {
    if |s| > 0 && IsSpace(s[0]) then "_" else ""
  }

  /** "_" when `s` ends with whitespace, else "". */
  function TrailMark(s: string): string {
    if |s| > 0 && IsSpace(s[|s| - 1]) then "_" else ""
  }

  lemma {:induction false} JoinCons(w: string, ws: seq<string>, sep: string)
    requires |ws| > 0
    ensures Join([w] + ws, sep) == w + sep + Join(ws, sep)
  {
    assert ([w] + ws)[1..] == ws;
  }

  /** Turning whitespace runs into underscores after the partly read word `w`
      joins the words with underscores; a whitespace run at the end leaves one
      more underscore. */
  ghost predicate JoinsWords(s: string, w: string) {
    w + UnderscoreRuns(s) ==
      Join(WordsAfter(s, w), "_") + (if WordsAfter(s, w) != [] then TrailMark(s) else "")
  }

  lemma {:induction false} UnderscoreRunsJoin(s: string, w: string)
    requires w != "" || |s| == 0 || !IsSpace(s[0])
    ensures JoinsWords(s, w)
    decreases |s|
  {
    if |s| == 0 {
      assert w + "" == w;
    } else if !IsSpace(s[0]) {
      UnderscoreRunsJoin(s[1..], w + [s[0]]);
      JoinsWordsAfterWord(s, w);
    } else {
      assert LeadingSpaces(s) >= 1;
      UnderscoreRunsJoin(LStrip(s), "");
      JoinsWordsAfterSpace(s, w);
    }
  }

  /** The step over a character that is not whitespace. */
  lemma {:induction false} JoinsWordsAfterWord(s: string, w: string)
    requires |s| > 0 && !IsSpace(s[0])
    requires JoinsWords(s[1..], w + [s[0]])
    ensures JoinsWords(s, w)
  {
    var w' := w + [s[0]];
    assert UnderscoreRuns(s) == [s[0]] + UnderscoreRuns(s[1..]);
    assert w + UnderscoreRuns(s) == w' + UnderscoreRuns(s[1..]);
    assert WordsAfter(s, w) == WordsAfter(s[1..], w');
    assert TrailMark(s) == TrailMark(s[1..]) by {
      if |s| > 1 {
        assert s[1..][|s| - 2] == s[|s| - 1];
      }
    }
  }

  /** Leading whitespace is skipped by both sides. */
  lemma {:induction false} WordsAfterSpace(s: string)
    requires |s| > 0 && IsSpace(s[0])
    ensures WordsAfter(s[1..], "") == WordsAfter(LStrip(s), "")
  {
    var n := LeadingSpaces(s);
    assert n >= 1;
    assert forall i :: 0 <= i < n - 1 ==> IsSpace(s[1..][i]) by {
      forall i | 0 <= i < n - 1 ensures IsSpace(s[1..][i]) {
        assert s[1..][i] == s[i + 1];
      }
    }
    WordsSkipSpaces(s[1..], n - 1);
    assert s[1..][n - 1..] == LStrip(s);
  }

  /** The step over a whitespace run that ends the word `w`. */
  lemma {:induction false} JoinsWordsAfterSpace(s: string, w: string)
    requires |s| > 0 && IsSpace(s[0]) && w != ""
    requires JoinsWords(LStrip(s), "")
    ensures JoinsWords(s, w)
  {
    var t := LStrip(s);
    WordsAfterSpace(s);
    var vs := WordsAfter(t, "");
    var u := UnderscoreRuns(t);
    assert WordsAfter(s, w) == [w] + vs;
    assert UnderscoreRuns(s) == "_" + u;
    assert "" + u == u;
    if vs == [] {
      assert t == "";
      assert IsSpace(s[|s| - 1]);
    } else {
      assert t[|t| - 1] == s[|s| - 1];
    }
    JoinsWordsOfParts(s, w, vs, u, TrailMark(t));
  }

  /** Assembling the whitespace step from its parts. */
  lemma {:induction false} JoinsWordsOfParts(s: string, w: string, vs: seq<string>, u: string, trail: string)
    requires UnderscoreRuns(s) == "_" + u
    requires WordsAfter(s, w) == [w] + vs
    requires u == Join(vs, "_") + (if vs != [] then trail else "")
    requires vs != [] ==> trail == TrailMark(s)
    requires vs == [] ==> TrailMark(s) == "_"
    ensures JoinsWords(s, w)
  {
    if vs == [] {
      assert [w] + vs == [w];
    } else {
      JoinCons(w, vs, "_");
    }
  }

  /** `re.sub(r'\s+', '_', s)` in terms of the words of `s`: the words joined by
      underscores, with one more underscore for whitespace at either end. */
  lemma {:induction false} UnderscoreRunsWords(s: string)
    ensures UnderscoreRuns(s) ==
      LeadMark(s) + Join(Words(s), "_") + (if Words(s) != [] then TrailMark(s) else "")
  {
    if |s| > 0 && IsSpace(s[0]) {
      LeadingRunWords(s);
    } else {
      UnderscoreRunsJoin(s, "");
      assert "" + UnderscoreRuns(s) == UnderscoreRuns(s);
    }
  }

  /** A leading whitespace run becomes one underscore before the words. */
  lemma {:induction false} LeadingRunWords(s: string)
    requires |s| > 0 && IsSpace(s[0])
    ensures UnderscoreRuns(s) == "_" + Join(Words(s), "_") + (if Words(s) != [] then TrailMark(s) else "")
  {
    var t := LStrip(s);
    var u := UnderscoreRuns(t);
    UnderscoreRunsJoin(t, "");
    WordsSkipSpaces(s, LeadingSpaces(s));
    var vs := WordsAfter(t, "");
    assert Words(s) == vs;
    assert UnderscoreRuns(s) == "_" + u;
    assert "" + u == u;
    if vs != [] {
      assert t[|t| - 1] == s[|s| - 1];
    }
  }

  /** `normalize_column_name`: strip, lower-case, delete what is neither a word
      character nor whitespace, then join the words with underscores. Whitespace
      the deletion leaves at either end becomes one more underscore there. */
  function NormalizeColumnName(col: string): (r: string)
    ensures forall i :: 0 <= i < |r| ==> IsColumnChar(r[i])
    ensures var kept := Without(Lower(Strip(col)), NotWordOrSpace);
      r == LeadMark(kept) + Join(Words(kept), "_") + (if Words(kept) != [] then TrailMark(kept) else "")
  {
    var lowered := Lower(Strip(col));
    var kept := Without(lowered, NotWordOrSpace);
    WithoutKeepsProperty(lowered, NotWordOrSpace, c => !IsUpper(c));
    UnderscoreRunsColumnChars(kept);
    UnderscoreRunsWords(kept);
    UnderscoreRuns(kept)
  }

  /** A header of letters, digits, underscores and whitespace becomes the words
      of its lower-cased text joined by underscores: the snake_case the
      docstring promises. */
  lemma {:induction false} ColumnNameOfPlainHeader(col: string)
    requires forall i :: 0 <= i < |col| ==> IsWordChar(col[i]) || IsSpace(col[i])
    ensures NormalizeColumnName(col) == Join(Words(Lower(col)), "_")
  {
    PlainHeaderKept(col);
    KeptHeaderJoinsWords(col);
  }

  /** A header that loses nothing and has no whitespace at its lowered ends
      is the underscore-joined words of its lowered text. */
  lemma {:induction false} KeptHeaderJoinsWords(col: string)
    requires Without(Lower(Strip(col)), NotWordOrSpace) == Lower(Strip(col))
    requires LeadMark(Lower(Strip(col))) == "" && TrailMark(Lower(Strip(col))) == ""
    ensures NormalizeColumnName(col) == Join(Words(Lower(col)), "_")
  {
    var lowered := Lower(Strip(col));
    StripLower(col);
    StripWords(Lower(col));
    assert Words(lowered) == Words(Lower(col));
    assert "" + Join(Words(lowered), "_") + "" == Join(Words(lowered), "_");
  }

  /** Such a header loses no character, and its lowered form has no
      whitespace at either end. */
  lemma {:induction false} PlainHeaderKept(col: string)
    requires forall i :: 0 <= i < |col| ==> IsWordChar(col[i]) || IsSpace(col[i])
    ensures Without(Lower(Strip(col)), NotWordOrSpace) == Lower(Strip(col))
    ensures LeadMark(Lower(Strip(col))) == "" && TrailMark(Lower(Strip(col))) == ""
  {
    var st := Strip(col);
    var lowered := Lower(st);
    var a := LeadingSpaces(col);
    forall i | 0 <= i < |lowered| ensures IsWordChar(lowered[i]) || IsSpace(lowered[i]) {
      assert st[i] == col[a + i];
    }
    KeepsWords(lowered);
    if |lowered| > 0 {
      assert lowered[0] == LowerChar(st[0]);
      assert lowered[|lowered| - 1] == LowerChar(st[|st| - 1]);
    }
  }

  lemma {:induction false} LowerOfLowered(s: string)
    requires forall i :: 0 <= i < |s| ==> !IsUpper(s[i])
    ensures Lower(s) == s
  {
  }

  /** A normalised column name normalises to itself. */
  lemma {:induction false} NormalizeColumnNameIdempotent(col: string)
    ensures NormalizeColumnName(NormalizeColumnName(col)) == NormalizeColumnName(col)
  {
    var r := NormalizeColumnName(col);
    forall i | 0 <= i < |r| ensures !IsSpace(r[i]) && !IsUpper(r[i]) {
      if IsDigit(r[i]) {
        DigitIsNotSpace(r[i]);
      }
    }
    StripOfStripped(r);
    LowerOfLowered(r);
    WithoutKeeps(r, NotWordOrSpace);
    UnderscoreRunsOfWord(r);
    ColumnNameStages(r, r, r, r);
  }

  lemma {:induction false} UnderscoreRunsAfterWord(a: string, b: string)
    requires forall i :: 0 <= i < |a| ==> !IsSpace(a[i])
    ensures UnderscoreRuns(a + b) == a + UnderscoreRuns(b)
  {
    if |a| > 0 {
      assert (a + b)[1..] == a[1..] + b;
      UnderscoreRunsAfterWord(a[1..], b);
      assert [a[0]] + (a[1..] + UnderscoreRuns(b)) == a + UnderscoreRuns(b);
    } else {
      assert a + b == b;
    }
  }

  /** Text without whitespace is left as it is. */
  lemma {:induction false} UnderscoreRunsOfWord(a: string)
    requires forall i :: 0 <= i < |a| ==> !IsSpace(a[i])
    ensures UnderscoreRuns(a) == a
  {
    UnderscoreRunsAfterWord(a, "");
    assert a + "" == a;
  }

  /** Two words joined by one space become two words joined by an underscore. */
  lemma {:induction false} TwoWords(a: string, b: string)
    requires |b| > 0
    requires forall i :: 0 <= i < |a| ==> !IsSpace(a[i])
    requires forall i :: 0 <= i < |b| ==> !IsSpace(b[i])
    ensures UnderscoreRuns(a + " " + b) == a + "_" + b
  {
    var sb := " " + b;
    assert a + " " + b == a + sb;
    UnderscoreRunsAfterWord(a, sb);
    assert sb[1..] == b;
    assert LeadingSpaces(b) == 0;
    assert LeadingSpaces(sb) == 1;
    assert LStrip(sb) == b;
    UnderscoreRunsOfWord(b);
    assert UnderscoreRuns(sb) == "_" + b;
    assert a + ("_" + b) == a + "_" + b;
  }

  lemma {:induction false} KeepsWords(s: string)
    requires forall i :: 0 <= i < |s| ==> IsWordChar(s[i]) || IsSpace(s[i])
    ensures Without(s, NotWordOrSpace) == s
  {
    WithoutKeeps(s, NotWordOrSpace);
  }

  lemma {:induction false} DropsSymbol(c: char)
    requires NotWordOrSpace(c)
    ensures Without([c], NotWordOrSpace) == ""
  {
    assert [c][1..] == "";
  }

  /** The three stages of `normalize_column_name`, one at a time. */
  lemma {:induction false} ColumnNameStages(col: string, lowered: string, kept: string, r: string)
    requires Lower(Strip(col)) == lowered
    requires Without(lowered, NotWordOrSpace) == kept
    requires UnderscoreRuns(kept) == r
    ensures NormalizeColumnName(col) == r
  {
  }

  lemma {:induction false} SpacedLowered()
    ensures Lower(Strip("Employee ID")) == "employee id"
  {
    StripOfStripped("Employee ID");
  }

  lemma {:induction false} SpacedKept()
    ensures Without("employee id", NotWordOrSpace) == "employee id"
  {
    var lowered := "employee id";
    assert forall i :: 0 <= i < |lowered| ==> IsWordChar(lowered[i]) || IsSpace(lowered[i]);
    KeepsWords(lowered);
  }

  lemma {:induction false} SpacedJoined()
    ensures UnderscoreRuns("employee id") == "employee_id"
  {
    TwoWords("employee", "id");
    assert "employee" + " " + "id" == "employee id";
  }

  /** Words are lower-cased and joined with an underscore. */
  lemma {:induction false} ColumnNameExampleSpaced()
    ensures NormalizeColumnName("Employee ID") == "employee_id"
  {
    SpacedLowered();
    SpacedKept();
    SpacedJoined();
    ColumnNameStages("Employee ID", "employee id", "employee id", "employee_id");
  }

  lemma {:induction false} UnitLowered()
    ensures Lower(Strip("Amount (USD)")) == "amount (usd)"
  {
    StripOfStripped("Amount (USD)");
  }

  lemma {:induction false} KeepsThenDrops(b: string, c: char)
    requires forall i :: 0 <= i < |b| ==> IsWordChar(b[i]) || IsSpace(b[i])
    requires NotWordOrSpace(c)
    ensures Without(b + [c], NotWordOrSpace) == b
  {
    WithoutAppend(b, [c], NotWordOrSpace);
    KeepsWords(b);
    DropsSymbol(c);
  }

  lemma {:induction false} DropsThenKeeps(c: char, b: string)
    requires NotWordOrSpace(c)
    ensures Without([c] + b, NotWordOrSpace) == Without(b, NotWordOrSpace)
  {
    WithoutAppend([c], b, NotWordOrSpace);
    DropsSymbol(c);
  }

  /** Text of the shape `a(b)` loses its parentheses. */
  lemma {:induction false} DropsBrackets(a: string, b: string)
    requires forall i :: 0 <= i < |a| ==> IsWordChar(a[i]) || IsSpace(a[i])
    requires forall i :: 0 <= i < |b| ==> IsWordChar(b[i]) || IsSpace(b[i])
    ensures Without(a + (['('] + (b + [')'])), NotWordOrSpace) == a + b
  {
    var close := b + [')'];
    var open := ['('] + close;
    KeepsThenDrops(b, ')');
    DropsThenKeeps('(', close);
    WithoutAppend(a, open, NotWordOrSpace);
    KeepsWords(a);
  }

  lemma {:induction false} UnitKept()
    ensures Without("amount (usd)", NotWordOrSpace) == "amount usd"
  {
    var a, b := "amount ", "usd";
    assert forall i :: 0 <= i < |a| ==> IsWordChar(a[i]) || IsSpace(a[i]);
    assert forall i :: 0 <= i < |b| ==> IsWordChar(b[i]) || IsSpace(b[i]);
    DropsBrackets(a, b);
    assert a + (['('] + (b + [')'])) == "amount (usd)";
    assert a + b == "amount usd";
  }

  lemma {:induction false} UnitJoined()
    ensures UnderscoreRuns("amount usd") == "amount_usd"
  {
    var a, b := "amount", "usd";
    assert forall i :: 0 <= i < |a| ==> !IsSpace(a[i]);
    assert forall i :: 0 <= i < |b| ==> !IsSpace(b[i]);
    TwoWords(a, b);
    assert a + " " + b == "amount usd";
    assert a + "_" + b == "amount_usd";
  }

  /** Punctuation is dropped before the words are joined. */
  lemma {:induction false} ColumnNameExampleUnit()
    ensures NormalizeColumnName("Amount (USD)") == "amount_usd"
  {
    UnitLowered();
    UnitKept();
    UnitJoined();
    ColumnNameStages("Amount (USD)", "amount (usd)", "amount usd", "amount_usd");
  }

  /** `normalize_string`: `None` and NaN give `None`; otherwise the stripped
      text, with an empty result turned into `None`. */
  function NormalizeString(v: Value): (r: Option<string>)
    ensures v.VNone? || IsNaN(v) ==> r.None?
    ensures r.Some? ==> r.value != "" && !IsSpace(r.value[0]) && !IsSpace(r.value[|r.value| - 1])
    ensures v.VStr? ==> (r.None? <==> Strip(v.s) == "")
    ensures v.VStr? && r.Some? ==> r.value == Strip(v.s)
  {
    if v.VNone? || IsNaN(v) then None
    else
      var s := Strip(Str(v));
      if s == "" then None else Some(s)
  }

  /** A normalised string normalises to itself. */
  lemma {:induction false} NormalizeStringIdempotent(v: Value)
    ensures NormalizeString(v).Some? ==> NormalizeString(VStr(NormalizeString(v).value)) == NormalizeString(v)
  {
    if NormalizeString(v).Some? {
      StripOfStripped(NormalizeString(v).value);
    }
  }

  /** `normalize_date`. `None` and NaN give `None`; a datetime gives its date
      and a date itself; numbers (`bool` included) are Excel serial days, which
      `serial` stands for; text is stripped, blank text gives `None`, then the
      five `strptime` formats are tried in order and `datetime.fromisoformat`,
      which `isoParse` stands for, last. Anything else gives `None`. */
  function NormalizeDate(v: Value, serial: Value -> Option<Date>, isoParse: string -> Option<Date>): (r: Option<Date>)
    ensures v.VNone? || IsNaN(v) ==> r.None?
    ensures v.VDate? || v.VDateTime? ==> r == Some(v.date)
    ensures v.VDecimal? || v.VList? || v.VDict? ==> r.None?
    ensures (v.VInt? || v.VBool? || (v.VFloat? && !IsNaN(v))) ==> r == serial(v)
    ensures v.VStr? && Strip(v.s) == "" ==> r.None?
    ensures v.VStr? && (exists k :: 0 <= k < |DateFormats| && Parse(Strip(v.s), DateFormats[k]).Some?) ==>
              r.Some? && ValidDate(r.value)
              && (exists k :: 0 <= k < |DateFormats| && Parse(Strip(v.s), DateFormats[k]) == r
                              && forall j :: 0 <= j < k ==> Parse(Strip(v.s), DateFormats[j]).None?)
    ensures v.VStr? && (forall k :: 0 <= k < |DateFormats| ==> Parse(Strip(v.s), DateFormats[k]).None?) && Strip(v.s) != "" ==>
              r == isoParse(Strip(v.s))
  {
    if v.VNone? || IsNaN(v) then None
    else
      match v
      case VDateTime(d, _) => Some(d)
      case VDate(d) => Some(d)
      case VInt(_) => serial(v)
      case VBool(_) => serial(v)
      case VFloat(_) => serial(v)
      case VStr(text) =>
        var t := Strip(text);
        if t == "" then None
        else
          (match FirstParse(t, DateFormats)
           case Some(d) => Some(d)
           case None => isoParse(t))
      case _ => None
  }

  /** A date's ISO text normalises back to the date. */
  lemma {:induction false} NormalizeDateIsoRoundTrip(d: Date, serial: Value -> Option<Date>, isoParse: string -> Option<Date>)
    requires ValidDate(d)
    ensures NormalizeDate(VStr(DateIso(d)), serial, isoParse) == Some(d)
    ensures NormalizeDate(VStr(Str(VDate(d))), serial, isoParse) == NormalizeDate(VDate(d), serial, isoParse)
  {
    var s := DateIso(d);
    DigitIsNotSpace(s[0]);
    DigitIsNotSpace(s[|s| - 1]);
    StripOfStripped(s);
    IsoRoundTrip(d);
  }

  /** Surrounding whitespace does not change how text normalises to a date. */
  lemma {:induction false} NormalizeDateStrips(s: string, serial: Value -> Option<Date>, isoParse: string -> Option<Date>)
    ensures NormalizeDate(VStr(s), serial, isoParse) == NormalizeDate(VStr(Strip(s)), serial, isoParse)
  {
    StripOfStripped(Strip(s));
  }

  /** "03/04/2024" is read month first, as the fourth of March. */
  lemma {:induction false} NormalizeDateMonthFirst(serial: Value -> Option<Date>, isoParse: string -> Option<Date>)
    ensures NormalizeDate(VStr("03/04/2024"), serial, isoParse) == Some(Date(2024, 3, 4))
  {
    MonthFirstExample();
    StripOfStripped("03/04/2024");
    NormalizeDateFormatted("03/04/2024", serial, isoParse);
  }

  /** "13/01/2024", which cannot be month first, is read day first. */
  lemma {:induction false} NormalizeDateDayFirst(serial: Value -> Option<Date>, isoParse: string -> Option<Date>)
    ensures NormalizeDate(VStr("13/01/2024"), serial, isoParse) == Some(Date(2024, 1, 13))
  {
    DayFirstExample();
    StripOfStripped("13/01/2024");
    NormalizeDateFormatted("13/01/2024", serial, isoParse);
  }

  /** Stripped text that one of the five formats reads gives that format's date. */
  lemma {:induction false} NormalizeDateFormatted(s: string, serial: Value -> Option<Date>, isoParse: string -> Option<Date>)
    requires Strip(s) == s && s != ""
    requires FirstParse(s, DateFormats).Some?
    ensures NormalizeDate(VStr(s), serial, isoParse) == FirstParse(s, DateFormats)
  {
  }

  /** What `normalize_amount` deletes from text: the currency symbols $, €, £
      and ¥, thousands separators and whitespace. */
  predicate IsAmountNoise(c: char) {
    c == '$' || c == '\U{20AC}' || c == '\U{A3}' || c == '\U{A5}' || c == ',' || IsSpace(c)
  }

  /** Accounting notation for a negative amount: "(500)". */
  predicate Parenthesized(t: string) {
    |t| >= 2 && t[0] == '(' && t[|t| - 1] == ')'
  }

  /** The amount a stripped, non-empty text denotes. */
  function AmountText(t: string): (r: Option<Decimal2>)
    ensures r.Some? ==> r.value.units < Pow10(Precision)
    ensures !Parenthesized(t) ==> r == QuantizedDecimal(Without(t, IsAmountNoise))
  {
    var negative := Parenthesized(t);
    var inner := if negative then t[1..|t| - 1] else t;
    match QuantizedDecimal(Without(inner, IsAmountNoise))
    case None => None
    case Some(a) => Some(if negative then Negate(a) else a)
  }

  /** `normalize_amount`: `None` and NaN give `None`; numbers go through their
      `str` form; text is stripped, read as negative when in parentheses, and
      loses currency symbols, commas and whitespace. The result is quantized to
      cents; whatever `Decimal` rejects gives `None`. */
  function NormalizeAmount(v: Value): (r: Option<Decimal2>)
    ensures v.VNone? || IsNaN(v) ==> r.None?
    ensures v.VStr? && Strip(v.s) == "" ==> r.None?
    ensures v.VList? || v.VDict? || v.VDate? || v.VDateTime? ==> r.None?
    ensures r.Some? ==> r.value.units < Pow10(Precision)
  {
    if v.VNone? || IsNaN(v) then None
    else
      match v
      case VInt(_) => QuantizedDecimal(Str(v))
      case VBool(_) => QuantizedDecimal(Str(v))
      case VFloat(_) => QuantizedDecimal(Str(v))
      case VDecimal(_) => QuantizedDecimal(Str(v))
      case VStr(s) =>
        var t := Strip(s);
        if t == "" then None else AmountText(t)
      case _ => None
  }

  /** A `Decimal` already in cents is returned as it is. */
  lemma {:induction false} NormalizeAmountOfDecimal(d: Decimal2)
    requires d.units < Pow10(Precision)
    ensures NormalizeAmount(VDecimal(d)) == Some(d)
  {
    NormalizeAmountOfNumber(VDecimal(d));
    assert Str(VDecimal(d)) == DecimalStr(d);
    DecimalStrRoundTrip(d);
  }

  /** A number, NaN aside, is read through its `str` form. */
  lemma {:induction false} NormalizeAmountOfNumber(v: Value)
    requires v.VInt? || v.VBool? || v.VFloat? || v.VDecimal?
    requires !IsNaN(v)
    ensures NormalizeAmount(v) == QuantizedDecimal(Str(v))
  {
  }

  /** An integer becomes that many whole units, exactly. */
  lemma {:induction false} NormalizeAmountOfInt(i: int)
    ensures NormalizeAmount(VInt(i)) ==
      var n := if i < 0 then -i else i;
      if n * 100 < Pow10(Precision) then Some(Decimal2(i < 0, n * 100)) else None
  {
    NormalizeAmountOfNumber(VInt(i));
    assert Str(VInt(i)) == IntToString(i);
    IntTextQuantizes(i);
  }

  /** `True` is an `int` to Python, but `Decimal("True")` raises. */
  lemma {:induction false} NormalizeAmountOfBool(b: bool)
    ensures NormalizeAmount(VBool(b)).None?
  {
    BoolTextFails();
  }

  lemma {:induction false} WithoutDropsAll(s: string, drop: char -> bool)
    requires forall i :: 0 <= i < |s| ==> drop(s[i])
    ensures Without(s, drop) == ""
  {
    if |s| > 0 {
      WithoutDropsAll(s[1..], drop);
    }
  }

  /** Deleting whitespace makes stripping first irrelevant. */
  lemma {:induction false} WithoutNoiseOfStrip(s: string)
    ensures Without(s, IsAmountNoise) == Without(Strip(s), IsAmountNoise)
  {
    var l := LeadingSpaces(s);
    var r := Strip(s);
    var t := s[l..];
    WithoutOfLeading(s, l);
    assert t[..|r|] == r;
    assert forall i :: |r| <= i < |t| ==> IsSpace(t[i]) by {
      forall i | |r| <= i < |t| ensures IsSpace(t[i]) {
        assert t[i] == s[l + i];
      }
    }
    WithoutOfTrailing(t, |r|);
  }

  /** Leading whitespace is deleted as noise. */
  lemma {:induction false} WithoutOfLeading(s: string, k: nat)
    requires k <= |s|
    requires forall i :: 0 <= i < k ==> IsSpace(s[i])
    ensures Without(s, IsAmountNoise) == Without(s[k..], IsAmountNoise)
  {
    if k > 0 {
      assert s[1..][k - 1..] == s[k..];
      WithoutOfLeading(s[1..], k - 1);
    }
  }

  /** Trailing whitespace is deleted as noise. */
  lemma {:induction false} WithoutOfTrailing(s: string, k: nat)
    requires k <= |s|
    requires forall i :: k <= i < |s| ==> IsSpace(s[i])
    ensures Without(s, IsAmountNoise) == Without(s[..k], IsAmountNoise)
  {
    var head, tail := s[..k], s[k..];
    assert s == head + tail;
    forall i | 0 <= i < |tail| ensures IsAmountNoise(tail[i]) {
      assert tail[i] == s[k + i];
    }
    WithoutAppend(head, tail, IsAmountNoise);
    WithoutDropsAll(tail, IsAmountNoise);
    assert Without(head, IsAmountNoise) + "" == Without(head, IsAmountNoise);
  }

  function NegateAmount(a: Option<Decimal2>): Option<Decimal2> {
    match a
    case None => None
    case Some(d) => Some(Negate(d))
  }

  lemma {:induction false} AmountTextParenthesized(t: string)
    requires Parenthesized(t)
    ensures AmountText(t) == NegateAmount(QuantizedDecimal(Without(t[1..|t| - 1], IsAmountNoise)))
  {
  }

  lemma {:induction false} ParenthesizedAmount(s: string)
    ensures NormalizeAmount(VStr("(" + s + ")")) == NegateAmount(QuantizedDecimal(Without(s, IsAmountNoise)))
  {
    var t := "(" + s + ")";
    assert t[0] == '(' && t[|t| - 1] == ')';
    assert Parenthesized(t);
    StripOfStripped(t);
    assert t[1..|t| - 1] == s;
    AmountTextParenthesized(t);
    NormalizeAmountOfText(t);
  }

  /** Text is read through its stripped form. */
  lemma {:induction false} NormalizeAmountOfText(s: string)
    ensures NormalizeAmount(VStr(s)) == if Strip(s) == "" then None else AmountText(Strip(s))
  {
  }

  lemma {:induction false} PlainAmount(s: string)
    requires !Parenthesized(Strip(s))
    ensures NormalizeAmount(VStr(s)) == QuantizedDecimal(Without(s, IsAmountNoise))
  {
    var t := Strip(s);
    NormalizeAmountOfText(s);
    WithoutNoiseOfStrip(s);
    if t == "" {
      assert Without("", IsAmountNoise) == "";
      assert QuantizedDecimal("") == None;
    }
  }

  /** Wrapping a plain amount in parentheses negates it. */
  lemma {:induction false} ParenthesesNegate(s: string)
    requires !Parenthesized(Strip(s))
    ensures NormalizeAmount(VStr("(" + s + ")")) == NegateAmount(NormalizeAmount(VStr(s)))
  {
    ParenthesizedAmount(s);
    PlainAmount(s);
  }

  /** Digits, points and minus signs are never deleted. */
  lemma {:induction false} KeepsNumberChars(s: string)
    requires forall i :: 0 <= i < |s| ==> IsDigit(s[i]) || s[i] == '.' || s[i] == '-'
    ensures Without(s, IsAmountNoise) == s
  {
    forall i | 0 <= i < |s|
      ensures !IsAmountNoise(s[i])
    {
      if IsDigit(s[i]) {
        DigitIsNotSpace(s[i]);
      }
    }
    WithoutKeeps(s, IsAmountNoise);
  }

  lemma {:induction false} DecimalStrChars(d: Decimal2)
    ensures forall k :: 0 <= k < |DecimalStr(d)| ==>
      IsDigit(DecimalStr(d)[k]) || DecimalStr(d)[k] == '.' || DecimalStr(d)[k] == '-'
  {
    var a := NatToString(d.units / 100);
    var b := PadNat(d.units % 100, 2);
    var sign := if d.negative then "-" else "";
    var s := DecimalStr(d);
    assert s == sign + (a + ("." + b));
    forall k | 0 <= k < |s|
      ensures IsDigit(s[k]) || s[k] == '.' || s[k] == '-'
    {
      if k < |sign| {
        assert s[k] == '-';
      } else if k < |sign| + |a| {
        assert s[k] == a[k - |sign|];
      } else if k == |sign| + |a| {
        assert s[k] == '.';
      } else {
        assert s[k] == b[k - |sign| - |a| - 1];
      }
    }
  }

  lemma {:induction false} DecimalStrIsPlain(d: Decimal2)
    ensures Strip(DecimalStr(d)) == DecimalStr(d)
    ensures !Parenthesized(DecimalStr(d))
    ensures Without(DecimalStr(d), IsAmountNoise) == DecimalStr(d)
  {
    var s := DecimalStr(d);
    DecimalStrChars(d);
    KeepsNumberChars(s);
    assert IsDigit(s[0]) || s[0] == '.' || s[0] == '-';
    assert IsDigit(s[|s| - 1]) || s[|s| - 1] == '.' || s[|s| - 1] == '-';
    if IsDigit(s[0]) {
      DigitIsNotSpace(s[0]);
    }
    if IsDigit(s[|s| - 1]) {
      DigitIsNotSpace(s[|s| - 1]);
    }
    StripOfStripped(s);
  }

  /** The text `str()` gives for a two-place `Decimal` normalises back to it. */
  lemma {:induction false} NormalizeAmountRoundTrip(d: Decimal2)
    requires d.units < Pow10(Precision)
    ensures NormalizeAmount(VStr(DecimalStr(d))) == Some(d)
  {
    DecimalStrIsPlain(d);
    PlainAmount(DecimalStr(d));
    DecimalStrRoundTrip(d);
  }

  lemma {:induction false} Pow10Grows(m: nat, n: nat)
    requires m <= n
    ensures Pow10(m) <= Pow10(n)
    decreases n
  {
    if m < n {
      Pow10Grows(m, n - 1);
    }
  }

  lemma {:induction false} SymbolAndSeparator(x: string, y: string)
    requires forall i :: 0 <= i < |x| ==> IsDigit(x[i]) || x[i] == '.' || x[i] == '-'
    requires forall i :: 0 <= i < |y| ==> IsDigit(y[i]) || y[i] == '.' || y[i] == '-'
    ensures Without("$" + (x + ("," + y)), IsAmountNoise) == x + y
  {
    var n := IsAmountNoise;
    calc {
      Without("$" + (x + ("," + y)), n);
    == { WithoutAppend("$", x + ("," + y), n); DropsOne('$'); }
      "" + Without(x + ("," + y), n);
    == { assert "" + Without(x + ("," + y), n) == Without(x + ("," + y), n); WithoutAppend(x, "," + y, n); }
      Without(x, n) + Without("," + y, n);
    == { WithoutAppend(",", y, n); DropsOne(','); assert "" + Without(y, n) == Without(y, n); }
      Without(x, n) + Without(y, n);
    == { KeepsNumberChars(x); KeepsNumberChars(y); }
      x + y;
    }
  }

  lemma {:induction false} DollarsText()
    ensures Without("$1,234.50", IsAmountNoise) == "1234.50"
  {
    var x, y := "1", "234.50";
    assert forall i :: 0 <= i < |y| ==> IsDigit(y[i]) || y[i] == '.' || y[i] == '-';
    SymbolAndSeparator(x, y);
    assert "$" + (x + ("," + y)) == "$1,234.50";
    assert x + y == "1234.50";
  }

  lemma {:induction false} DropsOne(c: char)
    requires IsAmountNoise(c)
    ensures Without([c], IsAmountNoise) == ""
  {
    assert [c][1..] == "";
  }

  lemma {:induction false} DollarsValue()
    ensures QuantizedDecimal("1234.50") == Some(Decimal2(false, 123450))
  {
    DollarsDecimalStr();
    Pow10Grows(6, Precision);
    assert Pow10(6) == 1000000;
    DecimalStrRoundTrip(Decimal2(false, 123450));
  }

  lemma {:induction false} DollarsDecimalStr()
    ensures DecimalStr(Decimal2(false, 123450)) == "1234.50"
  {
    var d := Decimal2(false, 123450);
    assert d.units / 100 == 1234 && d.units % 100 == 50;
    assert NatToString(12) == NatToString(1) + "2";
    assert NatToString(123) == NatToString(12) + "3";
    assert NatToString(1234) == NatToString(123) + "4";
    assert NatToString(50) == NatToString(5) + "0";
    assert PadNat(50, 2) == "50";
    assert "" + "1234" + "." + "50" == "1234.50";
  }

  /** Currency symbols and thousands separators are ignored. */
  lemma {:induction false} NormalizeAmountExampleDollars()
    ensures NormalizeAmount(VStr("$1,234.50")) == Some(Decimal2(false, 123450))
  {
    StripOfStripped("$1,234.50");
    DollarsText();
    DollarsValue();
    PlainAmount("$1,234.50");
  }

  lemma {:induction false} FiveHundred()
    ensures NormalizeAmount(VStr("500")) == Some(Decimal2(false, 50000))
  {
    FiveHundredPlain();
    FiveHundredParses();
  }

  lemma {:induction false} FiveHundredPlain()
    ensures NormalizeAmount(VStr("500")) == QuantizedDecimal("500")
  {
    StripOfStripped("500");
    KeepsNumberChars("500");
    PlainAmount("500");
  }

  lemma {:induction false} FiveHundredParses()
    ensures QuantizedDecimal("500") == Some(Decimal2(false, 50000))
  {
    IntTextQuantizes(500);
    Pow10Grows(5, Precision);
    assert Pow10(5) == 100000;
    FiveHundredText();
  }

  lemma {:induction false} FiveHundredText()
    ensures IntToString(500) == "500"
  {
    assert NatToString(5) == "5";
    assert NatToString(50) == NatToString(5) + "0";
    assert NatToString(500) == NatToString(50) + "0";
  }

  /** Underscores grouping the digits are ignored, as `Decimal` ignores them. */
  lemma {:induction false} NormalizeAmountExampleUnderscores()
    ensures NormalizeAmount(VStr("1_000")) == Some(Decimal2(false, 100000))
  {
    UnderscoreAmountPlain();
    UnderscoreAmountParses();
  }

  lemma {:induction false} UnderscoreAmountPlain()
    ensures NormalizeAmount(VStr("1_000")) == QuantizedDecimal("1_000")
  {
    StripOfStripped("1_000");
    WithoutKeeps("1_000", IsAmountNoise);
    PlainAmount("1_000");
  }

  lemma {:induction false} UnderscoreAmountParses()
    ensures QuantizedDecimal("1_000") == Some(Decimal2(false, 100000))
  {
    UnderscoreText();
    ThousandText();
    SameNumericTextSameAmount("1_000", "1000");
    IntTextQuantizes(1000);
    Pow10Grows(6, Precision);
    assert Pow10(6) == 1000000;
  }

  lemma {:induction false} UnderscoreText()
    ensures NumericText("1_000") == "1000"
    ensures NumericText("1000") == "1000"
  {
    StripOfStripped("1_000");
    StripOfStripped("1000");
    assert "1_000"[1..] == "_000" && "_000"[1..] == "000";
    WithoutKeeps("000", IsUnderscore);
    WithoutKeeps("1000", IsUnderscore);
    assert Without("_000", IsUnderscore) == "000";
    assert Without("1_000", IsUnderscore) == "1" + "000";
  }

  lemma {:induction false} ThousandText()
    ensures IntToString(1000) == "1000"
  {
    assert NatToString(1) == "1";
    assert NatToString(10) == NatToString(1) + "0";
    assert NatToString(100) == NatToString(10) + "0";
    assert NatToString(1000) == NatToString(100) + "0";
  }

  /** Parentheses mean a negative amount. */
  lemma {:induction false} NormalizeAmountExampleParentheses()
    ensures NormalizeAmount(VStr("(500)")) == Some(Decimal2(true, 50000))
  {
    assert "(500)" == "(" + "500" + ")";
    StripOfStripped("500");
    assert !Parenthesized(Strip("500"));
    ParenthesesNegate("500");
    FiveHundred();
    assert NegateAmount(Some(Decimal2(false, 50000))) == Some(Decimal2(true, 50000));
  }

  /** The spelled-out currency names the normaliser maps to codes. */
  function CurrencyAlias(c: string): string {
    if c == "DOLLAR" || c == "DOLLARS" || c == "US" then "USD"
    else if c == "EURO" || c == "EUROS" then "EUR"
    else if c == "POUND" || c == "POUNDS" then "GBP"
    else c
  }

  predicate IsCurrencyCode(c: string) {
    |c| == 3 && forall i :: 0 <= i < 3 ==> IsAlpha(c[i])
  }

  /** The code for an upper-cased, stripped currency text: names mapped to
      codes, and "USD" for anything that is then not three letters. */
  function CodeOf(text: string): (r: string)
    requires forall i :: 0 <= i < |text| ==> !IsLower(text[i])
    ensures |r| == 3 && forall i :: 0 <= i < 3 ==> IsUpper(r[i])
    ensures IsCurrencyCode(CurrencyAlias(text)) ==> r == CurrencyAlias(text)
    ensures !IsCurrencyCode(CurrencyAlias(text)) ==> r == "USD"
  {
    var currency := CurrencyAlias(text);
    if IsCurrencyCode(currency) then currency else "USD"
  }

  /** `normalize_currency`: always a three-letter upper-case code, "USD" when
      the input is missing, empty or not a code after mapping. */
  function NormalizeCurrency(v: Value): (r: string)
    ensures |r| == 3 && forall i :: 0 <= i < 3 ==> IsUpper(r[i])
    ensures v.VNone? || IsNaN(v) ==> r == "USD"
    ensures !(v.VNone? || IsNaN(v)) ==> r == CodeOf(Upper(Strip(Str(v))))
  {
    if v.VNone? || IsNaN(v) then "USD" else CodeOf(Upper(Strip(Str(v))))
  }

  lemma {:induction false} UpperOfUpper(s: string)
    requires forall i :: 0 <= i < |s| ==> !IsLower(s[i])
    ensures Upper(s) == s
  {
  }

  /** A three-letter upper-case code is kept as it is. */
  lemma {:induction false} CodeOfCode(c: string)
    requires |c| == 3
    requires forall i :: 0 <= i < |c| ==> IsUpper(c[i])
    ensures forall i :: 0 <= i < |c| ==> !IsLower(c[i])
    ensures CodeOf(c) == c
  {
    assert CurrencyAlias(c) == c by {
      assert |"DOLLAR"| != 3 && |"DOLLARS"| != 3 && |"US"| != 3 && |"EURO"| != 3;
      assert |"EUROS"| != 3 && |"POUND"| != 3 && |"POUNDS"| != 3;
    }
  }

  /** A normalised code normalises to itself. */
  lemma {:induction false} NormalizeCurrencyIdempotent(v: Value)
    ensures NormalizeCurrency(VStr(NormalizeCurrency(v))) == NormalizeCurrency(v)
  {
    var r := NormalizeCurrency(v);
    assert Str(VStr(r)) == r;
    assert !IsNaN(VStr(r));
    StripOfStripped(r);
    UpperOfUpper(r);
    CodeOfCode(r);
  }

  /** The input's letter case does not matter. */
  lemma {:induction false} NormalizeCurrencyIgnoresCase(s: string)
    ensures NormalizeCurrency(VStr(Lower(s))) == NormalizeCurrency(VStr(s))
  {
    StripLower(s);
    UpperOfLower(Strip(s));
    assert Str(VStr(Lower(s))) == Lower(s);
    assert Str(VStr(s)) == s;
  }

  lemma {:induction false} CurrencyExampleCode()
    ensures NormalizeCurrency(VStr("usd")) == "USD"
  {
    StripOfStripped("usd");
    assert Upper("usd") == "USD";
    CodeOfCode("USD");
  }

  lemma {:induction false} CurrencyExampleBlank()
    ensures NormalizeCurrency(VStr(" ")) == "USD"
  {
    assert Strip(" ") == "" by { assert LeadingSpaces(" ") == 1; }
    assert Upper("") == "";
  }

  lemma {:induction false} CurrencyExampleName()
    ensures NormalizeCurrency(VStr("Euros")) == "EUR"
  {
    StripOfStripped("Euros");
    assert Upper("Euros") == "EUROS";
    EurosCode();
  }

  lemma {:induction false} EurosCode()
    ensures forall i :: 0 <= i < |"EUROS"| ==> !IsLower("EUROS"[i])
    ensures CodeOf("EUROS") == "EUR"
  {
    assert CurrencyAlias("EUROS") == "EUR";
    assert IsCurrencyCode("EUR");
  }

  /** One field of the row-hash pre-image: "NULL" for `None`, ISO forms for
      dates, `str` for `Decimal`s, sorted-key JSON for dicts, `str` otherwise. */
  function HashPart(v: Value): (r: Result<string>)
    ensures r.Failure? <==> v.VDict? && !JsonSafe(v)
    ensures v.VNone? ==> r == Success("NULL")
    ensures v.VStr? ==> r == Success(v.s)
    ensures v.VDate? ==> r == Success(DateIso(v.date))
    ensures v.VDateTime? ==> r == Success(DateTimeIso(v.date, v.time, "T"))
    ensures v.VDecimal? ==> r == Success(DecimalStr(v.d))
    ensures v.VDict? ==> r == Json(v, true)
    ensures v.VBool? || v.VInt? || v.VFloat? || v.VList? ==> r == Success(Str(v))
  {
    match v
    case VNone => Success("NULL")
    case VDate(d) => Success(DateIso(d))
    case VDateTime(d, t) => Success(DateTimeIso(d, t, "T"))
    case VDecimal(d) => Success(DecimalStr(d))
    case VDict(_) => Json(v, true)
    case _ => Success(Str(v))
  }

  /** The text `compute_row_hash` hashes: its fields' parts joined with '|'. */
  function RowHashPreImage(fields: seq<Value>): (r: Result<string>)
    ensures r.Success? <==> forall i :: 0 <= i < |fields| ==> HashPart(fields[i]).Success?
    ensures r.Success? ==>
      r.value == Join(seq(|fields|, i requires 0 <= i < |fields| => HashPart(fields[i]).value), "|")
  {
    match Collect(HashParts(fields))
    case Success(ss) =>
      assert ss == seq(|fields|, i requires 0 <= i < |fields| => HashPart(fields[i]).value);
      Success(Join(ss, "|"))
    case Failure(e) => Failure(e)
  }

  /** A date's part parses back to the date, and a cent amount's part reads
      back as the same `Decimal`: the renderings lose nothing. */
  lemma {:induction false} HashPartReadsBack(v: Value)
    ensures v.VDate? && ValidDate(v.date) ==> Parse(HashPart(v).value, IsoDate) == Some(v.date)
    ensures v.VDecimal? && v.d.units < Pow10(Precision) ==> QuantizedDecimal(HashPart(v).value) == Some(v.d)
  {
    if v.VDate? && ValidDate(v.date) {
      IsoRoundTrip(v.date);
    }
    if v.VDecimal? && v.d.units < Pow10(Precision) {
      DecimalStrRoundTrip(v.d);
    }
  }

  /** Rows with equally many fields and no '|' inside any part have equal
      pre-images only when their parts agree field by field. */
  lemma {:induction false} RowHashPreImageInjective(f1: seq<Value>, f2: seq<Value>)
    requires |f1| == |f2|
    requires RowHashPreImage(f1).Success? && RowHashPreImage(f2).Success?
    requires forall i :: 0 <= i < |f1| ==> '|' !in HashPart(f1[i]).value
    requires forall i :: 0 <= i < |f2| ==> '|' !in HashPart(f2[i]).value
    requires RowHashPreImage(f1) == RowHashPreImage(f2)
    ensures forall i :: 0 <= i < |f1| ==> HashPart(f1[i]) == HashPart(f2[i])
  {
    var p1 := seq(|f1|, i requires 0 <= i < |f1| => HashPart(f1[i]).value);
    var p2 := seq(|f2|, i requires 0 <= i < |f2| => HashPart(f2[i]).value);
    JoinInjective(p1, p2, '|');
    forall i | 0 <= i < |f1|
      ensures HashPart(f1[i]) == HashPart(f2[i])
    {
      assert p1[i] == p2[i];
    }
  }

  /** Every field's part, in order. */
  function HashParts(fields: seq<Value>): (parts: seq<Result<string>>)
    ensures |parts| == |fields|
    ensures forall i :: 0 <= i < |fields| ==> parts[i] == HashPart(fields[i])
  {
    seq(|fields|, i requires 0 <= i < |fields| => HashPart(fields[i]))
  }

  /** `compute_row_hash`: the digest of the pre-image, or the error serialising a dict raised. */
  function ComputeRowHash(fields: seq<Value>, sha256: string -> string): (r: Result<string>)
    ensures r.Success? <==> RowHashPreImage(fields).Success?
    ensures r.Success? ==> r.value == sha256(RowHashPreImage(fields).value)
  {
    match RowHashPreImage(fields)
    case Success(data) => Success(sha256(data))
    case Failure(e) => Failure(e)
  }

  /** A dict field hashes the same whatever its insertion order. */
  lemma {:induction false} RowHashIgnoresDictOrder(before: seq<Value>, e1: seq<(string, Value)>, e2: seq<(string, Value)>, after: seq<Value>)
    requires multiset(e1) == multiset(e2)
    requires NoDuplicates(Keys(e1))
    ensures RowHashPreImage(before + [VDict(e1)] + after) == RowHashPreImage(before + [VDict(e2)] + after)
  {
    JsonSortedKeysOrderFree(e1, e2);
    assert HashPart(VDict(e1)) == HashPart(VDict(e2));
    HashPartsSplice(before, VDict(e1), VDict(e2), after);
  }

  /** Replacing one field by another with the same part leaves the parts alone. */
  lemma {:induction false} HashPartsSplice(before: seq<Value>, v1: Value, v2: Value, after: seq<Value>)
    requires HashPart(v1) == HashPart(v2)
    ensures HashParts(before + [v1] + after) == HashParts(before + [v2] + after)
  {
    var f1 := before + [v1] + after;
    var f2 := before + [v2] + after;
    var p1, p2 := HashParts(f1), HashParts(f2);
    forall i | 0 <= i < |f1|
      ensures p1[i] == p2[i]
    {
      if i != |before| {
        assert f1[i] == f2[i];
      }
    }
  }

  /** The pre-image does not separate fields unambiguously: a '|' inside a
      field, or the text "NULL" in place of `None`, gives the same pre-image. */
  lemma {:induction false} RowHashPreImageAmbiguous()
    ensures RowHashPreImage([VStr("a|b"), VStr("c")]) == RowHashPreImage([VStr("a"), VStr("b|c")])
    ensures RowHashPreImage([VNone]) == RowHashPreImage([VStr("NULL")])
  {
    var p1 := HashParts([VStr("a|b"), VStr("c")]);
    var p2 := HashParts([VStr("a"), VStr("b|c")]);
    assert p1 == [Success("a|b"), Success("c")];
    assert p2 == [Success("a"), Success("b|c")];
    assert Collect(p1).Success? && Collect(p1).value == ["a|b", "c"];
    assert Collect(p2).Success? && Collect(p2).value == ["a", "b|c"];
    assert Join(["a|b", "c"], "|") == "a|b|c";
    assert Join(["a", "b|c"], "|") == "a|b|c" by {
      assert Join(["b|c"], "|") == "b|c";
    }
    assert HashParts([VNone]) == HashParts([VStr("NULL")]);
  }

  /** `safe_json_serialize`: dates become ISO text, `Decimal`s floats (through
      `toFloat`, the repr of the nearest float), containers are converted member
      by member, and everything else is kept. */
  function SafeJsonSerialize(v: Value, toFloat: Decimal2 -> string): (r: Value)
    ensures JsonSafe(r)
    ensures v.VNone? <==> r.VNone?
    ensures v.VList? ==> r.VList? && |r.items| == |v.items|
    ensures v.VDict? ==> r.VDict? && Keys(r.entries) == Keys(v.entries)
    ensures v.VDate? ==> r == VStr(DateIso(v.date))
    ensures v.VDateTime? ==> r == VStr(DateTimeIso(v.date, v.time, "T"))
  {
    match v
    case VDate(d) => VStr(DateIso(d))
    case VDateTime(d, t) => VStr(DateTimeIso(d, t, "T"))
    case VDecimal(d) => VFloat(toFloat(d))
    case VList(items) =>
      VList(seq(|items|, i requires 0 <= i < |items| => SafeJsonSerialize(items[i], toFloat)))
    case VDict(entries) =>
      VDict(seq(|entries|, i requires 0 <= i < |entries| => (entries[i].0, SafeJsonSerialize(entries[i].1, toFloat))))
    case _ => v
  }

  /** Containers are converted member by member, in place. */
  lemma {:induction false} SafeJsonMembers(v: Value, toFloat: Decimal2 -> string)
    ensures v.VList? ==> forall i :: 0 <= i < |v.items| ==>
              SafeJsonSerialize(v, toFloat).items[i] == SafeJsonSerialize(v.items[i], toFloat)
    ensures v.VDict? ==> forall i :: 0 <= i < |v.entries| ==>
              SafeJsonSerialize(v, toFloat).entries[i] == (v.entries[i].0, SafeJsonSerialize(v.entries[i].1, toFloat))
  {
  }

  /** Values `json.dumps` already accepts pass through unchanged. */
  lemma {:induction false} SafeJsonKeepsSafe(v: Value, toFloat: Decimal2 -> string)
    requires JsonSafe(v)
    ensures SafeJsonSerialize(v, toFloat) == v
  {
    match v
    case VList(items) =>
      forall i | 0 <= i < |items|
        ensures SafeJsonSerialize(items[i], toFloat) == items[i]
      {
        SafeJsonKeepsSafe(items[i], toFloat);
      }
      assert SafeJsonSerialize(v, toFloat).items == items;
    case VDict(entries) =>
      forall i | 0 <= i < |entries|
        ensures SafeJsonSerialize(entries[i].1, toFloat) == entries[i].1
      {
        SafeJsonKeepsSafe(entries[i].1, toFloat);
      }
      assert SafeJsonSerialize(v, toFloat).entries == entries;
    case _ =>
  }

  /** Converting twice is converting once. */
  lemma {:induction false} SafeJsonIdempotent(v: Value, toFloat: Decimal2 -> string)
    ensures SafeJsonSerialize(SafeJsonSerialize(v, toFloat), toFloat) == SafeJsonSerialize(v, toFloat)
  {
    SafeJsonKeepsSafe(SafeJsonSerialize(v, toFloat), toFloat);
  }

  /** The number of batches `range(0, n, size)` yields. */
  function BatchCount(n: nat, size: nat): nat
    requires size > 0
  {
    (n + size - 1) / size
  }

  /** Consecutive slices of `size` items, the last one possibly shorter. */
  function Chunked<T>(xs: seq<T>, size: nat): (r: seq<seq<T>>)
    requires size > 0
    ensures Flatten(r) == xs
    ensures forall j :: 0 <= j < |r| ==> 0 < |r[j]| <= size
    decreases |xs|
  {
    if |xs| == 0 then []
    else
      var k := Min(size, |xs|);
      var rest := Chunked(xs[k..], size);
      var r := [xs[..k]] + rest;
      assert r[1..] == rest;
      assert xs == xs[..k] + xs[k..];
      r
  }

  lemma {:induction false} MulBound(d: int, y: int)
    requires y > 0
    ensures d >= 1 ==> d * y >= y
    ensures d <= -1 ==> d * y <= -y
  {
  }

  lemma {:induction false} DivUnique(x: int, y: int, q: int, r: int)
    requires y > 0 && 0 <= r < y && x == q * y + r
    ensures x / y == q
  {
    var q', r' := x / y, x % y;
    assert (q - q') * y == r' - r;
    MulBound(q - q', y);
  }

  lemma {:induction false} DivStep(a: nat, size: nat)
    requires size > 0
    ensures (a + size) / size == a / size + 1
  {
    DivUnique(a + size, size, a / size + 1, a % size);
  }

  /** There are `ceil(n / size)` slices. */
  lemma {:induction false} ChunkedCount<T>(xs: seq<T>, size: nat)
    requires size > 0
    ensures |Chunked(xs, size)| == BatchCount(|xs|, size)
    decreases |xs|
  {
    var n := |xs|;
    BatchCountSteps(n, size);
    if 0 < n <= size {
      assert xs[n..] == [];
    } else if n > size {
      assert Chunked(xs, size) == [xs[..size]] + Chunked(xs[size..], size);
      ChunkedCount(xs[size..], size);
    }
  }

  /** No batch for no rows, one for up to `size` rows, and one more for every
      further `size` rows. */
  lemma {:induction false} BatchCountSteps(n: nat, size: nat)
    requires size > 0
    ensures n == 0 ==> BatchCount(n, size) == 0
    ensures 0 < n <= size ==> BatchCount(n, size) == 1
    ensures n > size ==> BatchCount(n, size) == BatchCount(n - size, size) + 1
  {
    if n == 0 {
      DivUnique(size - 1, size, 0, size - 1);
    } else if n <= size {
      DivUnique(n + size - 1, size, 1, n - 1);
    } else {
      DivStep(n - size + size - 1, size);
    }
  }

  /** Slice `j` is Python's `xs[j * size:(j + 1) * size]`. */
  lemma {:induction false} ChunkedSlice<T>(xs: seq<T>, size: nat, j: nat)
    requires size > 0
    requires j < |Chunked(xs, size)|
    ensures j * size < |xs|
    ensures Chunked(xs, size)[j] == xs[j * size..Min((j + 1) * size, |xs|)]
    decreases j
  {
    var n := |xs|;
    var k := Min(size, n);
    var rest := Chunked(xs[k..], size);
    assert Chunked(xs, size) == [xs[..k]] + rest;
    if j == 0 {
      assert 0 * size == 0 && 1 * size == size;
    } else {
      ChunkedSlice(xs[k..], size, j - 1);
      SliceStep(xs, size, j);
      assert Chunked(xs, size)[j] == rest[j - 1];
    }
  }

  lemma {:induction false} SliceStep<T>(xs: seq<T>, size: nat, j: nat)
    requires size > 0 && j > 0 && |xs| > size
    requires (j - 1) * size < |xs| - size
    ensures j * size < |xs|
    ensures xs[size..][(j - 1) * size..Min(j * size, |xs| - size)] == xs[j * size..Min((j + 1) * size, |xs|)]
  {
    var n := |xs|;
    var s0 := (j - 1) * size;
    assert j * size == s0 + size;
    assert (j + 1) * size == j * size + size;
    assert Min(j * size, n - size) + size == Min((j + 1) * size, n);
  }

  /** `[xs[i:i + size] for i in range(0, len(xs), size)]`. A zero step raises;
      a negative one yields no batches at all; a positive one partitions the
      list in order into non-empty batches of at most `size` items. */
  function Batches<T>(xs: seq<T>, size: int): (r: Result<seq<seq<T>>>)
    ensures r.Failure? <==> size == 0
    ensures size < 0 ==> r == Success([])
    ensures size > 0 ==> r.Success? && Flatten(r.value) == xs
    ensures size > 0 ==> forall j :: 0 <= j < |r.value| ==> 0 < |r.value[j]| <= size
  {
    if size == 0 then Failure("ValueError: range() arg 3 must not be zero")
    else if size < 0 then Success([])
    else Success(Chunked(xs, size))
  }

  /** Batch `j` is the slice starting at `j * size`, and there are `ceil(n / size)` of them. */
  lemma {:induction false} BatchesMatchRange<T>(xs: seq<T>, size: int)
    requires size > 0
    ensures |Batches(xs, size).value| == BatchCount(|xs|, size)
    ensures forall j :: 0 <= j < |Batches(xs, size).value| ==>
      j * size < |xs| && Batches(xs, size).value[j] == xs[j * size..Min((j + 1) * size, |xs|)]
  {
    ChunkedCount(xs, size);
    forall j | 0 <= j < |Batches(xs, size).value|
      ensures j * size < |xs| && Batches(xs, size).value[j] == xs[j * size..Min((j + 1) * size, |xs|)]
    {
      ChunkedSlice(xs, size, j);
    }
  }
}

=== FILE: ingest_xes.dfy ===
/** Event-log ingestion from XES files: the key-fallback extractors, the event
    hash, and the trace/event normalisation loop that turns a parsed log into
    rows to upsert. Parsing the file and the database are not modelled: a log
    is a sequence of traces, each with its attribute dict and its events. */
module IngestXes {
  import opened Base
  import opened Text
  import opened PyValue
  import opened IngestCommon

  /** A Python dict, in insertion order. */
  type Dict = seq<(string, Value)>

  datatype Trace = Trace(attributes: Dict, events: seq<Dict>)

  /** One row of `normalized_events`. The row `ingest_xes` builds also holds
      the event's attributes as JSON text and the event hash; both are
      functions of the fields kept here and of the source event
      (`AttributesText` and `EventHash` below). */
  datatype EventRow = EventRow(
    org: string,
    sourceFile: string,
    caseId: string,
    eventIndex: nat,
    activity: string,
    eventTime: Option<string>,
    event: Dict)

  /** What the loop in `ingest_xes` leaves behind. */
  datatype Normalized = Normalized(rows: seq<EventRow>, tracesSkipped: nat, eventsSkipped: nat)

  /** `d.get(key)` is present and truthy. */
  predicate TruthyAt(d: Dict, key: string) {
    Get(d, key).Some? && PyTruthy(Get(d, key).value)
  }

  /** The chain `v = d.get(k1); if not v: v = d.get(k2) ...` followed by `if v:`:
      the value under the first key whose value is truthy. */
  function FirstTruthy(d: Dict, keys: seq<string>): (r: Option<Value>)
    ensures r.None? <==> forall i :: 0 <= i < |keys| ==> !TruthyAt(d, keys[i])
    ensures r.Some? ==> PyTruthy(r.value)
    ensures r.Some? ==> exists i :: 0 <= i < |keys| && Get(d, keys[i]) == r &&
                                    forall j :: 0 <= j < i ==> !TruthyAt(d, keys[j])
  {
    if |keys| == 0 then None
    else if TruthyAt(d, keys[0]) then Get(d, keys[0])
    else
      var r := FirstTruthy(d, keys[1..]);
      assert forall i :: 1 <= i < |keys| ==> keys[i] == keys[1..][i - 1];
      assert r.Some? ==> exists i :: 0 <= i < |keys| && Get(d, keys[i]) == r &&
                                     forall j :: 0 <= j < i ==> !TruthyAt(d, keys[j]) by {
        if r.Some? {
          var i :| 0 <= i < |keys[1..]| && Get(d, keys[1..][i]) == r &&
                   forall j :: 0 <= j < i ==> !TruthyAt(d, keys[1..][j]);
          assert Get(d, keys[i + 1]) == r;
        }
      }
      r
  }

  /** `extract_case_id`: 'concept:name', else 'case:concept:name', as stripped text. */
  function ExtractCaseId(attributes: Dict): (r: Option<string>)
    ensures r.None? <==> !TruthyAt(attributes, "concept:name") && !TruthyAt(attributes, "case:concept:name")
    ensures TruthyAt(attributes, "concept:name") ==>
              r == Some(Strip(Str(Get(attributes, "concept:name").value)))
    ensures !TruthyAt(attributes, "concept:name") && TruthyAt(attributes, "case:concept:name") ==>
              r == Some(Strip(Str(Get(attributes, "case:concept:name").value)))
  {
    var caseId := Get(attributes, "concept:name");
    var caseId := if caseId.Some? && PyTruthy(caseId.value) then caseId else Get(attributes, "case:concept:name");
    if caseId.Some? && PyTruthy(caseId.value) then Some(Strip(Str(caseId.value))) else None
  }

  /** The keys `extract_activity` tries, in order. */
  const ActivityKeys: seq<string> := ["concept:name", "activity", "Activity"]

  /** `extract_activity`: 'concept:name', else 'activity', else 'Activity', as stripped text. */
  function ExtractActivity(event: Dict): (r: Option<string>)
    ensures r.None? <==> !TruthyAt(event, "concept:name") && !TruthyAt(event, "activity") && !TruthyAt(event, "Activity")
    ensures TruthyAt(event, "concept:name") ==> r == Some(Strip(Str(Get(event, "concept:name").value)))
  {
    var activity := Get(event, "concept:name");
    var activity := if activity.Some? && PyTruthy(activity.value) then activity else Get(event, "activity");
    var activity := if activity.Some? && PyTruthy(activity.value) then activity else Get(event, "Activity");
    if activity.Some? && PyTruthy(activity.value) then Some(Strip(Str(activity.value))) else None
  }

  /** Both extractors take the first key, in their order, whose value is truthy. */
  lemma {:induction false} ExtractorsTakeFirstTruthy(d: Dict)
    ensures ExtractCaseId(d) == (match FirstTruthy(d, ["concept:name", "case:concept:name"])
                                 case Some(v) => Some(Strip(Str(v)))
                                 case None => None)
    ensures ExtractActivity(d) == (match FirstTruthy(d, ActivityKeys)
                                   case Some(v) => Some(Strip(Str(v)))
                                   case None => None)
  {
    assert ["concept:name", "case:concept:name"][1..] == ["case:concept:name"];
    assert ActivityKeys[1..] == ["activity", "Activity"];
    assert ActivityKeys[1..][1..] == ["Activity"];
    var tail := FirstTruthy(d, ["activity", "Activity"]);
    assert tail == if TruthyAt(d, "activity") then Get(d, "activity") else FirstTruthy(d, ["Activity"]);
    assert FirstTruthy(d, ActivityKeys) == if TruthyAt(d, "concept:name") then Get(d, "concept:name") else tail;
  }

  /** `extract_timestamp`: `None` when 'time:timestamp' is absent or `None`;
      dates and datetimes in ISO form, anything else through `str`. */
  function ExtractTimestamp(event: Dict): (r: Option<string>)
    ensures r.None? <==> Get(event, "time:timestamp").None? || Get(event, "time:timestamp").value.VNone?
    ensures r.Some? && Get(event, "time:timestamp").value.VDateTime? ==>
              var v := Get(event, "time:timestamp").value; r.value == DateTimeIso(v.date, v.time, "T")
    ensures r.Some? && Get(event, "time:timestamp").value.VStr? ==> r.value == Get(event, "time:timestamp").value.s
  {
    match Get(event, "time:timestamp")
    case None => None
    case Some(v) =>
      match v
      case VNone => None
      case VDate(d) => Some(DateIso(d))
      case VDateTime(d, t) => Some(DateTimeIso(d, t, "T"))
      case _ => Some(Str(v))
  }

  /** `extract_attributes`: every attribute, its value made JSON-safe. */
  function ExtractAttributes(event: Dict, toFloat: Decimal2 -> string): (r: Dict)
    ensures Keys(r) == Keys(event)
    ensures JsonSafe(VDict(r))
    ensures forall i :: 0 <= i < |event| ==> r[i] == (event[i].0, SafeJsonSerialize(event[i].1, toFloat))
  {
    SafeJsonMembers(VDict(event), toFloat);
    SafeJsonSerialize(VDict(event), toFloat).entries
  }

  /** `event_time or 'NULL'`: a missing or empty time is written as NULL. */
  function TimeField(eventTime: Option<string>): string {
    if Truthy(eventTime) then eventTime.value else "NULL"
  }

  /** The fields `compute_event_hash` hands to `compute_row_hash`. */
  function EventHashFields(org: string, sourceFile: string, caseId: string, eventIndex: nat, activity: string,
                           eventTime: Option<string>, attrsJson: string): seq<Value>
  {
    [VStr(org), VStr(sourceFile), VStr(caseId), VInt(eventIndex), VStr(activity), VStr(TimeField(eventTime)), VStr(attrsJson)]
  }

  /** `compute_event_hash`: the row hash of the identifying fields, the time
      (or NULL) and the attributes as sorted-key JSON. Raises only when the
      attributes cannot be written as JSON. */
  function ComputeEventHash(org: string, sourceFile: string, caseId: string, eventIndex: nat, activity: string,
                            eventTime: Option<string>, attributes: Dict, sha256: string -> string): (r: Result<string>)
    ensures r.Success? <==> JsonSafe(VDict(attributes))
    ensures r.Success? ==> r == ComputeRowHash(EventHashFields(org, sourceFile, caseId, eventIndex, activity, eventTime,
                                                               Json(VDict(attributes), true).value), sha256)
  {
    match Json(VDict(attributes), true)
    case Failure(e) => Failure(e)
    case Success(attrsJson) =>
      var fields := EventHashFields(org, sourceFile, caseId, eventIndex, activity, eventTime, attrsJson);
      assert forall i :: 0 <= i < |fields| ==> !fields[i].VDict?;
      ComputeRowHash(fields, sha256)
  }

  /** The hash does not depend on the insertion order of the attributes. */
  lemma {:induction false} EventHashIgnoresAttributeOrder(org: string, sourceFile: string, caseId: string, eventIndex: nat, activity: string,
                                       eventTime: Option<string>, a1: Dict, a2: Dict, sha256: string -> string)
    requires multiset(a1) == multiset(a2)
    requires NoDuplicates(Keys(a1))
    ensures ComputeEventHash(org, sourceFile, caseId, eventIndex, activity, eventTime, a1, sha256) ==
            ComputeEventHash(org, sourceFile, caseId, eventIndex, activity, eventTime, a2, sha256)
  {
    JsonSortedKeysOrderFree(a1, a2);
  }

  /** A missing time hashes as the text "NULL" would, and so does an empty one. */
  lemma {:induction false} EventHashMissingTime(org: string, sourceFile: string, caseId: string, eventIndex: nat, activity: string,
                             attributes: Dict, sha256: string -> string)
    ensures ComputeEventHash(org, sourceFile, caseId, eventIndex, activity, None, attributes, sha256) ==
            ComputeEventHash(org, sourceFile, caseId, eventIndex, activity, Some("NULL"), attributes, sha256)
    ensures ComputeEventHash(org, sourceFile, caseId, eventIndex, activity, Some(""), attributes, sha256) ==
            ComputeEventHash(org, sourceFile, caseId, eventIndex, activity, None, attributes, sha256)
  {
  }

  /** The row for an event at 1-based position `eventIndex` of a trace, given
      the activity extracted from it. */
  function EventRowOf(org: string, sourceFile: string, caseId: string, eventIndex: nat, activity: string,
                      event: Dict): (r: EventRow)
    ensures r.eventTime == ExtractTimestamp(event)
  {
    EventRow(org, sourceFile, caseId, eventIndex, activity, ExtractTimestamp(event), event)
  }

  /** The row's 'attributes' column: `json.dumps(extract_attributes(event))`,
      keys in insertion order. It never raises. */
  function AttributesText(row: EventRow, toFloat: Decimal2 -> string): (r: string)
  {
    var attributes := ExtractAttributes(row.event, toFloat);
    Json(VDict(attributes), false).value
  }

  /** The row's 'event_hash' column. It never raises. */
  function EventHash(row: EventRow, toFloat: Decimal2 -> string, sha256: string -> string): (r: string)
  {
    var attributes := ExtractAttributes(row.event, toFloat);
    ComputeEventHash(row.org, row.sourceFile, row.caseId, row.eventIndex, row.activity, row.eventTime, attributes, sha256).value
  }

  /** The number of events skipped for want of an activity. */
  function Rejected(activities: seq<Option<string>>): (n: nat)
    ensures n <= |activities|
  {
    if |activities| == 0 then 0
    else (if Truthy(activities[0]) then 0 else 1) + Rejected(activities[1..])
  }

  /** The positions, numbered from `start` as `enumerate(events, start)`
      numbers them, of the events that have an activity, in order. */
  function KeptPositions(activities: seq<Option<string>>, start: nat): seq<nat>
    decreases |activities|
  {
    if |activities| == 0 then []
    else if Truthy(activities[0]) then [start] + KeptPositions(activities[1..], start + 1)
    else KeptPositions(activities[1..], start + 1)
  }

  /** Kept and skipped events together are all the events. */
  lemma {:induction false} KeptPositionsCount(activities: seq<Option<string>>, start: nat)
    ensures |KeptPositions(activities, start)| + Rejected(activities) == |activities|
    decreases |activities|
  {
    if |activities| > 0 {
      KeptPositionsCount(activities[1..], start + 1);
    }
  }

  /** Every kept position is the position of an event with an activity. */
  lemma {:induction false} KeptPositionsSound(activities: seq<Option<string>>, start: nat)
    ensures forall k :: 0 <= k < |KeptPositions(activities, start)| ==>
              && start <= KeptPositions(activities, start)[k] < start + |activities|
              && Truthy(activities[KeptPositions(activities, start)[k] - start])
    decreases |activities|
  {
    if |activities| > 0 {
      var rest := KeptPositions(activities[1..], start + 1);
      KeptPositionsSound(activities[1..], start + 1);
      forall k | 0 <= k < |rest| ensures start < rest[k] < start + |activities| && Truthy(activities[rest[k] - start]) {
        assert activities[1..][rest[k] - (start + 1)] == activities[rest[k] - start];
      }
      if Truthy(activities[0]) {
        var r := [start] + rest;
        assert forall k :: 1 <= k < |r| ==> r[k] == rest[k - 1];
      }
    }
  }

  /** Kept positions increase strictly. */
  lemma {:induction false} KeptPositionsIncrease(activities: seq<Option<string>>, start: nat)
    ensures forall a, b :: 0 <= a < b < |KeptPositions(activities, start)| ==>
              KeptPositions(activities, start)[a] < KeptPositions(activities, start)[b]
    decreases |activities|
  {
    if |activities| > 0 {
      var rest := KeptPositions(activities[1..], start + 1);
      KeptPositionsIncrease(activities[1..], start + 1);
      if Truthy(activities[0]) {
        KeptPositionsSound(activities[1..], start + 1);
        var r := [start] + rest;
        forall a, b | 0 <= a < b < |r| ensures r[a] < r[b] {
          assert r[b] == rest[b - 1];
          if a > 0 {
            assert r[a] == rest[a - 1];
          }
        }
      }
    }
  }

  /** Every event with an activity has its position kept. */
  lemma {:induction false} KeptPositionsComplete(activities: seq<Option<string>>, start: nat, p: nat)
    requires p < |activities| && Truthy(activities[p])
    ensures start + p in KeptPositions(activities, start)
    decreases |activities|
  {
    if p > 0 {
      assert activities[1..][p - 1] == activities[p];
      KeptPositionsComplete(activities[1..], start + 1, p - 1);
    }
  }

  /** The activity of every event, as `extract_activity` finds it. */
  function Activities(events: seq<Dict>): (r: seq<Option<string>>)
    ensures |r| == |events|
    ensures forall i :: 0 <= i < |events| ==> r[i] == ExtractActivity(events[i])
  {
    seq(|events|, i requires 0 <= i < |events| => ExtractActivity(events[i]))
  }

  /** The event positions of some rows, in order. */
  function Indices(rows: seq<EventRow>): (r: seq<nat>)
    ensures |r| == |rows|
    ensures forall k :: 0 <= k < |rows| ==> r[k] == rows[k].eventIndex
  {
    seq(|rows|, k requires 0 <= k < |rows| => rows[k].eventIndex)
  }

  /** One row per event whose activity (in `activities`, position by
      position) is present and non-empty, numbered from `start`. */
  function KeptRows(org: string, sourceFile: string, caseId: string, events: seq<Dict>,
                    activities: seq<Option<string>>, start: nat): (rows: seq<EventRow>)
    requires |activities| == |events|
    ensures Indices(rows) == KeptPositions(activities, start)
    ensures forall k :: 0 <= k < |rows| ==> RowOfEvent(org, sourceFile, caseId, events, activities, start, rows[k])
  {
    var kept := KeptPositions(activities, start);
    KeptPositionsSound(activities, start);
    var rows := seq(|kept|, k requires 0 <= k < |kept| =>
      EventRowOf(org, sourceFile, caseId, kept[k], activities[kept[k] - start].value, events[kept[k] - start]));
    assert Indices(rows) == kept;
    rows
  }

  /** A row is the event at its position: the position lies in the trace,
      the event there has an activity, and the row is built from that event. */
  predicate RowOfEvent(org: string, sourceFile: string, caseId: string, events: seq<Dict>,
                       activities: seq<Option<string>>, start: nat, row: EventRow)
    requires |activities| == |events|
  {
    && start <= row.eventIndex < start + |events|
    && Truthy(activities[row.eventIndex - start])
    && row == EventRowOf(org, sourceFile, caseId, row.eventIndex,
                         activities[row.eventIndex - start].value, events[row.eventIndex - start])
  }

  /** The inner loop of `ingest_xes` over the events of one trace, numbered
      from `start` (1 in `ingest_xes`): one row per event whose activity is
      present and non-empty, and the number of events skipped. */
  function NormalizeEvents(org: string, sourceFile: string, caseId: string, events: seq<Dict>, start: nat): (r: (seq<EventRow>, nat))
    ensures |r.0| + r.1 == |events|
    ensures r.1 == Rejected(Activities(events))
    ensures forall k :: 0 <= k < |r.0| ==>
              r.0[k].org == org && r.0[k].sourceFile == sourceFile && r.0[k].caseId == caseId && r.0[k].activity != ""
  {
    var rows := KeptRows(org, sourceFile, caseId, events, Activities(events), start);
    KeptPositionsCount(Activities(events), start);
    (rows, |events| - |rows|)
  }

  /** Row by row: each row is the event at its own position (the position
      counts skipped events too), every event with an activity has a row, and
      positions increase. */
  lemma {:induction false} NormalizeEventsPositions(org: string, sourceFile: string, caseId: string, events: seq<Dict>, start: nat)
    ensures var rows := NormalizeEvents(org, sourceFile, caseId, events, start).0;
            var activities := Activities(events);
            && (forall k :: 0 <= k < |rows| ==> RowOfEvent(org, sourceFile, caseId, events, activities, start, rows[k]))
            && (forall a, b :: 0 <= a < b < |rows| ==> rows[a].eventIndex < rows[b].eventIndex)
            && (forall p :: 0 <= p < |events| && Truthy(activities[p]) ==> start + p in Indices(rows))
  {
    var activities := Activities(events);
    assert NormalizeEvents(org, sourceFile, caseId, events, start).0 == KeptRows(org, sourceFile, caseId, events, activities, start);
    KeptRowsPositions(org, sourceFile, caseId, events, activities, start);
  }

  /** `NormalizeEventsPositions` for any activities given position by position. */
  lemma {:induction false} KeptRowsPositions(org: string, sourceFile: string, caseId: string, events: seq<Dict>,
                          activities: seq<Option<string>>, start: nat)
    requires |activities| == |events|
    ensures var rows := KeptRows(org, sourceFile, caseId, events, activities, start);
            && (forall k :: 0 <= k < |rows| ==> RowOfEvent(org, sourceFile, caseId, events, activities, start, rows[k]))
            && (forall a, b :: 0 <= a < b < |rows| ==> rows[a].eventIndex < rows[b].eventIndex)
            && (forall p :: 0 <= p < |events| && Truthy(activities[p]) ==> start + p in Indices(rows))
  {
    var rows := KeptRows(org, sourceFile, caseId, events, activities, start);
    var kept := KeptPositions(activities, start);
    KeptPositionsIncrease(activities, start);
    forall a, b | 0 <= a < b < |rows|
      ensures rows[a].eventIndex < rows[b].eventIndex
    {
      assert rows[a].eventIndex == kept[a] && rows[b].eventIndex == kept[b];
    }
    forall p | 0 <= p < |events| && Truthy(activities[p])
      ensures start + p in Indices(rows)
    {
      KeptPositionsComplete(activities, start, p);
    }
  }

  /** `if not case_id: skip`: a trace is kept when its case id is present and non-empty. */
  predicate Identified(t: Trace) {
    Truthy(ExtractCaseId(t.attributes))
  }

  /** The number of traces with a usable case id. */
  function IdentifiedTraces(log: seq<Trace>): (n: nat)
    ensures n <= |log|
  {
    if |log| == 0 then 0 else (if Identified(log[0]) then 1 else 0) + IdentifiedTraces(log[1..])
  }

  /** The number of events inside traces with a usable case id. */
  function IdentifiedEvents(log: seq<Trace>): nat {
    if |log| == 0 then 0 else (if Identified(log[0]) then |log[0].events| else 0) + IdentifiedEvents(log[1..])
  }

  /** The outer loop of `ingest_xes` over the traces of a log. */
  function NormalizeLog(org: string, sourceFile: string, log: seq<Trace>): (r: Normalized)
    ensures r.tracesSkipped + IdentifiedTraces(log) == |log|
    ensures |r.rows| + r.eventsSkipped == IdentifiedEvents(log)
    decreases |log|
  {
    if |log| == 0 then Normalized([], 0, 0)
    else
      var rest := NormalizeLog(org, sourceFile, log[1..]);
      var caseId := ExtractCaseId(log[0].attributes);
      if !Truthy(caseId) then Normalized(rest.rows, rest.tracesSkipped + 1, rest.eventsSkipped)
      else
        var here := NormalizeEvents(org, sourceFile, caseId.value, log[0].events, 1);
        Normalized(here.0 + rest.rows, rest.tracesSkipped, here.1 + rest.eventsSkipped)
  }

  /** Traces are handled in file order: an identified trace's rows come
      before those of the traces after it, and a skipped trace adds none. */
  lemma {:induction false} NormalizeLogCons(org: string, sourceFile: string, log: seq<Trace>)
    requires |log| > 0
    ensures var caseId := ExtractCaseId(log[0].attributes);
            NormalizeLog(org, sourceFile, log).rows ==
              (if Truthy(caseId) then NormalizeEvents(org, sourceFile, caseId.value, log[0].events, 1).0 else [])
              + NormalizeLog(org, sourceFile, log[1..]).rows
  {
  }

  /** A row has a non-empty case id and activity, and carries the run's org and file name. */
  predicate FromRun(org: string, sourceFile: string, row: EventRow) {
    row.caseId != "" && row.activity != "" && row.org == org && row.sourceFile == sourceFile
  }

  /** Every emitted event has a non-empty case id and activity, and carries
      the run's org and file name. */
  lemma {:induction false} NormalizeLogRows(org: string, sourceFile: string, log: seq<Trace>)
    ensures forall k :: 0 <= k < |NormalizeLog(org, sourceFile, log).rows| ==>
              FromRun(org, sourceFile, NormalizeLog(org, sourceFile, log).rows[k])
    decreases |log|
  {
    if |log| > 0 {
      var rows := NormalizeLog(org, sourceFile, log).rows;
      var rest := NormalizeLog(org, sourceFile, log[1..]).rows;
      var caseId := ExtractCaseId(log[0].attributes);
      NormalizeLogRows(org, sourceFile, log[1..]);
      NormalizeLogCons(org, sourceFile, log);
      if Truthy(caseId) {
        var here := NormalizeEvents(org, sourceFile, caseId.value, log[0].events, 1).0;
        assert rows == here + rest;
        AllFromRunAppend(org, sourceFile, here, rest);
      } else {
        assert rows == [] + rest;
        assert rows == rest;
      }
    }
  }

  /** Rows from the run stay so when two lists of them are joined. */
  lemma {:induction false} AllFromRunAppend(org: string, sourceFile: string, a: seq<EventRow>, b: seq<EventRow>)
    requires forall k :: 0 <= k < |a| ==> FromRun(org, sourceFile, a[k])
    requires forall k :: 0 <= k < |b| ==> FromRun(org, sourceFile, b[k])
    ensures forall k :: 0 <= k < |a + b| ==> FromRun(org, sourceFile, (a + b)[k])
  {
    forall k | 0 <= k < |a + b|
      ensures FromRun(org, sourceFile, (a + b)[k])
    {
      if k >= |a| {
        assert (a + b)[k] == b[k - |a|];
      }
    }
  }

  /** The summary's "Events read" (rows kept plus events skipped) counts every
      event of every identified trace. */
  lemma {:induction false} EventsReadCountsIdentified(org: string, sourceFile: string, log: seq<Trace>)
    ensures var r := NormalizeLog(org, sourceFile, log);
            |r.rows| + r.eventsSkipped == IdentifiedEvents(log) <= TotalEvents(log)
  {
    IdentifiedAtMostTotal(log);
  }

  function TotalEvents(log: seq<Trace>): nat {
    if |log| == 0 then 0 else |log[0].events| + TotalEvents(log[1..])
  }

  lemma {:induction false} IdentifiedAtMostTotal(log: seq<Trace>)
    ensures IdentifiedEvents(log) <= TotalEvents(log)
  {
    if |log| > 0 {
      IdentifiedAtMostTotal(log[1..]);
    }
  }

  /** A case id of blanks strips to the empty text rather than `None`, and the
      loop still skips its trace, events and all. */
  lemma {:induction false} BlankCaseIdSkipsTrace(events: seq<Dict>, org: string, sourceFile: string)
    ensures ExtractCaseId([("concept:name", VStr("   "))]) == Some("")
    ensures NormalizeLog(org, sourceFile, [Trace([("concept:name", VStr("   "))], events)])
            == Normalized([], 1, 0)
  {
    var attrs := [("concept:name", VStr("   "))];
    assert TruthyAt(attrs, "concept:name");
    assert Strip("   ") == "";
  }
}

=== FILE: policy_search.dfy ===
/** Hybrid retrieval: keyword rows and vector rows are merged into one entry per
    (doc_name, chunk_index) key, ranked, labelled by where they came from, and
    cut to `top_k`. The two database queries are inputs: each is the full
    ordered answer of its query, and the model applies the query's LIMIT. */
module PolicySearch {
  import opened Base
  import opened Sorting

  type Key = (string, int)

  /** A keyword-search row: (doc_name, chunk_index, snippet, ts_rank score). */
  datatype KeywordRow = KeywordRow(docName: string, chunkIndex: int, snippet: string, score: real) {
    function Key(): Key { (docName, chunkIndex) }
  }

  /** A vector-search row: (doc_name, chunk_index, snippet, cosine distance). */
  datatype VectorRow = VectorRow(docName: string, chunkIndex: int, snippet: string, distance: real) {
    function Key(): Key { (docName, chunkIndex) }
  }

  /** A merged entry; a missing score is `None`. */
  datatype Candidate = Candidate(
    docName: string,
    chunkIndex: int,
    snippet: string,
    keywordScore: Option<real>,
    vectorDistance: Option<real>
  ) {
    function Key(): Key { (docName, chunkIndex) }
  }

  datatype SourceLabel = Both | KeywordOnly | VectorOnly

  function LabelName(l: SourceLabel): string {
    match l
    case Both => "both"
    case KeywordOnly => "keyword"
    case VectorOnly => "vector"
  }

  datatype LabelledResult = LabelledResult(item: Candidate, source: SourceLabel)

  datatype SearchResult = SearchResult(query: string, results: seq<LabelledResult>)

  function KeywordKeys(rows: seq<KeywordRow>): (r: seq<Key>)
    ensures |r| == |rows| && forall i :: 0 <= i < |rows| ==> r[i] == rows[i].Key()
  {
    seq(|rows|, i requires 0 <= i < |rows| => rows[i].Key())
  }

  function VectorKeys(rows: seq<VectorRow>): (r: seq<Key>)
    ensures |r| == |rows| && forall i :: 0 <= i < |rows| ==> r[i] == rows[i].Key()
  {
    seq(|rows|, i requires 0 <= i < |rows| => rows[i].Key())
  }

  function KeysOf(m: seq<Candidate>): (r: seq<Key>)
    ensures |r| == |m| && forall i :: 0 <= i < |m| ==> r[i] == m[i].Key()
  {
    seq(|m|, i requires 0 <= i < |m| => m[i].Key())
  }

  /** The last keyword row with key `k`: a later row overwrites an earlier one. */
  function LastKeyword(rows: seq<KeywordRow>, k: Key): Option<KeywordRow> {
    if |rows| == 0 then None
    else if rows[|rows| - 1].Key() == k then Some(rows[|rows| - 1])
    else LastKeyword(rows[..|rows| - 1], k)
  }

  function LastVector(rows: seq<VectorRow>, k: Key): Option<VectorRow> {
    if |rows| == 0 then None
    else if rows[|rows| - 1].Key() == k then Some(rows[|rows| - 1])
    else LastVector(rows[..|rows| - 1], k)
  }

  /** The first vector row with key `k`: it creates the entry, later ones only update the distance. */
  function FirstVector(rows: seq<VectorRow>, k: Key): Option<VectorRow> {
    if |rows| == 0 then None
    else
      var earlier := FirstVector(rows[..|rows| - 1], k);
      if earlier.Some? then earlier
      else if rows[|rows| - 1].Key() == k then Some(rows[|rows| - 1])
      else None
  }

  /** The entry the merge should hold for key `k`, read off the rows directly:
      keyword score and snippet from the last keyword row with that key (the
      first vector row's snippet when there is none), distance from the last
      vector row with that key. */
  function Expected(kw: seq<KeywordRow>, vec: seq<VectorRow>, k: Key): Candidate {
    var lk := LastKeyword(kw, k);
    var lv := LastVector(vec, k);
    var fv := FirstVector(vec, k);
    Candidate(
      k.0, k.1,
      if lk.Some? then lk.value.snippet else if fv.Some? then fv.value.snippet else "",
      if lk.Some? then Some(lk.value.score) else None,
      if lv.Some? then Some(lv.value.distance) else None)
  }

  /** The position of key `k` in the merged entries, or -1. */
  function FindKey(m: seq<Candidate>, k: Key): (i: int)
    ensures -1 <= i < |m|
    ensures i >= 0 ==> m[i].Key() == k
    ensures i == -1 <==> k !in KeysOf(m)
  {
    if |m| == 0 then -1
    else if m[|m| - 1].Key() == k then |m| - 1
    else
      assert KeysOf(m) == KeysOf(m[..|m| - 1]) + [m[|m| - 1].Key()];
      FindKey(m[..|m| - 1], k)
  }

  /** One keyword row: a dict assignment, which replaces an existing entry in place. */
  function PutKeyword(m: seq<Candidate>, row: KeywordRow): seq<Candidate> {
    var c := Candidate(row.docName, row.chunkIndex, row.snippet, Some(row.score), None);
    var i := FindKey(m, row.Key());
    if i < 0 then m + [c] else m[i := c]
  }

  /** One vector row: a new entry if the key is new, otherwise only its distance changes. */
  function PutVector(m: seq<Candidate>, row: VectorRow): seq<Candidate> {
    var i := FindKey(m, row.Key());
    if i < 0 then m + [Candidate(row.docName, row.chunkIndex, row.snippet, None, Some(row.distance))]
    else m[i := m[i].(vectorDistance := Some(row.distance))]
  }

  function MergeKeyword(rows: seq<KeywordRow>): seq<Candidate> {
    if |rows| == 0 then [] else PutKeyword(MergeKeyword(rows[..|rows| - 1]), rows[|rows| - 1])
  }

  function MergeVector(m: seq<Candidate>, rows: seq<VectorRow>): seq<Candidate> {
    if |rows| == 0 then m else PutVector(MergeVector(m, rows[..|rows| - 1]), rows[|rows| - 1])
  }

  /** `m` holds one entry per distinct key of the rows, in order of first
      appearance (keyword rows first), each entry as `Expected` says. */
  ghost predicate MergedAs(m: seq<Candidate>, kw: seq<KeywordRow>, vec: seq<VectorRow>) {
    && KeysOf(m) == Dedupe(KeywordKeys(kw) + VectorKeys(vec))
    && forall i :: 0 <= i < |m| ==> m[i] == Expected(kw, vec, m[i].Key())
  }

  /** The merged entries in dict insertion order: one per distinct key, keys in
      order of first appearance (keyword rows first), each entry as `Expected` says. */
  function Merge(kw: seq<KeywordRow>, vec: seq<VectorRow>): (m: seq<Candidate>)
    ensures KeysOf(m) == Dedupe(KeywordKeys(kw) + VectorKeys(vec))
    ensures forall i :: 0 <= i < |m| ==> m[i] == Expected(kw, vec, m[i].Key())
  {
    MergeKeywordCorrect(kw);
    MergeVectorCorrect(kw, vec);
    MergeVector(MergeKeyword(kw), vec)
  }

  lemma {:induction false} MergeKeywordCorrect(kw: seq<KeywordRow>)
    ensures MergedAs(MergeKeyword(kw), kw, [])
  {
    if |kw| == 0 {
      assert KeywordKeys(kw) + VectorKeys([]) == [];
    } else {
      var pre := kw[..|kw| - 1];
      MergeKeywordCorrect(pre);
      assert kw == pre + [kw[|kw| - 1]];
      PutKeywordStep(MergeKeyword(pre), pre, kw[|kw| - 1]);
    }
  }

  lemma {:induction false} MergeVectorCorrect(kw: seq<KeywordRow>, vec: seq<VectorRow>)
    ensures MergedAs(MergeVector(MergeKeyword(kw), vec), kw, vec)
  {
    if |vec| == 0 {
      MergeKeywordCorrect(kw);
    } else {
      var pre := vec[..|vec| - 1];
      MergeVectorCorrect(kw, pre);
      assert vec == pre + [vec[|vec| - 1]];
      PutVectorStep(MergeVector(MergeKeyword(kw), pre), kw, pre, vec[|vec| - 1]);
    }
  }

  lemma {:induction false} PutKeywordStep(m: seq<Candidate>, pre: seq<KeywordRow>, row: KeywordRow)
    requires MergedAs(m, pre, [])
    ensures MergedAs(PutKeyword(m, row), pre + [row], [])
  {
    var kw := pre + [row];
    var k := row.Key();
    var m' := PutKeyword(m, row);
    var before := KeywordKeys(pre) + VectorKeys([]);
    assert KeywordKeys(kw) + VectorKeys([]) == before + [k];
    DedupeSnoc(before, k);
    var i := FindKey(m, k);
    if i < 0 {
      assert KeysOf(m') == KeysOf(m) + [k];
    } else {
      assert k in Dedupe(before);
      assert KeysOf(m') == KeysOf(m);
    }
    forall j | 0 <= j < |m'|
      ensures m'[j] == Expected(kw, [], m'[j].Key())
    {
      ExpectedKeywordStep(pre, row, m'[j].Key());
      if m'[j].Key() != k {
        assert m'[j] == m[j];
      }
    }
  }

  lemma {:induction false} ExpectedKeywordStep(pre: seq<KeywordRow>, row: KeywordRow, k: Key)
    ensures Expected(pre + [row], [], k)
         == if k == row.Key() then Candidate(row.docName, row.chunkIndex, row.snippet, Some(row.score), None)
            else Expected(pre, [], k)
  {
    assert (pre + [row])[..|pre|] == pre;
  }

  lemma {:induction false} PutVectorStep(m: seq<Candidate>, kw: seq<KeywordRow>, pre: seq<VectorRow>, row: VectorRow)
    requires MergedAs(m, kw, pre)
    ensures MergedAs(PutVector(m, row), kw, pre + [row])
  {
    var vec := pre + [row];
    var k := row.Key();
    var m' := PutVector(m, row);
    var before := KeywordKeys(kw) + VectorKeys(pre);
    assert KeywordKeys(kw) + VectorKeys(vec) == before + [k];
    DedupeSnoc(before, k);
    var i := FindKey(m, k);
    if i < 0 {
      assert KeysOf(m') == KeysOf(m) + [k];
      assert k !in before;
      KeyAbsentFromRows(kw, pre, k);
    } else {
      assert k in Dedupe(before);
      assert KeysOf(m') == KeysOf(m);
      KeyPresentInRows(kw, pre, k);
    }
    forall j | 0 <= j < |m'|
      ensures m'[j] == Expected(kw, vec, m'[j].Key())
    {
      ExpectedVectorStep(kw, pre, row, m'[j].Key());
      if m'[j].Key() != k {
        assert m'[j] == m[j];
      }
    }
  }

  lemma {:induction false} ExpectedVectorStep(kw: seq<KeywordRow>, pre: seq<VectorRow>, row: VectorRow, k: Key)
    ensures k != row.Key() ==> Expected(kw, pre + [row], k) == Expected(kw, pre, k)
    ensures k == row.Key() && (LastKeyword(kw, k).Some? || FirstVector(pre, k).Some?) ==>
      Expected(kw, pre + [row], k) == Expected(kw, pre, k).(vectorDistance := Some(row.distance))
    ensures k == row.Key() && LastKeyword(kw, k).None? && FirstVector(pre, k).None? ==>
      Expected(kw, pre + [row], k) == Candidate(row.docName, row.chunkIndex, row.snippet, None, Some(row.distance))
  {
    assert (pre + [row])[..|pre|] == pre;
  }

  lemma {:induction false} LastKeywordSome(kw: seq<KeywordRow>, k: Key)
    ensures LastKeyword(kw, k).Some? <==> k in KeywordKeys(kw)
  {
    if |kw| > 0 {
      assert KeywordKeys(kw) == KeywordKeys(kw[..|kw| - 1]) + [kw[|kw| - 1].Key()];
      LastKeywordSome(kw[..|kw| - 1], k);
    }
  }

  lemma {:induction false} VectorRowsSome(vec: seq<VectorRow>, k: Key)
    ensures LastVector(vec, k).Some? <==> k in VectorKeys(vec)
    ensures FirstVector(vec, k).Some? <==> k in VectorKeys(vec)
  {
    if |vec| > 0 {
      assert VectorKeys(vec) == VectorKeys(vec[..|vec| - 1]) + [vec[|vec| - 1].Key()];
      VectorRowsSome(vec[..|vec| - 1], k);
    }
  }

  lemma {:induction false} KeyAbsentFromRows(kw: seq<KeywordRow>, vec: seq<VectorRow>, k: Key)
    requires k !in KeywordKeys(kw) + VectorKeys(vec)
    ensures LastKeyword(kw, k).None?
    ensures FirstVector(vec, k).None?
  {
    LastKeywordSome(kw, k);
    VectorRowsSome(vec, k);
  }

  lemma {:induction false} KeyPresentInRows(kw: seq<KeywordRow>, vec: seq<VectorRow>, k: Key)
    requires k in KeywordKeys(kw) + VectorKeys(vec)
    ensures LastKeyword(kw, k).Some? || FirstVector(vec, k).Some?
  {
    LastKeywordSome(kw, k);
    VectorRowsSome(vec, k);
  }

  /** The merge holds one entry per distinct key, and its keys are exactly those of the rows. */
  lemma {:induction false} MergeKeys(kw: seq<KeywordRow>, vec: seq<VectorRow>)
    ensures NoDuplicates(KeysOf(Merge(kw, vec)))
    ensures forall k :: k in KeysOf(Merge(kw, vec)) <==> k in KeywordKeys(kw) || k in VectorKeys(vec)
    ensures |Merge(kw, vec)| <= |kw| + |vec|
  {
    var all := KeywordKeys(kw) + VectorKeys(vec);
    SubsequenceLength(Dedupe(all), all);
  }

  /** An entry's scores say which queries returned its key. */
  lemma {:induction false} MergeScores(kw: seq<KeywordRow>, vec: seq<VectorRow>, i: nat)
    requires i < |Merge(kw, vec)|
    ensures var c := Merge(kw, vec)[i];
      && (c.keywordScore.Some? <==> c.Key() in KeywordKeys(kw))
      && (c.vectorDistance.Some? <==> c.Key() in VectorKeys(vec))
  {
    var c := Merge(kw, vec)[i];
    LastKeywordSome(kw, c.Key());
    VectorRowsSome(vec, c.Key());
  }

  function BothScores(c: Candidate): bool {
    c.keywordScore.Some? && c.vectorDistance.Some?
  }

  /** The distance used for ranking: 999.0 when missing. */
  function RankDistance(c: Candidate): real {
    if c.vectorDistance.Some? then c.vectorDistance.value else 999.0
  }

  /** The keyword score used for ranking: 0.0 when missing. */
  function RankKeyword(c: Candidate): real {
    if c.keywordScore.Some? then c.keywordScore.value else 0.0
  }

  /** Sorting descending on the tuple (both, -distance, keyword score): `a` goes
      strictly before `b` when it is in both result lists and `b` is not, or
      ties on that and is nearer, or ties on both and scores higher. */
  predicate RankBefore(a: Candidate, b: Candidate) {
    || (BothScores(a) && !BothScores(b))
    || (BothScores(a) == BothScores(b) && RankDistance(a) < RankDistance(b))
    || (BothScores(a) == BothScores(b) && RankDistance(a) == RankDistance(b) && RankKeyword(a) > RankKeyword(b))
  }

  lemma {:induction false} RankBeforeIsStrictWeakOrder()
    ensures StrictWeakOrder(RankBefore)
  {
  }

  /** The label of an entry, from which scores it carries. */
  function Label(c: Candidate): (l: SourceLabel)
    ensures l == Both <==> c.keywordScore.Some? && c.vectorDistance.Some?
    ensures l == KeywordOnly <==> c.keywordScore.Some? && c.vectorDistance.None?
    ensures l == VectorOnly <==> c.keywordScore.None?
  {
    if c.keywordScore.Some? && c.vectorDistance.Some? then Both
    else if c.keywordScore.Some? then KeywordOnly
    else VectorOnly
  }

  function LabelAll(cs: seq<Candidate>): (r: seq<LabelledResult>)
    ensures |r| == |cs|
    ensures forall i :: 0 <= i < |cs| ==> r[i] == LabelledResult(cs[i], Label(cs[i]))
  {
    seq(|cs|, i requires 0 <= i < |cs| => LabelledResult(cs[i], Label(cs[i])))
  }

  /** SQL `LIMIT n` on an ordered answer. */
  function Limit<T>(rows: seq<T>, n: nat): (r: seq<T>)
    ensures r <= rows && |r| == Min(n, |rows|)
  {
    if n <= |rows| then rows[..n] else rows
  }

  /** The candidates inside labelled results. */
  function Items(rs: seq<LabelledResult>): (r: seq<Candidate>)
    ensures |r| == |rs| && forall i :: 0 <= i < |rs| ==> r[i] == rs[i].item
  {
    seq(|rs|, i requires 0 <= i < |rs| => rs[i].item)
  }

  /** `top` is a best-first selection from `merged`: in rank order, drawn from
      `merged` without repeating a key, and nothing left out ranks strictly
      before anything kept. */
  ghost predicate BestFirst(top: seq<Candidate>, merged: seq<Candidate>) {
    && SortedBy(top, RankBefore)
    && (forall i :: 0 <= i < |top| ==> top[i] in merged)
    && NoDuplicates(KeysOf(top))
    && (forall c, i :: c in merged && c !in top && 0 <= i < |top| ==> !RankBefore(c, top[i]))
  }

  /** `hybrid_search(q, top_k)`. `keywordAnswer` and `vectorAnswer` are the two
      queries' ordered answers before their `LIMIT top_k`; a missing connection
      string and a negative LIMIT are errors. The results are the `top_k` best
      merged entries in rank order, entries of equal rank in merge order, each
      labelled by where it came from. */
  function HybridSearch(q: string, topK: int, databaseUrl: Option<string>,
                        keywordAnswer: seq<KeywordRow>, vectorAnswer: seq<VectorRow>): (r: Result<SearchResult>)
    ensures r.Failure? <==> !Truthy(databaseUrl) || topK < 0
    ensures r.Success? ==> r.value.query == q
    ensures r.Success? ==>
      var merged := Merge(Limit(keywordAnswer, topK), Limit(vectorAnswer, topK));
      && |r.value.results| == Min(topK, |merged|)
      && |merged| <= 2 * topK
      && BestFirst(Items(r.value.results), merged)
      && (forall e :: ClassOf(Items(r.value.results), e, RankBefore) <= ClassOf(merged, e, RankBefore))
    ensures r.Success? ==> forall i :: 0 <= i < |r.value.results| ==> r.value.results[i].source == Label(r.value.results[i].item)
  {
    if !Truthy(databaseUrl) then Failure("DATABASE_URL is not set")
    else if topK < 0 then Failure("LIMIT must not be negative")
    else
      var kw := Limit(keywordAnswer, topK);
      var vec := Limit(vectorAnswer, topK);
      var merged := Merge(kw, vec);
      var ranked := Sort(merged, RankBefore);
      var top := SliceTo(ranked, topK);
      var results := LabelAll(top);
      MergeKeys(kw, vec);
      TopKProperties(merged, ranked, top, topK);
      assert Items(results) == top;
      Success(SearchResult(q, results))
  }

  lemma {:induction false} TopKProperties(merged: seq<Candidate>, ranked: seq<Candidate>, top: seq<Candidate>, topK: nat)
    requires NoDuplicates(KeysOf(merged))
    requires ranked == Sort(merged, RankBefore)
    requires top == SliceTo(ranked, topK)
    ensures |top| == Min(topK, |merged|)
    ensures BestFirst(top, merged)
    ensures forall e :: ClassOf(top, e, RankBefore) <= ClassOf(merged, e, RankBefore)
  {
    RankBeforeIsStrictWeakOrder();
    SortSorted(merged, RankBefore);
    SortedKeysDistinct(merged, ranked);
    PrefixFacts(merged, ranked, top);
    forall e
      ensures ClassOf(top, e, RankBefore) <= ClassOf(merged, e, RankBefore)
    {
      SortStable(merged, e, RankBefore);
      ClassOfPrefix(top, ranked, e, RankBefore);
    }
  }

  lemma {:induction false} PrefixFacts(merged: seq<Candidate>, ranked: seq<Candidate>, top: seq<Candidate>)
    requires SortedBy(ranked, RankBefore)
    requires NoDuplicates(KeysOf(ranked))
    requires multiset(ranked) == multiset(merged)
    requires top <= ranked
    ensures BestFirst(top, merged)
  {
    forall i | 0 <= i < |top|
      ensures top[i] in merged
    {
      assert top[i] == ranked[i];
      assert ranked[i] in multiset(ranked);
    }
    forall i, j | 0 <= i < j < |top|
      ensures KeysOf(top)[i] != KeysOf(top)[j]
    {
      assert KeysOf(ranked)[i] != KeysOf(ranked)[j];
    }
    PrefixBeatsRest(merged, ranked, top);
  }

  lemma {:induction false} PrefixBeatsRest(merged: seq<Candidate>, ranked: seq<Candidate>, top: seq<Candidate>)
    requires SortedBy(ranked, RankBefore)
    requires multiset(ranked) == multiset(merged)
    requires top <= ranked
    ensures forall c, i :: c in merged && c !in top && 0 <= i < |top| ==> !RankBefore(c, top[i])
  {
    forall c, i | c in merged && c !in top && 0 <= i < |top|
      ensures !RankBefore(c, top[i])
    {
      assert c in multiset(ranked);
      var j :| 0 <= j < |ranked| && ranked[j] == c;
      assert forall k :: 0 <= k < |top| ==> ranked[k] != c;
      assert !RankBefore(ranked[j], ranked[i]);
    }
  }

  /** Reordering keeps keys distinct. */
  lemma {:induction false} SortedKeysDistinct(merged: seq<Candidate>, ranked: seq<Candidate>)
    requires NoDuplicates(KeysOf(merged))
    requires multiset(ranked) == multiset(merged)
    ensures NoDuplicates(KeysOf(ranked))
  {
    forall i, j | 0 <= i < j < |ranked|
      ensures ranked[i].Key() != ranked[j].Key()
    {
      assert ranked[i] in multiset(merged) && ranked[j] in multiset(merged);
      var a :| 0 <= a < |merged| && merged[a] == ranked[i];
      var b :| 0 <= b < |merged| && merged[b] == ranked[j];
      MultisetTwice(ranked, i, j);
      MultisetOnce(merged, a);
      assert ranked[i] != ranked[j];
      assert a != b;
      assert KeysOf(merged)[a] != KeysOf(merged)[b];
    }
  }

  lemma {:induction false} MultisetTwice<T>(s: seq<T>, i: nat, j: nat)
    requires i < j < |s|
    ensures s[i] == s[j] ==> multiset(s)[s[i]] >= 2
  {
    assert s == s[..i] + [s[i]] + s[i + 1..j] + [s[j]] + s[j + 1..];
  }

  lemma {:induction false} MultisetOnce(m: seq<Candidate>, a: nat)
    requires NoDuplicates(KeysOf(m)) && a < |m|
    ensures multiset(m)[m[a]] == 1
  {
    assert m == m[..a] + [m[a]] + m[a + 1..];
    forall b | 0 <= b < a
      ensures m[..a][b] != m[a]
    {
      assert KeysOf(m)[b] != KeysOf(m)[a];
    }
    forall b | a < b < |m|
      ensures m[b] != m[a]
    {
      assert KeysOf(m)[b] != KeysOf(m)[a];
    }
    assert m[a] !in m[..a];
    assert m[a] !in m[a + 1..];
    assert multiset(m[..a])[m[a]] == 0;
    assert multiset(m[a + 1..])[m[a]] == 0;
  }
}

=== FILE: py_value.dfy ===
/** The Python values the ingestion code handles, with the three ways it turns
    them into text: `str()`, `repr()` and `json.dumps()`. A float is known only
    by its `repr` ("1234.5", "nan", "inf"); a `Decimal` is one with exactly two
    fractional digits, the only kind the ingestion code produces. Characters
    beyond ASCII are treated as printable and are not escaped by `repr`. */
module PyValue {
  import opened Base
  import opened Text
  import opened Sorting

  datatype Date = Date(year: nat, month: nat, day: nat)

  datatype Time = Time(hour: nat, minute: nat, second: nat, microsecond: nat)

  /** A `Decimal` quantised to two places: `(-1)^negative * units / 100`. The
      sign is kept apart so that `Decimal('-0.00')` is representable. */
  datatype Decimal2 = Decimal2(negative: bool, units: nat)

  datatype Value =
    | VNone
    | VBool(b: bool)
    | VInt(i: int)
    | VFloat(repr: string)
    | VDecimal(d: Decimal2)
    | VStr(s: string)
    | VDate(date: Date)
    | VDateTime(date: Date, time: Time)
    | VList(items: seq<Value>)
    | VDict(entries: seq<(string, Value)>)

  predicate IsLeap(y: nat) {
    y % 4 == 0 && (y % 100 != 0 || y % 400 == 0)
  }

  function DaysInMonth(y: nat, m: nat): nat {
    if m == 2 then (if IsLeap(y) then 29 else 28)
    else if m == 4 || m == 6 || m == 9 || m == 11 then 30
    else 31
  }

  /** What `datetime.date(year, month, day)` accepts. */
  predicate ValidDate(d: Date) {
    1 <= d.year <= 9999 && 1 <= d.month <= 12 && 1 <= d.day <= DaysInMonth(d.year, d.month)
  }

  /** The amount as a number of cents. */
  function Cents(d: Decimal2): int {
    if d.negative then -(d.units as int) else d.units
  }

  /** `-d`: negating a zero gives a positive zero. */
  function Negate(d: Decimal2): (r: Decimal2)
    ensures Cents(r) == -Cents(d)
    ensures r.units == d.units
    ensures d.units == 0 ==> !r.negative
  {
    if d.units == 0 then Decimal2(false, 0) else Decimal2(!d.negative, d.units)
  }

  /** `str()` of a two-place `Decimal`: "-1234.50", "0.05", "-0.00". */
  function DecimalStr(d: Decimal2): (s: string)
    ensures |s| >= 4
  {
    (if d.negative then "-" else "") + NatToString(d.units / 100) + "." + PadNat(d.units % 100, 2)
  }

  /** `date.isoformat()`: "YYYY-MM-DD". */
  function DateIso(d: Date): (s: string)
    ensures |s| >= 10
  {
    PadNat(d.year, 4) + "-" + PadNat(d.month, 2) + "-" + PadNat(d.day, 2)
  }

  /** The time part of `datetime.isoformat()`: microseconds only when non-zero. */
  function TimeIso(t: Time): string {
    PadNat(t.hour, 2) + ":" + PadNat(t.minute, 2) + ":" + PadNat(t.second, 2)
    + (if t.microsecond != 0 then "." + PadNat(t.microsecond, 6) else "")
  }

  function DateTimeIso(d: Date, t: Time, sep: string): string {
    DateIso(d) + sep + TimeIso(t)
  }

  function HexDigit(n: nat): char
    requires n < 16
  {
    if n < 10 then ('0' as int + n) as char else ('a' as int + n - 10) as char
  }

  /** `n` as `width` lower-case hex digits (the low ones when it does not fit). */
  function Hex(n: nat, width: nat): (r: string)
    ensures |r| == width
    decreases width
  {
    if width == 0 then "" else Hex(n / 16, width - 1) + [HexDigit(n % 16)]
  }

  /** The quote `repr` uses: double quotes only when the text has a single quote and no double quote. */
  function ReprQuote(s: string): char {
    if '\'' in s && '"' !in s then '"' else '\''
  }

  function ReprChar(c: char, quote: char): string {
    if c == quote || c == '\\' then ['\\', c]
    else if c == '\t' then "\\t"
    else if c == '\n' then "\\n"
    else if c == '\r' then "\\r"
    else if c as int < 32 || c as int == 127 then "\\x" + Hex(c as int, 2)
    else [c]
  }

  function ReprBody(s: string, quote: char): string {
    if |s| == 0 then "" else ReprChar(s[0], quote) + ReprBody(s[1..], quote)
  }

  /** `repr()` of a string. */
  function ReprStr(s: string): (r: string)
    ensures |r| >= 2 && r[0] == r[|r| - 1] == ReprQuote(s)
  {
    var q := ReprQuote(s);
    [q] + ReprBody(s, q) + [q]
  }

  /** The escape `json.dumps` writes for one character (ASCII output). */
  function JsonChar(c: char): string {
    if c == '"' then "\\\""
    else if c == '\\' then "\\\\"
    else if c == '\n' then "\\n"
    else if c == '\r' then "\\r"
    else if c == '\t' then "\\t"
    else if c as int == 8 then "\\b"
    else if c as int == 12 then "\\f"
    else if 32 <= c as int < 127 then [c]
    else if c as int <= 0xFFFF then "\\u" + Hex(c as int, 4)
    else
      var v := c as int - 0x10000;
      "\\u" + Hex(0xD800 + v / 0x400, 4) + "\\u" + Hex(0xDC00 + v % 0x400, 4)
  }

  function JsonBody(s: string): string {
    if |s| == 0 then "" else JsonChar(s[0]) + JsonBody(s[1..])
  }

  /** A JSON string literal. */
  function JsonStr(s: string): (r: string)
    ensures |r| >= 2 && r[0] == '"' && r[|r| - 1] == '"'
  {
    "\"" + JsonBody(s) + "\""
  }

  function IntStr(i: int): string {
    IntToString(i)
  }

  /** `repr()` of a value. */
  function Repr(v: Value): string {
    match v
    case VNone => "None"
    case VBool(b) => if b then "True" else "False"
    case VInt(i) => IntStr(i)
    case VFloat(f) => f
    case VDecimal(d) => "Decimal('" + DecimalStr(d) + "')"
    case VStr(s) => ReprStr(s)
    case VDate(d) => "datetime.date(" + Join([IntStr(d.year), IntStr(d.month), IntStr(d.day)], ", ") + ")"
    case VDateTime(d, t) =>
      var fields := [d.year, d.month, d.day, t.hour, t.minute, t.second, t.microsecond];
      var kept := if t.microsecond != 0 then 7 else if t.second != 0 then 6 else 5;
      "datetime.datetime(" + Join(seq(kept, i requires 0 <= i < kept => IntStr(fields[i])), ", ") + ")"
    case VList(items) =>
      "[" + Join(seq(|items|, i requires 0 <= i < |items| => Repr(items[i])), ", ") + "]"
    case VDict(entries) =>
      "{" + Join(seq(|entries|, i requires 0 <= i < |entries| => ReprStr(entries[i].0) + ": " + Repr(entries[i].1)), ", ") + "}"
  }

  /** `str()` of a value: the text of a string, ISO forms of dates (a space
      between date and time), and `repr` of containers. */
  function Str(v: Value): (s: string)
    ensures v.VStr? ==> s == v.s
    ensures v.VNone? ==> s == "None"
    ensures v.VDate? ==> s == DateIso(v.date)
  {
    match v
    case VStr(s) => s
    case VDecimal(d) => DecimalStr(d)
    case VDate(d) => DateIso(d)
    case VDateTime(d, t) => DateTimeIso(d, t, " ")
    case _ => Repr(v)
  }

  /** A float that is not a number. */
  predicate IsNaN(v: Value) {
    v.VFloat? && v.repr == "nan"
  }

  /** Python truthiness. */
  predicate PyTruthy(v: Value) {
    match v
    case VNone => false
    case VBool(b) => b
    case VInt(i) => i != 0
    case VFloat(f) => f != "0.0" && f != "-0.0"
    case VDecimal(d) => d.units != 0
    case VStr(s) => s != ""
    case VDate(_) => true
    case VDateTime(_, _) => true
    case VList(items) => |items| > 0
    case VDict(entries) => |entries| > 0
  }

  /** `d.get(key)` on a dict: the value stored under `key`, `None` when absent. */
  function Get(entries: seq<(string, Value)>, key: string): (r: Option<Value>)
    ensures r.Some? <==> key in Keys(entries)
    ensures r.Some? ==> (key, r.value) in entries
  {
    if |entries| == 0 then None
    else if entries[0].0 == key then Some(entries[0].1)
    else Get(entries[1..], key)
  }

  /** Looking a key up past a first entry: that entry answers for its own
      key, and every other key is looked up in the rest. */
  lemma {:induction false} GetCons(k: string, v: Value, rest: seq<(string, Value)>, key: string)
    ensures Get([(k, v)] + rest, key) == if key == k then Some(v) else Get(rest, key)
  {
    assert ([(k, v)] + rest)[1..] == rest;
  }

  /** In a dict with distinct keys, each key finds its own entry. */
  lemma {:induction false} GetAt(entries: seq<(string, Value)>, i: nat)
    requires i < |entries|
    requires forall j :: 0 <= j < i ==> entries[j].0 != entries[i].0
    ensures Get(entries, entries[i].0) == Some(entries[i].1)
  {
    if i > 0 {
      GetAt(entries[1..], i - 1);
    }
  }

  /** The first failure among `parts`, or all their values. */
  function Collect(parts: seq<Result<string>>): (r: Result<seq<string>>)
    ensures r.Success? <==> forall i :: 0 <= i < |parts| ==> parts[i].Success?
    ensures r.Success? ==> |r.value| == |parts| && forall i :: 0 <= i < |parts| ==> r.value[i] == parts[i].value
  {
    if |parts| == 0 then Success([])
    else if parts[0].Failure? then Failure(parts[0].error)
    else
      match Collect(parts[1..])
      case Failure(e) => Failure(e)
      case Success(rest) => Success([parts[0].value] + rest)
  }

  /** Dict items ordered by key, as `sort_keys=True` orders them. */
  predicate KeyBefore<X>(a: (string, X), b: (string, X)) {
    StrLess(a.0, b.0)
  }

  lemma {:induction false} KeyBeforeIsStrictWeakOrder<X(!new)>()
    ensures StrictWeakOrder(KeyBefore<X>)
  {
    StrLessIsStrictWeakOrder();
  }

  function SortEntries(entries: seq<(string, Value)>): (r: seq<(string, Value)>)
    ensures multiset(r) == multiset(entries)
  {
    Sort(entries, KeyBefore)
  }

  function JsonFloat(f: string): string {
    if f == "nan" then "NaN"
    else if f == "inf" then "Infinity"
    else if f == "-inf" then "-Infinity"
    else f
  }

  function TypeName(v: Value): string {
    match v
    case VDecimal(_) => "Decimal"
    case VDate(_) => "date"
    case VDateTime(_, _) => "datetime"
    case _ => "object"
  }

  /** A value `json.dumps` can write: no dates, datetimes or `Decimal`s anywhere inside. */
  predicate JsonSafe(v: Value) {
    match v
    case VDecimal(_) => false
    case VDate(_) => false
    case VDateTime(_, _) => false
    case VList(items) => forall i :: 0 <= i < |items| ==> JsonSafe(items[i])
    case VDict(entries) => forall i :: 0 <= i < |entries| ==> JsonSafe(entries[i].1)
    case _ => true
  }

  /** `json.dumps(v, sort_keys=sortKeys)` with the default separators. A date,
      datetime or `Decimal` anywhere inside raises `TypeError`. */
  function Json(v: Value, sortKeys: bool): (r: Result<string>)
    ensures r.Success? <==> JsonSafe(v)
    decreases v, 1
  {
    match v
    case VNone => Success("null")
    case VBool(b) => Success(if b then "true" else "false")
    case VInt(i) => Success(IntStr(i))
    case VFloat(f) => Success(JsonFloat(f))
    case VStr(s) => Success(JsonStr(s))
    case VList(_) => JsonList(v, sortKeys)
    case VDict(_) => JsonDict(v, sortKeys)
    case _ => Failure(NotSerializable(v))
  }

  /** A list: its items' texts joined inside brackets, or the first item's error. */
  function JsonList(v: Value, sortKeys: bool): (r: Result<string>)
    requires v.VList?
    ensures r.Success? <==> JsonSafe(v)
    decreases v, 0
  {
    var items := v.items;
    var parts := seq(|items|, i requires 0 <= i < |items| => Json(items[i], sortKeys));
    assert forall i :: 0 <= i < |items| ==> (parts[i].Success? <==> JsonSafe(items[i]));
    match Collect(parts)
    case Success(ss) => Success("[" + Join(ss, ", ") + "]")
    case Failure(e) => Failure(e)
  }

  /** A dict: its members, sorted by key when asked, joined inside braces, or
      the first member's error. */
  function JsonDict(v: Value, sortKeys: bool): (r: Result<string>)
    requires v.VDict?
    ensures r.Success? <==> JsonSafe(v)
    decreases v, 0
  {
    var entries := v.entries;
    var ordered := if sortKeys then SortEntries(entries) else entries;
    var parts := seq(|ordered|, i requires 0 <= i < |ordered| =>
      assert ordered[i] in multiset(entries);
      assert ordered[i] in entries;
      JsonMember(ordered[i].0, Json(ordered[i].1, sortKeys)));
    JsonDictSafe(entries, ordered, parts, sortKeys);
    match Collect(parts)
    case Success(ss) => Success("{" + Join(ss, ", ") + "}")
    case Failure(e) => Failure(e)
  }

  /** The message of the `TypeError` for a value JSON cannot encode. */
  function NotSerializable(v: Value): string {
    "TypeError: Object of type " + TypeName(v) + " is not JSON serializable"
  }

  function JsonMember(key: string, value: Result<string>): (r: Result<string>)
    ensures r.Success? <==> value.Success?
  {
    match value
    case Success(s) => Success(JsonStr(key) + ": " + s)
    case Failure(e) => Failure(e)
  }

  /** Every member of a dict encodes exactly when every value of it is safe, whatever the order. */
  lemma {:induction false} JsonDictSafe(entries: seq<(string, Value)>, ordered: seq<(string, Value)>, parts: seq<Result<string>>, sortKeys: bool)
    requires multiset(ordered) == multiset(entries)
    requires |parts| == |ordered|
    requires forall i :: 0 <= i < |ordered| ==> (parts[i].Success? <==> JsonSafe(ordered[i].1))
    ensures (forall i :: 0 <= i < |parts| ==> parts[i].Success?) <==> (forall i :: 0 <= i < |entries| ==> JsonSafe(entries[i].1))
  {
    if forall i :: 0 <= i < |parts| ==> parts[i].Success? {
      forall i | 0 <= i < |entries|
        ensures JsonSafe(entries[i].1)
      {
        assert entries[i] in multiset(ordered);
        var j :| 0 <= j < |ordered| && ordered[j] == entries[i];
        assert parts[j].Success?;
      }
    }
    if forall i :: 0 <= i < |entries| ==> JsonSafe(entries[i].1) {
      forall i | 0 <= i < |parts|
        ensures parts[i].Success?
      {
        assert ordered[i] in multiset(entries);
        var j :| 0 <= j < |entries| && entries[j] == ordered[i];
        assert JsonSafe(entries[j].1);
      }
    }
  }

  /** With sorted keys the text of a dict does not depend on its insertion order. */
  lemma {:induction false} JsonSortedKeysOrderFree(e1: seq<(string, Value)>, e2: seq<(string, Value)>)
    requires multiset(e1) == multiset(e2)
    requires NoDuplicates(Keys(e1))
    ensures Json(VDict(e1), true) == Json(VDict(e2), true)
  {
    SortEntriesOrderFree(e1, e2);
  }

  /** Entries with distinct keys sort to one order whatever order they come in. */
  lemma {:induction false} SortEntriesOrderFree(e1: seq<(string, Value)>, e2: seq<(string, Value)>)
    requires multiset(e1) == multiset(e2)
    requires NoDuplicates(Keys(e1))
    ensures SortEntries(e1) == SortEntries(e2)
  {
    var r1 := SortEntries(e1);
    var r2 := SortEntries(e2);
    KeyBeforeIsStrictWeakOrder<Value>();
    SortSorted(e1, KeyBefore);
    SortSorted(e2, KeyBefore);
    forall a, b | a in r1 && b in r1 && a != b
      ensures KeyBefore(a, b) || KeyBefore(b, a)
    {
      assert a in multiset(e1) && b in multiset(e1);
      DistinctEntriesDistinctKeys(e1, a, b);
      StrLessTotal(a.0, b.0);
    }
    SortedUnique(r1, r2, KeyBefore);
  }

  /** In entries with distinct keys, two different entries have different keys. */
  lemma {:induction false} DistinctEntriesDistinctKeys<X>(e: seq<(string, X)>, a: (string, X), b: (string, X))
    requires NoDuplicates(Keys(e))
    requires a in e && b in e && a != b
    ensures a.0 != b.0
  {
    var i :| 0 <= i < |e| && e[i] == a;
    var j :| 0 <= j < |e| && e[j] == b;
    assert i != j;
    assert Keys(e)[i] == a.0 && Keys(e)[j] == b.0;
    if i < j {
      assert Keys(e)[i] != Keys(e)[j];
    } else {
      assert Keys(e)[j] != Keys(e)[i];
    }
  }
}

=== FILE: rerank.dfy ===
/** Cross-encoder reranking of retrieved chunks. The cross-encoder is a
    parameter: it maps (query, text) pairs to a list of scores, a single score,
    or an error that propagates to the caller. */
module Rerank {
  import opened Base
  import opened Sorting
  import opened Chunks

  datatype ScoreOutput = ScoreList(scores: seq<real>) | ScoreScalar(score: real) | ScoreError(message: string)

  type Scorer = seq<(string, string)> -> ScoreOutput

  const MaxScoredChars := 1024

  /** The text a chunk is scored on: its content, else its snippet, else "",
      the first non-empty one, cut to 1024 characters. */
  function ScoredText(doc: Chunk): (t: string)
    ensures |t| <= MaxScoredChars
    ensures Truthy(doc.content) ==> t == SliceTo(doc.content.value, MaxScoredChars)
    ensures !Truthy(doc.content) && Truthy(doc.snippet) ==> t == SliceTo(doc.snippet.value, MaxScoredChars)
    ensures !Truthy(doc.content) && !Truthy(doc.snippet) ==> t == ""
  {
    var source := if Truthy(doc.content) then doc.content.value
                  else if Truthy(doc.snippet) then doc.snippet.value
                  else "";
    SliceTo(source, MaxScoredChars)
  }

  function Pairs(query: string, docs: seq<Chunk>): (r: seq<(string, string)>)
    ensures |r| == |docs|
    ensures forall i :: 0 <= i < |docs| ==> r[i] == (query, ScoredText(docs[i]))
  {
    seq(|docs|, i requires 0 <= i < |docs| => (query, ScoredText(docs[i])))
  }

  /** A scalar score is one score. */
  function ScoreSeq(out: ScoreOutput): seq<real>
    requires !out.ScoreError?
  {
    if out.ScoreScalar? then [out.score] else out.scores
  }

  /** `zip(documents, scores)`: the first `min(|docs|, |scores|)` documents get
      their score; the rest keep whatever `rerank_score` they had. */
  function Attach(docs: seq<Chunk>, scores: seq<real>): (r: seq<Chunk>)
    ensures |r| == |docs|
    ensures forall i :: 0 <= i < |docs| && i < |scores| ==> r[i] == docs[i].(rerankScore := Some(scores[i]))
    ensures forall i :: |scores| <= i < |docs| ==> r[i] == docs[i]
  {
    seq(|docs|, i requires 0 <= i < |docs| => if i < |scores| then docs[i].(rerankScore := Some(scores[i])) else docs[i])
  }

  predicate AllScored(docs: seq<Chunk>) {
    forall i :: 0 <= i < |docs| ==> docs[i].rerankScore.Some?
  }

  /** Each document paired with its sort key. */
  function Keyed(docs: seq<Chunk>): (r: seq<(real, Chunk)>)
    requires AllScored(docs)
    ensures |r| == |docs|
    ensures forall i :: 0 <= i < |docs| ==> r[i] == (docs[i].rerankScore.value, docs[i])
  {
    seq(|docs|, i requires 0 <= i < |docs| => (docs[i].rerankScore.value, docs[i]))
  }

  function Unkeyed(ks: seq<(real, Chunk)>): (r: seq<Chunk>)
    ensures |r| == |ks|
    ensures forall i :: 0 <= i < |ks| ==> r[i] == ks[i].1
  {
    seq(|ks|, i requires 0 <= i < |ks| => ks[i].1)
  }

  /** `sort(key=rerank_score, reverse=True)`: a higher score goes first. */
  predicate ScoreAbove(a: (real, Chunk), b: (real, Chunk)) {
    a.0 > b.0
  }

  lemma {:induction false} ScoreAboveIsStrictWeakOrder()
    ensures StrictWeakOrder(ScoreAbove)
  {
  }

  /** `top` is drawn from `all`, and nothing of `all` left out of `top` scores
      above anything in it. */
  ghost predicate KeepsBest(top: seq<(real, Chunk)>, all: seq<(real, Chunk)>) {
    && multiset(top) <= multiset(all)
    && forall p, i :: p in multiset(all) - multiset(top) && 0 <= i < |top| ==> p.0 <= top[i].0
  }

  /** `rerank_documents(query, documents, top_k)`: attach a score to every
      document, order by score, highest first, keeping input order among equal
      scores, and keep the first `top_k`: no document left out scores above a
      kept one. A document left without a score makes
      the sort key fail. */
  function RerankDocuments(query: string, docs: seq<Chunk>, topK: int, scorer: Scorer): (r: Result<seq<Chunk>>)
    ensures |docs| == 0 ==> r == Success([])
    ensures |docs| > 0 && scorer(Pairs(query, docs)).ScoreError? ==> r.Failure?
    ensures |docs| > 0 && !scorer(Pairs(query, docs)).ScoreError? ==>
      (r.Success? <==> AllScored(Attach(docs, ScoreSeq(scorer(Pairs(query, docs))))))
    ensures r.Success? ==> AllScored(r.value)
    ensures r.Success? ==> forall i, j :: 0 <= i < j < |r.value| ==> r.value[i].rerankScore.value >= r.value[j].rerankScore.value
    ensures r.Success? ==> |r.value| == |SliceTo(docs, topK)|
    ensures r.Success? && |docs| > 0 ==>
      var scored := Attach(docs, ScoreSeq(scorer(Pairs(query, docs))));
      && (forall i :: 0 <= i < |r.value| ==> r.value[i] in scored)
      && (forall e :: ClassOf(Keyed(r.value), e, ScoreAbove) <= ClassOf(Keyed(scored), e, ScoreAbove))
      && KeepsBest(Keyed(r.value), Keyed(scored))
  {
    if |docs| == 0 then Success([])
    else
      var out := scorer(Pairs(query, docs));
      if out.ScoreError? then Failure(out.message)
      else
        var scored := Attach(docs, ScoreSeq(out));
        if !AllScored(scored) then Failure("KeyError: 'rerank_score'")
        else
          var ordered := Sort(Keyed(scored), ScoreAbove);
          var top := SliceTo(ordered, topK);
          RerankOrder(scored, ordered, top);
          Success(Unkeyed(top))
  }

  lemma {:induction false} RerankOrder(scored: seq<Chunk>, ordered: seq<(real, Chunk)>, top: seq<(real, Chunk)>)
    requires AllScored(scored)
    requires ordered == Sort(Keyed(scored), ScoreAbove)
    requires top <= ordered
    ensures AllScored(Unkeyed(top))
    ensures Keyed(Unkeyed(top)) == top
    ensures forall i, j :: 0 <= i < j < |top| ==> top[i].0 >= top[j].0
    ensures forall i :: 0 <= i < |top| ==> top[i].1 in scored
    ensures forall e :: ClassOf(top, e, ScoreAbove) <= ClassOf(Keyed(scored), e, ScoreAbove)
    ensures multiset(top) <= multiset(Keyed(scored))
    ensures forall p, i :: p in multiset(Keyed(scored)) - multiset(top) && 0 <= i < |top| ==> p.0 <= top[i].0
  {
    var keyed := Keyed(scored);
    forall i | 0 <= i < |top|
      ensures top[i].1 in scored && top[i].0 == top[i].1.rerankScore.value
    {
      assert top[i] == ordered[i];
      assert ordered[i] in multiset(keyed);
      var j :| 0 <= j < |keyed| && keyed[j] == ordered[i];
    }
    ScoreAboveIsStrictWeakOrder();
    SortSorted(keyed, ScoreAbove);
    forall i, j | 0 <= i < j < |top|
      ensures top[i].0 >= top[j].0
    {
      assert !ScoreAbove(ordered[j], ordered[i]);
    }
    forall e
      ensures ClassOf(top, e, ScoreAbove) <= ClassOf(keyed, e, ScoreAbove)
    {
      SortStable(keyed, e, ScoreAbove);
      ClassOfPrefix(top, ordered, e, ScoreAbove);
    }
    SortedPrefixBeatsRest(keyed, ordered, top, ScoreAbove);
  }

  /** With no documents the scorer is never consulted. */
  lemma {:induction false} EmptyNeedsNoScorer(query: string, topK: int, s1: Scorer, s2: Scorer)
    ensures RerankDocuments(query, [], topK, s1) == RerankDocuments(query, [], topK, s2) == Success([])
  {
  }

  /** A scorer that answers with one score per document leaves every document scored, so reranking succeeds. */
  lemma {:induction false} FullScoresSucceed(query: string, docs: seq<Chunk>, topK: int, scorer: Scorer)
    requires |docs| > 0
    requires scorer(Pairs(query, docs)).ScoreList? && |scorer(Pairs(query, docs)).scores| >= |docs|
    ensures RerankDocuments(query, docs, topK, scorer).Success?
  {
  }
}

=== FILE: router.dfy ===
/** Rule-based routing of a policy question: SQL-intent detection, organisation
    and policy-type inference from the question text, and the choice between a
    filtered answer, a cross-organisation answer and a clarifying question. */
module Router {
  import opened Base
  import opened Text
  import opened Sorting
  import opened RouterSchema

  /** Canonical organisation names with the aliases that identify them, in declaration order. */
  const OrgAliases: seq<(string, seq<string>)> := [
    ("ASU", ["asu", "arizona state", "arizona state university"]),
    ("Columbia", ["columbia", "columbia university"]),
    ("Michigan", ["michigan", "university of michigan", "umich"]),
    ("Yale", ["yale", "yale university"]),
    ("Princeton", ["princeton", "princeton university"]),
    ("NYU", ["nyu", "new york university"]),
    ("Stanford", ["stanford", "stanford university"]),
    ("Rutgers", ["rutgers", "rutgers university"])
  ]

  const OrgNames: seq<string> := Keys(OrgAliases)

  const SqlIntentKeywords: seq<string> := [
    "my expense", "my expenses", "expense status", "status of", "report id", "expense report",
    "submitted", "approved", "rejected", "reimbursement status", "timeline", "how much did i spend",
    "total spend", "show my", "list my"
  ]

  const PolicyTypeKeywords: seq<(string, seq<string>)> := [
    ("travel", ["travel", "lodging", "hotel", "flight", "airfare", "rental car", "mileage", "per diem"]),
    ("procurement", ["procurement", "p-card", "p card", "purchase", "vendor", "invoice"])
  ]

  const SinglePolicyTriggers: seq<string> := [
    "is it allowed", "is it reimbursable", "can i", "can we", "allowed", "reimbursable", "proof of payment"
  ]

  /** Strip, lower-case, and collapse every whitespace run to one space. */
  function Norm(s: string): (r: string)
    ensures Collapsed(r)
    ensures |r| > 0 ==> !IsSpace(r[0]) && !IsSpace(r[|r| - 1])
    ensures forall i :: 0 <= i < |r| ==> LowerChar(r[i]) == r[i]
    ensures NonSpace(r) == NonSpace(Lower(s))
    ensures Words(r) == Words(Lower(s))
  {
    var l := Lower(Strip(s));
    NormWords(s);
    NonSpaceOfLowerStrip(s);
    CollapseSpaceCollapsed(l);
    CollapseSpaceNonSpace(l);
    NormEnds(s);
    NormLower(s);
    CollapseSpace(l)
  }

  /** The normal form has the words of the lower-cased text, in order. */
  lemma {:induction false} NormWords(s: string)
    ensures Words(CollapseSpace(Lower(Strip(s)))) == Words(Lower(s))
  {
    CollapseSpaceWords(Lower(Strip(s)), "");
    StripLower(s);
    StripWords(Lower(s));
  }

  /** The normal form neither starts nor ends with whitespace. */
  lemma {:induction false} NormEnds(s: string)
    ensures |CollapseSpace(Lower(Strip(s)))| > 0 ==>
      !IsSpace(CollapseSpace(Lower(Strip(s)))[0]) && !IsSpace(CollapseSpace(Lower(Strip(s)))[|CollapseSpace(Lower(Strip(s)))| - 1])
  {
    var l := Lower(Strip(s));
    assert |l| > 0 ==> !IsSpace(l[0]) && !IsSpace(l[|l| - 1]);
    CollapseSpaceLast(l);
  }

  /** The normal form is already lower-case. */
  lemma {:induction false} NormLower(s: string)
    ensures forall i :: 0 <= i < |CollapseSpace(Lower(Strip(s)))| ==>
      LowerChar(CollapseSpace(Lower(Strip(s)))[i]) == CollapseSpace(Lower(Strip(s)))[i]
  {
    var l := Lower(Strip(s));
    var r := CollapseSpace(l);
    CollapseSpaceChars(l);
    forall i | 0 <= i < |r|
      ensures LowerChar(r[i]) == r[i]
    {
      if r[i] != ' ' {
        var j :| 0 <= j < |l| && l[j] == r[i];
        assert l[j] == LowerChar(Strip(s)[j]);
      }
    }
  }

  lemma {:induction false} NonSpaceOfLowerStrip(s: string)
    ensures NonSpace(Lower(Strip(s))) == NonSpace(Lower(s))
  {
    NonSpaceLowerLeading(s);
    NonSpaceLowerTrailing(s);
  }

  /** Lower-cased leading whitespace holds no non-whitespace character. */
  lemma {:induction false} NonSpaceLowerLeading(s: string)
    ensures NonSpace(Lower(s)) == NonSpace(Lower(s)[LeadingSpaces(s)..])
  {
    var low := Lower(s);
    forall i | 0 <= i < LeadingSpaces(s) ensures IsSpace(low[i]) {
      assert low[i] == LowerChar(s[i]);
    }
    NonSpaceOfLeading(low, LeadingSpaces(s));
  }

  /** Lower-cased trailing whitespace holds no non-whitespace character. */
  lemma {:induction false} NonSpaceLowerTrailing(s: string)
    ensures NonSpace(Lower(s)[LeadingSpaces(s)..]) == NonSpace(Lower(Strip(s)))
  {
    var a := LeadingSpaces(s);
    var t := Strip(s);
    var low := Lower(s);
    var rest := low[a..];
    LowerTrailingSpaces(s, a, |t|);
    NonSpaceOfTrailing(rest, |t|);
    LowerSlice(s, a, a + |t|);
    assert rest[..|t|] == low[a..a + |t|];
    assert t == s[a..a + |t|];
    assert rest[..|t|] == Lower(t);
  }

  /** Whitespace after position `a + n` is still whitespace once lower-cased. */
  lemma {:induction false} LowerTrailingSpaces(s: string, a: nat, n: nat)
    requires a + n <= |s|
    requires forall k :: a + n <= k < |s| ==> IsSpace(s[k])
    ensures forall i :: n <= i < |s| - a ==> IsSpace(Lower(s)[a..][i])
  {
    forall i | n <= i < |s| - a
      ensures IsSpace(Lower(s)[a..][i])
    {
      assert IsSpace(s[a + i]);
      assert Lower(s)[a..][i] == LowerChar(s[a + i]);
    }
  }

  lemma {:induction false} LowerAppend(a: string, b: string)
    ensures Lower(a + b) == Lower(a) + Lower(b)
  {
  }

  /** Normalising twice changes nothing. */
  lemma {:induction false} NormIdempotent(s: string)
    ensures Norm(Norm(s)) == Norm(s)
  {
    var n := Norm(s);
    StripOfStripped(n);
    assert Lower(n) == n;
    CollapseSpaceOfCollapsed(n);
  }

  /** Stripping the question first (as routing does) does not change its normal form. */
  lemma {:induction false} NormOfStrip(s: string)
    ensures Norm(Strip(s)) == Norm(s)
  {
    StripOfStripped(Strip(s));
  }

  /** The regex class `[^a-z0-9]` that delimits an alias. */
  predicate Boundary(c: char) {
    !(IsLower(c) || IsDigit(c))
  }

  /** The alias occurs at `i`, preceded by the start or a boundary character and
      followed by the end or a boundary character. */
  predicate AliasAt(q: string, alias: string, i: nat) {
    && OccursAt(q, alias, i)
    && (i == 0 || Boundary(q[i - 1]))
    && (i + |alias| == |q| || Boundary(q[i + |alias|]))
  }

  predicate AliasMatches(q: string, alias: string) {
    exists i :: 0 <= i <= |q| - |alias| && AliasAt(q, alias, i)
  }

  /** Some alias of the `k`-th organisation matches the normalised question `q`. */
  predicate MentionsOrg(q: string, k: nat)
    requires k < |OrgAliases|
  {
    exists j :: 0 <= j < |OrgAliases[k].1| && AliasMatches(q, OrgAliases[k].1[j])
  }

  /** The canonical names of organisations `k..` mentioned in `q`, in declaration order. */
  function MentionedFrom(q: string, k: nat): (r: seq<string>)
    requires k <= |OrgAliases|
    ensures IsSubsequence(r, OrgNames[k..])
    ensures forall o :: o in r <==> exists m :: k <= m < |OrgAliases| && OrgNames[m] == o && MentionsOrg(q, m)
    decreases |OrgAliases| - k
  {
    if k == |OrgAliases| then []
    else
      var rest := MentionedFrom(q, k + 1);
      assert OrgNames[k..][1..] == OrgNames[k + 1..];
      if MentionsOrg(q, k) then
        assert ([OrgNames[k]] + rest)[1..] == rest;
        [OrgNames[k]] + rest
      else rest
  }

  /** The organisations the question names: each canonical name at most once,
      exactly those with a matching alias, in declaration order. */
  function ExtractOrgs(question: string): (r: seq<string>)
    ensures NoDuplicates(r)
    ensures IsSubsequence(r, OrgNames)
    ensures forall o :: o in r <==> exists m :: 0 <= m < |OrgAliases| && OrgNames[m] == o && MentionsOrg(Norm(question), m)
  {
    var found := MentionedFrom(Norm(question), 0);
    assert OrgNames[0..] == OrgNames;
    SubsequenceTransitive(Dedupe(found), found, OrgNames);
    Dedupe(found)
  }

  /** The number of keywords of `kws` occurring in `q`. */
  function KeywordCount(q: string, kws: seq<string>): (n: nat)
    ensures n <= |kws|
    ensures n == 0 <==> forall j :: 0 <= j < |kws| ==> !Contains(q, kws[j])
  {
    if |kws| == 0 then 0
    else
      assert forall j :: 1 <= j < |kws| ==> kws[j] == kws[1..][j - 1];
      (if Contains(q, kws[0]) then 1 else 0) + KeywordCount(q, kws[1..])
  }

  /** The keyword score of the `k`-th policy type on the normalised question `q`. */
  function TypeScore(q: string, k: nat): nat
    requires k < |PolicyTypeKeywords|
  {
    KeywordCount(q, PolicyTypeKeywords[k].1)
  }

  /** Types `k..` with a positive score, paired with it, in declaration order. */
  function HitsFrom(q: string, k: nat): (r: seq<(string, nat)>)
    requires k <= |PolicyTypeKeywords|
    ensures forall h :: h in r ==> h.1 > 0
    ensures forall h :: h in r ==> exists m :: k <= m < |PolicyTypeKeywords| && h == (PolicyTypeKeywords[m].0, TypeScore(q, m))
    ensures forall m :: k <= m < |PolicyTypeKeywords| && TypeScore(q, m) > 0 ==> (PolicyTypeKeywords[m].0, TypeScore(q, m)) in r
    decreases |PolicyTypeKeywords| - k
  {
    if k == |PolicyTypeKeywords| then []
    else
      var s := TypeScore(q, k);
      (if s > 0 then [(PolicyTypeKeywords[k].0, s)] else []) + HitsFrom(q, k + 1)
  }

  /** `sort(key=score, reverse=True)`: a higher score goes first. */
  predicate ScoreAbove(a: (string, nat), b: (string, nat)) {
    a.1 > b.1
  }

  lemma {:induction false} ScoreAboveIsStrictWeakOrder()
    ensures StrictWeakOrder(ScoreAbove)
  {
  }

  /** The `m`-th type scores best on `q`, positively, and strictly better than every type declared before it. */
  predicate LeadingType(q: string, m: nat) {
    && m < |PolicyTypeKeywords|
    && TypeScore(q, m) > 0
    && (forall k :: 0 <= k < |PolicyTypeKeywords| ==> TypeScore(q, k) <= TypeScore(q, m))
    && (forall k :: 0 <= k < m ==> TypeScore(q, k) < TypeScore(q, m))
  }

  /** The policy type the question leans to: the best-scoring type, the earlier
      declared one on a tie, and none when no keyword occurs. */
  function InferPolicyType(question: string): (r: Option<string>)
    ensures r.None? <==> forall k :: 0 <= k < |PolicyTypeKeywords| ==> TypeScore(Norm(question), k) == 0
    ensures r.Some? ==> exists m: nat :: LeadingType(Norm(question), m) && r.value == PolicyTypeKeywords[m].0
  {
    var q := Norm(question);
    var hits := HitsFrom(q, 0);
    if |hits| == 0 then
      NoHitsNoScore(q);
      None
    else
      var ordered := Sort(hits, ScoreAbove);
      TopHitIsFirstBest(q, hits, ordered);
      // Both arms of the source's "clearly leaning" test return the top type.
      if ordered[0].1 >= 2 then Some(ordered[0].0) else Some(ordered[0].0)
  }

  lemma {:induction false} NoHitsNoScore(q: string)
    requires |HitsFrom(q, 0)| == 0
    ensures forall k :: 0 <= k < |PolicyTypeKeywords| ==> TypeScore(q, k) == 0
  {
  }

  lemma {:induction false} TopHitIsFirstBest(q: string, hits: seq<(string, nat)>, ordered: seq<(string, nat)>)
    requires hits == HitsFrom(q, 0) && |hits| > 0
    requires ordered == Sort(hits, ScoreAbove)
    ensures exists m: nat :: LeadingType(q, m) && ordered[0] == (PolicyTypeKeywords[m].0, TypeScore(q, m))
  {
    ScoreAboveIsStrictWeakOrder();
    SortStable(hits, ordered[0], ScoreAbove);
    var e := ordered[0];
    assert e in multiset(hits);
    assert ClassOf(ordered, e, ScoreAbove)[0] == e;
    TopHitScoresBest(q, hits, ordered);
    HitsClassHead(q, 0, e);
    var m :| 0 <= m < |PolicyTypeKeywords| && ClassOf(hits, e, ScoreAbove)[0] == (PolicyTypeKeywords[m].0, TypeScore(q, m))
      && TypeScore(q, m) == e.1 && (forall j :: 0 <= j < m ==> TypeScore(q, j) != e.1);
    assert LeadingType(q, m);
  }

  /** The first hit after sorting scores at least as well as every type. */
  lemma {:induction false} TopHitScoresBest(q: string, hits: seq<(string, nat)>, ordered: seq<(string, nat)>)
    requires hits == HitsFrom(q, 0) && |hits| > 0
    requires ordered == Sort(hits, ScoreAbove)
    ensures forall k :: 0 <= k < |PolicyTypeKeywords| ==> TypeScore(q, k) <= ordered[0].1
  {
    ScoreAboveIsStrictWeakOrder();
    SortSorted(hits, ScoreAbove);
    forall k | 0 <= k < |PolicyTypeKeywords| && TypeScore(q, k) > 0
      ensures TypeScore(q, k) <= ordered[0].1
    {
      var h := (PolicyTypeKeywords[k].0, TypeScore(q, k));
      assert h in multiset(ordered);
      var i :| 0 <= i < |ordered| && ordered[i] == h;
      if i > 0 {
        assert !ScoreAbove(ordered[i], ordered[0]);
      }
    }
  }

  /** The first hit scoring like `e` is the earliest declared type with that score. */
  lemma {:induction false} HitsClassHead(q: string, k: nat, e: (string, nat))
    requires k <= |PolicyTypeKeywords|
    requires |ClassOf(HitsFrom(q, k), e, ScoreAbove)| > 0
    ensures e.1 > 0
    ensures exists m :: (k <= m < |PolicyTypeKeywords|
      && ClassOf(HitsFrom(q, k), e, ScoreAbove)[0] == (PolicyTypeKeywords[m].0, TypeScore(q, m))
      && TypeScore(q, m) == e.1
      && (forall j :: k <= j < m ==> TypeScore(q, j) != e.1))
    decreases |PolicyTypeKeywords| - k
  {
    var h := HitsFrom(q, k);
    var s := TypeScore(q, k);
    var rest := HitsFrom(q, k + 1);
    var head: seq<(string, nat)> := if s > 0 then [(PolicyTypeKeywords[k].0, s)] else [];
    assert h == head + rest;
    ClassOfAppend(head, rest, e, ScoreAbove);
    if s > 0 && s == e.1 {
      assert ClassOf(h, e, ScoreAbove)[0] == (PolicyTypeKeywords[k].0, s);
    } else {
      assert ClassOf(head, e, ScoreAbove) == [];
      HitsClassHead(q, k + 1, e);
    }
  }

  /** Some SQL-intent keyword occurs in the normalised question. */
  predicate HasSqlIntent(question: string) {
    exists k :: 0 <= k < |SqlIntentKeywords| && Contains(Norm(question), SqlIntentKeywords[k])
  }

  /** The question asks for a comparison. */
  predicate AsksToCompare(question: string) {
    var q := Norm(question);
    Contains(q, " vs ") || Contains(q, "compare") || Contains(q, "difference")
  }

  /** The question expects one definitive policy: a trigger phrase occurs and it is not a comparison. */
  predicate ExpectsSinglePolicyAnswer(question: string) {
    !AsksToCompare(question)
    && exists k :: 0 <= k < |SinglePolicyTriggers| && Contains(Norm(question), SinglePolicyTriggers[k])
  }

  const ClarifyPrompt: string := "Which university policy should I use? (" + Join(OrgNames, ", ") + ")"

  /** The clarifying question lists every organisation the router knows. */
  lemma {:induction false} ClarifyPromptListsEveryOrg(k: nat)
    requires k < |OrgNames|
    ensures Contains(ClarifyPrompt, OrgNames[k])
  {
    JoinContainsPart(OrgNames, ", ", k);
    ContainsInside("Which university policy should I use? (", Join(OrgNames, ", "), ")", OrgNames[k]);
  }

  lemma {:induction false} ExtractedOrgsNamed(question: string)
    ensures forall i :: 0 <= i < |ExtractOrgs(question)| ==> ExtractOrgs(question)[i] != ""
  {
    var r := ExtractOrgs(question);
    OrgNamesNonEmpty();
    forall i | 0 <= i < |r|
      ensures r[i] != ""
    {
      assert r[i] in r;
    }
  }

  /** Every canonical organisation name is non-empty. */
  lemma {:induction false} OrgNamesNonEmpty()
    ensures forall m :: 0 <= m < |OrgNames| ==> OrgNames[m] != ""
  {
    forall m | 0 <= m < |OrgNames|
      ensures OrgNames[m] != ""
    {
      assert OrgNames[m] == OrgAliases[m].0;
    }
  }

  /** The classifiers see the same normal form whether or not the question is stripped first. */
  lemma {:induction false} StripKeepsSqlIntent(question: string)
    ensures HasSqlIntent(Strip(question)) == HasSqlIntent(question)
  {
    NormOfStrip(question);
  }

  lemma {:induction false} StripKeepsOrgs(question: string)
    ensures ExtractOrgs(Strip(question)) == ExtractOrgs(question)
  {
    NormOfStrip(question);
  }

  lemma {:induction false} StripKeepsPolicyType(question: string)
    ensures InferPolicyType(Strip(question)) == InferPolicyType(question)
  {
    NormOfStrip(question);
  }

  lemma {:induction false} StripKeepsSingleExpectation(question: string)
    ensures ExpectsSinglePolicyAnswer(Strip(question)) == ExpectsSinglePolicyAnswer(question)
  {
    NormOfStrip(question);
  }

  /** `str(list)` for strings needing no escapes: `['A', 'B']`. */
  function QuotedList(xs: seq<string>): string {
    "[" + Join(seq(|xs|, i requires 0 <= i < |xs| => "'" + xs[i] + "'"), ", ") + "]"
  }

  /** The routing decision for a question and the caller's explicit filters.
      SQL intent wins over everything and keeps the explicit filters; an
      explicit organisation, or exactly one named in the question, gives a
      filtered answer; two or more named organisations give a cross-organisation
      answer with no organisation filter; otherwise a question expecting one
      definitive policy is answered with a clarifying question and any other
      question is answered across organisations. */
  function RouteQuestion(question: string, org: Option<string>, policyType: Option<string>, docName: Option<string>): (d: RouterDecision)
    ensures d.route == SqlNotReady <==> HasSqlIntent(question)
    ensures d.route == SqlNotReady ==> d.filters == PolicyFilters(org, policyType, docName)
    ensures d.filters.docName == docName
    ensures Truthy(policyType) ==> d.filters.policyType == policyType
    ensures !Truthy(policyType) && !HasSqlIntent(question) ==> d.filters.policyType == InferPolicyType(question)
    ensures !HasSqlIntent(question) && Truthy(org) ==> d.route == RagFiltered && d.filters.org == org
    ensures !HasSqlIntent(question) && !Truthy(org) && |ExtractOrgs(question)| == 1
      ==> d.route == RagFiltered && d.filters.org == Some(ExtractOrgs(question)[0])
    ensures !HasSqlIntent(question) && !Truthy(org) && |ExtractOrgs(question)| >= 2
      ==> d.route == RagAll && d.filters.org == None
    ensures !HasSqlIntent(question) && !Truthy(org) && |ExtractOrgs(question)| == 0
      ==> (d.route == Clarify <==> ExpectsSinglePolicyAnswer(question)) && d.route != RagFiltered && d.filters.org == None
    ensures d.route == RagFiltered ==> Truthy(d.filters.org)
    ensures d.clarifyQuestion.Some? <==> d.route == Clarify
    ensures d.route == Clarify ==> d.clarifyQuestion == Some(ClarifyPrompt)
  {
    var q := Strip(question);
    StripKeepsSqlIntent(question);
    StripKeepsOrgs(question);
    StripKeepsPolicyType(question);
    StripKeepsSingleExpectation(question);
    var sql := HasSqlIntent(q);
    var orgs := if !Truthy(org) then ExtractOrgs(q) else [];
    var inferredType := if !Truthy(policyType) then InferPolicyType(q) else None;
    var single := ExpectsSinglePolicyAnswer(q);
    ExtractedOrgsNamed(q);
    Decide(sql, orgs, inferredType, single, org, policyType, docName, ClarifyPrompt)
  }

  /** The reasons the router gives for each route. */
  const SqlReason := "Detected SQL/user-specific expense intent; SQL not integrated yet."
  const OrgReason := "Org available; use filtered RAG."
  const ClarifyReason := "No org provided but question expects one definitive policy."
  const AllOrgsReason := "No org provided; answer across all universities (group by org in response)."

  function MultipleOrgsReason(orgs: seq<string>): string {
    "Multiple orgs detected " + QuotedList(orgs) + "; return cross-org answer."
  }

  /** The decision once the question has been classified: `sql` is its SQL
      intent, `orgs` the organisations it names (empty when one is given),
      `inferredType` its policy type (none when one is given), `single` whether
      it expects one definitive policy. */
  function Decide(sql: bool, orgs: seq<string>, inferredType: Option<string>, single: bool,
                  org: Option<string>, policyType: Option<string>, docName: Option<string>, prompt: string): (d: RouterDecision)
    requires Truthy(org) ==> orgs == []
    requires Truthy(policyType) ==> inferredType == None
    requires forall i :: 0 <= i < |orgs| ==> orgs[i] != ""
    ensures d.route == SqlNotReady <==> sql
    ensures d.route == SqlNotReady ==> d.filters == PolicyFilters(org, policyType, docName)
    ensures d.filters.docName == docName
    ensures Truthy(policyType) ==> d.filters.policyType == policyType
    ensures !Truthy(policyType) && !sql ==> d.filters.policyType == inferredType
    ensures !sql && Truthy(org) ==> d.route == RagFiltered && d.filters.org == org
    ensures !sql && |orgs| == 1 ==> d.route == RagFiltered && d.filters.org == Some(orgs[0])
    ensures !sql && |orgs| >= 2 ==> d.route == RagAll && d.filters.org == None
    ensures !sql && !Truthy(org) && |orgs| == 0
      ==> (d.route == Clarify <==> single) && d.route != RagFiltered && d.filters.org == None
    ensures d.route == RagFiltered ==> Truthy(d.filters.org)
    ensures d.clarifyQuestion.Some? <==> d.route == Clarify
    ensures d.route == Clarify ==> d.clarifyQuestion == Some(prompt)
  {
    var explicitFilters := PolicyFilters(org, policyType, docName);
    if sql then
      RouterDecision(SqlNotReady, explicitFilters,
        reason := SqlReason)
    else
      var filters := PolicyFilters(
        if Truthy(org) then org else if |orgs| == 1 then Some(orgs[0]) else None,
        if Truthy(policyType) then policyType else inferredType,
        docName);
      if |orgs| >= 2 && !Truthy(org) then
        RouterDecision(RagAll, PolicyFilters(None, filters.policyType, docName),
          reason := MultipleOrgsReason(orgs))
      else if Truthy(filters.org) then
        RouterDecision(RagFiltered, filters, reason := OrgReason)
      else if single then
        RouterDecision(Clarify, filters, Some(prompt),
          ClarifyReason)
      else
        RouterDecision(RagAll, filters,
          reason := AllOrgsReason)
  }

  /** A comparison question is never answered with a clarifying question. */
  lemma {:induction false} ComparisonNeverClarifies(question: string, org: Option<string>, policyType: Option<string>, docName: Option<string>)
    requires AsksToCompare(question)
    ensures RouteQuestion(question, org, policyType, docName).route != Clarify
  {
  }

  /** A caller who names an organisation gets a filtered answer for it unless the question asks for expense data. */
  lemma {:induction false} ExplicitOrgWins(question: string, org: string, policyType: Option<string>, docName: Option<string>)
    requires org != ""
    ensures var d := RouteQuestion(question, Some(org), policyType, docName);
      d.route == (if HasSqlIntent(question) then SqlNotReady else RagFiltered) && d.filters.org == Some(org)
  {
  }
}

=== FILE: router_schema.dfy ===
/** The router's vocabulary: the four routes, the policy filters, the routing
    decision and the answer envelope built from it. */
module RouterSchema {
  import opened Base
  import opened Chunks

  datatype Route = RagFiltered | RagAll | Clarify | SqlNotReady

  /** The wire value of a route. */
  function RouteName(r: Route): string {
    match r
    case RagFiltered => "RAG_FILTERED"
    case RagAll => "RAG_ALL"
    case Clarify => "CLARIFY"
    case SqlNotReady => "SQL_NOT_READY"
  }

  /** The route with a given wire value, if there is one. */
  function ParseRoute(s: string): (r: Option<Route>)
    ensures r.Some? ==> RouteName(r.value) == s
    ensures r.None? ==> forall x: Route :: RouteName(x) != s
  {
    if s == "RAG_FILTERED" then Some(RagFiltered)
    else if s == "RAG_ALL" then Some(RagAll)
    else if s == "CLARIFY" then Some(Clarify)
    else if s == "SQL_NOT_READY" then Some(SqlNotReady)
    else None
  }

  lemma {:induction false} RouteNameRoundTrip(r: Route)
    ensures ParseRoute(RouteName(r)) == Some(r)
  {
  }

  /** Every field defaults to `None`. */
  datatype PolicyFilters = PolicyFilters(
    org: Option<string> := None,
    policyType: Option<string> := None,
    docName: Option<string> := None
  )

  datatype RouterDecision = RouterDecision(
    route: Route,
    filters: PolicyFilters := PolicyFilters(),
    clarifyQuestion: Option<string> := None,
    reason: string := ""
  )

  lemma {:induction false} DecisionDefaults(route: Route)
    ensures RouterDecision(route).filters == PolicyFilters(None, None, None)
    ensures RouterDecision(route).clarifyQuestion == None
    ensures RouterDecision(route).reason == ""
  {
  }

  datatype AnswerStatus = Ok | NeedsClarification | NeedsSql | NoResults

  function StatusName(s: AnswerStatus): string {
    match s
    case Ok => "ok"
    case NeedsClarification => "needs_clarification"
    case NeedsSql => "needs_sql"
    case NoResults => "no_results"
  }

  datatype AnswerResponse = AnswerResponse(
    status: AnswerStatus,
    query: string,
    route: Route,
    filters: PolicyFilters,
    answer: Option<string> := None,
    sources: seq<Citation> := [],
    clarifyQuestion: Option<string> := None,
    warning: Option<string> := None
  )

  const SqlWarning := "This question needs expense/fact data (SQL)."

  /** The answer envelope for a routing decision: SQL questions get a warning,
      clarifications carry the router's question, and both retrieval routes
      carry the generated answer and its sources. */
  function ResponseFor(d: RouterDecision, query: string, answer: string, sources: seq<Citation>): (r: AnswerResponse)
    ensures r.route == d.route && r.filters == d.filters && r.query == query
    ensures r.status == NeedsSql <==> d.route == SqlNotReady
    ensures r.status == NeedsClarification <==> d.route == Clarify
    ensures r.status == Ok <==> d.route in {RagFiltered, RagAll}
    ensures r.status != NoResults
    ensures r.warning.Some? <==> d.route == SqlNotReady
    ensures r.clarifyQuestion == (if d.route == Clarify then d.clarifyQuestion else None)
    ensures r.answer.Some? <==> r.status == Ok
    ensures r.status != Ok ==> r.sources == []
  {
    match d.route
    case SqlNotReady => AnswerResponse(NeedsSql, query, d.route, d.filters, warning := Some(SqlWarning))
    case Clarify => AnswerResponse(NeedsClarification, query, d.route, d.filters, clarifyQuestion := d.clarifyQuestion)
    case _ => AnswerResponse(Ok, query, d.route, d.filters, answer := Some(answer), sources := sources)
  }

  /** Retrieval routes group the answer by organisation exactly when the router
      chose the cross-organisation route. */
  function GroupByOrg(route: Route): (g: Option<bool>)
    ensures g.Some? <==> route in {RagFiltered, RagAll}
    ensures g == Some(true) <==> route == RagAll
  {
    match route
    case RagFiltered => Some(false)
    case RagAll => Some(true)
    case _ => None
  }
}

=== FILE: sorting.dfy ===
/** A stable sort, as Python's `list.sort` is, over a strict weak order `lt`
    where `lt(a, b)` means "a goes strictly before b". Python's
    `sort(key=k, reverse=True)` is the order `lt(a, b) := k(a) > k(b)`. */
module Sorting {
  import opened Base

  ghost predicate StrictWeakOrder<T(!new)>(lt: (T, T) -> bool) {
    && (forall a :: !lt(a, a))
    && (forall a, b, c :: lt(a, b) && lt(b, c) ==> lt(a, c))
    && (forall a, b, c :: lt(a, c) ==> lt(a, b) || lt(b, c))
  }

  /** No element is strictly before an earlier one. */
  ghost predicate SortedBy<T>(s: seq<T>, lt: (T, T) -> bool) {
    forall i, j :: 0 <= i < j < |s| ==> !lt(s[j], s[i])
  }

  /** Inserts `x` in front of the first element that does not go strictly before it. */
  function Insert<T>(x: T, s: seq<T>, lt: (T, T) -> bool): (r: seq<T>)
    ensures multiset(r) == multiset(s) + multiset{x}
    ensures |r| == |s| + 1
  {
    if |s| == 0 then [x]
    else if lt(s[0], x) then
      assert s == [s[0]] + s[1..];
      [s[0]] + Insert(x, s[1..], lt)
    else [x] + s
  }

  /** Insertion sort: the first element goes in front of every later element equal to it. */
  function Sort<T>(s: seq<T>, lt: (T, T) -> bool): (r: seq<T>)
    ensures multiset(r) == multiset(s)
    ensures |r| == |s|
  {
    if |s| == 0 then []
    else
      assert s == [s[0]] + s[1..];
      Insert(s[0], Sort(s[1..], lt), lt)
  }

  lemma {:induction false} InsertSorted<T(!new)>(x: T, s: seq<T>, lt: (T, T) -> bool)
    requires StrictWeakOrder(lt)
    requires SortedBy(s, lt)
    ensures SortedBy(Insert(x, s, lt), lt)
  {
    if |s| > 0 {
      if lt(s[0], x) {
        InsertSorted(x, s[1..], lt);
        var r := Insert(x, s, lt);
        var t := Insert(x, s[1..], lt);
        assert r == [s[0]] + t;
        forall j | 0 < j < |r|
          ensures !lt(r[j], r[0])
        {
          assert r[j] in multiset(t);
          assert r[j] in multiset(s[1..]) + multiset{x};
          if r[j] == x {
          } else {
            assert r[j] in s[1..];
            var k :| 0 <= k < |s[1..]| && s[1..][k] == r[j];
            assert s[k + 1] == r[j];
          }
        }
      } else {
        var r := Insert(x, s, lt);
        assert r == [x] + s;
        forall j | 0 < j < |r|
          ensures !lt(r[j], x)
        {
          assert r[j] == s[j - 1];
          if j - 1 > 0 {
            assert !lt(s[j - 1], s[0]);
          }
        }
      }
    }
  }

  lemma {:induction false} SortSorted<T(!new)>(s: seq<T>, lt: (T, T) -> bool)
    requires StrictWeakOrder(lt)
    ensures SortedBy(Sort(s, lt), lt)
  {
    if |s| > 0 {
      SortSorted(s[1..], lt);
      InsertSorted(s[0], Sort(s[1..], lt), lt);
    }
  }

  predicate Equivalent<T>(a: T, b: T, lt: (T, T) -> bool) {
    !lt(a, b) && !lt(b, a)
  }

  /** The elements of `s` equivalent to `e` (neither before nor after it), in order. */
  function ClassOf<T>(s: seq<T>, e: T, lt: (T, T) -> bool): seq<T> {
    if |s| == 0 then []
    else (if Equivalent(s[0], e, lt) then [s[0]] else []) + ClassOf(s[1..], e, lt)
  }

  lemma {:induction false} ClassOfAppend<T>(a: seq<T>, b: seq<T>, e: T, lt: (T, T) -> bool)
    ensures ClassOf(a + b, e, lt) == ClassOf(a, e, lt) + ClassOf(b, e, lt)
  {
    if |a| > 0 {
      assert (a + b)[1..] == a[1..] + b;
      ClassOfAppend(a[1..], b, e, lt);
    } else {
      assert a + b == b;
    }
  }

  lemma {:induction false} InsertStable<T(!new)>(x: T, s: seq<T>, e: T, lt: (T, T) -> bool)
    requires StrictWeakOrder(lt)
    ensures ClassOf(Insert(x, s, lt), e, lt)
         == (if Equivalent(x, e, lt) then [x] else []) + ClassOf(s, e, lt)
  {
    var cx: seq<T> := if Equivalent(x, e, lt) then [x] else [];
    if |s| > 0 && lt(s[0], x) {
      var t := Insert(x, s[1..], lt);
      var c0: seq<T> := if Equivalent(s[0], e, lt) then [s[0]] else [];
      InsertStable(x, s[1..], e, lt);
      assert ClassOf(t, e, lt) == cx + ClassOf(s[1..], e, lt);
      assert Insert(x, s, lt) == [s[0]] + t;
      assert ClassOf([s[0]] + t, e, lt) == c0 + ClassOf(t, e, lt) by {
        assert ([s[0]] + t)[1..] == t;
      }
      assert ClassOf(s, e, lt) == c0 + ClassOf(s[1..], e, lt);
      BeforeNotEquivalent(s[0], x, e, lt);
      if cx == [] {
        assert cx + ClassOf(s[1..], e, lt) == ClassOf(s[1..], e, lt);
      } else {
        assert c0 == [];
        assert ClassOf(s, e, lt) == ClassOf(s[1..], e, lt);
      }
    } else if |s| > 0 {
      assert Insert(x, s, lt) == [x] + s;
      assert ([x] + s)[1..] == s;
    } else {
      assert Insert(x, s, lt) == [x];
      assert [x][1..] == [];
    }
  }

  /** An element strictly before `x` is not equivalent to anything equivalent to `x`. */
  lemma {:induction false} BeforeNotEquivalent<T(!new)>(a: T, x: T, e: T, lt: (T, T) -> bool)
    requires StrictWeakOrder(lt)
    requires lt(a, x)
    ensures Equivalent(x, e, lt) ==> !Equivalent(a, e, lt)
  {
    if Equivalent(x, e, lt) {
      assert lt(a, e) || lt(e, x);
    }
  }

  /** A prefix of a sequence keeps each class of equivalent elements as a prefix. */
  lemma {:induction false} ClassOfPrefix<T>(p: seq<T>, s: seq<T>, e: T, lt: (T, T) -> bool)
    requires p <= s
    ensures ClassOf(p, e, lt) <= ClassOf(s, e, lt)
  {
    if |p| > 0 {
      assert p[1..] <= s[1..];
      ClassOfPrefix(p[1..], s[1..], e, lt);
    }
  }

  /** No element a sorted sequence's prefix leaves out goes before a kept one. */
  lemma {:induction false} SortedPrefixBeatsRest<T>(s: seq<T>, sorted: seq<T>, top: seq<T>, lt: (T, T) -> bool)
    requires SortedBy(sorted, lt)
    requires multiset(sorted) == multiset(s)
    requires top <= sorted
    ensures multiset(top) <= multiset(s)
    ensures forall x, i :: x in multiset(s) - multiset(top) && 0 <= i < |top| ==> !lt(x, top[i])
  {
    var rest := sorted[|top|..];
    assert sorted == top + rest;
    assert multiset(sorted) == multiset(top) + multiset(rest);
    forall x, i | x in multiset(s) - multiset(top) && 0 <= i < |top|
      ensures !lt(x, top[i])
    {
      assert x in multiset(rest);
      var k :| 0 <= k < |rest| && rest[k] == x;
      assert sorted[|top| + k] == x;
      assert top[i] == sorted[i];
    }
  }

  /** Stability: sorting leaves the relative order of equivalent elements unchanged. */
  lemma {:induction false} SortStable<T(!new)>(s: seq<T>, e: T, lt: (T, T) -> bool)
    requires StrictWeakOrder(lt)
    ensures ClassOf(Sort(s, lt), e, lt) == ClassOf(s, e, lt)
  {
    if |s| > 0 {
      SortStable(s[1..], e, lt);
      InsertStable(s[0], Sort(s[1..], lt), e, lt);
    }
  }

  /** Two sorted arrangements of the same elements coincide when any two distinct
      elements are ordered one way or the other. */
  lemma {:induction false} SortedUnique<T>(r1: seq<T>, r2: seq<T>, lt: (T, T) -> bool)
    requires SortedBy(r1, lt) && SortedBy(r2, lt)
    requires multiset(r1) == multiset(r2)
    requires forall a, b :: a in r1 && b in r1 && a != b ==> lt(a, b) || lt(b, a)
    ensures r1 == r2
  {
    assert |r1| == |multiset(r1)| == |r2|;
    if |r1| > 0 {
      SortedHeads(r1, r2, lt);
      TailOf(r1);
      TailOf(r2);
      SortedUnique(r1[1..], r2[1..], lt);
    }
  }

  /** A non-empty sequence is its head followed by its tail, whose elements are its own. */
  lemma {:induction false} TailOf<T>(r: seq<T>)
    requires |r| > 0
    ensures r == [r[0]] + r[1..]
    ensures multiset(r[1..]) == multiset(r) - multiset{r[0]}
    ensures forall a :: a in r[1..] ==> a in r
  {
    assert r == [r[0]] + r[1..];
  }

  lemma {:induction false} SortedHeads<T>(r1: seq<T>, r2: seq<T>, lt: (T, T) -> bool)
    requires SortedBy(r1, lt) && SortedBy(r2, lt)
    requires multiset(r1) == multiset(r2) && |r1| > 0
    requires forall a, b :: a in r1 && b in r1 && a != b ==> lt(a, b) || lt(b, a)
    ensures r1[0] == r2[0]
  {
    assert r1[0] in multiset(r2);
    assert r2[0] in multiset(r1);
    var i :| 0 <= i < |r2| && r2[i] == r1[0];
    var j :| 0 <= j < |r1| && r1[j] == r2[0];
    if i > 0 && j > 0 {
      assert !lt(r2[i], r2[0]);
      assert !lt(r1[j], r1[0]);
      assert r2[0] in r1;
    }
  }

  /** Two sorted arrangements of the same distinct elements coincide when any
      two distinct elements are ordered one way or the other. */
  lemma {:induction false} SortedDistinctUnique<T>(r1: seq<T>, r2: seq<T>, lt: (T, T) -> bool)
    requires SortedBy(r1, lt) && SortedBy(r2, lt)
    requires NoDuplicates(r1) && NoDuplicates(r2)
    requires forall x :: x in r1 <==> x in r2
    requires forall a, b :: a in r1 && b in r1 && a != b ==> lt(a, b) || lt(b, a)
    ensures r1 == r2
    decreases |r1|
  {
    if |r1| == 0 {
      HeadIsMember(r2);
    } else {
      assert |r2| > 0 by { assert r1[0] in r2; }
      assert r1[0] == r2[0] by {
        assert r1[0] in r1 && r2[0] in r2;
        var j :| 0 <= j < |r2| && r2[j] == r1[0];
        var i :| 0 <= i < |r1| && r1[i] == r2[0];
      }
      forall x
        ensures x in r1[1..] <==> x in r2[1..]
      {
        assert x in r1[1..] <==> x in r1 && x != r1[0] by {
          assert r1 == [r1[0]] + r1[1..];
          if x in r1[1..] {
            var k :| 0 <= k < |r1[1..]| && r1[1..][k] == x;
            assert r1[k + 1] == x;
          }
        }
        assert x in r2[1..] <==> x in r2 && x != r2[0] by {
          assert r2 == [r2[0]] + r2[1..];
          if x in r2[1..] {
            var k :| 0 <= k < |r2[1..]| && r2[1..][k] == x;
            assert r2[k + 1] == x;
          }
        }
      }
      SortedDistinctUnique(r1[1..], r2[1..], lt);
      assert r1 == [r1[0]] + r1[1..] && r2 == [r2[0]] + r2[1..];
    }
  }

  lemma {:induction false} HeadIsMember<T>(s: seq<T>)
    ensures |s| > 0 ==> s[0] in s
  {
  }

  /** Strictly ordered neighbours make a sorted sequence. */
  lemma {:induction false} ChainSorted<T(!new)>(s: seq<T>, lt: (T, T) -> bool)
    requires StrictWeakOrder(lt)
    requires forall k :: 0 <= k < |s| - 1 ==> lt(s[k], s[k + 1])
    ensures SortedBy(s, lt)
  {
    forall i, j | 0 <= i < j < |s|
      ensures !lt(s[j], s[i])
    {
      ChainBefore(s, lt, i, j);
    }
  }

  lemma {:induction false} ChainBefore<T(!new)>(s: seq<T>, lt: (T, T) -> bool, i: nat, j: nat)
    requires StrictWeakOrder(lt)
    requires forall k :: 0 <= k < |s| - 1 ==> lt(s[k], s[k + 1])
    requires i < j < |s|
    ensures lt(s[i], s[j])
    decreases j - i
  {
    if i + 1 < j {
      ChainBefore(s, lt, i + 1, j);
    }
  }

  /** Python's `<` on strings: lexicographic by code point, a proper prefix first. */
  predicate StrLess(a: string, b: string) {
    if |a| == 0 then |b| > 0
    else if |b| == 0 then false
    else if a[0] != b[0] then a[0] < b[0]
    else StrLess(a[1..], b[1..])
  }

  lemma {:induction false} StrLessIrreflexive(a: string)
    ensures !StrLess(a, a)
  {
    if |a| > 0 {
      StrLessIrreflexive(a[1..]);
    }
  }

  lemma {:induction false} StrLessTransitive(a: string, b: string, c: string)
    requires StrLess(a, b) && StrLess(b, c)
    ensures StrLess(a, c)
  {
    if |a| > 0 && |b| > 0 && |c| > 0 && a[0] == b[0] && b[0] == c[0] {
      StrLessTransitive(a[1..], b[1..], c[1..]);
    }
  }

  lemma {:induction false} StrLessTotal(a: string, b: string)
    requires a != b
    ensures StrLess(a, b) || StrLess(b, a)
  {
    if |a| > 0 && |b| > 0 && a[0] == b[0] {
      assert a == [a[0]] + a[1..] && b == [b[0]] + b[1..];
      StrLessTotal(a[1..], b[1..]);
    }
  }

  lemma {:induction false} StrLessIsStrictWeakOrder()
    ensures StrictWeakOrder(StrLess)
  {
    forall a | true
      ensures !StrLess(a, a)
    {
      StrLessIrreflexive(a);
    }
    forall a, b, c | StrLess(a, b) && StrLess(b, c)
      ensures StrLess(a, c)
    {
      StrLessTransitive(a, b, c);
    }
    forall a, b, c | StrLess(a, c)
      ensures StrLess(a, b) || StrLess(b, c)
    {
      if !StrLess(a, b) && !StrLess(b, c) {
        if a != b {
          StrLessTotal(a, b);
          StrLessTransitive(b, a, c);
        }
        if b != c {
          StrLessTotal(b, c);
        }
        if a != b && b != c {
          StrLessTransitive(c, b, a);
          StrLessTransitive(a, c, a);
          StrLessIrreflexive(a);
        } else if a == b {
          StrLessTransitive(a, c, b);
          StrLessIrreflexive(a);
        } else {
          StrLessIrreflexive(a);
        }
      }
    }
  }
}

=== FILE: sql_tools.dfy ===
/** The read-only SQL tools of backend/tools/sql_tools.py: the group-by
    allowlist, the limit clamps, the WHERE/parameter builder, the shaping of
    fetched rows into dicts, the combination of the two duplicate searches and
    the uniform `{ok, data, warning}` envelope. The database is a parameter:
    `execute(query, params)` either yields the fetched rows or fails with the
    text of the exception it raised. */
module SqlTools {
  import opened Base
  import opened Text
  import opened PyValue

  type Dict = seq<(string, Value)>

  /** A fetched row: a tuple of column values. */
  type Row = seq<Value>

  /** Runs a query with bound parameters. The driver sees the query's text,
      `Render(q)`; the model hands it the pieces, which determine that text. */
  type Execute = (Query, seq<Value>) -> Result<seq<Row>>

  const MaxTotalsRows: int := 200
  const MaxSamplesRows: int := 50
  const MaxTimelineRows: int := 200
  const MaxDuplicatesRows: int := 50

  /** The group-by allowlist. The source holds it in a set, so the order in
      which the warning lists it is the set's iteration order; the model fixes
      the declaration order. */
  const AllowedGroupBy: seq<string> := ["category", "merchant", "currency", "employee_id", "report_id"]

  // ---------------------------------------------------------------------
  // Queries as pieces

  /** The SQL text the tools write out in full, one name per fragment. The
      source's line breaks and indentation are folded to single spaces. */
  datatype Fragment =
    | TotalsSelect
    | TotalsFrom
    | TotalsGroupBy
    | TotalsOrder
    | SamplesSelect
    | SamplesOrder
    | TimelineSelect
    | TimelineCase
    | TimelineOrder
    | ReceiptSelect
    | ReceiptOrder
    | MerchantWindow
    | MerchantPreceding
    | MerchantFollowing
    | MerchantSelect

  /** The text of each fragment. */
  function FragmentText(f: Fragment): string {
    match f
    case TotalsSelect => "SELECT "
    case TotalsFrom => " as group_name, currency, SUM(amount) as total, COUNT(*) as count FROM expenses WHERE "
    case TotalsGroupBy => " GROUP BY "
    case TotalsOrder => ", currency ORDER BY total DESC LIMIT "
    case SamplesSelect => "SELECT expense_id, employee_id, expense_date, amount, currency, category, merchant, receipt_id, report_id, description FROM expenses WHERE "
    case SamplesOrder => " ORDER BY expense_date DESC, expense_id DESC LIMIT "
    case TimelineSelect => "SELECT event_id, case_id, event_index, activity, event_time, attributes FROM expense_events WHERE org = "
    case TimelineCase => " AND case_id = "
    case TimelineOrder => " ORDER BY event_time NULLS LAST, event_index LIMIT "
    case ReceiptSelect => "SELECT receipt_id, COUNT(*) as count, SUM(amount) as total, MIN(expense_date) as first_date, MAX(expense_date) as last_date, 'receipt_id' as duplicate_type FROM expenses WHERE org = "
    case ReceiptOrder => " AND receipt_id IS NOT NULL GROUP BY receipt_id HAVING COUNT(*) > 1 ORDER BY count DESC, total DESC LIMIT "
    case MerchantWindow => "WITH ranked AS (SELECT expense_id, merchant, amount, expense_date, COUNT(*) OVER (PARTITION BY merchant, amount ORDER BY expense_date RANGE BETWEEN INTERVAL '"
    case MerchantPreceding => " days' PRECEDING AND INTERVAL '"
    case MerchantFollowing => " days' FOLLOWING) as nearby_count FROM expenses WHERE org = "
    case MerchantSelect => " AND merchant IS NOT NULL) SELECT merchant, amount, COUNT(DISTINCT expense_id) as count, MIN(expense_date) as first_date, MAX(expense_date) as last_date, 'merchant_amount_date' as duplicate_type FROM ranked WHERE nearby_count > 1 GROUP BY merchant, amount HAVING COUNT(DISTINCT expense_id) > 1 ORDER BY count DESC LIMIT "
  }

  /** A query is written as pieces: a fragment of SQL text fixed in the
      source, a short fixed text, text spliced in from an argument, and a `%s`
      placeholder for a bound parameter. */
  datatype Piece = Clause(fragment: Fragment) | Fixed(text: string) | Spliced(text: string) | Slot

  type Query = seq<Piece>

  /** The query text handed to the driver. */
  function Render(q: Query): string {
    if |q| == 0 then ""
    else
      (match q[0]
       case Clause(f) => FragmentText(f)
       case Fixed(t) => t
       case Spliced(t) => t
       case Slot => "%s")
      + Render(q[1..])
  }

  /** The number of placeholders. */
  function Slots(q: Query): nat {
    if |q| == 0 then 0 else (if q[0].Slot? then 1 else 0) + Slots(q[1..])
  }

  /** The texts spliced into the query, in order. */
  function SplicedTexts(q: Query): seq<string> {
    if |q| == 0 then []
    else (if q[0].Spliced? then [q[0].text] else []) + SplicedTexts(q[1..])
  }

  /** One step of each of the three definitions, for a query given piece by piece. */
  lemma {:induction false} Unfold(p: Piece, q: Query)
    ensures Slots([p] + q) == (if p.Slot? then 1 else 0) + Slots(q)
    ensures SplicedTexts([p] + q) == (if p.Spliced? then [p.text] else []) + SplicedTexts(q)
  {
    assert ([p] + q)[1..] == q;
  }

  lemma {:induction false} SlotsAppend(a: Query, b: Query)
    ensures Slots(a + b) == Slots(a) + Slots(b)
  {
    if |a| > 0 {
      assert (a + b)[1..] == a[1..] + b;
      SlotsAppend(a[1..], b);
    } else {
      assert a + b == b;
    }
  }

  lemma {:induction false} SplicedAppend(a: Query, b: Query)
    ensures SplicedTexts(a + b) == SplicedTexts(a) + SplicedTexts(b)
  {
    if |a| > 0 {
      assert (a + b)[1..] == a[1..] + b;
      SplicedAppend(a[1..], b);
    } else {
      assert a + b == b;
    }
  }

  lemma {:induction false} RenderAppend(a: Query, b: Query)
    ensures Render(a + b) == Render(a) + Render(b)
  {
    if |a| > 0 {
      assert (a + b)[1..] == a[1..] + b;
      RenderAppend(a[1..], b);
    } else {
      assert a + b == b;
    }
  }

  /** The number of `%` characters in a string. */
  function Percents(s: string): nat {
    if |s| == 0 then 0 else (if s[0] == '%' then 1 else 0) + Percents(s[1..])
  }

  lemma {:induction false} PercentsAppend(a: string, b: string)
    ensures Percents(a + b) == Percents(a) + Percents(b)
  {
    if |a| > 0 {
      assert (a + b)[1..] == a[1..] + b;
      PercentsAppend(a[1..], b);
    } else {
      assert a + b == b;
    }
  }

  /** Every text piece of the query is free of `%`. */
  predicate PlainText(q: Query) {
    forall k :: 0 <= k < |q| ==>
      (q[k].Clause? ==> Percents(FragmentText(q[k].fragment)) == 0)
      && (q[k].Fixed? || q[k].Spliced? ==> Percents(q[k].text) == 0)
  }

  /** When no text piece holds a `%`, the driver sees exactly one `%` per
      placeholder, so the placeholder count of the rendered text is `Slots`. */
  lemma {:induction false} RenderPlaceholders(q: Query)
    requires PlainText(q)
    ensures Percents(Render(q)) == Slots(q)
  {
    if |q| > 0 {
      var head := match q[0] case Clause(f) => FragmentText(f) case Fixed(t) => t case Spliced(t) => t case Slot => "%s";
      assert Render(q) == head + Render(q[1..]);
      PercentsAppend(head, Render(q[1..]));
      assert Percents("%s") == 1;
      RenderPlaceholders(q[1..]);
    }
  }

  // ---------------------------------------------------------------------
  // WHERE conditions and parameters

  /** One condition `column op %s` with the value bound to its placeholder. */
  datatype Condition = Condition(column: string, op: string, value: Value)

  function Count(b: bool): nat { if b then 1 else 0 }

  /** The conditions the totals and samples tools build: `org = %s` first, then
      one condition for each truthy employee id, start date and end date, in
      that order. */
  function Conditions(org: string, employeeId: Option<string>, start: Option<Date>, end: Option<Date>): (r: seq<Condition>)
    ensures |r| == 1 + Count(Truthy(employeeId)) + Count(start.Some?) + Count(end.Some?)
    ensures r[0] == Condition("org", "=", VStr(org))
    ensures Truthy(employeeId) ==> r[1] == Condition("employee_id", "=", VStr(employeeId.value))
    ensures start.Some? ==> r[|r| - 1 - Count(end.Some?)] == Condition("expense_date", ">=", VDate(start.value))
    ensures end.Some? ==> r[|r| - 1] == Condition("expense_date", "<=", VDate(end.value))
  {
    [Condition("org", "=", VStr(org))]
    + (if Truthy(employeeId) then [Condition("employee_id", "=", VStr(employeeId.value))] else [])
    + (match start case Some(d) => [Condition("expense_date", ">=", VDate(d))] case None => [])
    + (match end case Some(d) => [Condition("expense_date", "<=", VDate(d))] case None => [])
  }

  /** The conditions joined with " AND ", each ending in its placeholder. */
  function WhereClause(conds: seq<Condition>): (q: Query)
    ensures Slots(q) == |conds|
    ensures SplicedTexts(q) == []
  {
    if |conds| == 0 then []
    else
      var head: Query := [Fixed(conds[0].column + " " + conds[0].op + " "), Slot];
      var rest := (if |conds| == 1 then [] else [Fixed(" AND ")]) + WhereClause(conds[1..]);
      SlotsAppend(head, rest);
      SplicedAppend(head, rest);
      SlotsAppend(if |conds| == 1 then [] else [Fixed(" AND ")], WhereClause(conds[1..]));
      SplicedAppend(if |conds| == 1 then [] else [Fixed(" AND ")], WhereClause(conds[1..]));
      head + rest
  }

  /** The text of one condition, as the source writes it. */
  function ConditionText(c: Condition): string {
    c.column + " " + c.op + " %s"
  }

  /** The condition texts, in order. */
  function ConditionTexts(conds: seq<Condition>): (r: seq<string>)
    ensures |r| == |conds|
    ensures forall k :: 0 <= k < |conds| ==> r[k] == ConditionText(conds[k])
  {
    if |conds| == 0 then [] else [ConditionText(conds[0])] + ConditionTexts(conds[1..])
  }

  /** The rendered WHERE clause is `" AND ".join` of the condition texts. */
  lemma {:induction false} WhereClauseText(conds: seq<Condition>)
    ensures Render(WhereClause(conds)) == Join(ConditionTexts(conds), " AND ")
  {
    if |conds| > 0 {
      var head: Query := [Fixed(conds[0].column + " " + conds[0].op + " "), Slot];
      var sep: Query := if |conds| == 1 then [] else [Fixed(" AND ")];
      var rest := WhereClause(conds[1..]);
      assert WhereClause(conds) == head + (sep + rest);
      RenderAppend(head, sep + rest);
      RenderAppend(sep, rest);
      RenderCondition(conds[0]);
      WhereClauseText(conds[1..]);
      if |conds| > 1 {
        assert Render(sep) == " AND " by { assert sep[1..] == []; }
      } else {
        assert Render(rest) == "";
      }
    }
  }

  /** One condition's pieces render as its text. */
  lemma {:induction false} RenderCondition(c: Condition)
    ensures Render([Fixed(c.column + " " + c.op + " "), Slot]) == ConditionText(c)
  {
    var head: Query := [Fixed(c.column + " " + c.op + " "), Slot];
    var x := c.column + " " + c.op;
    assert head[1..] == [Slot] && head[1..][1..] == [];
    assert Render([Slot]) == "%s" + Render([]);
    assert Render(head) == (x + " ") + Render([Slot]);
    assert (x + " ") + "%s" == x + (" " + "%s");
    assert " " + "%s" == " %s";
  }

  /** The values bound to the conditions' placeholders, in order. */
  function Values(conds: seq<Condition>): (r: seq<Value>)
    ensures |r| == |conds|
    ensures forall k :: 0 <= k < |conds| ==> r[k] == conds[k].value
  {
    if |conds| == 0 then [] else [conds[0].value] + Values(conds[1..])
  }

  // ---------------------------------------------------------------------
  // Row shaping and the envelope

  /** How a dict entry is read from a fetched row: copied, or rendered with
      `isoformat()` when truthy and `None` otherwise. */
  datatype Column = Copy(key: string, index: nat) | Iso(key: string, index: nat)

  function ColumnKeys(cols: seq<Column>): (r: seq<string>)
    ensures |r| == |cols|
    ensures forall k :: 0 <= k < |cols| ==> r[k] == cols[k].key
  {
    if |cols| == 0 then [] else [cols[0].key] + ColumnKeys(cols[1..])
  }

  /** Python's name for the type of a value, as it appears in an `AttributeError`. */
  function PyTypeName(v: Value): string {
    match v
    case VNone => "NoneType"
    case VBool(_) => "bool"
    case VInt(_) => "int"
    case VFloat(_) => "float"
    case VDecimal(_) => "decimal.Decimal"
    case VStr(_) => "str"
    case VDate(_) => "datetime.date"
    case VDateTime(_, _) => "datetime.datetime"
    case VList(_) => "list"
    case VDict(_) => "dict"
  }

  /** `v.isoformat() if v else None`. */
  function IsoOrNone(v: Value): (r: Result<Value>)
    ensures !PyTruthy(v) ==> r == Success(VNone)
    ensures r.Success? && r.value != VNone ==> r.value.VStr? && (v.VDate? || v.VDateTime?)
    ensures v.VDate? ==> r == Success(VStr(DateIso(v.date)))
    ensures r.Failure? <==> PyTruthy(v) && !v.VDate? && !v.VDateTime?
  {
    if !PyTruthy(v) then Success(VNone)
    else match v
      case VDate(d) => Success(VStr(DateIso(d)))
      case VDateTime(d, t) => Success(VStr(DateTimeIso(d, t, "T")))
      case _ => Failure("'" + PyTypeName(v) + "' object has no attribute 'isoformat'")
  }

  /** One entry's value; indexing past the end of the row raises. */
  function Cell(row: Row, col: Column): (r: Result<Value>)
    ensures col.index >= |row| ==> r.Failure?
    ensures col.Copy? && col.index < |row| ==> r == Success(row[col.index])
  {
    if col.index >= |row| then Failure("tuple index out of range")
    else match col
      case Copy(_, i) => Success(row[i])
      case Iso(_, i) => IsoOrNone(row[i])
  }

  /** The dict built from one row: one entry per column, in column order. */
  function Shape(row: Row, cols: seq<Column>): (r: Result<Dict>)
    ensures r.Success? <==> forall k :: 0 <= k < |cols| ==> Cell(row, cols[k]).Success?
    ensures r.Success? ==> |r.value| == |cols|
    ensures r.Success? ==> forall k :: 0 <= k < |cols| ==> r.value[k] == (cols[k].key, Cell(row, cols[k]).value)
  {
    if |cols| == 0 then Success([])
    else match Cell(row, cols[0])
      case Failure(e) => Failure(e)
      case Success(v) =>
        match Shape(row, cols[1..])
        case Failure(e) => Failure(e)
        case Success(rest) => Success([(cols[0].key, v)] + rest)
  }

  /** The list comprehension over all fetched rows; the first failing row's
      exception escapes. */
  function ShapeAll(rows: seq<Row>, cols: seq<Column>): (r: Result<seq<Dict>>)
    ensures r.Success? <==> forall i :: 0 <= i < |rows| ==> Shape(rows[i], cols).Success?
    ensures r.Success? ==> |r.value| == |rows|
    ensures r.Success? ==> forall i :: 0 <= i < |rows| ==> r.value[i] == Shape(rows[i], cols).value
  {
    if |rows| == 0 then Success([])
    else match Shape(rows[0], cols)
      case Failure(e) => Failure(e)
      case Success(d) =>
        match ShapeAll(rows[1..], cols)
        case Failure(e) => Failure(e)
        case Success(rest) => Success([d] + rest)
  }

  /** Every shaped dict has the columns' keys, in order. */
  lemma {:induction false} ShapeAllKeys(rows: seq<Row>, cols: seq<Column>)
    requires ShapeAll(rows, cols).Success?
    ensures forall i :: 0 <= i < |rows| ==> Keys(ShapeAll(rows, cols).value[i]) == ColumnKeys(cols)
  {
    forall i | 0 <= i < |rows|
      ensures Keys(ShapeAll(rows, cols).value[i]) == ColumnKeys(cols)
    {
      var d := ShapeAll(rows, cols).value[i];
      assert d == Shape(rows[i], cols).value;
      assert |Keys(d)| == |ColumnKeys(cols)|;
      forall k | 0 <= k < |cols| ensures Keys(d)[k] == ColumnKeys(cols)[k] { }
    }
  }

  /** The tools' result. */
  datatype Envelope = Envelope(ok: bool, data: seq<Dict>, warning: Option<string>)

  /** Success carries no warning, and failure carries no data but a warning. */
  predicate WellFormed(e: Envelope) {
    (e.ok ==> e.warning.None?) && (!e.ok ==> e.data == [] && e.warning.Some?)
  }

  const DatabaseErrorPrefix: string := "Database error: "

  /** The `try` around a tool's query: its data, or the caught exception's text. */
  function Finish(r: Result<seq<Dict>>): (e: Envelope)
    ensures WellFormed(e)
    ensures e.ok <==> r.Success?
    ensures e.ok ==> e.data == r.value
    ensures !e.ok ==> StartsWith(e.warning.value, DatabaseErrorPrefix)
  {
    match r
    case Success(d) => Envelope(true, d, None)
    case Failure(msg) => Envelope(false, [], Some(DatabaseErrorPrefix + msg))
  }

  /** Executes a query and shapes its rows. */
  function Fetch(execute: Execute, q: Query, params: seq<Value>, cols: seq<Column>): (r: Result<seq<Dict>>)
    ensures r.Success? <==> execute(q, params).Success? && ShapeAll(execute(q, params).value, cols).Success?
    ensures r.Success? ==> r.value == ShapeAll(execute(q, params).value, cols).value
  {
    match execute(q, params)
    case Failure(e) => Failure(e)
    case Success(rows) => ShapeAll(rows, cols)
  }

  // ---------------------------------------------------------------------
  // get_expense_totals

  const TotalsColumns: seq<Column> := [Copy("group", 0), Copy("currency", 1), Copy("total", 2), Copy("count", 3)]

  function InvalidGroupByWarning(groupBy: string): string {
    "Invalid group_by: " + groupBy + ". Allowed: " + Join(AllowedGroupBy, ", ")
  }

  function TotalsHead(groupBy: string): (q: Query)
    ensures Slots(q) == 0 && SplicedTexts(q) == [groupBy]
  {
    var q := [Clause(TotalsSelect), Spliced(groupBy),
              Clause(TotalsFrom)];
    Unfold(q[2], []);
    Unfold(q[1], q[2..]);
    Unfold(q[0], q[1..]);
    q
  }

  function TotalsTail(groupBy: string): (q: Query)
    ensures Slots(q) == 1 && SplicedTexts(q) == [groupBy]
  {
    var q := [Clause(TotalsGroupBy), Spliced(groupBy), Clause(TotalsOrder), Slot];
    Unfold(q[3], []);
    Unfold(q[2], q[3..]);
    Unfold(q[1], q[2..]);
    Unfold(q[0], q[1..]);
    q
  }

  /** The query and parameters of the totals tool: one placeholder per
      parameter, the organisation first, the fixed row cap last, and only the
      group-by name spliced into the text. */
  function TotalsRequest(org: string, employeeId: Option<string>, start: Option<Date>, end: Option<Date>, groupBy: string): (r: (Query, seq<Value>))
    ensures |r.1| >= 2 && Slots(r.0) == |r.1|
    ensures r.1[0] == VStr(org)
    ensures r.1[|r.1| - 1] == VInt(MaxTotalsRows)
    ensures SplicedTexts(r.0) == [groupBy, groupBy]
  {
    var conds := Conditions(org, employeeId, start, end);
    var where := WhereClause(conds);
    SlotsAppend(TotalsHead(groupBy), where);
    SlotsAppend(TotalsHead(groupBy) + where, TotalsTail(groupBy));
    SplicedAppend(TotalsHead(groupBy), where);
    SplicedAppend(TotalsHead(groupBy) + where, TotalsTail(groupBy));
    (TotalsHead(groupBy) + where + TotalsTail(groupBy), Values(conds) + [VInt(MaxTotalsRows)])
  }

  /** `get_expense_totals`: the allowlist check comes before any use of the
      connection; otherwise the shaped rows or the database error. */
  function GetExpenseTotals(execute: Execute, org: string, employeeId: Option<string>, start: Option<Date>, end: Option<Date>, groupBy: string): (e: Envelope)
    ensures WellFormed(e)
    ensures groupBy !in AllowedGroupBy ==> !e.ok && StartsWith(e.warning.value, "Invalid group_by: " + groupBy)
    ensures groupBy in AllowedGroupBy ==>
      var req := TotalsRequest(org, employeeId, start, end, groupBy);
      var rows := execute(req.0, req.1);
      (e.ok <==> rows.Success? && ShapeAll(rows.value, TotalsColumns).Success?)
      && (e.ok ==> |e.data| == |rows.value| && e.data == ShapeAll(rows.value, TotalsColumns).value)
      && (!e.ok ==> StartsWith(e.warning.value, DatabaseErrorPrefix))
  {
    if groupBy !in AllowedGroupBy then
      Envelope(false, [], Some(InvalidGroupByWarning(groupBy)))
    else
      var req := TotalsRequest(org, employeeId, start, end, groupBy);
      Finish(Fetch(execute, req.0, req.1, TotalsColumns))
  }

  /** A rejected group-by never reaches the database: the answer is the same
      whatever the connection does. */
  lemma {:induction false} InvalidGroupByIgnoresDatabase(ex1: Execute, ex2: Execute, org: string, employeeId: Option<string>, start: Option<Date>, end: Option<Date>, groupBy: string)
    requires groupBy !in AllowedGroupBy
    ensures GetExpenseTotals(ex1, org, employeeId, start, end, groupBy) == GetExpenseTotals(ex2, org, employeeId, start, end, groupBy)
    ensures GetExpenseTotals(ex1, org, employeeId, start, end, groupBy).data == []
  {
  }

  /** Which optional filters are present, the only thing about the filter
      values the query text may depend on. */
  predicate SameFilterShape(e1: Option<string>, s1: Option<Date>, n1: Option<Date>, e2: Option<string>, s2: Option<Date>, n2: Option<Date>) {
    Truthy(e1) == Truthy(e2) && s1.Some? == s2.Some? && n1.Some? == n2.Some?
  }

  lemma {:induction false} WhereClauseIgnoresValues(c1: seq<Condition>, c2: seq<Condition>)
    requires |c1| == |c2|
    requires forall k :: 0 <= k < |c1| ==> c1[k].column == c2[k].column && c1[k].op == c2[k].op
    ensures WhereClause(c1) == WhereClause(c2)
  {
    if |c1| > 0 {
      WhereClauseIgnoresValues(c1[1..], c2[1..]);
    }
  }

  /** Organisation, employee id and dates are bound parameters only: two calls
      with the same group-by and the same filters present render the same
      query text. */
  lemma {:induction false} TotalsTextIgnoresValues(org1: string, e1: Option<string>, s1: Option<Date>, n1: Option<Date>,
                                org2: string, e2: Option<string>, s2: Option<Date>, n2: Option<Date>, groupBy: string)
    requires SameFilterShape(e1, s1, n1, e2, s2, n2)
    ensures TotalsRequest(org1, e1, s1, n1, groupBy).0 == TotalsRequest(org2, e2, s2, n2, groupBy).0
  {
    WhereClauseIgnoresValues(Conditions(org1, e1, s1, n1), Conditions(org2, e2, s2, n2));
  }

  // ---------------------------------------------------------------------
  // get_expense_samples

  const SamplesColumns: seq<Column> :=
    [Copy("expense_id", 0), Copy("employee_id", 1), Iso("expense_date", 2), Copy("amount", 3),
     Copy("currency", 4), Copy("category", 5), Copy("merchant", 6), Copy("receipt_id", 7),
     Copy("report_id", 8), Copy("description", 9)]

  /** `min(limit, cap)`: a cap from above only. */
  function Clamp(limit: int, cap: int): (r: int)
    ensures r <= cap && r <= limit
    ensures r == limit || r == cap
  {
    Min(limit, cap)
  }

  function SamplesTail(): (q: Query)
    ensures Slots(q) == 1 && SplicedTexts(q) == []
  {
    var q := [Clause(SamplesOrder), Slot];
    Unfold(q[1], []);
    Unfold(q[0], q[1..]);
    q
  }

  function SamplesRequest(org: string, employeeId: Option<string>, start: Option<Date>, end: Option<Date>, limit: int): (r: (Query, seq<Value>))
    ensures |r.1| >= 2 && Slots(r.0) == |r.1|
    ensures r.1[0] == VStr(org)
    ensures r.1[|r.1| - 1] == VInt(Clamp(limit, MaxSamplesRows))
    ensures SplicedTexts(r.0) == []
  {
    var conds := Conditions(org, employeeId, start, end);
    var head: Query := [Clause(SamplesSelect)];
    var where := WhereClause(conds);
    Unfold(head[0], []);
    SlotsAppend(head, where);
    SlotsAppend(head + where, SamplesTail());
    SplicedAppend(head, where);
    SplicedAppend(head + where, SamplesTail());
    (head + where + SamplesTail(), Values(conds) + [VInt(Clamp(limit, MaxSamplesRows))])
  }

  /** `get_expense_samples`. */
  function GetExpenseSamples(execute: Execute, org: string, employeeId: Option<string>, start: Option<Date>, end: Option<Date>, limit: int): (e: Envelope)
    ensures WellFormed(e)
    ensures
      var req := SamplesRequest(org, employeeId, start, end, limit);
      var rows := execute(req.0, req.1);
      (e.ok <==> rows.Success? && ShapeAll(rows.value, SamplesColumns).Success?)
      && (e.ok ==> |e.data| == |rows.value| && e.data == ShapeAll(rows.value, SamplesColumns).value)
      && (!e.ok ==> StartsWith(e.warning.value, DatabaseErrorPrefix))
  {
    var req := SamplesRequest(org, employeeId, start, end, limit);
    Finish(Fetch(execute, req.0, req.1, SamplesColumns))
  }

  /** The samples query text likewise depends only on which filters are present. */
  lemma {:induction false} SamplesTextIgnoresValues(org1: string, e1: Option<string>, s1: Option<Date>, n1: Option<Date>, l1: int,
                                 org2: string, e2: Option<string>, s2: Option<Date>, n2: Option<Date>, l2: int)
    requires SameFilterShape(e1, s1, n1, e2, s2, n2)
    ensures SamplesRequest(org1, e1, s1, n1, l1).0 == SamplesRequest(org2, e2, s2, n2, l2).0
  {
    WhereClauseIgnoresValues(Conditions(org1, e1, s1, n1), Conditions(org2, e2, s2, n2));
  }

  // ---------------------------------------------------------------------
  // get_case_timeline

  const TimelineColumns: seq<Column> :=
    [Copy("event_id", 0), Copy("case_id", 1), Copy("event_index", 2), Copy("activity", 3),
     Iso("event_time", 4), Copy("attributes", 5)]

  function TimelineQuery(): (q: Query)
    ensures Slots(q) == 3 && SplicedTexts(q) == []
  {
    var q := [Clause(TimelineSelect),
              Slot, Clause(TimelineCase), Slot,
              Clause(TimelineOrder), Slot];
    Unfold(q[5], []);
    Unfold(q[4], q[5..]);
    Unfold(q[3], q[4..]);
    Unfold(q[2], q[3..]);
    Unfold(q[1], q[2..]);
    Unfold(q[0], q[1..]);
    q
  }

  function TimelineRequest(org: string, caseId: string, limit: int): (r: (Query, seq<Value>))
    ensures Slots(r.0) == |r.1| == 3
    ensures SplicedTexts(r.0) == []
    ensures r.1[2] == VInt(Clamp(limit, MaxTimelineRows))
  {
    (TimelineQuery(), [VStr(org), VStr(caseId), VInt(Clamp(limit, MaxTimelineRows))])
  }

  /** `get_case_timeline`. */
  function GetCaseTimeline(execute: Execute, org: string, caseId: string, limit: int): (e: Envelope)
    ensures WellFormed(e)
    ensures
      var req := TimelineRequest(org, caseId, limit);
      var rows := execute(req.0, req.1);
      (e.ok <==> rows.Success? && ShapeAll(rows.value, TimelineColumns).Success?)
      && (e.ok ==> |e.data| == |rows.value| && e.data == ShapeAll(rows.value, TimelineColumns).value)
      && (!e.ok ==> StartsWith(e.warning.value, DatabaseErrorPrefix))
  {
    var req := TimelineRequest(org, caseId, limit);
    Finish(Fetch(execute, req.0, req.1, TimelineColumns))
  }

  // ---------------------------------------------------------------------
  // find_possible_duplicates

  const ReceiptColumns: seq<Column> :=
    [Copy("receipt_id", 0), Copy("count", 1), Copy("total", 2), Iso("first_date", 3),
     Iso("last_date", 4), Copy("duplicate_type", 5)]

  const MerchantColumns: seq<Column> :=
    [Copy("merchant", 0), Copy("amount", 1), Copy("count", 2), Iso("first_date", 3),
     Iso("last_date", 4), Copy("duplicate_type", 5)]

  function ReceiptQuery(): (q: Query)
    ensures Slots(q) == 2 && SplicedTexts(q) == []
  {
    var q := [Clause(ReceiptSelect),
     Slot,
     Clause(ReceiptOrder),
     Slot];
    Unfold(q[3], []);
    Unfold(q[2], q[3..]);
    Unfold(q[1], q[2..]);
    Unfold(q[0], q[1..]);
    q
  }

  /** The merchant/amount/date query: the window is spliced into both interval
      bounds as `str(window_days)`. */
  function MerchantQuery(windowDays: int): (q: Query)
    ensures Slots(q) == 2
    ensures SplicedTexts(q) == [IntToString(windowDays), IntToString(windowDays)]
  {
    var q := [Clause(MerchantWindow),
     Spliced(IntToString(windowDays)),
     Clause(MerchantPreceding),
     Spliced(IntToString(windowDays)),
     Clause(MerchantFollowing),
     Slot,
     Clause(MerchantSelect),
     Slot];
    Unfold(q[7], []);
    Unfold(q[6], q[7..]);
    Unfold(q[5], q[6..]);
    Unfold(q[4], q[5..]);
    Unfold(q[3], q[4..]);
    Unfold(q[2], q[3..]);
    Unfold(q[1], q[2..]);
    Unfold(q[0], q[1..]);
    q
  }

  /** Both duplicate queries bind the organisation and the clamped limit. */
  function DuplicatesParams(org: string, limit: int): (p: seq<Value>)
    ensures |p| == Slots(ReceiptQuery()) == 2
    ensures p[1] == VInt(Clamp(limit, MaxDuplicatesRows))
  {
    [VStr(org), VInt(Clamp(limit, MaxDuplicatesRows))]
  }

  /** The two searches' shaped groups, receipt groups first, cut to the
      clamped limit with Python's `data[:limit]`. */
  function CombineDuplicates(receipts: seq<Dict>, merchants: seq<Dict>, limit: int): (r: seq<Dict>)
    ensures r <= receipts + merchants
    ensures 0 <= limit ==> |r| == Min(limit, |receipts| + |merchants|)
  {
    SliceTo(receipts + merchants, limit)
  }

  /** The two searches' outcomes combined: both queries run before any row is
      shaped, so the first exception, in that order, escapes. */
  function CombineFetched(byReceipt: Result<seq<Row>>, byMerchant: Result<seq<Row>>,
                          receiptCols: seq<Column>, merchantCols: seq<Column>, limit: int): (r: Result<seq<Dict>>)
    ensures r.Success? <==> byReceipt.Success? && byMerchant.Success?
                            && ShapeAll(byReceipt.value, receiptCols).Success?
                            && ShapeAll(byMerchant.value, merchantCols).Success?
    ensures r.Success? ==> r.value <= ShapeAll(byReceipt.value, receiptCols).value + ShapeAll(byMerchant.value, merchantCols).value
    ensures r.Success? && 0 <= limit ==> |r.value| == Min(limit, |byReceipt.value| + |byMerchant.value|)
    ensures byReceipt.Failure? ==> r == Failure(byReceipt.error)
  {
    match byReceipt
    case Failure(err) => Failure(err)
    case Success(receiptRows) =>
      match byMerchant
      case Failure(err) => Failure(err)
      case Success(merchantRows) =>
        match ShapeAll(receiptRows, receiptCols)
        case Failure(err) => Failure(err)
        case Success(receipts) =>
          match ShapeAll(merchantRows, merchantCols)
          case Failure(err) => Failure(err)
          case Success(merchants) => Success(CombineDuplicates(receipts, merchants, limit))
  }

  function DuplicatesData(execute: Execute, org: string, windowDays: int, limit: int): (r: Result<seq<Dict>>)
    ensures
      var byReceipt := execute(ReceiptQuery(), DuplicatesParams(org, limit));
      var byMerchant := execute(MerchantQuery(windowDays), DuplicatesParams(org, limit));
      r == CombineFetched(byReceipt, byMerchant, ReceiptColumns, MerchantColumns, Clamp(limit, MaxDuplicatesRows))
  {
    var params := DuplicatesParams(org, limit);
    CombineFetched(execute(ReceiptQuery(), params), execute(MerchantQuery(windowDays), params),
                   ReceiptColumns, MerchantColumns, Clamp(limit, MaxDuplicatesRows))
  }

  /** `find_possible_duplicates`: for a non-negative limit, at most the
      clamped limit of groups. A negative limit is passed to the database as
      it is and, should the database accept it, cuts from the end. */
  function FindPossibleDuplicates(execute: Execute, org: string, windowDays: int, limit: int): (e: Envelope)
    ensures WellFormed(e)
    ensures e.ok <==> DuplicatesData(execute, org, windowDays, limit).Success?
    ensures e.ok ==> e.data == DuplicatesData(execute, org, windowDays, limit).value
    ensures !e.ok ==> StartsWith(e.warning.value, DatabaseErrorPrefix)
    ensures 0 <= limit ==> |e.data| <= Clamp(limit, MaxDuplicatesRows)
    ensures
      var byReceipt := execute(ReceiptQuery(), DuplicatesParams(org, limit));
      var byMerchant := execute(MerchantQuery(windowDays), DuplicatesParams(org, limit));
      e.ok ==>
        && e.data <= ShapeAll(byReceipt.value, ReceiptColumns).value + ShapeAll(byMerchant.value, MerchantColumns).value
        && (0 <= limit ==> |e.data| == Min(Clamp(limit, MaxDuplicatesRows), |byReceipt.value| + |byMerchant.value|))
  {
    Finish(DuplicatesData(execute, org, windowDays, limit))
  }

  /** In the combined list every receipt group comes before every merchant
      group: an entry is a receipt group (its first key is "receipt_id")
      exactly when it sits before the receipt groups run out. */
  lemma {:induction false} DuplicatesReceiptsFirst(receiptRows: seq<Row>, merchantRows: seq<Row>, limit: int)
    requires ShapeAll(receiptRows, ReceiptColumns).Success?
    requires ShapeAll(merchantRows, MerchantColumns).Success?
    ensures
      var data := CombineDuplicates(ShapeAll(receiptRows, ReceiptColumns).value, ShapeAll(merchantRows, MerchantColumns).value, limit);
      forall i :: 0 <= i < |data| ==> (data[i][0].0 == "receipt_id" <==> i < |receiptRows|)
  {
    var receipts: seq<Dict> := ShapeAll(receiptRows, ReceiptColumns).value;
    var merchants: seq<Dict> := ShapeAll(merchantRows, MerchantColumns).value;
    var data: seq<Dict> := CombineDuplicates(receipts, merchants, limit);
    forall i | 0 <= i < |data| ensures data[i][0].0 == "receipt_id" <==> i < |receiptRows|
    {
      assert data[i] == (receipts + merchants)[i];
      if i < |receiptRows| {
        assert receipts[i] == Shape(receiptRows[i], ReceiptColumns).value;
        assert receipts[i][0].0 == ReceiptColumns[0].key;
      } else {
        var j := i - |receiptRows|;
        assert merchants[j] == Shape(merchantRows[j], MerchantColumns).value;
        assert merchants[j][0].0 == MerchantColumns[0].key;
      }
    }
  }
}

=== FILE: strptime.dfy ===
/** `datetime.strptime(text, format).date()` for the numeric date formats the
    ingesters try. Each directive is the regular expression Python's `_strptime`
    compiles for it; the expression is matched at the start of the text with
    regex backtracking (alternatives in order), text left over after the match
    is an error, and so is a day the month does not have. */
module Strptime {
  import opened Base
  import opened Text
  import opened PyValue
  import opened Decimals

  datatype Directive = Year | Month | Day | Literal(c: char)

  type Format = seq<Directive>

  /** '%Y-%m-%d' */
  const IsoDate: Format := [Year, Literal('-'), Month, Literal('-'), Day]
  /** '%m/%d/%Y' */
  const MonthFirst: Format := [Month, Literal('/'), Day, Literal('/'), Year]
  /** '%d/%m/%Y' */
  const DayFirst: Format := [Day, Literal('/'), Month, Literal('/'), Year]
  /** '%Y/%m/%d' */
  const YearSlash: Format := [Year, Literal('/'), Month, Literal('/'), Day]
  /** '%m-%d-%Y' */
  const MonthFirstDash: Format := [Month, Literal('-'), Day, Literal('-'), Year]

  /** The formats `normalize_date` tries, in order. */
  const DateFormats: seq<Format> := [IsoDate, MonthFirst, DayFirst, YearSlash, MonthFirstDash]

  function DigitValue(c: char): nat
    requires IsDigit(c)
  {
    c as int - '0' as int
  }

  predicate InRange(c: char, lo: char, hi: char) {
    lo <= c <= hi
  }

  /** The matches of one directive at the start of `s`, as (value, length),
      in the order the regex alternatives are tried:
      `%Y` is `\d\d\d\d`, `%m` is `1[0-2]|0[1-9]|[1-9]` and `%d` is
      `3[01]|[12]\d|0[1-9]|[1-9]| [1-9]`. */
  function Candidates(d: Directive, s: string): (r: seq<(nat, nat)>)
    ensures forall k :: 0 <= k < |r| ==> 0 < r[k].1 <= |s|
  {
    match d
    case Year =>
      if |s| >= 4 && AllDigits(s[..4]) then [(DigitsValue(s[..4]), 4)] else []
    case Month =>
      (if |s| >= 2 && s[0] == '1' && InRange(s[1], '0', '2') then [(10 + DigitValue(s[1]), 2)] else [])
      + (if |s| >= 2 && s[0] == '0' && InRange(s[1], '1', '9') then [(DigitValue(s[1]), 2)] else [])
      + (if |s| >= 1 && InRange(s[0], '1', '9') then [(DigitValue(s[0]), 1)] else [])
    case Day =>
      (if |s| >= 2 && s[0] == '3' && InRange(s[1], '0', '1') then [(30 + DigitValue(s[1]), 2)] else [])
      + (if |s| >= 2 && InRange(s[0], '1', '2') && IsDigit(s[1]) then [(10 * DigitValue(s[0]) + DigitValue(s[1]), 2)] else [])
      + (if |s| >= 2 && s[0] == '0' && InRange(s[1], '1', '9') then [(DigitValue(s[1]), 2)] else [])
      + (if |s| >= 1 && InRange(s[0], '1', '9') then [(DigitValue(s[0]), 1)] else [])
      + (if |s| >= 2 && s[0] == ' ' && InRange(s[1], '1', '9') then [(DigitValue(s[1]), 2)] else [])
    case Literal(c) =>
      if |s| >= 1 && s[0] == c then [(0, 1)] else []
  }

  /** The regex match of `fmt` at the start of `s`: one value per directive and
      the length matched, taking the first alternative from which the rest of
      the format still matches. The match need not reach the end of `s`. */
  function Match(fmt: Format, s: string): (r: Option<(seq<nat>, nat)>)
    ensures r.Some? ==> |r.value.0| == |fmt| && r.value.1 <= |s|
    decreases |fmt|, 1, 0
  {
    if |fmt| == 0 then Some(([], 0)) else TryCandidates(fmt, s, Candidates(fmt[0], s))
  }

  function TryCandidates(fmt: Format, s: string, cands: seq<(nat, nat)>): (r: Option<(seq<nat>, nat)>)
    requires |fmt| > 0
    requires forall k :: 0 <= k < |cands| ==> 0 < cands[k].1 <= |s|
    ensures r.Some? ==> |r.value.0| == |fmt| && r.value.1 <= |s|
    decreases |fmt|, 0, |cands|
  {
    if |cands| == 0 then None
    else
      var n := cands[0].1;
      match Match(fmt[1..], s[n..])
      case Some(m) => Some(([cands[0].0] + m.0, n + m.1))
      case None => TryCandidates(fmt, s, cands[1..])
  }

  /** The fields a match sets; `_strptime` starts from 1900-01-01. */
  function Assign(fmt: Format, values: seq<nat>, acc: Date): Date
    requires |values| == |fmt|
  {
    if |fmt| == 0 then acc
    else
      var acc' := match fmt[0]
        case Year => acc.(year := values[0])
        case Month => acc.(month := values[0])
        case Day => acc.(day := values[0])
        case Literal(_) => acc;
      Assign(fmt[1..], values[1..], acc')
  }

  /** `datetime.strptime(s, fmt).date()`, `None` where it raises `ValueError`. */
  function Parse(s: string, fmt: Format): (r: Option<Date>)
    ensures r.Some? ==> ValidDate(r.value)
    ensures Match(fmt, s).None? ==> r.None?
  {
    match Match(fmt, s)
    case None => None
    case Some(m) =>
      if m.1 != |s| then None
      else
        var d := Assign(fmt, m.0, Date(1900, 1, 1));
        if ValidDate(d) then Some(d) else None
  }

  /** The first of `formats` that parses `s`. */
  function FirstParse(s: string, formats: seq<Format>): (r: Option<Date>)
    ensures r.Some? ==> ValidDate(r.value)
    ensures r.Some? ==> exists k :: 0 <= k < |formats| && Parse(s, formats[k]) == r
                                     && forall j :: 0 <= j < k ==> Parse(s, formats[j]).None?
    ensures r.None? ==> forall k :: 0 <= k < |formats| ==> Parse(s, formats[k]).None?
  {
    if |formats| == 0 then None
    else
      match Parse(s, formats[0])
      case Some(d) => Some(d)
      case None =>
        var r := FirstParse(s, formats[1..]);
        assert forall k :: 1 <= k < |formats| ==> formats[k] == formats[1..][k - 1];
        r
  }

  // Proof helpers

  lemma {:induction false} MatchFirst(fmt: Format, s: string, v: nat, n: nat, rest: (seq<nat>, nat))
    requires |fmt| > 0
    requires |Candidates(fmt[0], s)| > 0 && Candidates(fmt[0], s)[0] == (v, n)
    requires Match(fmt[1..], s[n..]) == Some(rest)
    ensures Match(fmt, s) == Some(([v] + rest.0, n + rest.1))
  {
  }

  lemma {:induction false} MatchLast(fmt: Format, s: string, v: nat, n: nat)
    requires |fmt| == 1
    requires |Candidates(fmt[0], s)| > 0 && Candidates(fmt[0], s)[0] == (v, n)
    ensures Match(fmt, s) == Some(([v], n))
  {
    assert Match(fmt[1..], s[n..]) == Some(([], 0));
    MatchFirst(fmt, s, v, n, ([], 0));
    assert [v] + [] == [v];
  }

  lemma {:induction false} MatchNone(fmt: Format, s: string)
    requires |fmt| > 0 && |Candidates(fmt[0], s)| == 0
    ensures Match(fmt, s).None?
  {
  }

  /** A zero-padded two-digit number: its tens digit, then its units digit. */
  lemma {:induction false} TwoDigits(n: nat)
    requires n < 100
    ensures PadNat(n, 2) == [DigitChar(n / 10), DigitChar(n % 10)]
  {
    if n >= 10 {
      assert NatToString(n / 10) == [DigitChar(n / 10)];
    }
  }

  lemma {:induction false} YearCandidates(y: nat, rest: string)
    requires 1 <= y <= 9999
    ensures Candidates(Year, PadNat(y, 4) + rest)[0] == (y, 4)
    ensures |Candidates(Year, PadNat(y, 4) + rest)| > 0
  {
    var p := PadNat(y, 4);
    PadNatValue(y, 4);
    assert Pow10(4) == 10000;
    assert (p + rest)[..4] == p;
  }

  lemma {:induction false} MonthCandidates(m: nat, rest: string)
    requires 1 <= m <= 12
    ensures |Candidates(Month, PadNat(m, 2) + rest)| > 0
    ensures Candidates(Month, PadNat(m, 2) + rest)[0] == (m, 2)
  {
    TwoDigits(m);
  }

  lemma {:induction false} DayCandidates(d: nat, rest: string)
    requires 1 <= d <= 31
    ensures |Candidates(Day, PadNat(d, 2) + rest)| > 0
    ensures Candidates(Day, PadNat(d, 2) + rest)[0] == (d, 2)
  {
    TwoDigits(d);
  }

  /** Five directives, each matched by its first alternative, in sequence. */
  lemma {:induction false} MatchFive(f: Format, p0: string, p1: string, p2: string, p3: string, p4: string,
                                     v: seq<nat>)
    requires |f| == 5 && |v| == 5
    requires |p0| > 0 && |p1| > 0 && |p2| > 0 && |p3| > 0 && |p4| > 0
    requires |Candidates(f[0], p0 + p1 + p2 + p3 + p4)| > 0 && Candidates(f[0], p0 + p1 + p2 + p3 + p4)[0] == (v[0], |p0|)
    requires |Candidates(f[1], p1 + p2 + p3 + p4)| > 0 && Candidates(f[1], p1 + p2 + p3 + p4)[0] == (v[1], |p1|)
    requires |Candidates(f[2], p2 + p3 + p4)| > 0 && Candidates(f[2], p2 + p3 + p4)[0] == (v[2], |p2|)
    requires |Candidates(f[3], p3 + p4)| > 0 && Candidates(f[3], p3 + p4)[0] == (v[3], |p3|)
    requires |Candidates(f[4], p4)| > 0 && Candidates(f[4], p4)[0] == (v[4], |p4|)
    ensures Match(f, p0 + p1 + p2 + p3 + p4) == Some((v, |p0| + |p1| + |p2| + |p3| + |p4|))
  {
    MatchFour(f[1..], p1, p2, p3, p4, v[1..]);
    var r1: (seq<nat>, nat) := (v[1..], |p1| + |p2| + |p3| + |p4|);
    PrependFour(p0, p1, p2, p3, p4);
    MatchCons(f, p0, p1 + p2 + p3 + p4, v[0], r1);
    assert [v[0]] + r1.0 == v;
  }

  lemma {:induction false} MatchFour(f: Format, p1: string, p2: string, p3: string, p4: string, v: seq<nat>)
    requires |f| == 4 && |v| == 4
    requires |p1| > 0 && |p2| > 0 && |p3| > 0 && |p4| > 0
    requires |Candidates(f[0], p1 + p2 + p3 + p4)| > 0 && Candidates(f[0], p1 + p2 + p3 + p4)[0] == (v[0], |p1|)
    requires |Candidates(f[1], p2 + p3 + p4)| > 0 && Candidates(f[1], p2 + p3 + p4)[0] == (v[1], |p2|)
    requires |Candidates(f[2], p3 + p4)| > 0 && Candidates(f[2], p3 + p4)[0] == (v[2], |p3|)
    requires |Candidates(f[3], p4)| > 0 && Candidates(f[3], p4)[0] == (v[3], |p4|)
    ensures Match(f, p1 + p2 + p3 + p4) == Some((v, |p1| + |p2| + |p3| + |p4|))
  {
    MatchThree(f[1..], p2, p3, p4, v[1..]);
    var r2: (seq<nat>, nat) := (v[1..], |p2| + |p3| + |p4|);
    PrependThree(p1, p2, p3, p4);
    MatchCons(f, p1, p2 + p3 + p4, v[0], r2);
    assert [v[0]] + r2.0 == v;
  }

  lemma {:induction false} MatchThree(f: Format, p2: string, p3: string, p4: string, v: seq<nat>)
    requires |f| == 3 && |v| == 3
    requires |p2| > 0 && |p3| > 0 && |p4| > 0
    requires |Candidates(f[0], p2 + p3 + p4)| > 0 && Candidates(f[0], p2 + p3 + p4)[0] == (v[0], |p2|)
    requires |Candidates(f[1], p3 + p4)| > 0 && Candidates(f[1], p3 + p4)[0] == (v[1], |p3|)
    requires |Candidates(f[2], p4)| > 0 && Candidates(f[2], p4)[0] == (v[2], |p4|)
    ensures Match(f, p2 + p3 + p4) == Some((v, |p2| + |p3| + |p4|))
  {
    assert f[2..] == [f[2]];
    MatchLast(f[2..], p4, v[2], |p4|);
    var r4: (seq<nat>, nat) := ([v[2]], |p4|);
    assert f[1..][1..] == f[2..];
    MatchCons(f[1..], p3, p4, v[1], r4);
    var r3: (seq<nat>, nat) := ([v[1]] + r4.0, |p3| + r4.1);
    AppendAssoc(p2, p3, p4);
    MatchCons(f, p2, p3 + p4, v[0], r3);
    assert [v[0]] + r3.0 == v;
  }

  lemma {:induction false} MatchCons(f: Format, p: string, t: string, v: nat, rest: (seq<nat>, nat))
    requires |f| > 0 && |p| > 0
    requires |Candidates(f[0], p + t)| > 0 && Candidates(f[0], p + t)[0] == (v, |p|)
    requires Match(f[1..], t) == Some(rest)
    ensures Match(f, p + t) == Some(([v] + rest.0, |p| + rest.1))
  {
    assert (p + t)[|p|..] == t;
    MatchFirst(f, p + t, v, |p|, rest);
  }

  /** `date.isoformat()` text matches '%Y-%m-%d' in full, field by field. */
  lemma {:induction false} IsoMatch(d: Date)
    requires ValidDate(d)
    ensures Match(IsoDate, DateIso(d)) == Some(([d.year, 0, d.month, 0, d.day], 10))
  {
    var y, m, dd := PadNat(d.year, 4), PadNat(d.month, 2), PadNat(d.day, 2);
    TwoDigits(d.month);
    TwoDigits(d.day);
    assert |y| == 4 by { PadNatValue(d.year, 4); assert Pow10(4) == 10000; }
    YearCandidates(d.year, "-" + m + "-" + dd);
    PrependFour(y, "-", m, "-", dd);
    MonthCandidates(d.month, "-" + dd);
    AppendAssoc(m, "-", dd);
    DayCandidates(d.day, "");
    assert dd + "" == dd;
    MatchFive(IsoDate, y, "-", m, "-", dd, [d.year, 0, d.month, 0, d.day]);
  }

  /** `date.isoformat()` text parses back to the same date with the first format. */
  lemma {:induction false} IsoRoundTrip(d: Date)
    requires ValidDate(d)
    ensures Parse(DateIso(d), IsoDate) == Some(d)
    ensures FirstParse(DateIso(d), DateFormats) == Some(d)
  {
    IsoMatch(d);
    assert |DateIso(d)| == 10 by {
      PadNatValue(d.year, 4);
      assert Pow10(4) == 10000;
      TwoDigits(d.month);
      TwoDigits(d.day);
    }
    var vs := [d.year, 0, d.month, 0, d.day];
    var f := IsoDate;
    assert Assign(f[5..], vs[5..], d) == d;
    assert Assign(f[4..], vs[4..], Date(d.year, d.month, 1)) == d;
    assert Assign(f[3..], vs[3..], Date(d.year, d.month, 1)) == d;
    assert Assign(f[2..], vs[2..], Date(d.year, 1, 1)) == d;
    assert Assign(f[1..], vs[1..], Date(d.year, 1, 1)) == d;
    assert Assign(f, vs, Date(1900, 1, 1)) == d;
  }

  lemma {:induction false} YearLiteral()
    ensures Candidates(Year, "2024") == [(2024, 4)]
  {
    assert "2024"[..4] == "2024";
    assert "2024"[..3] == "202";
    assert "202"[..2] == "20";
    assert "20"[..1] == "2";
    assert DigitsValue("2") == 2;
    assert DigitsValue("20") == 20;
    assert DigitsValue("202") == 202;
  }

  lemma {:induction false} MonthFirstNotIso()
    ensures Parse("03/04/2024", IsoDate).None?
  {
    assert !IsDigit("03/04/2024"[..4][2]);
    assert Candidates(Year, "03/04/2024") == [];
    MatchNone(IsoDate, "03/04/2024");
  }

  lemma {:induction false} MonthFirstMatch()
    ensures Match(MonthFirst, "03/04/2024") == Some(([3, 0, 4, 0, 2024], 10))
  {
    assert Candidates(Month, "03/04/2024") == [(3, 2)];
    assert Candidates(Literal('/'), "/04/2024") == [(0, 1)];
    assert Candidates(Day, "04/2024") == [(4, 2)];
    assert Candidates(Literal('/'), "/2024") == [(0, 1)];
    YearLiteral();
    assert "03/04/2024" == "03" + "/" + "04" + "/" + "2024";
    assert "/" + "04" + "/" + "2024" == "/04/2024";
    assert "04" + "/" + "2024" == "04/2024";
    assert "/" + "2024" == "/2024";
    MatchFive(MonthFirst, "03", "/", "04", "/", "2024", [3, 0, 4, 0, 2024]);
  }

  /** A slash date is read month first: "03/04/2024" is the fourth of March. */
  lemma {:induction false} MonthFirstExample()
    ensures FirstParse("03/04/2024", DateFormats) == Some(Date(2024, 3, 4))
  {
    MonthFirstNotIso();
    MonthFirstMatch();
    assert Assign(MonthFirst, [3, 0, 4, 0, 2024], Date(1900, 1, 1)) == Date(2024, 3, 4);
    assert Parse("03/04/2024", MonthFirst) == Some(Date(2024, 3, 4));
  }

  lemma {:induction false} DayFirstNotMonthFirst()
    ensures Parse("13/01/2024", MonthFirst).None?
  {
    assert Candidates(Month, "13/01/2024") == [(1, 1)];
    assert "13/01/2024"[1..] == "3/01/2024";
    assert MonthFirst[1..][0] == Literal('/');
    MatchNone(MonthFirst[1..], "3/01/2024");
    assert TryCandidates(MonthFirst, "13/01/2024", [(1, 1)][1..]).None?;
  }

  lemma {:induction false} DayFirstMatch()
    ensures Match(DayFirst, "13/01/2024") == Some(([13, 0, 1, 0, 2024], 10))
  {
    assert Candidates(Day, "13/01/2024")[0] == (13, 2);
    assert Candidates(Literal('/'), "/01/2024") == [(0, 1)];
    assert Candidates(Month, "01/2024") == [(1, 2)];
    assert Candidates(Literal('/'), "/2024") == [(0, 1)];
    YearLiteral();
    assert "13/01/2024" == "13" + "/" + "01" + "/" + "2024";
    assert "/" + "01" + "/" + "2024" == "/01/2024";
    assert "01" + "/" + "2024" == "01/2024";
    assert "/" + "2024" == "/2024";
    MatchFive(DayFirst, "13", "/", "01", "/", "2024", [13, 0, 1, 0, 2024]);
  }

  /** A slash date that cannot be month first is read day first:
      "13/01/2024" is the thirteenth of January. */
  lemma {:induction false} DayFirstExample()
    ensures FirstParse("13/01/2024", DateFormats) == Some(Date(2024, 1, 13))
  {
    DayFirstNotIso();
    DayFirstNotMonthFirst();
    DayFirstMatch();
    assert Assign(DayFirst, [13, 0, 1, 0, 2024], Date(1900, 1, 1)) == Date(2024, 1, 13);
    assert Parse("13/01/2024", DayFirst) == Some(Date(2024, 1, 13));
    assert DateFormats[1..][1..][0] == DayFirst;
    assert FirstParse("13/01/2024", DateFormats[1..][1..]) == Some(Date(2024, 1, 13));
  }

  lemma {:induction false} DayFirstNotIso()
    ensures Parse("13/01/2024", IsoDate).None?
  {
    assert !IsDigit("13/01/2024"[..4][2]);
    assert Candidates(Year, "13/01/2024") == [];
    MatchNone(IsoDate, "13/01/2024");
  }
}

=== FILE: text.dfy ===
/** String operations with Python's meaning, restricted to ASCII letters for case
    mapping. Whitespace is the set Python's `str.strip()` and the regex class `\s`
    use for ASCII: space, \t, \n, \v, \f, \r and the separators \x1c-\x1f. */
module Text {

  predicate IsSpace(c: char) {
    c == ' ' || (9 <= c as int <= 13) || (28 <= c as int <= 31)
  }

  predicate IsUpper(c: char) { 'A' <= c <= 'Z' }

  predicate IsLower(c: char) { 'a' <= c <= 'z' }

  predicate IsDigit(c: char) { '0' <= c <= '9' }

  predicate IsAlpha(c: char) { IsUpper(c) || IsLower(c) }

  lemma {:induction false} DigitIsNotSpace(c: char)
    requires IsDigit(c)
    ensures !IsSpace(c)
  {
    assert c as int >= '0' as int;
  }

  function LowerChar(c: char): char {
    if IsUpper(c) then (c as int + 32) as char else c
  }

  function UpperChar(c: char): char {
    if IsLower(c) then (c as int - 32) as char else c
  }

  /** `str.lower()`. */
  function Lower(s: string): (r: string)
    ensures |r| == |s|
    ensures forall i :: 0 <= i < |s| ==> r[i] == LowerChar(s[i])
  {
    seq(|s|, i requires 0 <= i < |s| => LowerChar(s[i]))
  }

  /** Regrouping a concatenation changes nothing. */
  lemma {:induction false} AppendAssoc(a: string, b: string, c: string)
    ensures a + (b + c) == a + b + c
  {
  }

  /** `a` in front of four more pieces, regrouped. */
  lemma {:induction false} PrependFour(a: string, b: string, c: string, d: string, e: string)
    ensures a + (b + c + d + e) == a + b + c + d + e
  {
    AppendAssoc(a, b + c + d, e);
    AppendAssoc(a, b + c, d);
    AppendAssoc(a, b, c);
  }

  /** `a` in front of three more pieces, regrouped. */
  lemma {:induction false} PrependThree(a: string, b: string, c: string, d: string)
    ensures a + (b + c + d) == a + b + c + d
  {
    AppendAssoc(a, b + c, d);
    AppendAssoc(a, b, c);
  }

  /** Lower-casing a slice is slicing the lower-cased text. */
  lemma {:induction false} LowerSlice(s: string, i: nat, j: nat)
    requires i <= j <= |s|
    ensures Lower(s)[i..j] == Lower(s[i..j])
  {
    assert forall k :: 0 <= k < j - i ==> Lower(s)[i..j][k] == LowerChar(s[i..j][k]);
  }

  /** `str.upper()`. */
  function Upper(s: string): (r: string)
    ensures |r| == |s|
    ensures forall i :: 0 <= i < |s| ==> r[i] == UpperChar(s[i])
  {
    seq(|s|, i requires 0 <= i < |s| => UpperChar(s[i]))
  }

  /** Upper-casing forgets a prior lower-casing. */
  lemma {:induction false} UpperOfLower(s: string)
    ensures Upper(Lower(s)) == Upper(s)
  {
    forall i | 0 <= i < |s| ensures Upper(Lower(s))[i] == Upper(s)[i] {
      UpperCharOfLowerChar(s[i]);
    }
  }

  lemma {:induction false} UpperCharOfLowerChar(c: char)
    ensures UpperChar(LowerChar(c)) == UpperChar(c)
  {
  }

  lemma {:induction false} LowerIdempotent(s: string)
    ensures Lower(Lower(s)) == Lower(s)
  {
  }

  /** The number of whitespace characters at the start of `s`. */
  function LeadingSpaces(s: string): (n: nat)
    ensures n <= |s|
    ensures forall i :: 0 <= i < n ==> IsSpace(s[i])
    ensures n < |s| ==> !IsSpace(s[n])
  {
    if |s| > 0 && IsSpace(s[0]) then 1 + LeadingSpaces(s[1..]) else 0
  }

  /** The number of whitespace characters at the end of `s`. */
  function TrailingSpaces(s: string): (n: nat)
    ensures n <= |s|
    ensures forall i :: |s| - n <= i < |s| ==> IsSpace(s[i])
    ensures n < |s| ==> !IsSpace(s[|s| - n - 1])
  {
    if |s| > 0 && IsSpace(s[|s| - 1]) then 1 + TrailingSpaces(s[..|s| - 1]) else 0
  }

  /** `str.lstrip()`. */
  function LStrip(s: string): (r: string)
    ensures r == s[LeadingSpaces(s)..]
    ensures |r| > 0 ==> !IsSpace(r[0])
  {
    s[LeadingSpaces(s)..]
  }

  /** `str.strip()`: the result is the slice of the input between its leading and
      trailing whitespace runs; its own ends are not whitespace. */
  function Strip(s: string): (r: string)
    ensures LeadingSpaces(s) + |r| <= |s|
    ensures r == s[LeadingSpaces(s)..LeadingSpaces(s) + |r|]
    ensures forall k :: LeadingSpaces(s) + |r| <= k < |s| ==> IsSpace(s[k])
    ensures |r| > 0 ==> !IsSpace(r[0]) && !IsSpace(r[|r| - 1])
  {
    var l := LStrip(s);
    l[..|l| - TrailingSpaces(l)]
  }

  lemma {:induction false} StripOfStripped(s: string)
    requires |s| > 0 ==> !IsSpace(s[0]) && !IsSpace(s[|s| - 1])
    ensures Strip(s) == s
  {
  }

  lemma {:induction false} LeadingSpacesLower(s: string)
    ensures LeadingSpaces(Lower(s)) == LeadingSpaces(s)
  {
    if |s| > 0 {
      assert Lower(s)[1..] == Lower(s[1..]);
      LeadingSpacesLower(s[1..]);
    }
  }

  lemma {:induction false} TrailingSpacesLower(s: string)
    ensures TrailingSpaces(Lower(s)) == TrailingSpaces(s)
  {
    if |s| > 0 {
      assert Lower(s)[..|s| - 1] == Lower(s[..|s| - 1]);
      TrailingSpacesLower(s[..|s| - 1]);
    }
  }

  /** Lower-casing does not move the whitespace `strip` removes. */
  lemma {:induction false} StripLower(s: string)
    ensures Strip(Lower(s)) == Lower(Strip(s))
  {
    var l := LStrip(s);
    var ll := LStrip(Lower(s));
    LStripLower(s);
    assert ll == Lower(l);
    RStripLower(l);
    StripOfLStrip(s);
    StripOfLStrip(Lower(s));
    calc {
      Strip(Lower(s));
      ll[..|ll| - TrailingSpaces(ll)];
      Lower(l)[..|Lower(l)| - TrailingSpaces(Lower(l))];
      Lower(l[..|l| - TrailingSpaces(l)]);
      Lower(Strip(s));
    }
  }

  /** `strip` is `lstrip` followed by dropping the trailing whitespace. */
  lemma {:induction false} StripOfLStrip(s: string)
    ensures Strip(s) == LStrip(s)[..|LStrip(s)| - TrailingSpaces(LStrip(s))]
  {
  }

  /** Dropping leading whitespace commutes with lower-casing. */
  lemma {:induction false} LStripLower(s: string)
    ensures LStrip(Lower(s)) == Lower(LStrip(s))
  {
    LeadingSpacesLower(s);
    var a := LeadingSpaces(s);
    LowerSlice(s, a, |s|);
    assert Lower(s)[a..] == Lower(s)[a..|s|] && s[a..] == s[a..|s|];
  }

  /** Dropping trailing whitespace commutes with lower-casing. */
  lemma {:induction false} RStripLower(l: string)
    ensures Lower(l)[..|l| - TrailingSpaces(Lower(l))] == Lower(l[..|l| - TrailingSpaces(l)])
  {
    TrailingSpacesLower(l);
    var k := |l| - TrailingSpaces(l);
    LowerSlice(l, 0, k);
    assert Lower(l)[..k] == Lower(l)[0..k] && l[..k] == l[0..k];
  }

  /** True when no character of `s` is whitespace other than ' ', no two whitespace
      characters are adjacent: what `re.sub(r"\s+", " ", ...)` leaves. */
  ghost predicate Collapsed(s: string) {
    && (forall i :: 0 <= i < |s| && IsSpace(s[i]) ==> s[i] == ' ')
    && (forall i :: 0 <= i < |s| - 1 ==> !(IsSpace(s[i]) && IsSpace(s[i + 1])))
  }

  /** The characters of `s` that are not whitespace, in order. */
  function NonSpace(s: string): string {
    if |s| == 0 then "" else (if IsSpace(s[0]) then "" else [s[0]]) + NonSpace(s[1..])
  }

  /** `re.sub(r"\s+", " ", s)`: every whitespace run becomes one space. */
  function CollapseSpace(s: string): (r: string)
    ensures |r| > 0 <==> |s| > 0
    ensures |s| > 0 ==> (IsSpace(r[0]) <==> IsSpace(s[0]))
  {
    if |s| == 0 then ""
    else if IsSpace(s[0]) then " " + CollapseSpace(LStrip(s))
    else [s[0]] + CollapseSpace(s[1..])
  }

  /** Collapsing leaves no whitespace other than single spaces. */
  lemma {:induction false} CollapseSpaceCollapsed(s: string)
    ensures Collapsed(CollapseSpace(s))
    decreases |s|
  {
    if |s| > 0 {
      var r := CollapseSpace(s);
      if IsSpace(s[0]) {
        var rest := CollapseSpace(LStrip(s));
        CollapseSpaceCollapsed(LStrip(s));
        assert r == " " + rest;
        forall i | 0 <= i < |r| - 1 ensures !(IsSpace(r[i]) && IsSpace(r[i + 1])) {
          if i > 0 {
            assert r[i] == rest[i - 1] && r[i + 1] == rest[i];
          }
        }
        forall i | 0 <= i < |r| && IsSpace(r[i]) ensures r[i] == ' ' {
          if i > 0 {
            assert r[i] == rest[i - 1];
          }
        }
      } else {
        var rest := CollapseSpace(s[1..]);
        CollapseSpaceCollapsed(s[1..]);
        assert r == [s[0]] + rest;
        forall i | 0 <= i < |r| - 1 ensures !(IsSpace(r[i]) && IsSpace(r[i + 1])) {
          if i > 0 {
            assert r[i] == rest[i - 1] && r[i + 1] == rest[i];
          }
        }
        forall i | 0 <= i < |r| && IsSpace(r[i]) ensures r[i] == ' ' {
          assert i > 0;
          assert r[i] == rest[i - 1];
        }
      }
    }
  }

  /** Collapsing keeps the non-whitespace characters, in order. */
  lemma {:induction false} CollapseSpaceNonSpace(s: string)
    ensures NonSpace(CollapseSpace(s)) == NonSpace(s)
    decreases |s|
  {
    if |s| > 0 {
      if IsSpace(s[0]) {
        var rest := LStrip(s);
        var lead := s[..|s| - |rest|];
        CollapseSpaceNonSpace(rest);
        NonSpaceOfSpaces(lead);
        assert s == lead + rest;
        NonSpaceAppend(lead, rest);
        assert NonSpace(" ") == "";
        NonSpaceAppend(" ", CollapseSpace(rest));
      } else {
        var r := CollapseSpace(s);
        CollapseSpaceNonSpace(s[1..]);
        assert r[1..] == CollapseSpace(s[1..]);
      }
    }
  }

  /** Collapsing adds no character but the space. */
  lemma {:induction false} CollapseSpaceChars(s: string)
    ensures forall i :: 0 <= i < |CollapseSpace(s)| ==> CollapseSpace(s)[i] == ' ' || CollapseSpace(s)[i] in s
    decreases |s|
  {
    if |s| > 0 {
      var r := CollapseSpace(s);
      var t := if IsSpace(s[0]) then LStrip(s) else s[1..];
      CollapseSpaceChars(t);
      assert r[1..] == CollapseSpace(t);
      forall i | 0 < i < |r| ensures r[i] == ' ' || r[i] in s {
        assert r[i] == CollapseSpace(t)[i - 1];
        assert forall c :: c in t ==> c in s;
      }
    }
  }

  /** A non-empty collapse ends in whitespace exactly when the input does. */
  lemma {:induction false} CollapseSpaceLast(s: string)
    ensures |s| > 0 ==> (IsSpace(CollapseSpace(s)[|CollapseSpace(s)| - 1]) <==> IsSpace(s[|s| - 1]))
    decreases |s|
  {
    var r := CollapseSpace(s);
    if |s| == 0 {
    } else if IsSpace(s[0]) {
      var rest := LStrip(s);
      if |rest| > 0 {
        CollapseSpaceLast(rest);
        assert r[|r| - 1] == CollapseSpace(rest)[|CollapseSpace(rest)| - 1];
        assert s[|s| - 1] == rest[|rest| - 1];
      } else {
        assert forall k :: 0 <= k < |s| ==> IsSpace(s[k]);
      }
    } else if |s| > 1 {
      CollapseSpaceLast(s[1..]);
      assert r[|r| - 1] == CollapseSpace(s[1..])[|CollapseSpace(s[1..])| - 1];
    }
  }

  /** The word being read, if there is one, as a list of words. */
  function Flush(word: string): (r: seq<string>)
    ensures |r| <= 1
    ensures forall i :: 0 <= i < |r| ==> r[i] == word && |word| > 0
  {
    if word == "" then [] else [word]
  }

  /** `str.split()` continued after the partly read word `word`: each whitespace
      character ends the word being read, and no empty word is produced. */
  function WordsAfter(s: string, word: string): (r: seq<string>)
    ensures forall i :: 0 <= i < |r| ==> |r[i]| > 0
    decreases |s|
  {
    if |s| == 0 then Flush(word)
    else if IsSpace(s[0]) then Flush(word) + WordsAfter(s[1..], "")
    else WordsAfter(s[1..], word + [s[0]])
  }

  /** `str.split()` with no separator: the maximal runs of non-whitespace
      characters of `s`, in order. */
  function Words(s: string): (r: seq<string>)
    ensures forall i :: 0 <= i < |r| ==> |r[i]| > 0
  {
    WordsAfter(s, "")
  }

  /** No word holds whitespace. */
  lemma {:induction false} WordsHaveNoSpace(s: string, word: string)
    requires forall j :: 0 <= j < |word| ==> !IsSpace(word[j])
    ensures forall i, j :: 0 <= i < |WordsAfter(s, word)| && 0 <= j < |WordsAfter(s, word)[i]| ==>
      !IsSpace(WordsAfter(s, word)[i][j])
    decreases |s|
  {
    if |s| > 0 {
      if IsSpace(s[0]) {
        WordsHaveNoSpace(s[1..], "");
      } else {
        var w := word + [s[0]];
        assert forall j :: 0 <= j < |w| ==> !IsSpace(w[j]) by {
          forall j | 0 <= j < |w| ensures !IsSpace(w[j]) {
            if j < |word| { assert w[j] == word[j]; } else { assert w[j] == s[0]; }
          }
        }
        WordsHaveNoSpace(s[1..], w);
      }
    }
  }

  /** Leading whitespace starts no word. */
  lemma {:induction false} WordsSkipSpaces(s: string, k: nat)
    requires k <= |s|
    requires forall i :: 0 <= i < k ==> IsSpace(s[i])
    ensures WordsAfter(s, "") == WordsAfter(s[k..], "")
  {
    if k > 0 {
      assert WordsAfter(s, "") == WordsAfter(s[1..], "");
      assert forall i :: 0 <= i < k - 1 ==> IsSpace(s[1..][i]) by {
        forall i | 0 <= i < k - 1 ensures IsSpace(s[1..][i]) {
          assert s[1..][i] == s[i + 1];
        }
      }
      WordsSkipSpaces(s[1..], k - 1);
      assert s[1..][k - 1..] == s[k..];
    }
  }

  /** Whitespace alone ends the word being read and starts none. */
  lemma {:induction false} WordsOfSpaces(s: string, word: string)
    requires forall i :: 0 <= i < |s| ==> IsSpace(s[i])
    ensures WordsAfter(s, word) == Flush(word)
  {
    if |s| > 0 {
      assert forall i :: 0 <= i < |s| - 1 ==> IsSpace(s[1..][i]) by {
        forall i | 0 <= i < |s| - 1 ensures IsSpace(s[1..][i]) {
          assert s[1..][i] == s[i + 1];
        }
      }
      WordsOfSpaces(s[1..], "");
      assert WordsAfter(s, word) == Flush(word) + [];
    }
  }

  /** Trailing whitespace starts no word. */
  lemma {:induction false} WordsDropTrailing(s: string, k: nat, word: string)
    requires k <= |s|
    requires forall i :: k <= i < |s| ==> IsSpace(s[i])
    ensures WordsAfter(s, word) == WordsAfter(s[..k], word)
    decreases k
  {
    if k == 0 {
      WordsOfSpaces(s, word);
      assert s[..k] == "";
    } else {
      assert s[..k][0] == s[0];
      assert s[..k][1..] == s[1..][..k - 1];
      assert forall i :: k - 1 <= i < |s| - 1 ==> IsSpace(s[1..][i]) by {
        forall i | k - 1 <= i < |s| - 1 ensures IsSpace(s[1..][i]) {
          assert s[1..][i] == s[i + 1];
        }
      }
      if IsSpace(s[0]) {
        WordsDropTrailing(s[1..], k - 1, "");
      } else {
        WordsDropTrailing(s[1..], k - 1, word + [s[0]]);
      }
    }
  }

  /** Stripping keeps the words. */
  lemma {:induction false} StripWords(s: string)
    ensures Words(Strip(s)) == Words(s)
  {
    var l := LStrip(s);
    StripOfLStrip(s);
    WordsSkipSpaces(s, LeadingSpaces(s));
    WordsDropTrailing(l, |l| - TrailingSpaces(l), "");
  }

  /** Collapsing whitespace runs keeps the words. */
  lemma {:induction false} CollapseSpaceWords(s: string, word: string)
    ensures WordsAfter(CollapseSpace(s), word) == WordsAfter(s, word)
    decreases |s|
  {
    if |s| > 0 {
      var r := CollapseSpace(s);
      if IsSpace(s[0]) {
        var n := LeadingSpaces(s);
        var t := LStrip(s);
        assert n >= 1;
        assert r[1..] == CollapseSpace(t);
        CollapseSpaceWords(t, "");
        assert forall i :: 0 <= i < n - 1 ==> IsSpace(s[1..][i]) by {
          forall i | 0 <= i < n - 1 ensures IsSpace(s[1..][i]) {
            assert s[1..][i] == s[i + 1];
          }
        }
        WordsSkipSpaces(s[1..], n - 1);
        assert s[1..][n - 1..] == t;
      } else {
        assert r[0] == s[0];
        assert r[1..] == CollapseSpace(s[1..]);
        CollapseSpaceWords(s[1..], word + [s[0]]);
      }
    }
  }

  lemma {:induction false} NonSpaceAppend(a: string, b: string)
    ensures NonSpace(a + b) == NonSpace(a) + NonSpace(b)
  {
    if |a| == 0 {
      assert a + b == b;
    } else {
      assert (a + b)[1..] == a[1..] + b;
      NonSpaceAppend(a[1..], b);
    }
  }

  /** Leading whitespace holds no non-whitespace character. */
  lemma {:induction false} NonSpaceOfLeading(s: string, k: nat)
    requires k <= |s|
    requires forall i :: 0 <= i < k ==> IsSpace(s[i])
    ensures NonSpace(s) == NonSpace(s[k..])
  {
    if k > 0 {
      assert s[1..][k - 1..] == s[k..];
      NonSpaceOfLeading(s[1..], k - 1);
    }
  }

  /** Trailing whitespace holds no non-whitespace character. */
  lemma {:induction false} NonSpaceOfTrailing(s: string, k: nat)
    requires k <= |s|
    requires forall i :: k <= i < |s| ==> IsSpace(s[i])
    ensures NonSpace(s) == NonSpace(s[..k])
  {
    var head, tail := s[..k], s[k..];
    assert s == head + tail;
    forall i | 0 <= i < |tail| ensures IsSpace(tail[i]) {
      assert tail[i] == s[k + i];
    }
    NonSpaceAppend(head, tail);
    NonSpaceOfSpaces(tail);
    assert NonSpace(head) + "" == NonSpace(head);
  }

  lemma {:induction false} NonSpaceOfSpaces(a: string)
    requires forall i :: 0 <= i < |a| ==> IsSpace(a[i])
    ensures NonSpace(a) == ""
  {
    if |a| > 0 {
      NonSpaceOfSpaces(a[1..]);
    }
  }

  lemma {:induction false} CollapseSpaceOfCollapsed(s: string)
    requires Collapsed(s)
    ensures CollapseSpace(s) == s
  {
    if |s| > 0 {
      if IsSpace(s[0]) {
        assert s[0] == ' ';
        assert |s| > 1 ==> !IsSpace(s[1]);
        assert LStrip(s) == s[1..] by {
          if |s| > 1 {
            assert LStrip(s[1..]) == s[1..];
          }
        }
      }
      CollapseSpaceOfCollapsed(s[1..]);
    }
  }

  lemma {:induction false} LowerKeepsCollapsed(s: string)
    requires Collapsed(s)
    ensures Collapsed(Lower(s))
  {
  }

  /** Substring test, Python's `pat in text`. */
  predicate Contains(text: string, pat: string) {
    exists i :: 0 <= i <= |text| - |pat| && OccursAt(text, pat, i)
  }

  /** `pat` occurs in `text` starting at index `i`. */
  predicate OccursAt(text: string, pat: string, i: nat) {
    i + |pat| <= |text| && text[i..i + |pat|] == pat
  }

  /** Text found in the middle piece is found in the whole. */
  lemma {:induction false} ContainsInside(pre: string, mid: string, post: string, pat: string)
    requires Contains(mid, pat)
    ensures Contains(pre + mid + post, pat)
  {
    var i :| 0 <= i <= |mid| - |pat| && OccursAt(mid, pat, i);
    var whole := pre + mid + post;
    assert whole[|pre| + i..|pre| + i + |pat|] == mid[i..i + |pat|];
    assert OccursAt(whole, pat, |pre| + i);
  }

  predicate StartsWith(s: string, p: string) { |p| <= |s| && s[..|p|] == p }

  predicate EndsWith(s: string, p: string) { |p| <= |s| && s[|s| - |p|..] == p }

  /** `sep.join(parts)`. */
  function Join(parts: seq<string>, sep: string): string {
    if |parts| == 0 then ""
    else if |parts| == 1 then parts[0]
    else parts[0] + sep + Join(parts[1..], sep)
  }

  /** Equally many parts free of `sep` that join to the same text are the
      same parts: the join can be split back. */
  lemma {:induction false} JoinInjective(a: seq<string>, b: seq<string>, sep: char)
    requires |a| == |b|
    requires forall i :: 0 <= i < |a| ==> sep !in a[i]
    requires forall i :: 0 <= i < |b| ==> sep !in b[i]
    requires Join(a, [sep]) == Join(b, [sep])
    ensures a == b
    decreases |a|
  {
    if |a| == 1 {
      assert a == [a[0]] && b == [b[0]];
    } else if |a| > 1 {
      var ra, rb := Join(a[1..], [sep]), Join(b[1..], [sep]);
      assert Join(a, [sep]) == a[0] + [sep] + ra;
      assert Join(b, [sep]) == b[0] + [sep] + rb;
      SplitAtFirstSep(a[0], ra, b[0], rb, sep);
      JoinInjective(a[1..], b[1..], sep);
      assert a == [a[0]] + a[1..] && b == [b[0]] + b[1..];
    }
  }

  /** Text before the first `sep` and the rest are fixed by the whole. */
  lemma {:induction false} SplitAtFirstSep(x: string, xs: string, y: string, ys: string, sep: char)
    requires sep !in x && sep !in y
    requires x + [sep] + xs == y + [sep] + ys
    ensures x == y && xs == ys
  {
    var j := x + [sep] + xs;
    assert j[|x|] == sep && j[|y|] == sep;
    assert forall k :: 0 <= k < |x| ==> j[k] == x[k] && x[k] in x;
    assert forall k :: 0 <= k < |y| ==> j[k] == y[k] && y[k] in y;
    assert |x| == |y|;
    assert x == j[..|x|] == y;
    assert xs == j[|x| + 1..] == ys;
  }

  /** Text put before a string holding `pats[1..]`, itself `pats[0]`, gives a
      string that starts with it and holds every one of `pats`. */
  lemma {:induction false} PrependKeepsContains(line: string, rest: string, pats: seq<string>)
    requires |pats| > 0 && pats[0] == line
    requires forall i :: 1 <= i < |pats| ==> Contains(rest, pats[i])
    ensures StartsWith(line + rest, line)
    ensures forall i :: 0 <= i < |pats| ==> Contains(line + rest, pats[i])
  {
    assert OccursAt(line + rest, line, 0);
    forall i | 1 <= i < |pats|
      ensures Contains(line + rest, pats[i])
    {
      ContainsInside(line, rest, "", pats[i]);
      assert line + rest + "" == line + rest;
    }
  }

  /** Every part of a join occurs in the joined string. */
  lemma {:induction false} JoinContainsPart(parts: seq<string>, sep: string, i: nat)
    requires i < |parts|
    ensures Contains(Join(parts, sep), parts[i])
  {
    var j := Join(parts, sep);
    if |parts| == 1 {
      assert OccursAt(j, parts[0], 0);
    } else if i == 0 {
      assert OccursAt(j, parts[0], 0);
    } else {
      JoinContainsPart(parts[1..], sep, i - 1);
      var rest := Join(parts[1..], sep);
      var k :| 0 <= k <= |rest| - |parts[i]| && OccursAt(rest, parts[i], k);
      var off := |parts[0] + sep|;
      assert j == parts[0] + sep + rest;
      assert j[off + k..off + k + |parts[i]|] == rest[k..k + |parts[i]|];
      assert OccursAt(j, parts[i], off + k);
    }
  }

  /** `s.replace(from, to)` for single characters. */
  function ReplaceChar(s: string, from: char, to: char): (r: string)
    ensures |r| == |s|
    ensures forall i :: 0 <= i < |s| ==> r[i] == (if s[i] == from then to else s[i])
  {
    seq(|s|, i requires 0 <= i < |s| => if s[i] == from then to else s[i])
  }

  /** Deletes every character satisfying `drop`, keeping the others in order. */
  function Without(s: string, drop: char -> bool): (r: string)
    ensures |r| <= |s|
    ensures forall i :: 0 <= i < |r| ==> !drop(r[i])
  {
    if |s| == 0 then ""
    else (if drop(s[0]) then "" else [s[0]]) + Without(s[1..], drop)
  }

  /** Deleting from a concatenation deletes from each part. */
  lemma {:induction false} WithoutAppend(a: string, b: string, drop: char -> bool)
    ensures Without(a + b, drop) == Without(a, drop) + Without(b, drop)
  {
    if |a| == 0 {
      assert a + b == b;
    } else {
      var head := if drop(a[0]) then "" else [a[0]];
      assert (a + b)[0] == a[0];
      assert (a + b)[1..] == a[1..] + b;
      WithoutAppend(a[1..], b, drop);
      assert Without(a + b, drop) == head + Without(a[1..] + b, drop);
      assert Without(a, drop) == head + Without(a[1..], drop);
      AppendAssoc(head, Without(a[1..], drop), Without(b, drop));
    }
  }

  /** Nothing is deleted from text with no character to drop. */
  lemma {:induction false} WithoutKeeps(s: string, drop: char -> bool)
    requires forall i :: 0 <= i < |s| ==> !drop(s[i])
    ensures Without(s, drop) == s
  {
    if |s| > 0 {
      WithoutKeeps(s[1..], drop);
      assert s == [s[0]] + s[1..];
    }
  }

  /** A property every character of `s` has, every kept character has. */
  lemma {:induction false} WithoutKeepsProperty(s: string, drop: char -> bool, p: char -> bool)
    requires forall i :: 0 <= i < |s| ==> p(s[i])
    ensures forall i :: 0 <= i < |Without(s, drop)| ==> p(Without(s, drop)[i])
  {
    if |s| > 0 {
      WithoutKeepsProperty(s[1..], drop, p);
    }
  }

  function DigitChar(d: nat): char
    requires d < 10
  {
    ('0' as int + d) as char
  }

  /** `str(n)` for a non-negative integer: its decimal digits, no leading zeros. */
  function NatToString(n: nat): (r: string)
    ensures |r| > 0
    ensures forall i :: 0 <= i < |r| ==> IsDigit(r[i])
  {
    if n < 10 then [DigitChar(n)] else NatToString(n / 10) + [DigitChar(n % 10)]
  }

  /** `str(i)` for any integer. */
  function IntToString(i: int): string {
    if i < 0 then "-" + NatToString(-i) else NatToString(i)
  }

  /** The value of a string of decimal digits. */
  function DigitsValue(s: string): nat
    requires forall i :: 0 <= i < |s| ==> IsDigit(s[i])
  {
    if |s| == 0 then 0
    else
      assert IsDigit(s[|s| - 1]);
      DigitsValue(s[..|s| - 1]) * 10 + (s[|s| - 1] as int - '0' as int)
  }

  lemma {:induction false} NatToStringRoundTrip(n: nat)
    ensures DigitsValue(NatToString(n)) == n
  {
    if n >= 10 {
      var r := NatToString(n);
      assert r[..|r| - 1] == NatToString(n / 10);
      NatToStringRoundTrip(n / 10);
    }
  }

  /** `n` written with at least `width` digits, left-padded with zeros (`%0Nd`). */
  function PadNat(n: nat, width: nat): (r: string)
    ensures |r| >= width
    ensures forall i :: 0 <= i < |r| ==> IsDigit(r[i])
  {
    var d := NatToString(n);
    if |d| >= width then d else seq(width - |d|, _ => '0') + d
  }
}
